=== FILE: README.md ===
# docuforge conversion core, modelled in Dafny

docuforge converts PDF documents to Markdown. A document is split into
chunks of pages. Each chunk goes to a worker process, and the worker runs
the per-page pipeline:

- decide whether OCR text replaces the page;
- detect tables from ruling lines or whitespace rivers, and rebuild their
  cells from glyphs and words;
- guard against charts drawn with vector art;
- render tables as Markdown;
- heal text that PDF extraction tore apart;
- mark headings by font size.

The chunks' Markdown is then put back together in page order. A separate
watermark analyzer decides which user tags are real watermarks of a
document, and a blacklist cleaner drops lines the user marked as noise.

This project models that core as pure Dafny functions over immutable
values, one module per source file:

- `Geometry`, `Rivers`, `Glyphs`, `TableDetector` and `StructureParser`
  model the neural engine (`engine_neural.py`);
- `Markdown` models the table renderers;
- `Healer` models `healer.py`;
- `Structure` models `structure.py`;
- `Loader`, `Collect` and `Controller` model the chunked pipeline;
- `Api` and `Cli` model the web service's and the command line's
  collection of results;
- `Tables`, `Visual`, `Visuals`, `Classifier`, `Ocr`, `Artifacts`,
  `Watermark`, `TagManager` and `Zones` model the remaining engines.

PDF libraries, OCR engines, the process pool and the file system are not
modelled. The values they would produce are parameters: the page's words,
glyphs and lines, the OCR text, the order in which chunks finish, whether
the temporary directory could be created and whether a temporary file
could be written.

Python's floating-point numbers are exact `real`s here. A ratio test such
as `count / total >= 0.6` is compared by cross-multiplication. Python's
`int()` truncation of a non-negative float is `Trunc`.

Behaviours of the code that shape the model:

- **Watermark pages.** The watermark analyzer counts hits on every page of
  the document (watermark_analyzer.py:48-57).
- **Row filter.** The adaptive row filter keeps every row with at least one
  filled cell (engine_neural.py:763). The 0.3 and 0.1 fill-ratio thresholds
  therefore never drop a row that has content.
- **Heading threshold.** Headings start at 1.2 times the body size
  (structure.py:45).
- **Text masking.** `extract_text_with_structure` takes a page and a crop
  box, and no regions (structure.py:9). The controller passes it the table
  and chart boxes as a third argument, regions to ignore
  (controller.py:118-120); that call does not match its callee (see
  "## Left out"). The controller model keeps the list and leaves what
  happens to it to its `structure` collaborator.
- **River boundaries.** On a page of width 0 with words,
  `find_whitespace_rivers` returns the two boundaries `[0.0, 0.0]`. The
  "strictly increasing boundaries" property is therefore stated for a
  positive width.
- **Healer examples.** Several of the healer's own examples are not met by
  the code. They are not stated as properties; see "Left out".
- **Written and corrected variants.** Where a finding below shows the code
  misbehaving, the main definition follows the code as written and an
  `Intended` twin carries the correction. The healer's `HealLine` and
  `HealDocument` use the Turkish pass with its identity entries, and so does
  the structure extractor through them. `Api.LocalTarget` uses the
  text-prefix root check. `Watermark.Analyze` counts every listed copy of a
  tag. Lemmas relate each pair.

## Model

| member | source | states |
|---|---|---|
| Geometry.Hull | docuforge/src/extraction/visuals.py:113-117 | the merged box encloses both boxes and is enclosed by every box that encloses both (it is the least upper bound) |
| Geometry.PointsBox | docuforge/src/extraction/classifier.py:131-136 | the box of a point list contains every point, and each of its four edges is attained by some point |
| Geometry.OverlapsSymmetric | docuforge/src/extraction/engine_neural.py:63-71 | the overlap test does not depend on which box asks |
| Geometry.DisjointNeverOverlaps | docuforge/src/extraction/engine_neural.py:65-68 | boxes apart or only touching along either axis never overlap, whatever the threshold |
| Geometry.ZeroAreaNeverOverlaps | docuforge/src/extraction/engine_neural.py:69-71 | a box without positive area overlaps nothing, in either order |
| Geometry.SelfOverlap | docuforge/src/extraction/engine_neural.py:63-71 | a box overlaps itself exactly when it has positive width and height and the threshold is at most 1 |
| TableDetector.RowBoundaries | docuforge/src/extraction/engine_neural.py:91-93 | the row separators are the horizontal lines' positions, as a multiset, in ascending order |
| TableDetector.ColumnBoundaries | docuforge/src/extraction/engine_neural.py:95-97 | the column separators are the vertical lines' positions, as a multiset, in ascending order |
| TableDetector.ClusterPositions | docuforge/src/extraction/engine_neural.py:387-400 | there are no groups exactly when there are no positions, and no group is empty |
| TableDetector.ClusterFlatten | docuforge/src/extraction/engine_neural.py:387-400 | the groups read in order are the input: clustering only cuts, it drops and reorders nothing |
| TableDetector.ClusterGaps | docuforge/src/extraction/engine_neural.py:394-398 | neighbours inside a group are at most the gap apart, and each later group starts more than the gap after the previous group's last value |
| TableDetector.ClusterUpper | docuforge/src/extraction/engine_neural.py:306-313 | on sorted positions the last group ends with the largest position and no grouped value exceeds it |
| TableDetector.ClusterSeparated | docuforge/src/extraction/engine_neural.py:306-313 | on sorted positions every value of a group lies more than the gap below every value of any later group |
| TableDetector.KeepNonOverlapping | docuforge/src/extraction/engine_neural.py:408-417 | the greedy pass keeps no more regions than it is given, and no kept region overlaps one kept before it |
| TableDetector.KeepSubseq | docuforge/src/extraction/engine_neural.py:408-417 | the kept regions are a subsequence of the input |
| TableDetector.KeepMaximal | docuforge/src/extraction/engine_neural.py:410-415 | a region is dropped only because it overlaps a region that was kept |
| TableDetector.KeepAllWhenApart | docuforge/src/extraction/engine_neural.py:408-417 | regions that pairwise do not overlap all survive, in order |
| TableDetector.MergeOverlapping | docuforge/src/extraction/engine_neural.py:402-419 | zero or one region comes back unchanged; otherwise no more regions come back and none of them overlaps another |
| TableDetector.MergeOverlappingSpec | docuforge/src/extraction/engine_neural.py:402-419 | the result is a subsequence of the confidence-sorted input, in descending confidence, pairwise non-overlapping, and every input region is kept or overlaps a kept one |
| TableDetector.MergeKeepsOrCovers | docuforge/src/extraction/engine_neural.py:410-417 | every input region is either in the result or overlaps, at 30%, some region in it |
| TableDetector.SpanningLines | docuforge/src/extraction/engine_neural.py:321-324 | a vertical line is selected exactly when it belongs to the input and reaches into the row band |
| TableDetector.LinesInBand | docuforge/src/extraction/engine_neural.py:333 | a horizontal line is selected exactly when it belongs to the input and its position lies in the band |
| TableDetector.BorderedRegion | docuforge/src/extraction/engine_neural.py:315-343 | a group yields a region exactly when it has two rows and two vertical lines span it; the region's top and bottom are the group's extremes, it is bordered, with confidence 0.9 |
| TableDetector.BorderedRegionColumns | docuforge/src/extraction/engine_neural.py:329-335 | a bordered region's grid holds exactly the spanning vertical lines, at least two, and they all lie between its left and right edges |
| TableDetector.BorderedFromGroups | docuforge/src/extraction/engine_neural.py:315-343 | at most one region per group, each bordered with confidence 0.9 |
| TableDetector.BorderedBelow | docuforge/src/extraction/engine_neural.py:320-339 | regions built from groups lying below a bound end below that bound |
| TableDetector.BorderedOrdered | docuforge/src/extraction/engine_neural.py:313-343 | regions come in group order, each ending more than the gap above the start of every later one |
| TableDetector.DetectBordered | docuforge/src/extraction/engine_neural.py:297-345 | fewer than two horizontal or vertical lines give no region; every region found is bordered with confidence 0.9 |
| TableDetector.DetectBorderedOrdered | docuforge/src/extraction/engine_neural.py:306-345 | bordered regions lie one under the other, each more than 50 points above the next |
| TableDetector.BorderedNeverOverlap | docuforge/src/extraction/engine_neural.py:306-345 | no two bordered regions overlap, so suppression cannot drop any of them |
| TableDetector.RiversOf | docuforge/src/extraction/engine_neural.py:191-236 | no words give no separators; otherwise there are at least two, from 0 to the truncated page width |
| TableDetector.DataZoneWords | docuforge/src/extraction/engine_neural.py:357 | a word is a data word exactly when its top lies below the top 15% of the page |
| TableDetector.DetectBorderless | docuforge/src/extraction/engine_neural.py:347-385 | fewer than 10 words give nothing; at most one region, not bordered, confidence 0.7, spanning the page width |
| TableDetector.BorderlessEnclosesWords | docuforge/src/extraction/engine_neural.py:356-369 | the borderless region vertically encloses every word it was derived from, with the fallback to all words when fewer than 10 data words remain |
| TableDetector.DetectTablesResult | docuforge/src/extraction/engine_neural.py:271-295 | with bordered regions found, detection returns exactly them; otherwise it returns the borderless detection |
| TableDetector.BorderedKeptWhole | docuforge/src/extraction/engine_neural.py:289-293 | suppression keeps several bordered regions exactly as detected, in their order |
| TableDetector.ClassifyRegion | docuforge/src/extraction/engine_neural.py:421-446 | the answer is never UNKNOWN; it is CHART exactly when more than 5 curves start in the region, TABLE exactly when there are at most 5 and at least two horizontal and two vertical lines cross it, and TEXT in every other case |
| TableDetector.ClassifyRegionGrow | docuforge/src/extraction/engine_neural.py:421-446 | enlarging the region keeps a chart a chart and never turns a table into text |
| TableDetector.DetectChartIndicators | docuforge/src/extraction/engine_neural.py:238-255 | a page is a chart exactly when more significant curves than the threshold or more than 10 diagonals were found |
| TableDetector.TinyCurvesIgnored | docuforge/src/extraction/engine_neural.py:245-250 | curves at most 10 points wide and tall, like bullets, never make a page a chart |
| TableDetector.ChartGuard | docuforge/src/extraction/engine_neural.py:926-949 | a region is a chart exactly when more curves than the threshold start in it or more than 5 diagonals lie in its band |
| TableDetector.IsChartGrow | docuforge/src/extraction/engine_neural.py:926-949 | a chart region stays a chart when the region grows |
| TableDetector.WordsIn | docuforge/src/extraction/engine_neural.py:900-903 | a word is in the region exactly when its top-left corner is |
| TableDetector.RegionNeedsOcr | docuforge/src/extraction/engine_neural.py:897-910 | OCR is wanted exactly when the region's words number under 30% of one per 5000 square points, which needs a region of positive area |
| Rivers.ErodedSpan | docuforge/src/extraction/engine_neural.py:203-210 | erosion never widens a word's integer span, and a span wider than 2 columns stays non-empty |
| Rivers.EngineSpan | docuforge/src/extraction/engine_neural.py:203-214 | the covered range is clipped to the page, never reaches the last column, and is empty when the guard skips the word |
| Rivers.SliceSpan | docuforge/src/extraction/visual.py:115-128 | the spatial extractor's covered range, after Python slice semantics for negative and reversed bounds, lies within the histogram |
| Rivers.Histogram | docuforge/src/extraction/engine_neural.py:199-214 | column x of the histogram counts exactly the spans that cover x |
| Rivers.ScanSound | docuforge/src/extraction/engine_neural.py:216-233 | every reported point is the midpoint of a quiet run of at least the minimum gap that ends at a busy column, and the points increase strictly |
| Rivers.ScanComplete | docuforge/src/extraction/engine_neural.py:216-233 | every such quiet run, including the one in progress, is reported |
| Rivers.ScanRivers | docuforge/src/extraction/engine_neural.py:216-236 | the one-pass loop computes exactly the declarative list of separators |
| Rivers.FindWhitespaceRivers | docuforge/src/extraction/engine_neural.py:191-236 | no words give no separators; otherwise the separators of the eroded-span histogram with quiet runs of at least 3 columns |
| Rivers.EngineSpans | docuforge/src/extraction/engine_neural.py:203-214 | one clipped span per word, each within the page |
| Rivers.SliceSpans | docuforge/src/extraction/visual.py:115-128 | one slice span per word, each within the histogram |
| Rivers.EngineHistogram | docuforge/src/extraction/engine_neural.py:199-214 | column x counts the words whose clipped span covers x |
| Rivers.SliceHistogram | docuforge/src/extraction/visual.py:114-128 | column x counts the words whose slice span covers x |
| Rivers.EngineLastColumnEmpty | docuforge/src/extraction/engine_neural.py:211-214 | no word ever covers the last column, so a quiet run there is never closed by a busy column |
| Rivers.RiversShape | docuforge/src/extraction/engine_neural.py:216-236 | the separators start at 0, end at the width, increase strictly, and every interior one is the midpoint of a quiet run closed before the edge, and every such run gives one |
| Rivers.FindWhitespaceRiversShape | docuforge/src/extraction/engine_neural.py:191-236 | the engine's separators for a page with words have that shape |
| Glyphs.BuildWord | docuforge/src/extraction/engine_neural.py:571-584 | a word starts at its first glyph's left edge and ends at its last glyph's right edge |
| Glyphs.BuildWordExtent | docuforge/src/extraction/engine_neural.py:578-579 | a word's top is the highest glyph top and its bottom the lowest glyph bottom |
| Glyphs.BuildWordSize | docuforge/src/extraction/engine_neural.py:580 | a word's font size, the mean of its glyphs', lies between their smallest and largest size |
| Glyphs.BuildWords | docuforge/src/extraction/engine_neural.py:560-567 | one word per run of glyphs, in order |
| Glyphs.MergeKeepsText | docuforge/src/extraction/engine_neural.py:526-569 | the merged words, read in order, spell out exactly the visible glyphs read left to right |
| Glyphs.MergeGapRule | docuforge/src/extraction/engine_neural.py:543-561 | inside a word each glyph sits within a fifth of its font size of the one before; at every word break the gap is larger |
| Glyphs.MergeWordsInked | docuforge/src/extraction/engine_neural.py:536-538 | every word has visible text, and there are words exactly when some glyph is visible |
| Glyphs.GlyphLinesCover | docuforge/src/extraction/engine_neural.py:481-509 | the lines hold exactly the box's visible glyphs, as a multiset, in (rounded top, x) order |
| Glyphs.GlyphLinesTolerance | docuforge/src/extraction/engine_neural.py:494-509 | every glyph of a line has a rounded top within 3 of the line's first glyph, and each new line starts with a glyph beyond that tolerance of the previous line's first |
| Glyphs.LineWordsKeepText | docuforge/src/extraction/engine_neural.py:513-516 | every glyph of a line is visible, so merging the line only re-sorts it by x and drops nothing |
| Glyphs.ReconstructEmptyIff | docuforge/src/extraction/engine_neural.py:470-518 | a box yields no words exactly when no visible glyph lies in it |
| StructureParser.ClusterRows | docuforge/src/extraction/engine_neural.py:671-687 | no words give no separators, and any word gives at least two |
| StructureParser.ClusterRowsCover | docuforge/src/extraction/engine_neural.py:676-687 | for words whose boxes are upright the separators strictly increase and every word's vertical centre lies strictly between the first and the last, so no word falls outside the rows |
| StructureParser.FirstSlot | docuforge/src/extraction/engine_neural.py:705-718 | the slot found holds the value and no earlier slot does; when none is found no slot holds it |
| StructureParser.CellOf | docuforge/src/extraction/engine_neural.py:704-720 | a placed word's row and column index address an existing cell |
| StructureParser.PlaceWords | docuforge/src/extraction/engine_neural.py:700-721 | the placement loop keeps one cell list per row interval and column interval |
| StructureParser.PlaceWordsCells | docuforge/src/extraction/engine_neural.py:703-721 | each cell list holds, in input order, the texts of exactly the words placed in that cell |
| StructureParser.MapWordsToGrid | docuforge/src/extraction/engine_neural.py:689-724 | fewer than two row or column separators give no matrix; otherwise one row per row interval, each with one cell per column interval |
| StructureParser.MapWordsToGridCells | docuforge/src/extraction/engine_neural.py:703-724 | cell (i, j) joins with spaces, in input order, the texts of exactly the words whose centre falls first in row interval i and column interval j; words outside every interval appear nowhere |
| StructureParser.FilterByRatio | docuforge/src/extraction/engine_neural.py:735-740 | the pass fails (Python's ZeroDivisionError) exactly when some row has no cells; otherwise it keeps, in order, the rows whose fill ratio reaches the threshold |
| StructureParser.FilterOnGrid | docuforge/src/extraction/engine_neural.py:742-766 | the rows kept against the horizontal rules are a subsequence of the matrix |
| StructureParser.FilterRowsAdaptive | docuforge/src/extraction/engine_neural.py:726-766 | when it does not fail, the filter returns a subsequence of the matrix |
| StructureParser.KeepOnGridIff | docuforge/src/extraction/engine_neural.py:757-764 | with a positive configured threshold a row passes the grid test exactly when one of its cells is filled, whatever its alignment |
| StructureParser.FilterOnGridFilled | docuforge/src/extraction/engine_neural.py:745-766 | with a positive threshold the grid pass keeps exactly the rows with a filled cell, in order |
| StructureParser.FilterRowsAdaptiveKeeps | docuforge/src/extraction/engine_neural.py:726-766 | with rules the filter keeps exactly the rows with a filled cell; without rules it keeps exactly the rows whose fill ratio reaches the threshold and fails only on a row without cells |
| StructureParser.FilterRowsAdaptiveDefined | docuforge/src/extraction/engine_neural.py:735-766 | a rectangular matrix with at least one column never makes the filter fail and stays rectangular |
| StructureParser.PruneGhostColumns | docuforge/src/extraction/engine_neural.py:768-799 | pruning keeps every row |
| StructureParser.KeptColumnsSpec | docuforge/src/extraction/engine_neural.py:778-794 | the kept columns are exactly the first row's columns filled in at least 15% of the rows, in increasing order, or column 0 alone when none is |
| StructureParser.PruneGhostColumnsKeeps | docuforge/src/extraction/engine_neural.py:796-799 | on a rectangular matrix row i of the result holds, in order, the cells of row i at the kept columns |
| StructureParser.PrunedColumnFill | docuforge/src/extraction/engine_neural.py:783-790 | a column of the pruned matrix is filled enough exactly when the column it came from is |
| StructureParser.PrunedColumnsAll | docuforge/src/extraction/engine_neural.py:783-794 | after pruning every remaining column is filled enough, unless only the fallback column 0 remains |
| StructureParser.PruneGhostColumnsIdempotent | docuforge/src/extraction/engine_neural.py:768-799 | pruning a rectangular matrix twice gives what pruning once gives |
| StructureParser.PruneFooterRowsSpec | docuforge/src/extraction/engine_neural.py:649-669 | the result is a prefix of the matrix that does not end in a page-number row, every removed row is a page-number row, and pruning again removes nothing |
| StructureParser.FooterExamplePage | docuforge/src/extraction/engine_neural.py:662-664 | "Page 12" matches the page-number pattern |
| StructureParser.FooterExampleReject | docuforge/src/extraction/engine_neural.py:662-664 | "Total" does not match the page-number pattern |
| StructureParser.ParseTable | docuforge/src/extraction/engine_neural.py:597-647 | a region without a grid parses to no rows |
| StructureParser.CleanedRectangular | docuforge/src/extraction/engine_neural.py:638-642 | the adaptive filter followed by ghost-column pruning keeps a rectangular matrix rectangular |
| StructureParser.GridMatrixShape | docuforge/src/extraction/engine_neural.py:627-647 | the matrix built from a grid is rectangular, has no trailing page-number row, and is empty with fewer than two vertical rules |
| StructureParser.ParseTableShape | docuforge/src/extraction/engine_neural.py:597-647 | a parsed table is rectangular, keeps no page-number row at its end, and is empty without a grid, without words in the region, or with fewer than two vertical rules |
| StructureParser.IdentifyHeaders | docuforge/src/extraction/engine_neural.py:801-846 | there is no header answer exactly when the region has no grid or no word lies in it; any answer is the first row |
| Markdown.CleanCell | docuforge/src/extraction/engine_neural.py:1147 | a cleaned cell has no line break, is no longer than the cell, and is empty exactly when the cell is blank |
| Markdown.EscapePipes | docuforge/src/extraction/engine_neural.py:1152 | escaping adds exactly one character per pipe, never starts with a pipe, and keeps line breaks as they are |
| Markdown.EscapeRoundTrip | docuforge/src/extraction/engine_neural.py:1152 | reading an escaped cell back (`\|` as `|`) gives the cell: escaping loses nothing |
| Markdown.EscapedPipes | docuforge/src/extraction/engine_neural.py:1152 | every pipe of an escaped cell follows a backslash, so no cell can end early |
| Markdown.PadTo | docuforge/src/extraction/engine_neural.py:1158-1160 | a padded row has exactly the requested cells: its own, then empty ones |
| Markdown.MatrixCell | docuforge/src/extraction/engine_neural.py:1145-1153 | a cleaned, healed and escaped cell holds no line break |
| Markdown.MaxWidth | docuforge/src/extraction/engine_neural.py:1157 | the width is that of some row and no row is wider |
| Markdown.MatrixToMarkdown | docuforge/src/extraction/engine_neural.py:1134-1139 | a matrix renders exactly when it has at least two rows |
| Markdown.MatrixToMarkdownLines | docuforge/src/extraction/engine_neural.py:1134-1170 | the rendering's lines are the header, the separator of `n` dashes, then every row in order, each padded to the widest row's width `n` and never cut, every cell cleaned, healed and escaped, with a final line break |
| Markdown.TableToMarkdown | docuforge/src/extraction/tables.py:248-251 | a table renders exactly when it has at least two rows |
| Markdown.TableToMarkdownLines | docuforge/src/extraction/tables.py:248-274 | the rendering's lines are the header's cleaned cells, the separator of one dash cell per header cell, then every body row padded with empty cells or cut to the header's width, with a final line break |
| Tables.LongestRow | docuforge/src/extraction/tables.py:193-194 | the widest row's length is some row's length and no row is longer |
| Tables.MinWidth | docuforge/src/extraction/tables.py:193-194 | the narrowest non-empty row's length is some row's length and no non-empty row is shorter; it is 0 exactly when every row is empty |
| Tables.RaggedIff | docuforge/src/extraction/tables.py:191-195 | a table is rejected as ragged exactly when some row is more than three times as wide as some non-empty row |
| Tables.ValidTableMeans | docuforge/src/extraction/tables.py:149-197 | a table passes exactly when it has two rows, a header of two cells, at most 30% of its filled cells longer than 60 characters, at least 15% of its slots filled, and no row over three times as wide as a non-empty row |
| Tables.EmptyRowIgnored | docuforge/src/extraction/tables.py:167-169 | appending an empty row to a table of two rows or more does not change the verdict |
| Tables.GateExamples | docuforge/src/extraction/tables.py:54-77 | a page whose text is all digits is never skipped, and one with non-space text but no digit always is |
| Tables.Accurate | docuforge/src/extraction/tables.py:215-220 | a Markdown text is kept exactly when some reported table reaches the accuracy threshold and rendered to it |
| Tables.StreamOnlyAsFallback | docuforge/src/extraction/tables.py:205-228 | once the lattice flavour found accurate tables the stream flavour's answer is irrelevant and the lattice tables are the result |
| Tables.PlumberRendersValid | docuforge/src/extraction/tables.py:121-147 | pdfplumber contributes one rendering per valid table, in the library's order, and nothing for invalid ones |
| Tables.ValidRenders | docuforge/src/extraction/tables.py:248-251 | a valid table always renders, so it is never dropped by the renderer |
| Tables.ExtractTables | docuforge/src/extraction/tables.py:51-104 | with tables off, or on a text-heavy page, the result is empty |
| Tables.PlumberOnlyAsFallback | docuforge/src/extraction/tables.py:84-104 | when Camelot is installed and found tables they are the result whatever pdfplumber would give; otherwise pdfplumber's tables are |
| Healer.DetectLanguageVote | docuforge/src/cleaning/healer.py:86-102 | English is chosen exactly when strictly more distinct English than Turkish stop words occur among the lower-cased words; empty text and ties give Turkish |
| Healer.JoinLone | docuforge/src/cleaning/healer.py:29-77 | a merge of a lone letter with the word after it spans at least three characters, starts with a letter followed by a space, and writes the letter followed by the rest without that space |
| Healer.HyphenSplit | docuforge/src/cleaning/healer.py:69 | a hyphen match has two lower-case runs of at least three letters around a cut made only of whitespace and the hyphen |
| Healer.SpelledAt | docuforge/src/cleaning/healer.py:126 | a spelled-out match covers five characters: three letters with single spaces between them |
| Healer.ConjunctionAt | docuforge/src/cleaning/healer.py:22 | a broken conjunction match covers a letter, a space and a letter |
| Healer.RepeatSpec | docuforge/src/cleaning/healer.py:113-121 | the Turkish loop returns the text after the passes it ran, at most five, each of which changed the text except possibly the last |
| Healer.RepeatFixpoint | docuforge/src/cleaning/healer.py:119-121 | a non-empty text gets at least one pass, and when the loop stops before five passes the text is a fixpoint of the pass |
| Healer.HealLineWith | docuforge/src/cleaning/healer.py:104-121 | a line shorter than three characters comes back unchanged; a Turkish line is the result of one to five passes, the loop stopping after the first pass that changed nothing; an English line loses exactly its merged spaces |
| Healer.HealLine | docuforge/src/cleaning/healer.py:104-168 | as written, with the identity entries in the Turkish map: a line without a line break heals to one without, and a Turkish line is one to five passes of the written Turkish pass, stopping at the first that changed nothing |
| Healer.HealLineIntended | docuforge/src/cleaning/healer.py:104-168 | the same, with the corrected Turkish pass that drops the identity entries |
| Healer.HealDocument | docuforge/src/cleaning/healer.py:178-183 | the healed document has as many lines as the input, line i being line i healed in the language detected for the whole text |
| Healer.HealDocumentIntended | docuforge/src/cleaning/healer.py:178-183 | the same with the corrected Turkish pass |
| Healer.SubFromMatch | docuforge/src/cleaning/healer.py:168 | where a rule matches, the substitution writes the replacement and resumes after the match (the scan of `re.sub`) |
| Healer.InertSub | docuforge/src/cleaning/healer.py:168 | a rule that matches nowhere leaves the text as it is |
| Healer.SubSource | docuforge/src/cleaning/healer.py:126-168 | a substitution writes only characters of its input and of its fixed replacement |
| Healer.NonLetterNeverWritten | docuforge/src/cleaning/healer.py:126-168 | no replacement of any rule holds a non-letter, so a rule never writes a line break of its own |
| Healer.HealLineNoNewline | docuforge/src/cleaning/healer.py:104-176 | healing a line never introduces a line break, with the written and with the corrected Turkish pass |
| Healer.HealDocumentNewlines | docuforge/src/cleaning/healer.py:178-183 | healing a document, as written or corrected, keeps the number of line breaks, so its lines stay its lines |
| Healer.StructuralDeletesSeparators | docuforge/src/cleaning/healer.py:123-142 | the structural merges of a Turkish pass only delete whitespace and hyphens: with those removed, input and output are the same text, and the output is never longer |
| Healer.MergedSpaceMatch | docuforge/src/cleaning/healer.py:77 | a space counts as merged exactly when the English rule matches at the letter before it |
| Healer.HealEnDeletesMergedSpaces | docuforge/src/cleaning/healer.py:172-176 | English healing removes exactly the merged spaces and keeps every other character in order |
| Healer.TrPassKeepsCleanWord | docuforge/src/cleaning/healer.py:123-168 | the corrected Turkish pass leaves a single word without spaces, hyphens, `ışş` or `şğ` as it is |
| Healer.HealLineIntendedKeepsCleanWord | docuforge/src/cleaning/healer.py:104-176 | healing with the corrected Turkish pass leaves such a word unchanged in either language |
| Healer.HealLineAsWrittenMisspellsDegil | docuforge/src/cleaning/healer.py:148-168 | as written, healing the Turkish line "değil" returns "değıl": the identity entry `ğı` under IGNORECASE also matches `ği` and writes a dotless `ı` |
| Healer.HealLineKeepsDegil | docuforge/src/cleaning/healer.py:113-170 | healing with the corrected Turkish pass, which drops the identity entries, returns the line "değil" unchanged |
| Healer.ConjunctionExample | docuforge/src/cleaning/healer.py:21-22 | "v e" becomes "ve" and "d e" becomes "de" |
| Healer.ParticleExample | docuforge/src/cleaning/healer.py:49 | "b u kitap güzel" becomes "bu kitap güzel": the particle letter is joined and the next word stays apart |
| Healer.EnglishKeepsABook | docuforge/src/cleaning/healer.py:72-77 | English healing keeps "this is a book" as it is: `a` is never merged |
| Healer.HyphenExample | docuforge/src/cleaning/healer.py:65-69 | "prob- lem" becomes "problem" |
| Healer.EnglishExample | docuforge/src/cleaning/healer.py:73-77 | "t he cat" becomes "the cat" |
| Structure.ModeIndex | docuforge/src/extraction/structure.py:40-44 | the chosen size occurs at least as often as every other size, and every size before it occurs strictly less often (`most_common` keeps the first of equal counts) |
| Structure.ModeIsMostFrequent | docuforge/src/extraction/structure.py:40-44 | the body size is a size some word has, no size occurs more often, and every size occurring as often first appears later |
| Structure.FirstNear | docuforge/src/extraction/structure.py:56-61 | the line found has an anchor within 3 points of the top and no earlier line has; when none is found no line has |
| Structure.PlaceGrouped | docuforge/src/extraction/structure.py:53-63 | placing a word keeps the lines well grouped |
| Structure.PlaceAddsWord | docuforge/src/extraction/structure.py:53-63 | placing a word adds exactly that word to the lines |
| Structure.GroupLinesSpec | docuforge/src/extraction/structure.py:50-63 | every word lands in exactly one line, each line is anchored at its first word's top and holds only words within 3 points of it, and anchors of distinct lines are at least 3 points apart |
| Structure.HeadingBands | docuforge/src/extraction/structure.py:45-110 | a line is a heading exactly when its largest size reaches 1.2 times the body size, it is `#` exactly when that size also exceeds twice the body size, and a larger size never gives a less important line |
| Structure.ExtractTextWithStructure | docuforge/src/extraction/structure.py:36-37 | a page without words gives the empty text |
| Structure.HealedLine | docuforge/src/extraction/structure.py:79-100 | a line whose words hold no line break heals to text without one |
| Structure.ExtractLines | docuforge/src/extraction/structure.py:65-116 | split at line breaks, the page is every line in anchor order as its healed text, headings between empty lines behind their `#` prefix |
| Structure.LinesInAnchorOrder | docuforge/src/extraction/structure.py:65-68 | lines come out top to bottom, each exactly once |
| Loader.ChunkRanges | docuforge/src/ingestion/loader.py:24-32 | chunk k spans pages k·size+1 to min((k+1)·size, total); there are ⌈total/size⌉ chunks, none for an empty document |
| Loader.ChunksTile | docuforge/src/ingestion/loader.py:27-32 | every chunk is non-empty and holds `size` pages except possibly the last; neighbouring chunks are contiguous; the first starts at page 1 and the last ends at the last page |
| Loader.ChunkOfPage | docuforge/src/ingestion/loader.py:27-32 | page p lies in the chunk at index (p-1)/size |
| Loader.ChunksPartitionPages | docuforge/src/ingestion/loader.py:27-32 | every page from 1 to the page count lies in exactly one chunk, and no chunk holds another page |
| Loader.ChunksHoldAllPages | docuforge/src/ingestion/loader.py:27-32 | the chunks hold exactly `total` pages between them |
| Loader.ChunksAscending | docuforge/src/ingestion/loader.py:27 | chunks come with strictly ascending first pages |
| Loader.StreamChunks | docuforge/src/ingestion/loader.py:18-80 | a document that cannot be opened re-raises its error; an opened one with a positive chunk size yields chunks exactly when the temporary directory can be made at every step, and otherwise re-raises the error of a step where it could not |
| Loader.StreamSkipsFailedSaves | docuforge/src/ingestion/loader.py:46-76 | when the temporary directory can be made at every step, the yielded chunks keep the loop's order, a chunk is yielded exactly when its file was written so a failed chunk does not stop later ones, and with every write succeeding all chunks are yielded |
| Controller.OcrPageOnlyText | docuforge/src/core/controller.py:80-86 | an OCR page is its heading and the cleaned OCR text only; nothing else the engines found changes it |
| Controller.PageFragment | docuforge/src/core/controller.py:80-136 | a page's Markdown opens with its "## Page n" heading and ends with the page's text on a line of its own, after the charts, images and tables |
| Controller.LegacyTablesOnlyAsFallback | docuforge/src/core/controller.py:113-116 | the legacy tables count only when the neural engine gave no table and the fallback is on, and then they are the page's tables |
| Controller.IgnoredRegionsAndMarkers | docuforge/src/core/controller.py:94-108 | every table box and chart box from the neural engine is in the list of regions handed to the text extractor to ignore, whether or not charts are on; one marker per chart only when charts are on |
| Controller.VisualsOnlyWithoutMarkers | docuforge/src/core/controller.py:126-129 | the legacy visual extractor counts only when charts are on and no chart marker exists, and then its links are the charts |
| Controller.Fragments | docuforge/src/core/controller.py:72-138 | one fragment per page, page i numbered from the chunk's first page |
| Controller.ProcessChunk | docuforge/src/core/controller.py:68-149 | a chunk that raised is exactly its error marker naming the page range; one that raised nothing and holds pages opens with its first page's heading |
| Controller.ChunkPagesNumbered | docuforge/src/core/controller.py:70-148 | a chunk that raised nothing is its pages' fragments joined by line breaks, page i headed with start+i; a chunk that raised is one error marker naming its page range, whatever its pages held |
| Api.CpuCount | docuforge/api.py:203 | the processor count is the reported one when it is positive and 4 when the count is unknown or zero, so it is never below one |
| Api.OptimalWorkersBounds | docuforge/api.py:201-207 | the suggested worker count is between one and the processor count, leaves a processor free from two processors on, and is the largest count not above three quarters of the processors |
| Api.ActualWorkers | docuforge/api.py:846-848 | the worker count used is the requested one or the processor count, whichever is smaller |
| Api.LocalTarget | docuforge/api.py:776-786 | as written: Markdown is written locally exactly when a target was given whose resolved path passes the text-prefix root check and exists, and then into that path |
| Api.LocalTargetIntended | docuforge/api.py:776-786 | the same decision with the component-wise root check |
| Api.LocalTargetIntendedAgrees | docuforge/api.py:776-786 | whenever the component-wise decision writes locally the written one writes to the same place; they differ only when the written one accepts a path whose text continues the last component of an allowed root |
| Api.WithinIffComponents | docuforge/api.py:780 | a target lies within an allowed root exactly when the root's path components are the leading components of the target's |
| Api.SafeIsStricter | docuforge/api.py:780 | the component-wise check accepts only targets that the written text-prefix check accepts too; the written check accepts more exactly when the target's text continues the last component of an allowed root |
| Api.SiblingDirectoryWritten | docuforge/api.py:776-786 | with `/home/al` allowed and `/home/alice` present, the written code writes there while the component-wise check refuses it |
| Api.SiblingDirectoryPasses | docuforge/api.py:780 | with `/home/al` allowed, the text-prefix check accepts `/home/alice`, which does not lie within the root |
| Api.Taken | docuforge/api.py:870-874 | results are taken from fewer chunks than were submitted exactly when the cancel flag was seen |
| Api.Collected | docuforge/api.py:876-883 | one entry per chunk taken, in completion order, keyed by the chunk's first page |
| Api.ConvertDocument | docuforge/api.py:903-908 | a document is produced exactly when the run was not cancelled |
| Api.EntryPerChunk | docuforge/api.py:876-883 | a chunk taken before cancellation leaves its Markdown, or an error marker carrying the error text when its future raised |
| Api.AssembleInPageOrder | docuforge/api.py:907-908 | entries keyed by first page assemble to the chunks' texts in ascending page order, whatever order they were collected in |
| Api.ConvertInPageOrder | docuforge/api.py:865-908 | when not cancelled, the document is every chunk's text in the loader's page order joined by line breaks, however the chunks finish |
| Api.CancelledSavesNothing | docuforge/api.py:870-874 | a cancelled run yields no document whatever the chunks returned; exactly the chunks finished before the flag was seen have their results taken |
| Api.PercentBounds | docuforge/api.py:885-886 | the progress percentage stays within 0 to 100 while pages done do not exceed the total, reaches 100 at the total and never decreases |
| Api.ProgressCompletes | docuforge/api.py:830-832 | once every chunk of the loader finishes, in any order, the pages done equal the page count and the last report says 100 percent |
| Collect.InPageOrderSorted | docuforge/api.py:907 | sorting the collected entries by first page gives them in ascending order, each entry exactly once |
| Collect.AssembleOrderFree | docuforge/api.py:907-908 | the assembled document does not depend on the completion order of the chunks |
| Cli.WorkerPage | docuforge/main.py:104-130 | the command-line worker heads a page as OCR exactly when the OCR text differs from the raw text, an empty OCR text included |
| Cli.OcrDecisionsDiffer | docuforge/main.py:104 | the command line and the service's pipeline disagree about OCR only for a page whose OCR text is empty while its raw text is not |
| Cli.WorkerMatchesPipeline | docuforge/main.py:110-130 | away from OCR, with the neural engine off and the legacy fallbacks on, the worker's page equals the service pipeline's page |
| Cli.WorkerPages | docuforge/main.py:94-130 | one Markdown fragment per page, page i numbered from the chunk's first page |
| Cli.WorkerChunk | docuforge/main.py:90-150 | a chunk that raised is exactly its error marker; one that raised nothing opens with the OCR heading exactly when its first page's OCR text differs from its raw text |
| Cli.WorkerPagesNumbered | docuforge/main.py:90-135 | a chunk that raised nothing joins its pages' fragments, each headed with its page number; a chunk that raised is its error marker whatever its pages held |
| Cli.RemoveTempFile | docuforge/main.py:136-146 | an absent file is not touched; otherwise one to five unlink attempts, a retry only after a permission error, and the file counts as removed exactly when the last attempt removed it |
| Cli.Convert | docuforge/main.py:254-268 | no document is written exactly when no chunk's future returned |
| Cli.ConvertOmitsFailed | docuforge/main.py:245-268 | the document is the Markdown of the chunks that returned, in the loader's page order; a chunk whose future raised leaves no trace; no document when no chunk returned |
| Artifacts.IsGarbage | docuforge/src/cleaning/artifacts.py:33-40 | a line is garbage exactly when some blacklist pattern finds a match in it |
| Artifacts.FirstNumberLine | docuforge/src/cleaning/artifacts.py:29 | the position found is the leftmost one from which the trailing standalone-number pattern matches, and no earlier position matches |
| Artifacts.DropTrailingNumberSpec | docuforge/src/cleaning/artifacts.py:27-29 | removing the trailing number keeps a prefix of the text; what goes is the leftmost match (a text that is one number line, or a line break followed by one); the text is unchanged exactly when the pattern matches nowhere |
| Artifacts.NumberLineStrip | docuforge/src/cleaning/artifacts.py:29 | a text matches the standalone-number pattern in full exactly when, stripped of surrounding whitespace, it is a non-empty run of digits |
| Artifacts.CleanTextEmpty | docuforge/src/cleaning/artifacts.py:14-15 | an empty text cleans to an empty text |
| Artifacts.KeptLines | docuforge/src/cleaning/artifacts.py:17-23 | no kept line contains a line break |
| Artifacts.KeptLinesSpec | docuforge/src/cleaning/artifacts.py:17-23 | the kept lines are, in their original order, exactly the lines no pattern matches |
| Artifacts.CleanTextKeepsLines | docuforge/src/cleaning/artifacts.py:10-31 | the cleaned text is a prefix of the kept lines joined in order, and each of its lines is a kept line that no pattern matches |
| Artifacts.CleanTextKeepsClean | docuforge/src/cleaning/artifacts.py:10-31 | a text with no garbage line and no trailing standalone number cleans to itself |
| Watermark.Analyze | docuforge/src/cleaning/watermark_analyzer.py:25-67 | no tags without user tags, for a document that cannot be opened or that has no pages; otherwise a listed tag is validated exactly when ten times its number of copies in the list times the pages holding it reaches six times the page count |
| Watermark.CountAsWrittenCopies | docuforge/src/cleaning/watermark_analyzer.py:36-55 | as written, a tag's counter grows by the number of times the tag is listed for every page that holds it |
| Watermark.RepeatedTagCountsTwice | docuforge/src/cleaning/watermark_analyzer.py:36-55 | a tag listed twice and found on 3 pages of 10 is validated as written, and not by the per-page count |
| Watermark.PageCount | docuforge/src/cleaning/watermark_analyzer.py:48-57 | a tag is counted on at most as many pages as the document has |
| Watermark.AnalyzeIntended | docuforge/src/cleaning/watermark_analyzer.py:25-67 | the corrected analysis: the same empty cases, and otherwise a listed tag is validated exactly when it occurs on at least 60 percent of the pages |
| Watermark.PageAddsAtMostOne | docuforge/src/cleaning/watermark_analyzer.py:48-57 | each page adds at most one to a tag's count, and a page whose extraction failed adds nothing |
| Watermark.ThresholdExamples | docuforge/src/cleaning/watermark_analyzer.py:61-65 | seven pages of ten validate a tag and three do not |
| Watermark.DistinctTagsAgree | docuforge/src/cleaning/watermark_analyzer.py:36-65 | for a tag list without repeats, the analysis as written equals the corrected one |
| Watermark.ValidWatermarkCaseless | docuforge/src/cleaning/watermark_analyzer.py:69-71 | a pattern is a valid watermark exactly when some validated tag has the same lower-case form; every validated tag is valid, and patterns that agree in lower case get the same answer |
| TagManager.AddTag | docuforge/src/core/tag_manager.py:44-54 | a pattern is added exactly when it is not yet listed; then the stored list gains it at the end; otherwise the file is left alone |
| TagManager.RemoveTag | docuforge/src/core/tag_manager.py:56-66 | a pattern is removed exactly when it is listed; otherwise the file is left alone |
| TagManager.ListTags | docuforge/src/core/tag_manager.py:68-70 | listing without a tags file gives no tags |
| TagManager.RemoveTagFirstOnly | docuforge/src/core/tag_manager.py:56-66 | removing a listed pattern drops its first occurrence only: the tags before and after keep their order and exactly one copy of the pattern goes |
| TagManager.AddThenRemove | docuforge/src/core/tag_manager.py:44-66 | adding a new pattern and then removing it gives back the original list |
| TagManager.AddTagIdempotent | docuforge/src/core/tag_manager.py:44-54 | adding the same pattern twice changes the list once |
| TagManager.TagsStayDistinct | docuforge/src/core/tag_manager.py:44-66 | adding and removing keep a list without repeats free of repeats |
| Zones.GetCropBox | docuforge/src/cleaning/zones.py:9-23 | the crop box spans the page's full width, from the header fraction of the height down to the footer fraction above the bottom |
| Zones.CropBoxInside | docuforge/src/cleaning/zones.py:9-23 | with both fractions in [0, 1] the crop box lies vertically inside the page, its top is not below its bottom when the header and footer fractions sum to at most 1, and on a page of positive height the box is inverted when they sum to more |
| Classifier.AxisAlignedIff | docuforge/src/extraction/classifier.py:164-166 | an angle is axis-aligned exactly when it lies within the tolerance of 0 or of 90 degrees |
| Classifier.CurveObjs | docuforge/src/extraction/classifier.py:125-137 | each curve with points becomes one curve object without an angle, and a curve without points none |
| Classifier.ObjectsCounts | docuforge/src/extraction/classifier.py:107-137 | every line and rectangle becomes an object of its kind and every curve with points one curve object, so the object count is the sum of those |
| Classifier.Bounds | docuforge/src/extraction/classifier.py:180-183 | the zone box encloses every object's box and lies inside any box that does so |
| Classifier.ClusterObjects | docuforge/src/extraction/classifier.py:168-197 | at most one zone; there is one exactly when there are objects and their bounding box has an area of at least 5000, and it holds them all, unlabelled with confidence 0 |
| Classifier.ClassifyZone | docuforge/src/extraction/classifier.py:199-234 | a zone is TEXT exactly when it has no objects; CHART exactly when it has a curve or more than five diagonal lines; TABLE exactly when neither and it has at least two rectangles or four axis-aligned lines; UNKNOWN otherwise |
| Classifier.StraightObjectsNeverChart | docuforge/src/extraction/classifier.py:225-229 | lines and rectangles alone, none of them diagonal, never make a chart |
| Classifier.Confidence | docuforge/src/extraction/classifier.py:236-253 | the confidence lies in [0, 1] and is 0 exactly for UNKNOWN; a chart's grows by a tenth per curve and a table's by a twentieth per rectangle from one half, capped at 1 |
| Classifier.ConfidenceMonotone | docuforge/src/extraction/classifier.py:245-251 | more curves never lower a chart's confidence, more rectangles never lower a table's; five curves or ten rectangles give full confidence |
| Classifier.ClassifyPage | docuforge/src/extraction/classifier.py:86-151 | no zone without the PDF library; otherwise at most one zone, holding all the page's objects inside their bounding box, labelled from its objects and scored to match its label |
| Classifier.ClassifyPageNeverText | docuforge/src/extraction/classifier.py:139-197 | a classified page never holds a TEXT zone, and it yields a zone exactly when the library is present and the page has objects whose bounding box is large enough |
| Classifier.Route | docuforge/src/extraction/classifier.py:324-338 | the table bucket holds the TABLE zones in order, the text bucket the zones that are neither TABLE nor CHART, and every chart carries the image cropped for it, or none |
| Classifier.RouteCharts | docuforge/src/extraction/classifier.py:328-335 | the chart bucket holds the CHART zones in their order |
| Classifier.RoutePartition | docuforge/src/extraction/classifier.py:324-338 | every zone lands in the bucket its label names and in no other |
| Classifier.RouteSizes | docuforge/src/extraction/classifier.py:324-338 | the bucket sizes add up to the number of zones |
| Classifier.GetTables | docuforge/src/extraction/classifier.py:255-257 | the tables are exactly the zones labelled TABLE |
| Classifier.GetCharts | docuforge/src/extraction/classifier.py:259-261 | the charts are exactly the zones labelled CHART |
| Classifier.RoutePage | docuforge/src/extraction/classifier.py:303-340 | routing a classified page gives the getters' tables and charts, and what is routed as text is always an UNKNOWN zone |
| Visual.ClassifyPageKind | docuforge/src/extraction/visual.py:13-40 | a page is CHART exactly when more curves than the threshold are wider or taller than 10 points; it is TABLE exactly when it is not CHART and has more lines than the grid threshold with more than two near-horizontal and more than two near-vertical ones, and TEXT otherwise |
| Visual.ClassifyIgnoresSmallCurves | docuforge/src/extraction/visual.py:19-23 | curves no larger than 10 points in either direction never change the verdict |
| Visual.ClassifyMonotone | docuforge/src/extraction/visual.py:19-38 | more lines never turn a TABLE page into anything else, and more curves never turn a CHART page into anything else |
| Visual.DataWords | docuforge/src/extraction/visual.py:108-111 | with at least ten words below the top fifth of the page those are exactly the data words; with fewer every word is |
| Visual.Dividers | docuforge/src/extraction/visual.py:130-143 | the dividers start at 0 and end at the page width |
| Visual.DividersShape | docuforge/src/extraction/visual.py:113-143 | on a page at least one point wide the dividers increase strictly; every inner divider is the midpoint of a run of columns covered by at most one eroded data word, and every such run closed before the page edge yields one |
| Visual.FirstDividerSlot | docuforge/src/extraction/visual.py:173-175 | the slot found is the first interval between dividers holding the word's centre, and no interval holds it when none is found |
| Visual.SlotOf | docuforge/src/extraction/visual.py:170-178 | a placed word always lands in one of the intervals between dividers |
| Visual.SlotOfIntervals | docuforge/src/extraction/visual.py:170-178 | with increasing dividers a word goes to the interval holding its centre, to slot 0 left of the first divider, to the last slot right of the last one, and is dropped exactly when its centre sits on the last divider |
| Visual.IntervalsDisjoint | docuforge/src/extraction/visual.py:173-175 | with increasing dividers no point lies in two intervals |
| Visual.RowCells | docuforge/src/extraction/visual.py:169-180 | a row has one cell per interval between dividers |
| Visual.SlotTextEmpty | docuforge/src/extraction/visual.py:169-180 | a slot holds text exactly when some word of the row is placed in it, so a cell no word reaches is empty |
| Visual.Rows | docuforge/src/extraction/visual.py:145-164 | every row holds at least one word |
| Visual.RowsPartition | docuforge/src/extraction/visual.py:145-164 | the rows hold every word exactly once in top order; each word inside a row starts more than 2 points above the row's lowest bottom so far, and each word that starts a row does not |
| Visual.SingleCellRow | docuforge/src/extraction/visual.py:195-200 | a kept row with a single filled cell has it in column 0, at least two characters long |
| Visual.Cells | docuforge/src/extraction/visual.py:168-180 | a row's words, placed in x order, give one cell per interval between dividers |
| Visual.Judge | docuforge/src/extraction/visual.py:182-201 | a row is kept only with its cells, when it holds no footer phrase and passes the noise filter |
| Visual.CollectRows | docuforge/src/extraction/visual.py:166-204 | the scan keeps at most one row per row read |
| Visual.CollectKept | docuforge/src/extraction/visual.py:187-201 | every row kept comes from a row judged worth keeping |
| Visual.CollectStops | docuforge/src/extraction/visual.py:187-189 | a row that stops the scan hides every row after it |
| Visual.CollectSkips | docuforge/src/extraction/visual.py:190-200 | a skipped row contributes nothing and leaves the other rows' result as it is |
| Visual.BodyRows | docuforge/src/extraction/visual.py:166-204 | the body has at most as many rows as were read |
| Visual.BodyRowsShape | docuforge/src/extraction/visual.py:166-204 | every body row has one cell per interval between dividers, holds no footer phrase and passes the noise filter |
| Visual.BodyStopsAtLowFooter | docuforge/src/extraction/visual.py:187-189 | a footer row whose centre lies in the bottom tenth of the page ends the scan: nothing below it is read |
| Visual.BodySkipsRow | docuforge/src/extraction/visual.py:190-200 | a footer row higher up, or a noise row, leaves the result of the other rows unchanged |
| Visual.HeaderRowsFrom | docuforge/src/extraction/visual.py:223-237 | every header line holds at least one word |
| Visual.HeaderRows | docuforge/src/extraction/visual.py:214-237 | every header line holds at least one word |
| Visual.HeaderRowsFromFlatten | docuforge/src/extraction/visual.py:223-237 | the header-line loop emits the line being built followed by the meaningful remaining words, in order |
| Visual.HeaderRowsCover | docuforge/src/extraction/visual.py:209-237 | the header lines hold exactly the meaningful header words, in order, lone characters other than `%`, `#` and `$` left out |
| Visual.HeaderCells | docuforge/src/extraction/visual.py:241-271 | a header line that is kept has one cell per interval between dividers |
| Visual.HeaderOneToOne | docuforge/src/extraction/visual.py:247-251 | a header line with one word per column is kept and mapped one to one: cell k is the text of its k-th word from the left |
| Visual.MappedHeaders | docuforge/src/extraction/visual.py:239-271 | the mapped header lines all have one cell per interval between dividers, and there are no more of them than header lines |
| Visual.HeaderWordsInOrder | docuforge/src/extraction/visual.py:146-217 | header words come from the top-sorted words, so sorting them by top again changes nothing |
| Visual.PruneSparseColumns | docuforge/src/extraction/visual.py:277-289 | pruning keeps every row |
| Visual.PruneSparseColumnsSpec | docuforge/src/extraction/visual.py:278-289 | a column survives exactly when more than 5% of the rows fill it or the table has fewer than 3 columns; the survivors keep their order and their cells, and every row keeps the same columns |
| Visual.PruneNarrowTable | docuforge/src/extraction/visual.py:283 | a table with fewer than 3 columns comes out of pruning unchanged |
| Visual.AssembleShape | docuforge/src/extraction/visual.py:273-275 | header lines go on top of the body only when there is a body; the body rows come last and the widths agree |
| Visual.TableBeforePruningParts | docuforge/src/extraction/visual.py:100-275 | the table before pruning is the mapped header lines on top of the body rows, the header lines only when the page has header-zone words |
| Visual.TableBeforePruningShape | docuforge/src/extraction/visual.py:100-275 | no words, no table; otherwise every row has one cell per interval between dividers, the body rows come last, and no header rows appear without body rows |
| Visual.ExtractTableShape | docuforge/src/extraction/visual.py:100-289 | the extracted table is empty without words; otherwise it has as many rows as before pruning, all with the same kept columns, no more of them than there are intervals between dividers |
| Visuals.Boxes | docuforge/src/extraction/visuals.py:76-87 | the box list raises exactly when some vector has an empty point list; otherwise every vector with a box or a point list gives one box and the others none |
| Visuals.Pass | docuforge/src/extraction/visuals.py:103-121 | one sweep grows the current box over every box it absorbs and keeps the rest in order; it reports a merge exactly when a box was absorbed, and changes nothing otherwise |
| Visuals.Grow | docuforge/src/extraction/visuals.py:101-121 | repeated sweeps end with a box enclosing the start box and every absorbed box, and no remaining box within 15 points of it |
| Visuals.MergeAll | docuforge/src/extraction/visuals.py:93-123 | there are no more clusters than boxes, at least one when there are boxes, and every box lies inside some cluster |
| Visuals.FirstClusterApart | docuforge/src/extraction/visuals.py:96-123 | the first cluster is the grown first box, and no box left for later clusters lies within 15 points of it |
| Visuals.ClusterVectors | docuforge/src/extraction/visuals.py:69-139 | clustering raises exactly when some vector has an empty point list; otherwise every cluster returned is no page border and larger than 100 points both ways, and there are none without boxes |
| Visuals.ClusterVectorsKept | docuforge/src/extraction/visuals.py:89-139 | with boxes present, the clusters are the merged boxes that pass the border and size filter, in merge order |
| Visuals.ClustersCoverBoxes | docuforge/src/extraction/visuals.py:93-139 | no more kept clusters than merged ones and no more merged ones than boxes; every box lies inside a merged cluster, which is returned whenever it passes the filter |
| Visuals.RenderLinks | docuforge/src/extraction/visuals.py:41-60 | one link per cluster whose padded, page-clipped box is at least 50 points both ways, each link numbered by the cluster's position among all clusters |
| Visuals.PageIndex | docuforge/src/extraction/visuals.py:27-28 | a page number from 1 to the page count selects that page, and any index selected lies within the document |
| Visuals.PageVisuals | docuforge/src/extraction/visuals.py:29-60 | no links for fewer than ten vector objects; any link returned names a cluster of the page that renders |
| Visuals.ExtractVisuals | docuforge/src/extraction/visuals.py:16-67 | no links for a page number past the end; otherwise the links of the selected page |
| Visuals.ExtractVisualsLinks | docuforge/src/extraction/visuals.py:16-137 | every link returned names a cluster that is no page border, is larger than 100 points both ways and renders; a page with fewer than ten vector objects gives no link |
| Ocr.LettersOnly | docuforge/src/ingestion/ocr.py:52-53 | every letter of the OCR text stays where it is and every other character becomes a space |
| Ocr.KnownCandidates | docuforge/src/ingestion/ocr.py:61-65 | the matched words are among the candidate words |
| Ocr.MeasureWordsMatched | docuforge/src/ingestion/ocr.py:45-67 | the ratio lies in [0, 1]; it is 0 without candidate words or when the dictionary knows none of them, and 1 exactly when there are candidates and it knows all of them |
| Ocr.ProcessPage | docuforge/src/ingestion/ocr.py:180-207 | "off" keeps the page text, "on" always takes the OCR text, and "auto" takes the OCR text exactly when the page text is poor |
| Ocr.NeedsOcrAgrees | docuforge/src/ingestion/ocr.py:241-255 | the OCR test says exactly when processing a page runs OCR |
| Ocr.AutoThresholds | docuforge/src/ingestion/ocr.py:191-205 | in "auto" mode a page with at least 50 stripped characters, one in twenty of them a space, keeps its text, and a blank page is always sent to OCR |
| Ocr.ProcessPagesParallel | docuforge/src/ingestion/ocr.py:209-239 | one result per page number; a page number without a page text gives an empty result |
| Ocr.ParallelAgreesWithSequential | docuforge/src/ingestion/ocr.py:209-239 | whenever OCR succeeds, the parallel run gives each page what processing that page alone gives |
| Ocr.ScoreOcrResult | docuforge/src/ingestion/ocr.py:542-569 | the score never exceeds the word count plus 10, and a blank text scores 0 |
| Ocr.ScoreExtremes | docuforge/src/ingestion/ocr.py:551-569 | long words, few short words and a mostly alphanumeric text earn the word count plus the full bonus; at most 20 mostly short words of short average length score nothing |
| Ocr.ClassRun | docuforge/src/ingestion/ocr.py:619-626 | the leading run of a character class is as long as it can be |
| Ocr.RunSubKeepsOthers | docuforge/src/ingestion/ocr.py:629-631 | a run substitution keeps every non-whitespace character outside its class, in order |
| Ocr.RunSubLeavesNoLongRun | docuforge/src/ingestion/ocr.py:629-631 | after a run substitution no run of the minimum length of the class is left |
| Ocr.RunSubStartsWith | docuforge/src/ingestion/ocr.py:629-631 | a text starting outside the class keeps its first character |
| Ocr.RunSubKeepsClean | docuforge/src/ingestion/ocr.py:629-631 | a text without a long enough run of the class is left unchanged |
| Ocr.RunSubIdempotent | docuforge/src/ingestion/ocr.py:629-631 | substituting a second time changes nothing |
| Ocr.RunSubBringsNothing | docuforge/src/ingestion/ocr.py:629-631 | a run substitution brings in no character but the space |
| Ocr.BracketMatch | docuforge/src/ingestion/ocr.py:623 | a match of the bracket pattern at the start of the text is non-empty and within the text |
| Ocr.Skip | docuforge/src/ingestion/ocr.py:623 | when nothing matches at the start, the scan moves on by at least one character, passing no bracket |
| Ocr.BracketSub | docuforge/src/ingestion/ocr.py:623-631 | none of `<>{}|` is left after the bracket substitution |
| Ocr.BracketSubKeepsOthers | docuforge/src/ingestion/ocr.py:623-631 | the bracket substitution keeps every other non-whitespace character, in order |
| Ocr.BracketSubKeepsClean | docuforge/src/ingestion/ocr.py:623-631 | a text without any of `<>{}|` is unchanged |
| Ocr.NoiseKeepsText | docuforge/src/ingestion/ocr.py:617-631 | noise removal keeps every non-whitespace character that no noise pattern can remove, in order |
| Ocr.NoiseLeavesNoBrackets | docuforge/src/ingestion/ocr.py:617-631 | after noise removal none of `<>{}|` is left, nor two underscores in a row |
| Ocr.LineWords | docuforge/src/ingestion/ocr.py:639-650 | every word kept from a line is a non-empty whitespace-free word of the line that is meaningful: at least two word characters, or one digit or listed letter |
| Ocr.ScanLines | docuforge/src/ingestion/ocr.py:638-654 | every collected word is meaningful, and there are clean lines exactly when there are collected words |
| Ocr.ScanCollectsLineWords | docuforge/src/ingestion/ocr.py:638-654 | the collected words are the meaningful words of every line, line after line |
| Ocr.WordsJoin | docuforge/src/ingestion/ocr.py:653-662 | splitting lines joined by whitespace gives the lines' words in order |
| Ocr.ScanLinesHoldWords | docuforge/src/ingestion/ocr.py:652-654 | the clean lines hold exactly the collected words |
| Ocr.CleanOcrOutput | docuforge/src/ingestion/ocr.py:612-615 | an empty OCR text cleans to an empty text |
| Ocr.CleanOcrKeepsMeaningfulWords | docuforge/src/ingestion/ocr.py:612-713 | the words of a non-empty cleaned output are exactly the meaningful words of the de-noised lines, in order, and there is at least one |
| Ocr.CleanOcrPassesWordTests | docuforge/src/ingestion/ocr.py:656-711 | the words of a non-empty cleaned output pass the average-length test and, with more than three words, the word-level gibberish tests |
| Ocr.JoinedWords | docuforge/src/ingestion/ocr.py:662-713 | the stripped join of the clean lines holds exactly the collected words |
| Ocr.CleanOcrAccepted | docuforge/src/ingestion/ocr.py:656-713 | a non-empty cleaned output is the stripped join of the clean lines, which none of the rejection tests refused |
| Ocr.CleanOcrIsDense | docuforge/src/ingestion/ocr.py:664-713 | a non-empty cleaned output is at least 40% alphanumeric |
| Ocr.StripKeepsAlnum | docuforge/src/ingestion/ocr.py:713 | stripping removes no alphanumeric character |
| Ocr.LongRunsNone | docuforge/src/ingestion/ocr.py:673 | no run of four consonants is counted exactly when there is none |

## Left out

- PDF, OCR and image libraries (pdfplumber, pikepdf, PyMuPDF, Camelot, Tesseract, PIL, OpenCV, pdf2image) are not modelled. The words, glyphs, lines, rectangles, curves, page texts, OCR texts and library-found tables they produce are inputs.
- The process pool is not modelled, because scheduling is outside a sequential model. This covers `as_completed`, the cancel endpoint with its process kills, psutil, the background and exit-time cleanup threads and the OCR thread pool. The order in which chunks finish and the point where a cancel request is seen are inputs instead.
- HTML rendering, the interactive front end, uvicorn and logging are not modelled, because they are presentation and transport. The same holds for `interactive.py`, `debug/`, `core/logging.py`, `core/utils.py`, `images.py` (a file dump) and `models.py` (unused record shapes). `config.py` only holds defaults, which appear as parameters.
- Line angles are inputs, because the source computes them with `atan` (engine_neural.py:183-189, classifier.py:153-162).
- Image preprocessing is not modelled, because it is floating-point image arithmetic. This covers downsampling and rendering a zone to an image.
- The OCR pass selection in `_run_ocr` and `_ocr_with_modes` (ocr.py:283-292, 307-355) is not modelled, because it only wraps the OCR engine, whose text is an input: it keeps the best-scoring pass, stops early above a score of 80 and retries with advanced preprocessing below 40.
- The symbol normalisation `_normalize_symbols` (ocr.py:571-610) is not modelled, because it lies outside the modelled OCR core: it is a string rewrite of arrow glyphs that runs after the OCR cleaning (ocr.py:295-296), and the model's OCR result stops at the cleaned text.
- Floating-point rounding is not modelled, because coordinates and ratios are exact reals.
- Unicode NFC normalisation is the identity. Python's Unicode character classes (`\w`, `\s`, `isdigit`, `isalnum`) and lower-casing are approximated by ASCII plus the Turkish letters. Case-insensitive matching also treats `İ`, `I`, `ı` and `i` alike, as Python's regular-expression engine does.
- The blacklist's regular expressions are an uninterpreted `search` function. They are user data, not code of the system.
- Whether the tag file's `tags` entry is a list is not modelled. The YAML file is a value that is absent, unreadable or holds a tag list, and a non-list `tags` entry is not distinguished.
- Several calls do not match their callees, so no end-to-end run is proved across them; each function is modelled by its own definition:
  - `controller.py:9` imports names that `utils.py` does not define;
  - `controller.py:120` passes three arguments to `extract_text_with_structure`, which takes two;
  - `api.py:866` passes four arguments to `process_chunk`, which takes three;
  - `api.py:642` passes `validated_watermarks` to `TextCleaner`, which does not accept it;
  - `ExtractionConfig` has no `use_neural_engine` or `neural_fallback_to_legacy` field.

  The controller model takes these switches as parameters.
- Some healer tests assert behaviour that the regular-expression rules do not produce, so they are not stated as properties:
  - test_healer_stress.py:18-20, 27 and 29: "User X verification", "a book" and "I am" are voted Turkish and merged by the particle rules;
  - test_healer.py:89-94 and 135-145.
- Some neural engine operations are not modelled:
  - `ContentHealer.fallback_extraction`;
  - `ChartGuard.mark_chart_region` and `detect_chart_type`;
  - `NeuralSpatialEngine.process_page` and `analyze_layout`. Their layout record is an input.
- The wide-capitals expression at healer.py:84 is not modelled, because no repair pass uses it.
- `_dataframe_to_markdown` in tables.py is not modelled, because it delegates to the tabulate library.
- `ChartMiner.extract_pie_data` and the zone cleaner's `filter_text_by_zone` are not modelled. Only the crop-box arithmetic is kept, and no model applies the crop box.
- Visuals.RenderLinks: rendering is assumed to succeed. In the source, an error while opening the document, creating the image directory, rendering or saving a crop (visuals.py:35-53) is caught (visuals.py:64-65), and the links gathered before it are returned, a prefix of the modelled list.
- Deleting the controller's temporary file is not modelled, because it is file-system I/O. The command line's bounded retry of the delete is modelled, with each attempt's outcome as an input.
- Rivers.FindWhitespaceRivers, TableDetector.RiversOf, TableDetector.DetectBorderless, TableDetector.DetectTables, Visual.ExtractTable and the other `Visual` members about a page require a non-negative page width, because the source's histogram allocation raises for a negative width.
- Rivers.FindWhitespaceRiversShape: the strictly increasing separators are stated for a page width of at least 1, because a narrower page with words yields `[0.0, 0.0]`.
- Healer.HealLineIntendedKeepsCleanWord: stated for the corrected Turkish pass only, because the written pass changes clean words such as "değil" (see "## Findings").
- Api.PercentBounds: uses the exact floor of `pages_done * 100 / total`. Python's `int(pages_done / total * 100)` can be one lower after float rounding (29 of 100 pages gives 28).

## Findings

| source | as written | input that shows it | evidently intended | confidence | as-written member | corrected member |
|---|---|---|---|---|---|---|
| docuforge/src/cleaning/healer.py:148-149 | the "normalize" entries `şı -> şı`, `ğı -> ğı` and `ığı -> ığı` run with IGNORECASE; Python treats `i` and `ı` as the same letter ignoring case, so the entries also match `şi`, `ği` and `iği` and write a dotless `ı` | the Turkish line "değil" heals to "değıl" | identity entries leave the text unchanged | high, derived from the regular-expression semantics; not executed | Healer.HealLineAsWrittenMisspellsDegil | Healer.HealLineKeepsDegil |
| docuforge/api.py:780-781 | an output path is accepted when its resolved text starts with an allowed root | with root `/home/al` allowed, `/home/alice` is accepted | accept only the root itself or paths inside it, compared by path component | high, not executed | Api.SiblingDirectoryWritten | Api.LocalTargetIntended |
| docuforge/src/cleaning/watermark_analyzer.py:36-55 | counters are keyed by tag but the loop runs over the list of compiled patterns, so a tag listed twice gains two per page | tags `["CONF", "CONF"]`, found on 3 of 10 pages, reach 6 of 10 and are validated | one count per page that contains the tag | medium (the tag manager never stores a tag twice, but the file can be edited by hand); not executed | Watermark.RepeatedTagCountsTwice | Watermark.AnalyzeIntended |

=== FILE: api.dfy ===
/**
 The web service's side of a conversion: collecting the chunks' results as
 the worker processes finish, reporting progress, honouring a cancel request,
 choosing where the Markdown goes, and the system information it reports. The
 process pool, the event stream and the file system are left out: the order
 in which chunks finish, whether a future raised, when the cancel flag is
 seen and whether a directory exists are inputs.
 */
module Api {
  import opened Common
  import opened Seqs
  import Loader
  import Collect

  // ------------------------------------------------------------ system information

  /** `os.cpu_count() or 4`: an unknown or zero count reads as 4. */
  function CpuCount(reported: Option<nat>): (n: nat)
    ensures n >= 1
    ensures reported.Some? && reported.value > 0 ==> n == reported.value
    ensures reported.None? || reported.value == 0 ==> n == 4
  {
    if reported.Some? && reported.value > 0 then reported.value else 4
  }

  /** `max(1, int(count * 0.75))`: three quarters of the processors, rounded down, at least one. */
  function OptimalWorkers(reported: Option<nat>): (w: nat)
  {
    var n := CpuCount(reported);
    if n * 3 / 4 >= 1 then n * 3 / 4 else 1
  }

  /** The suggested worker count is at least one and never more than the processors; from two
      processors on it leaves at least one free, and it is the largest count not above three
      quarters of them. */
  lemma {:induction false} OptimalWorkersBounds(reported: Option<nat>)
    ensures var n := CpuCount(reported); var w := OptimalWorkers(reported);
      && 1 <= w <= n
      && (n >= 2 ==> w < n)
      && (n >= 2 ==> 4 * w <= 3 * n < 4 * (w + 1))
  {
  }

  /** `min(workers, cpu_count)`: the requested worker count clamped to the processors. */
  function ActualWorkers(requested: int, reported: Option<nat>): (w: int)
    ensures w <= requested && w <= CpuCount(reported)
    ensures w == requested || w == CpuCount(reported)
  {
    if requested <= CpuCount(reported) then requested else CpuCount(reported)
  }

  // ------------------------------------------------------------ the output directory

  /** `str(target).startswith(str(root))` for some allowed root. */
  predicate IsSafeAsWritten(target: string, roots: seq<string>)
  {
    exists i :: 0 <= i < |roots| && IsPrefix(roots[i], target)
  }

  /** `target` is `root` itself or lies below it: after the root's text comes a separator. */
  predicate Within(target: string, root: string, sep: char)
  {
    target == root || IsPrefix(root + [sep], target)
  }

  /** The path check as evidently intended: the target lies within some allowed root. */
  predicate IsSafe(target: string, roots: seq<string>, sep: char)
  {
    exists i :: 0 <= i < |roots| && Within(target, roots[i], sep)
  }

  /** Where the Markdown is written: the resolved target, when one was given, passes the text-prefix
      check as written and exists; otherwise nothing (the service then returns the files for
      download). `resolve` is `Path.resolve`, `present` is `Path.exists`. */
  function LocalTarget(requested: string, resolve: string -> string, roots: seq<string>, present: string -> bool): (r: Option<string>)
    ensures r.Some? ==> requested != "" && r.value == resolve(requested) && present(r.value) && IsSafeAsWritten(r.value, roots)
    ensures r.None? <==> requested == "" || !IsSafeAsWritten(resolve(requested), roots) || !present(resolve(requested))
  {
    if requested == "" then None
    else
      var t := resolve(requested);
      if IsSafeAsWritten(t, roots) && present(t) then Some(t) else None
  }

  /** The same choice with the check evidently intended: the target must lie within a root. */
  function LocalTargetIntended(requested: string, resolve: string -> string, roots: seq<string>, sep: char, present: string -> bool): (r: Option<string>)
    ensures r.Some? ==> requested != "" && r.value == resolve(requested) && present(r.value) && IsSafe(r.value, roots, sep)
    ensures r.None? <==> requested == "" || !IsSafe(resolve(requested), roots, sep) || !present(resolve(requested))
  {
    if requested == "" then None
    else
      var t := resolve(requested);
      if IsSafe(t, roots, sep) && present(t) then Some(t) else None
  }

  /** Every target the intended choice writes to, the choice as written writes to as well; they part
      only on a target whose text continues the last component of an allowed root. */
  lemma {:induction false} LocalTargetIntendedAgrees(requested: string, resolve: string -> string, roots: seq<string>, sep: char, present: string -> bool)
    ensures var w := LocalTarget(requested, resolve, roots, present);
      var i := LocalTargetIntended(requested, resolve, roots, sep, present);
      && (i.Some? ==> w == i)
      && (w != i ==>
            && w.Some? && i.None?
            && exists k :: 0 <= k < |roots| && IsPrefix(roots[k], w.value) && |roots[k]| < |w.value| && w.value[|roots[k]|] != sep)
  {
    if requested != "" {
      SafeIsStricter(resolve(requested), roots, sep);
    }
  }

  /** With `/home/al` allowed and `/home/alice` existing, a request for it is written there as
      written and refused with the intended check. */
  lemma {:induction false} SiblingDirectoryWritten(present: string -> bool)
    requires present("/home/alice")
    ensures LocalTarget("/home/alice", s => s, ["/home/al"], present) == Some("/home/alice")
    ensures LocalTargetIntended("/home/alice", s => s, ["/home/al"], '/', present) == None
  {
    SiblingDirectoryPasses();
  }

  /** A target is within a root exactly when the root's path components are the first
      components of the target's. */
  lemma {:induction false} WithinIffComponents(target: string, root: string, sep: char)
    ensures Within(target, root, sep) <==> IsPrefix(Split(root, sep), Split(target, sep))
  {
    var p := Split(root, sep);
    var q := Split(target, sep);
    if Within(target, root, sep) && target != root {
      var rest := target[|root| + 1..];
      assert target == root + [sep] + rest;
      SplitAround(root, rest, sep);
    }
    if IsPrefix(p, q) {
      var m := q[|p|..];
      assert q == p + m;
      JoinSplit(target, sep);
      JoinSplit(root, sep);
      if |m| == 0 {
        assert q == p;
      } else {
        JoinAppend(p, m, sep := [sep]);
        assert target == root + [sep] + Join(m, [sep]);
        assert (root + [sep] + Join(m, [sep]))[..|root| + 1] == root + [sep];
      }
    }
  }

  /** Every target the intended check accepts, the written check accepts too; the written check
      accepts more exactly when the target's text continues the last component of an allowed
      root. */
  lemma {:induction false} SafeIsStricter(target: string, roots: seq<string>, sep: char)
    ensures IsSafe(target, roots, sep) ==> IsSafeAsWritten(target, roots)
    ensures IsSafeAsWritten(target, roots) && !IsSafe(target, roots, sep) ==>
      exists i :: 0 <= i < |roots| && IsPrefix(roots[i], target) && |roots[i]| < |target| && target[|roots[i]|] != sep
  {
    if IsSafe(target, roots, sep) {
      var i :| 0 <= i < |roots| && Within(target, roots[i], sep);
      if target != roots[i] {
        assert (roots[i] + [sep])[..|roots[i]|] == roots[i];
      }
    }
    if IsSafeAsWritten(target, roots) && !IsSafe(target, roots, sep) {
      var i :| 0 <= i < |roots| && IsPrefix(roots[i], target);
      PrefixWithinOrContinues(target, roots[i], sep);
    }
  }

  lemma {:induction false} PrefixWithinOrContinues(target: string, root: string, sep: char)
    requires IsPrefix(root, target)
    ensures Within(target, root, sep) || (|root| < |target| && target[|root|] != sep)
  {
    if |root| == |target| {
      assert target == target[..|root|];
    } else if target[|root|] == sep {
      assert target[..|root| + 1] == target[..|root|] + [target[|root|]];
    }
  }

  /** With `/home/al` allowed, the written check accepts `/home/alice`, which is a different
      user's directory and not within the root. */
  lemma {:induction false} SiblingDirectoryPasses()
    ensures IsSafeAsWritten("/home/alice", ["/home/al"])
    ensures !IsSafe("/home/alice", ["/home/al"], '/')
  {
    var t := "/home/alice";
    var r := "/home/al";
    assert ["/home/al"][0] == r;
    assert t[..|r|] == r;
    assert t[..|r| + 1] != r + ['/'] by {
      assert t[..|r| + 1][8] == 'i';
    }
  }

  // ------------------------------------------------------------ collecting the results

  /** What a chunk's future gives: the Markdown it returned, or the error it raised. */
  datatype Outcome = Returned(md: string) | Failed(error: string)

  function ErrorEntry(error: string): string
  {
    "\n\n[ERROR: " + error + "]\n"
  }

  /** The text a finished chunk leaves: its Markdown, or an error marker. */
  function TextOf(o: Outcome): string
  {
    if o.Returned? then o.md else ErrorEntry(o.error)
  }

  /** The entry a finished chunk leaves: keyed by its first page. */
  function EntryOf(outcome: Loader.Chunk -> Outcome, c: Loader.Chunk): Collect.Entry
  {
    Collect.Entry(c.startPage, TextOf(outcome(c)))
  }

  /** `cancelAt` is the first turn of the collecting loop at which the cancel flag is seen set;
      the loop stops there, before taking that chunk's result. */
  predicate Cancelled(order: seq<Loader.Chunk>, cancelAt: Option<nat>)
  {
    cancelAt.Some? && cancelAt.value < |order|
  }

  /** How many chunks the loop takes results from. */
  function Taken(order: seq<Loader.Chunk>, cancelAt: Option<nat>): (n: nat)
    ensures n <= |order|
    ensures Cancelled(order, cancelAt) <==> n < |order|
  {
    if Cancelled(order, cancelAt) then cancelAt.value else |order|
  }

  /** The entries collected, in completion order. */
  function Collected(order: seq<Loader.Chunk>, outcome: Loader.Chunk -> Outcome, cancelAt: Option<nat>): (es: seq<Collect.Entry>)
    ensures |es| == Taken(order, cancelAt)
    ensures forall k :: 0 <= k < |es| ==> es[k].start == order[k].startPage
  {
    Map(order[..Taken(order, cancelAt)], c => EntryOf(outcome, c))
  }

  /** The document's Markdown, or nothing when the conversion was cancelled (nothing is saved). */
  function ConvertDocument(order: seq<Loader.Chunk>, outcome: Loader.Chunk -> Outcome, cancelAt: Option<nat>): (r: Option<string>)
    ensures r.None? <==> Cancelled(order, cancelAt)
  {
    if Cancelled(order, cancelAt) then None else Some(Collect.Assemble(Collected(order, outcome, cancelAt)))
  }

  /** A chunk taken before cancellation leaves one entry keyed by its first page: its Markdown,
      or, when its future raised, an error marker with the error's text. */
  lemma {:induction false} EntryPerChunk(order: seq<Loader.Chunk>, outcome: Loader.Chunk -> Outcome, cancelAt: Option<nat>, k: nat)
    requires k < Taken(order, cancelAt)
    ensures var e := Collected(order, outcome, cancelAt)[k];
      && e.start == order[k].startPage
      && (outcome(order[k]).Failed? ==> e.text == ErrorEntry(outcome(order[k]).error))
      && (outcome(order[k]).Returned? ==> e.text == outcome(order[k]).md)
  {
  }

  /** Entries keyed by first page, made from any arrangement of chunks with ascending first
      pages, assemble to the chunks' texts in that ascending order. */
  lemma {:induction false} AssembleInPageOrder(chunks: seq<Loader.Chunk>, order: seq<Loader.Chunk>, text: Loader.Chunk -> string)
    requires SortedBy(chunks, Loader.StartLt)
    requires multiset(order) == multiset(chunks)
    ensures Collect.Assemble(Map(order, (c: Loader.Chunk) => Collect.Entry(c.startPage, text(c)))) == Join(Map(chunks, text), "\n")
  {
    var f := (c: Loader.Chunk) => Collect.Entry(c.startPage, text(c));
    var byOrder := Map(order, f);
    var byPage := Map(chunks, f);
    MapPerm(order, chunks, f);
    assert SortedBy(byPage, Collect.StartLe) by {
      forall i, j | 0 <= i < j < |byPage| ensures Collect.StartLe(byPage[i], byPage[j]) {
        assert Loader.StartLt(chunks[i], chunks[j]);
      }
    }
    assert Collect.DistinctStarts(byPage) by {
      forall i, j | 0 <= i < j < |byPage| ensures byPage[i].start != byPage[j].start {
        assert Loader.StartLt(chunks[i], chunks[j]);
      }
    }
    Collect.AssembleOrderFree(byPage, byOrder);
    SortByIdentity(byPage, Collect.StartLe);
    assert Collect.TextsOf(byPage) == Map(chunks, text);
  }

  /** However the chunks finish, when the run is not cancelled the document is every chunk's
      text in the loader's page order, joined by line breaks. */
  lemma {:induction false} ConvertInPageOrder(chunks: seq<Loader.Chunk>, order: seq<Loader.Chunk>, outcome: Loader.Chunk -> Outcome, cancelAt: Option<nat>)
    requires SortedBy(chunks, Loader.StartLt)
    requires multiset(order) == multiset(chunks)
    requires !Cancelled(order, cancelAt)
    ensures ConvertDocument(order, outcome, cancelAt) == Some(Join(Map(chunks, c => TextOf(outcome(c))), "\n"))
  {
    var text := c => TextOf(outcome(c));
    assert order[..|order|] == order;
    assert Collected(order, outcome, cancelAt) == Map(order, (c: Loader.Chunk) => Collect.Entry(c.startPage, text(c)));
    AssembleInPageOrder(chunks, order, text);
    assert Map(chunks, text) == Map(chunks, c => TextOf(outcome(c)));
  }

  /** A cancelled run writes no Markdown, whatever the chunks returned; before the flag was seen,
      exactly the chunks that finished had their results taken. */
  lemma {:induction false} CancelledSavesNothing(order: seq<Loader.Chunk>, outcome: Loader.Chunk -> Outcome, other: Loader.Chunk -> Outcome, cancelAt: Option<nat>)
    requires Cancelled(order, cancelAt)
    ensures ConvertDocument(order, outcome, cancelAt) == ConvertDocument(order, other, cancelAt) == None
    ensures |Collected(order, outcome, cancelAt)| == cancelAt.value
  {
  }

  // ------------------------------------------------------------ progress

  /** `sum(chunk.end_page - chunk.start_page + 1 for chunk in chunks)` */
  function TotalPages(chunks: seq<Loader.Chunk>): int
  {
    SumOf(chunks, Loader.Pages)
  }

  /** `int((pages_done / total_pages) * 100)` on exact numbers. */
  function Percent(done: nat, total: nat): (p: nat)
    requires total > 0
  {
    done * 100 / total
  }

  /** The percentage lies in [0, 100] while the pages done do not exceed the total, is 100 when
      they reach it, and never goes down as pages are done. */
  lemma {:induction false} PercentBounds(done: nat, later: nat, total: nat)
    requires total > 0 && done <= later
    ensures done <= total ==> Percent(done, total) <= 100
    ensures Percent(total, total) == 100
    ensures Percent(done, total) <= Percent(later, total)
  {
    MulDivCancel(100, total);
    assert total * 100 == 100 * total;
    if done <= total {
      Loader.MulMono(done, total, 100);
      DivMono(done * 100, total * 100, total);
    }
    Loader.MulMono(done, later, 100);
    DivMono(done * 100, later * 100, total);
  }

  lemma {:induction false} DivMono(a: nat, b: nat, d: nat)
    requires a <= b && d > 0
    ensures a / d <= b / d
  {
    var q1 := a / d;
    var q2 := b / d;
    Loader.DivBounds(a, d);
    Loader.DivBounds(b, d);
    if q1 > q2 {
      Loader.MulMono(q2 + 1, q1, d);
      Loader.MulStep(q2, d);
    }
  }

  lemma {:induction false} MulDivCancel(k: nat, d: nat)
    requires d > 0
    ensures (k * d) / d == k
  {
    var q := (k * d) / d;
    Loader.DivBounds(k * d, d);
    if q < k {
      Loader.MulMono(q + 1, k, d);
      Loader.MulStep(q, d);
    } else if q > k {
      Loader.MulMono(k + 1, q, d);
      Loader.MulStep(k, d);
    }
  }

  /** The pages done after the loop has taken `k` results. */
  function PagesDone(order: seq<Loader.Chunk>, k: nat): int
    requires k <= |order|
  {
    SumOf(order[..k], Loader.Pages)
  }

  /** When the loader's chunks all finish, in any order, the pages done reach the document's
      page count and the last progress report says 100 percent. */
  lemma {:induction false} ProgressCompletes(total: nat, size: nat, order: seq<Loader.Chunk>)
    requires size > 0 && total > 0
    requires multiset(order) == multiset(Loader.Chunks(total, size))
    ensures TotalPages(Loader.Chunks(total, size)) == total
    ensures PagesDone(order, |order|) == total
    ensures Percent(total, total) == 100
  {
    Loader.ChunksHoldAllPages(total, size);
    assert order[..|order|] == order;
    SumOfPerm(order, Loader.Chunks(total, size), Loader.Pages);
  }
}

=== FILE: artifacts.dfy ===
/**
 The blacklist line cleaner: lines that a blacklist pattern matches are
 dropped, the rest are joined back in order, and a trailing standalone page
 number is cut off. The blacklist's regular expressions are opaque here:
 `search(pattern, line)` stands for `re.search` with IGNORECASE.
 */
module Artifacts {
  import opened Common
  import opened Seqs

  /** `_is_garbage`: the patterns are tried in order and the first one that finds a match decides. */
  function IsGarbage(patterns: seq<string>, search: (string, string) -> bool, line: string): (g: bool)
    ensures g <==> exists k :: 0 <= k < |patterns| && search(patterns[k], line)
  {
    if |patterns| == 0 then false
    else if search(patterns[0], line) then true
    else
      var g := IsGarbage(patterns[1..], search, line);
      assert forall k :: 1 <= k < |patterns| ==> patterns[1..][k - 1] == patterns[k];
      g
  }

  function Keeps(patterns: seq<string>, search: (string, string) -> bool): string -> bool
  {
    (line: string) => !IsGarbage(patterns, search, line)
  }

  predicate AllDigits(s: string) { forall k :: 0 <= k < |s| ==> IsDigit(s[k]) }

  /** `t` is matched in full by `\s*\d+\s*`. */
  predicate NumberLine(t: string)
  {
    exists i, j :: 0 <= i < j <= |t| && IsBlank(t[..i]) && AllDigits(t[i..j]) && IsBlank(t[j..])
  }

  /** `(?:^|\n)\s*\d+\s*$` matches from position `p` of `s`. */
  predicate NumberLineAt(s: string, p: nat)
    requires p <= |s|
  {
    (p == 0 && NumberLine(s)) || (p < |s| && s[p] == '\n' && NumberLine(s[p + 1..]))
  }

  /** The leftmost position from `p` on where the trailing-number pattern matches. */
  function FirstNumberLine(s: string, p: nat): (r: Option<nat>)
    requires p <= |s|
    ensures r.Some? ==> p <= r.value < |s| && NumberLineAt(s, r.value)
    ensures forall q :: p <= q <= |s| && (r.Some? ==> q < r.value) ==> !NumberLineAt(s, q)
    decreases |s| - p
  {
    if NumberLineAt(s, p) then Some(p)
    else if p == |s| then None
    else FirstNumberLine(s, p + 1)
  }

  /** `re.sub(r'(?:^|\n)\s*\d+\s*$', '', s)`: the pattern can only match up to the end of the text,
      so everything from its leftmost match on is cut off. */
  function DropTrailingNumber(s: string): string
  {
    var m := FirstNumberLine(s, 0);
    if m.Some? then s[..m.value] else s
  }

  /** `clean_text`: nothing for an empty text; otherwise the lines no pattern matches, joined in order,
      with a trailing standalone number cut off. */
  function CleanText(patterns: seq<string>, search: (string, string) -> bool, text: string): string
  {
    if text == "" then ""
    else DropTrailingNumber(Join(KeptLines(patterns, search, text), "\n"))
  }

  // ---------------------------------------------------------------------
  // Properties.

  /** The trailing-number removal keeps a prefix of the text. What it removes is the leftmost match
      of the pattern: a text that is a whole number line, or a line break followed by one. When
      nothing is removed no position matches. */
  lemma {:induction false} DropTrailingNumberSpec(s: string)
    ensures var r := DropTrailingNumber(s);
      && IsPrefix(r, s)
      && (r != s ==> NumberLineAt(s, |r|) && forall q :: 0 <= q < |r| ==> !NumberLineAt(s, q))
      && (r == s <==> forall q :: 0 <= q <= |s| ==> !NumberLineAt(s, q))
  {
    var m := FirstNumberLine(s, 0);
    if m.Some? {
      assert |s[..m.value]| == m.value < |s|;
    }
  }

  /** A digit is never whitespace. */
  lemma {:induction false} DigitNotSpace(c: char)
    requires IsDigit(c)
    ensures !IsSpace(c)
  {
  }

  /** A number line is, stripped of surrounding whitespace, a non-empty run of digits. */
  lemma {:induction false} NumberLineStrip(t: string)
    ensures NumberLine(t) <==> |Strip(t)| > 0 && AllDigits(Strip(t))
  {
    var l := LStrip(t);
    var a := |t| - |l|;
    var r := RStrip(l);
    assert Strip(t) == r;
    if NumberLine(t) {
      var i, j :| 0 <= i < j <= |t| && IsBlank(t[..i]) && AllDigits(t[i..j]) && IsBlank(t[j..]);
      StripBounds(t, i, j);
    }
    if |r| > 0 && AllDigits(r) {
      assert t[a..a + |r|] == r;
      assert IsBlank(t[..a]);
      assert t[a + |r|..] == l[|r|..];
      assert NumberLine(t) by {
        assert 0 <= a < a + |r| <= |t| && IsBlank(t[..a]) && AllDigits(t[a..a + |r|]) && IsBlank(t[a + |r|..]);
      }
    }
  }

  /** Stripping a text made of blanks, digits `t[i..j]` and blanks leaves exactly the digits. */
  lemma {:induction false} StripBounds(t: string, i: nat, j: nat)
    requires i < j <= |t| && IsBlank(t[..i]) && AllDigits(t[i..j]) && IsBlank(t[j..])
    ensures Strip(t) == t[i..j]
  {
    var d := t[i..j];
    DigitNotSpace(d[0]);
    DigitNotSpace(d[|d| - 1]);
    StripBetween(t, i, j);
  }

  /** Stripping removes exactly the whitespace around the span from the first to the last
      non-whitespace character. */
  lemma {:induction false} StripBetween(t: string, i: nat, j: nat)
    requires i < j <= |t| && IsBlank(t[..i]) && IsBlank(t[j..]) && !IsSpace(t[i]) && !IsSpace(t[j - 1])
    ensures Strip(t) == t[i..j]
  {
    LStripAt(t, i);
    RStripFrom(t, i, j);
    StripUnfold(t);
  }

  lemma {:induction false} RStripFrom(t: string, i: nat, j: nat)
    requires i < j <= |t| && IsBlank(t[j..]) && !IsSpace(t[j - 1])
    ensures RStrip(t[i..]) == t[i..j]
  {
    var l := t[i..];
    assert l[j - i - 1] == t[j - 1];
    assert l[j - i..] == t[j..];
    RStripAt(l, j - i);
    assert l[..j - i] == t[i..j];
  }

  lemma {:induction false} StripUnfold(t: string)
    ensures Strip(t) == RStrip(LStrip(t))
  {
  }

  /** Left-stripping stops at the first non-whitespace character. */
  lemma {:induction false} LStripAt(t: string, i: nat)
    requires i < |t| && IsBlank(t[..i]) && !IsSpace(t[i])
    ensures LStrip(t) == t[i..]
  {
    var l := LStrip(t);
    var a := |t| - |l|;
    assert forall k :: 0 <= k < a ==> IsSpace(t[k]) by {
      forall k | 0 <= k < a ensures IsSpace(t[k]) {
        assert t[..a][k] == t[k];
      }
    }
    assert a <= i;
    assert forall k :: 0 <= k < i ==> IsSpace(t[k]) by {
      forall k | 0 <= k < i ensures IsSpace(t[k]) {
        assert t[..i][k] == t[k];
      }
    }
    assert l[0] == t[a];
  }

  /** Right-stripping stops after the last non-whitespace character. */
  lemma {:induction false} RStripAt(l: string, n: nat)
    requires 0 < n <= |l| && IsBlank(l[n..]) && !IsSpace(l[n - 1])
    ensures RStrip(l) == l[..n]
  {
    var r := RStrip(l);
    var b := |r|;
    assert forall k :: b <= k < |l| ==> IsSpace(l[k]) by {
      forall k | b <= k < |l| ensures IsSpace(l[k]) {
        assert l[b..][k - b] == l[k];
      }
    }
    assert n <= b;
    assert forall k :: n <= k < |l| ==> IsSpace(l[k]) by {
      forall k | n <= k < |l| ensures IsSpace(l[k]) {
        assert l[n..][k - n] == l[k];
      }
    }
    assert r[b - 1] == l[b - 1];
  }

  /** An empty text cleans to an empty text. */
  lemma {:induction false} CleanTextEmpty(patterns: seq<string>, search: (string, string) -> bool)
    ensures CleanText(patterns, search, "") == ""
  {
  }

  /** The lines of `text` that no pattern matches, in order. */
  function KeptLines(patterns: seq<string>, search: (string, string) -> bool, text: string): (kept: seq<string>)
    ensures forall k :: 0 <= k < |kept| ==> '\n' !in kept[k]
  {
    var lines := Split(text, '\n');
    var kept := Filter(lines, Keeps(patterns, search));
    assert forall k :: 0 <= k < |kept| ==> kept[k] in lines;
    kept
  }

  /** The kept lines are the lines no pattern matches, in their original order. */
  lemma {:induction false} KeptLinesSpec(patterns: seq<string>, search: (string, string) -> bool, text: string)
    ensures var lines := Split(text, '\n');
      var kept := KeptLines(patterns, search, text);
      && IsSubseq(kept, lines)
      && forall line :: line in kept <==> line in lines && !IsGarbage(patterns, search, line)
  {
    FilterIsSubseq(Split(text, '\n'), Keeps(patterns, search));
  }

  /** The cleaned text is a prefix of the kept lines joined in their original order, and each of
      its lines is one of the kept lines, so none of them is matched by a pattern. */
  lemma {:induction false} CleanTextKeepsLines(patterns: seq<string>, search: (string, string) -> bool, text: string)
    requires text != ""
    ensures var kept := KeptLines(patterns, search, text);
      var r := CleanText(patterns, search, text);
      && IsPrefix(r, Join(kept, "\n"))
      && (r == "" || forall line :: line in Split(r, '\n') ==> line in kept && !IsGarbage(patterns, search, line))
  {
    var kept := KeptLines(patterns, search, text);
    var joined := Join(kept, "\n");
    var r := CleanText(patterns, search, text);
    assert r == DropTrailingNumber(joined);
    DropTrailingNumberSpec(joined);
    KeptLinesSpec(patterns, search, text);
    if r != "" {
      assert r == joined[..|r|];
      LinesOfPrefix(kept, joined, |r|);
    }
  }

  /** A non-empty prefix of joined lines that stops at a line break (or at the end) splits into a
      prefix of those lines. */
  lemma {:induction false} LinesOfPrefix(kept: seq<string>, joined: string, p: nat)
    requires forall k :: 0 <= k < |kept| ==> '\n' !in kept[k]
    requires joined == Join(kept, "\n")
    requires 0 < p <= |joined| && (p == |joined| || joined[p] == '\n')
    ensures forall line :: line in Split(joined[..p], '\n') ==> line in kept
  {
    if |kept| == 0 {
      assert false;
    }
    SplitJoin(kept, '\n');
    assert "\n" == ['\n'];
    if p < |joined| {
      assert joined == joined[..p] + ['\n'] + joined[p + 1..];
      SplitAround(joined[..p], joined[p + 1..], '\n');
    } else {
      assert joined[..p] == joined;
    }
  }

  /** With no line matched by any pattern and no trailing number, cleaning gives the text back. */
  lemma {:induction false} CleanTextKeepsClean(patterns: seq<string>, search: (string, string) -> bool, text: string)
    requires forall line :: line in Split(text, '\n') ==> !IsGarbage(patterns, search, line)
    requires forall q :: 0 <= q <= |text| ==> !NumberLineAt(text, q)
    ensures CleanText(patterns, search, text) == text
  {
    if text != "" {
      var lines := Split(text, '\n');
      FilterAll(lines, Keeps(patterns, search));
      JoinSplit(text, '\n');
      assert "\n" == ['\n'];
      DropTrailingNumberSpec(text);
    }
  }
}

=== FILE: chars.dfy ===
/**
 Rebuilding words from the single glyphs a PDF library reports
 (`CharacterReconstructor` in engine_neural.py). Glyphs of a line are put in
 x order, glyphs with no visible text are dropped, and a glyph joins the word
 under construction when the gap to the glyph before it is at most a fifth of
 its own font size. Unicode normalisation of glyph text is the identity here.
 */
module Glyphs {
  import opened Common
  import opened Seqs
  import opened Geometry

  /** A glyph joins the current word when its gap is at most this fraction of its font size. */
  const GapFactor: real := 0.20

  /** Glyphs whose rounded tops differ by at most this many points share a line. */
  const LineTolerance: int := 3

  /** A glyph with visible text (Python: `text and not text.isspace()`, i.e. `text.strip()`). */
  predicate Inked(g: Word) { !IsBlank(g.text) }

  function X0Le(a: Word, b: Word): bool { a.x0 <= b.x0 }

  lemma {:induction false} X0LeTotal()
    ensures TotalPreorder(X0Le)
  {
  }

  /** Horizontal gap between the previous glyph and `g`. */
  function Gap(prev: Word, g: Word): real { g.x0 - prev.x1 }

  /** `g` continues the word `run`: the gap from its last glyph is within the threshold. */
  function JoinsWord(run: seq<Word>, g: Word): bool
  {
    |run| > 0 && Gap(run[|run| - 1], g) <= g.size * GapFactor
  }

  /** The concatenated text of a sequence of glyphs or words. */
  function Texts(ws: seq<Word>): string
  {
    if |ws| == 0 then "" else Texts(ws[..|ws| - 1]) + ws[|ws| - 1].text
  }

  lemma {:induction false} TextsAppend(a: seq<Word>, b: seq<Word>)
    ensures Texts(a + b) == Texts(a) + Texts(b)
  {
    if |b| == 0 {
      assert a + b == a;
    } else {
      var b0 := b[..|b| - 1];
      assert (a + b)[..|a + b| - 1] == a + b0;
      TextsAppend(a, b0);
    }
  }

  lemma {:induction false} TextsSnoc(ws: seq<Word>, w: Word)
    ensures Texts(ws + [w]) == Texts(ws) + w.text
  {
    assert (ws + [w])[..|ws|] == ws;
  }

  /** Text made of pieces with at least one visible character is itself not blank. */
  lemma {:induction false} TextsInked(ws: seq<Word>, i: int)
    requires 0 <= i < |ws| && Inked(ws[i])
    ensures !IsBlank(Texts(ws))
  {
    var n := |ws| - 1;
    if i == n {
      var k :| 0 <= k < |ws[n].text| && !IsSpace(ws[n].text[k]);
      assert Texts(ws)[|Texts(ws[..n])| + k] == ws[n].text[k];
    } else {
      TextsInked(ws[..n], i);
      var t := Texts(ws[..n]);
      var k :| 0 <= k < |t| && !IsSpace(t[k]);
      assert Texts(ws)[k] == t[k];
    }
  }

  function Sizes(ws: seq<Word>): (r: seq<real>)
    ensures |r| == |ws| && forall i :: 0 <= i < |ws| ==> r[i] == ws[i].size
  {
    Map(ws, (w: Word) => w.size)
  }

  /**
   One word from the glyphs of a run (`_build_word_dict`): the texts joined,
   the left edge of the first glyph, the right edge of the last, the highest
   top, the lowest bottom and the mean font size.
   */
  function BuildWord(run: seq<Word>): (w: Word)
    requires |run| > 0
    ensures w.x0 == run[0].x0 && w.x1 == run[|run| - 1].x1
  {
    Word(Texts(run), run[0].x0, run[|run| - 1].x1, MinOf(Tops(run)), MaxOf(Bottoms(run)), Mean(Sizes(run)))
  }

  /** A word's box spans its glyphs vertically: its top is the highest glyph top, its bottom the lowest glyph bottom. */
  lemma {:induction false} BuildWordExtent(run: seq<Word>)
    requires |run| > 0
    ensures var w := BuildWord(run);
      && (forall i :: 0 <= i < |run| ==> w.top <= run[i].top && run[i].bottom <= w.bottom)
      && (exists i :: 0 <= i < |run| && w.top == run[i].top)
      && (exists i :: 0 <= i < |run| && w.bottom == run[i].bottom)
  {
    var w := BuildWord(run);
    assert w.top in Tops(run) && w.bottom in Bottoms(run);
  }

  /** A word's font size, the mean of its glyphs' sizes, lies between the smallest and the largest. */
  lemma {:induction false} BuildWordSize(run: seq<Word>)
    requires |run| > 0
    ensures MinOf(Sizes(run)) <= BuildWord(run).size <= MaxOf(Sizes(run))
  {
    MeanBetween(Sizes(run));
  }

  /** The visible glyphs in left-to-right order (a stable sort, as Python's `sorted`). */
  function InkedByX(chars: seq<Word>): seq<Word>
  {
    Filter(SortBy(chars, X0Le), Inked)
  }

  /** The glyph runs that become words. */
  function GlyphRuns(chars: seq<Word>): seq<seq<Word>>
  {
    GroupRuns(InkedByX(chars), JoinsWord)
  }

  /** One word per run, in order. */
  function BuildWords(runs: seq<seq<Word>>): (words: seq<Word>)
    requires forall k :: 0 <= k < |runs| ==> |runs[k]| > 0
    ensures |words| == |runs|
    ensures forall k :: 0 <= k < |runs| ==> words[k] == BuildWord(runs[k])
  {
    seq(|runs|, k requires 0 <= k < |runs| => BuildWord(runs[k]))
  }

  /** `_merge_chars_to_words`. */
  function MergeCharsToWords(chars: seq<Word>): (words: seq<Word>)
  {
    BuildWords(GlyphRuns(chars))
  }

  lemma {:induction false} TextsOfRuns(runs: seq<seq<Word>>)
    requires forall k :: 0 <= k < |runs| ==> |runs[k]| > 0
    ensures Texts(BuildWords(runs)) == Texts(Flatten(runs))
  {
    if |runs| > 0 {
      var n := |runs| - 1;
      var r0 := runs[..n];
      var last := runs[n];
      SnocEq(BuildWords(runs), BuildWords(r0), BuildWord(last));
      calc {
        Texts(BuildWords(runs));
        Texts(BuildWords(r0) + [BuildWord(last)]);
        { TextsSnoc(BuildWords(r0), BuildWord(last)); }
        Texts(BuildWords(r0)) + Texts(last);
        { TextsOfRuns(r0); }
        Texts(Flatten(r0)) + Texts(last);
        { TextsAppend(Flatten(r0), last); }
        Texts(Flatten(r0) + last);
        { FlattenAppend(r0, last); SnocSplit(runs); }
        Texts(Flatten(runs));
      }
    }
  }

  /**
   Merging loses and invents no text: the words, read in order, spell out the
   visible glyphs read left to right.
   */
  lemma {:induction false} MergeKeepsText(chars: seq<Word>)
    ensures Texts(MergeCharsToWords(chars)) == Texts(InkedByX(chars))
  {
    GroupRunsFlatten(InkedByX(chars), JoinsWord);
    TextsOfRuns(GlyphRuns(chars));
  }

  /**
   Inside a word every glyph sits within a fifth of its font size of the glyph
   before it; at every word break the gap is larger than that.
   */
  lemma {:induction false} MergeGapRule(chars: seq<Word>)
    ensures var runs := GlyphRuns(chars);
      && (forall k, i :: 0 <= k < |runs| && 0 < i < |runs[k]| ==>
            Gap(runs[k][i - 1], runs[k][i]) <= runs[k][i].size * GapFactor)
      && (forall k :: 0 < k < |runs| ==>
            Gap(runs[k - 1][|runs[k - 1]| - 1], runs[k][0]) > runs[k][0].size * GapFactor)
  {
    var runs := GlyphRuns(chars);
    GroupRunsCuts(InkedByX(chars), JoinsWord);
    forall k, i | 0 <= k < |runs| && 0 < i < |runs[k]|
      ensures Gap(runs[k][i - 1], runs[k][i]) <= runs[k][i].size * GapFactor
    {
      assert JoinsWord(runs[k][..i], runs[k][i]);
      assert runs[k][..i][i - 1] == runs[k][i - 1];
    }
  }

  /** Every word has visible text, and there are words exactly when some glyph is visible. */
  lemma {:induction false} MergeWordsInked(chars: seq<Word>)
    ensures forall k :: 0 <= k < |MergeCharsToWords(chars)| ==> !IsBlank(MergeCharsToWords(chars)[k].text)
    ensures MergeCharsToWords(chars) == [] <==> forall c :: c in chars ==> !Inked(c)
  {
    var ink := InkedByX(chars);
    var runs := GlyphRuns(chars);
    GroupRunsFlatten(ink, JoinsWord);
    SortByMembers(chars, X0Le);
    forall k | 0 <= k < |runs| ensures !IsBlank(MergeCharsToWords(chars)[k].text) {
      FlattenHas(runs, k, 0);
      assert runs[k][0] in ink;
      TextsInked(runs[k], 0);
    }
    if forall c :: c in chars ==> !Inked(c) {
      FilterNone(SortBy(chars, X0Le), Inked);
    } else {
      var c :| c in chars && Inked(c);
      assert c in ink;
    }
  }

  /** An element of a run is an element of the flattened runs. */
  lemma {:induction false} FlattenHas<T>(ss: seq<seq<T>>, k: int, i: int)
    requires 0 <= k < |ss| && 0 <= i < |ss[k]|
    ensures ss[k][i] in Flatten(ss)
  {
    var n := |ss| - 1;
    assert ss == ss[..n] + [ss[n]];
    FlattenAppend(ss[..n], ss[n]);
    if k < n {
      FlattenHas(ss[..n], k, i);
    } else {
      assert Flatten(ss)[|Flatten(ss[..n])| + i] == ss[k][i];
    }
  }

  // ---------------------------------------------------------------------
  // Glyphs of a region, line by line.

  /** The line key: the rounded top edge (Python's `round`). */
  function LineY(g: Word): int { RoundHalfEven(g.top) }

  /** Python's sort key `(round(top), x0)`. */
  function LineLe(a: Word, b: Word): bool
  {
    LineY(a) < LineY(b) || (LineY(a) == LineY(b) && a.x0 <= b.x0)
  }

  lemma {:induction false} LineLeTotal()
    ensures TotalPreorder(LineLe)
  {
  }

  /** `g` stays on the line whose first glyph is `line[0]`. */
  function SameLine(line: seq<Word>, g: Word): bool
  {
    |line| > 0 && -LineTolerance <= LineY(g) - LineY(line[0]) <= LineTolerance
  }

  /** Visible glyphs whose top-left corner lies in the box. */
  function RegionGlyphs(chars: seq<Word>, box: BBox): seq<Word>
  {
    Filter(chars, (c: Word) => box.ContainsPoint(c.x0, c.top) && Inked(c))
  }

  /** The region's glyphs ordered by line then x, cut into lines. */
  function GlyphLines(chars: seq<Word>, box: BBox): seq<seq<Word>>
  {
    GroupRuns(SortBy(RegionGlyphs(chars, box), LineLe), SameLine)
  }

  /** `reconstruct_words_in_bbox`: the words of every line, line after line. */
  function ReconstructWordsInBbox(chars: seq<Word>, box: BBox): (words: seq<Word>)
  {
    Flatten(Map(GlyphLines(chars, box), MergeCharsToWords))
  }

  /** The lines hold exactly the region's glyphs, in (line, x) order. */
  lemma {:induction false} GlyphLinesCover(chars: seq<Word>, box: BBox)
    ensures multiset(Flatten(GlyphLines(chars, box))) == multiset(RegionGlyphs(chars, box))
    ensures SortedBy(Flatten(GlyphLines(chars, box)), LineLe)
  {
    GroupRunsFlatten(SortBy(RegionGlyphs(chars, box), LineLe), SameLine);
    LineLeTotal();
    SortBySorted(RegionGlyphs(chars, box), LineLe);
  }

  /**
   A line keeps every glyph whose rounded top is within the tolerance of the
   line's first glyph, and each new line starts with a glyph beyond it.
   */
  lemma {:induction false} GlyphLinesTolerance(chars: seq<Word>, box: BBox)
    ensures var lines := GlyphLines(chars, box);
      && (forall k, i :: 0 <= k < |lines| && 0 <= i < |lines[k]| ==>
            -LineTolerance <= LineY(lines[k][i]) - LineY(lines[k][0]) <= LineTolerance)
      && (forall k :: 0 < k < |lines| ==>
            !(-LineTolerance <= LineY(lines[k][0]) - LineY(lines[k - 1][0]) <= LineTolerance))
  {
    var lines := GlyphLines(chars, box);
    GroupRunsCuts(SortBy(RegionGlyphs(chars, box), LineLe), SameLine);
    forall k, i | 0 <= k < |lines| && 0 < i < |lines[k]|
      ensures -LineTolerance <= LineY(lines[k][i]) - LineY(lines[k][0]) <= LineTolerance
    {
      assert SameLine(lines[k][..i], lines[k][i]);
      assert lines[k][..i][0] == lines[k][0];
    }
    forall k | 0 < k < |lines|
      ensures !(-LineTolerance <= LineY(lines[k][0]) - LineY(lines[k - 1][0]) <= LineTolerance)
    {
      assert !SameLine(lines[k - 1], lines[k][0]);
    }
  }

  /** Every glyph of a line is visible, so merging a line re-sorts it by x and drops nothing. */
  lemma {:induction false} LineWordsKeepText(chars: seq<Word>, box: BBox, k: int)
    requires 0 <= k < |GlyphLines(chars, box)|
    ensures var line := GlyphLines(chars, box)[k];
      Texts(MergeCharsToWords(line)) == Texts(SortBy(line, X0Le)) && MergeCharsToWords(line) != []
  {
    var region := RegionGlyphs(chars, box);
    var sorted := SortBy(region, LineLe);
    var lines := GlyphLines(chars, box);
    var line := lines[k];
    GroupRunsFlatten(sorted, SameLine);
    SortByMembers(region, LineLe);
    forall i | 0 <= i < |line| ensures Inked(line[i]) {
      FlattenHas(lines, k, i);
    }
    var byX := SortBy(line, X0Le);
    SortByMembers(line, X0Le);
    forall i | 0 <= i < |byX| ensures Inked(byX[i]) {
      assert byX[i] in line;
    }
    FilterAll(byX, Inked);
    MergeKeepsText(line);
    MergeWordsInked(line);
    assert line[0] in line;
  }

  /** A box with no visible glyph in it yields no words, and one with a visible glyph yields some. */
  lemma {:induction false} ReconstructEmptyIff(chars: seq<Word>, box: BBox)
    ensures ReconstructWordsInBbox(chars, box) == [] <==>
      forall c :: c in chars ==> !(box.ContainsPoint(c.x0, c.top) && Inked(c))
  {
    var region := RegionGlyphs(chars, box);
    var sorted := SortBy(region, LineLe);
    var lines := GlyphLines(chars, box);
    var perLine := Map(lines, MergeCharsToWords);
    if exists c :: c in chars && box.ContainsPoint(c.x0, c.top) && Inked(c) {
      var c :| c in chars && box.ContainsPoint(c.x0, c.top) && Inked(c);
      assert c in region;
      assert |lines| > 0;
      LineWordsKeepText(chars, box, 0);
      FlattenHead(perLine);
    } else {
      FilterNone(chars, (c: Word) => box.ContainsPoint(c.x0, c.top) && Inked(c));
      assert perLine == [];
    }
  }

  /** When the first piece is non-empty, so is the flattening. */
  lemma {:induction false} FlattenHead<T>(ss: seq<seq<T>>)
    requires |ss| > 0 && |ss[0]| > 0
    ensures Flatten(ss) != []
  {
    FlattenHas(ss, 0, 0);
  }
}

=== FILE: classifier.dfy ===
/**
 The zone classifier of the hybrid table/chart extraction: the page's lines,
 rectangles and curves are gathered into one zone (their bounding box, when
 it is large enough), the zone is labelled TABLE, CHART or UNKNOWN from the
 kinds and angles of its objects, and the zones are routed to table
 extraction, chart cropping or plain text. A line's angle is computed with
 `atan` in the source; here it is part of the input.
 */
module Classifier {
  import opened Common
  import opened Seqs
  import opened Geometry

  datatype ContentType = Table | Chart | Text | Unknown

  datatype Kind = LineKind | RectKind | CurveKind

  /** A visual object of the page: its kind, its box and the angle of a line (`None` for curves). */
  datatype Obj = Obj(kind: Kind, box: BBox, angle: Option<real>)

  /** A zone: a box, its label, the confidence of the label and the objects it was built from. */
  datatype Zone = Zone(box: BBox, contentType: ContentType, confidence: real, objects: seq<Obj>)

  /** The library's records: a line with its (given) angle, a rectangle, a curve with or without `pts`. */
  datatype LineIn = LineIn(x0: real, top: real, x1: real, bottom: real, angle: real)
  datatype RectIn = RectIn(x0: real, top: real, x1: real, bottom: real)
  datatype CurveIn = CurveIn(pts: Option<seq<(real, real)>>)

  const MinZoneArea: real := 5000.0
  const DiagonalThreshold: nat := 5
  const CurveThreshold: nat := 0
  const MinRectsForTable: nat := 2

  /** `_is_axis_aligned`: horizontal or vertical within the tolerance. */
  predicate IsAxisAligned(angle: real, tolerance: real := 5.0)
  {
    angle <= tolerance || Abs(angle - 90.0) <= tolerance
  }

  /** Every angle within the tolerance of 0 or 90 degrees is axis-aligned, and one farther from both is not. */
  lemma {:induction false} AxisAlignedIff(angle: real, tolerance: real)
    ensures IsAxisAligned(angle, tolerance) <==> angle <= tolerance || (90.0 - tolerance <= angle <= 90.0 + tolerance)
  {
  }

  // ---------------------------------------------------------------------
  // Gathering the objects.

  function LineObj(l: LineIn): Obj { Obj(LineKind, BBox(l.x0, l.top, l.x1, l.bottom), Some(l.angle)) }

  function RectObj(r: RectIn): Obj { Obj(RectKind, BBox(r.x0, r.top, r.x1, r.bottom), Some(0.0)) }

  /** A curve contributes an object only when it has a non-empty `pts`. */
  predicate HasPoints(c: CurveIn) { c.pts.Some? && |c.pts.value| > 0 }

  function CurveObj(c: CurveIn): Obj
    requires HasPoints(c)
  {
    Obj(CurveKind, PointsBox(c.pts.value), None)
  }

  function CurveObjs(curves: seq<CurveIn>): (r: seq<Obj>)
    ensures |r| == CountIf(curves, HasPoints)
    ensures forall k :: 0 <= k < |r| ==> r[k].kind == CurveKind && r[k].angle.None?
  {
    if |curves| == 0 then []
    else
      var c := curves[|curves| - 1];
      CurveObjs(curves[..|curves| - 1]) + if HasPoints(c) then [CurveObj(c)] else []
  }

  /** The objects of `classify_page`: the lines, then the rectangles, then the curves that have points. */
  function Objects(lines: seq<LineIn>, rects: seq<RectIn>, curves: seq<CurveIn>): seq<Obj>
  {
    Map(lines, LineObj) + Map(rects, RectObj) + CurveObjs(curves)
  }

  function Count(objects: seq<Obj>, kind: Kind): nat
  {
    CountIf(objects, (o: Obj) => o.kind == kind)
  }

  /** Every line and rectangle becomes an object of its kind, and every curve with points one curve object. */
  lemma {:induction false} ObjectsCounts(lines: seq<LineIn>, rects: seq<RectIn>, curves: seq<CurveIn>)
    ensures var objs := Objects(lines, rects, curves);
      && |objs| == |lines| + |rects| + CountIf(curves, HasPoints)
      && Count(objs, LineKind) == |lines|
      && Count(objs, RectKind) == |rects|
      && Count(objs, CurveKind) == CountIf(curves, HasPoints)
  {
    var ls, rs, cs := Map(lines, LineObj), Map(rects, RectObj), CurveObjs(curves);
    var objs := ls + rs + cs;
    assert objs == Objects(lines, rects, curves);
    CountIfAppend(ls + rs, cs, (o: Obj) => o.kind == LineKind);
    CountIfAppend(ls, rs, (o: Obj) => o.kind == LineKind);
    CountIfAppend(ls + rs, cs, (o: Obj) => o.kind == RectKind);
    CountIfAppend(ls, rs, (o: Obj) => o.kind == RectKind);
    CountIfAppend(ls + rs, cs, (o: Obj) => o.kind == CurveKind);
    CountIfAppend(ls, rs, (o: Obj) => o.kind == CurveKind);
    KindCount(ls, LineKind, true);
    KindCount(ls, RectKind, false);
    KindCount(ls, CurveKind, false);
    KindCount(rs, RectKind, true);
    KindCount(rs, LineKind, false);
    KindCount(rs, CurveKind, false);
    KindCount(cs, CurveKind, true);
    KindCount(cs, LineKind, false);
    KindCount(cs, RectKind, false);
  }

  lemma {:induction false} KindCount(objs: seq<Obj>, kind: Kind, all: bool)
    requires forall k :: 0 <= k < |objs| ==> (objs[k].kind == kind) == all
    ensures Count(objs, kind) == if all then |objs| else 0
  {
    if all {
      CountIfAll(objs, (o: Obj) => o.kind == kind);
    } else {
      CountIfZero(objs, (o: Obj) => o.kind == kind);
    }
  }

  // ---------------------------------------------------------------------
  // Clustering.

  /** The bounding box of all objects. */
  function Bounds(objects: seq<Obj>): (b: BBox)
    requires |objects| > 0
    ensures forall k :: 0 <= k < |objects| ==> Encloses(b, objects[k].box)
    ensures forall c :: (forall k :: 0 <= k < |objects| ==> Encloses(c, objects[k].box)) ==> Encloses(c, b)
  {
    var last := objects[|objects| - 1].box;
    if |objects| == 1 then last
    else
      var init := objects[..|objects| - 1];
      assert forall k :: 0 <= k < |init| ==> init[k] == objects[k];
      Hull(Bounds(init), last)
  }

  /** `_cluster_objects`: at most one zone, the bounding box of all objects, kept when its area is at least 5000. */
  function ClusterObjects(objects: seq<Obj>): (zs: seq<Zone>)
    ensures |zs| <= 1
    ensures |zs| == 1 <==> |objects| > 0 && Bounds(objects).Area() >= MinZoneArea
    ensures |zs| == 1 ==> zs[0] == Zone(Bounds(objects), Unknown, 0.0, objects)
  {
    if |objects| == 0 then []
    else
      var zone := Zone(Bounds(objects), Unknown, 0.0, objects);
      if zone.box.Area() >= MinZoneArea then [zone] else []
  }

  // ---------------------------------------------------------------------
  // Labelling.

  function Curves(objects: seq<Obj>): nat { Count(objects, CurveKind) }

  function Rects(objects: seq<Obj>): nat { Count(objects, RectKind) }

  /** Lines with an angle that is not axis-aligned. */
  function Diagonals(objects: seq<Obj>): nat
  {
    CountIf(objects, (o: Obj) => o.kind == LineKind && o.angle.Some? && !IsAxisAligned(o.angle.value))
  }

  /** Lines with an axis-aligned angle. */
  function AxisLines(objects: seq<Obj>): nat
  {
    CountIf(objects, (o: Obj) => o.kind == LineKind && o.angle.Some? && IsAxisAligned(o.angle.value))
  }

  /** `_classify_zone`. The rules apply in order: no objects is TEXT; any curve, or more than five
      diagonal lines, is CHART; at least two rectangles or four axis-aligned lines is TABLE; anything
      else is UNKNOWN. */
  function ClassifyZone(objects: seq<Obj>): (t: ContentType)
    ensures t == Text <==> |objects| == 0
    ensures t == Chart <==> |objects| > 0 && (Curves(objects) > CurveThreshold || Diagonals(objects) > DiagonalThreshold)
    ensures t == Table <==> |objects| > 0 && Curves(objects) == 0 && Diagonals(objects) <= DiagonalThreshold
                            && (Rects(objects) >= MinRectsForTable || AxisLines(objects) >= 4)
  {
    if |objects| == 0 then Text
    else if Curves(objects) > CurveThreshold then Chart
    else if Diagonals(objects) > DiagonalThreshold then Chart
    else if Rects(objects) >= MinRectsForTable || AxisLines(objects) >= 4 then Table
    else Unknown
  }

  /** Lines and rectangles alone, none diagonal, never make a chart. */
  lemma {:induction false} StraightObjectsNeverChart(objects: seq<Obj>)
    requires forall k :: 0 <= k < |objects| ==> objects[k].kind != CurveKind
    requires forall k :: 0 <= k < |objects| ==> objects[k].angle.Some? && IsAxisAligned(objects[k].angle.value)
    ensures ClassifyZone(objects) != Chart
  {
    CountIfZero(objects, (o: Obj) => o.kind == CurveKind);
    CountIfZero(objects, (o: Obj) => o.kind == LineKind && o.angle.Some? && !IsAxisAligned(o.angle.value));
  }

  /** `_calculate_confidence`: 0 for UNKNOWN, 0.5 plus 0.1 per curve for CHART and plus 0.05 per
      rectangle for TABLE (capped at 1), and 0.5 for TEXT. */
  function Confidence(t: ContentType, objects: seq<Obj>): (c: real)
    ensures 0.0 <= c <= 1.0
    ensures t == Unknown <==> c == 0.0
    ensures t == Chart ==> c == Min(0.5 + Curves(objects) as real * 0.1, 1.0)
    ensures t == Table ==> c == Min(0.5 + Rects(objects) as real * 0.05, 1.0)
  {
    match t
    case Unknown => 0.0
    case Chart => Min(0.5 + Curves(objects) as real * 0.1, 1.0)
    case Table => Min(0.5 + Rects(objects) as real * 0.05, 1.0)
    case Text => 0.5
  }

  /** More curves never lower a chart's confidence, more rectangles never lower a table's, and from five
      curves (ten rectangles) on the confidence is full. */
  lemma {:induction false} ConfidenceMonotone(t: ContentType, a: seq<Obj>, b: seq<Obj>)
    requires t == Chart ==> Curves(a) <= Curves(b)
    requires t == Table ==> Rects(a) <= Rects(b)
    ensures Confidence(t, a) <= Confidence(t, b)
    ensures t == Chart && Curves(a) >= 5 ==> Confidence(t, a) == 1.0
    ensures t == Table && Rects(a) >= 10 ==> Confidence(t, a) == 1.0
  {
  }

  /** `classify_page`: nothing without the PDF library or without objects; otherwise the clustered
      zones, each labelled from its own objects and given the matching confidence. */
  function ClassifyPage(available: bool, lines: seq<LineIn>, rects: seq<RectIn>, curves: seq<CurveIn>): (zs: seq<Zone>)
    ensures |zs| <= 1
    ensures !available ==> zs == []
    ensures forall k :: 0 <= k < |zs| ==>
      && zs[k].objects == Objects(lines, rects, curves)
      && |zs[k].objects| > 0
      && zs[k].box == Bounds(zs[k].objects)
      && zs[k].contentType == ClassifyZone(zs[k].objects)
      && zs[k].confidence == Confidence(zs[k].contentType, zs[k].objects)
  {
    if !available then []
    else
      var objs := Objects(lines, rects, curves);
      if |objs| == 0 then []
      else
        var zones := ClusterObjects(objs);
        Map(zones, Labelled)
  }

  function Labelled(z: Zone): Zone
  {
    var t := ClassifyZone(z.objects);
    z.(contentType := t, confidence := Confidence(t, z.objects))
  }

  /** A classified page never holds a TEXT zone (zones always hold objects), and a page yields a zone
      exactly when it has objects whose bounding box is large enough. */
  lemma {:induction false} ClassifyPageNeverText(available: bool, lines: seq<LineIn>, rects: seq<RectIn>, curves: seq<CurveIn>)
    ensures var zs := ClassifyPage(available, lines, rects, curves);
      var objs := Objects(lines, rects, curves);
      && (forall k :: 0 <= k < |zs| ==> zs[k].contentType != Text)
      && (|zs| == 1 <==> available && |objs| > 0 && Bounds(objs).Area() >= MinZoneArea)
  {
  }

  // ---------------------------------------------------------------------
  // Routing.

  /** The buckets of `classify_and_route`; a chart is paired with the path of its cropped image, if any. */
  datatype Routed = Routed(tables: seq<Zone>, charts: seq<(Zone, Option<string>)>, textZones: seq<Zone>)

  /** The image name `chart_p{page}_{int(x0)}_{int(y0)}.png`. */
  function ChartImageName(pageNum: int, z: Zone): string
  {
    "chart_p" + IntToString(pageNum) + "_" + IntToString(Trunc(z.box.x0)) + "_" + IntToString(Trunc(z.box.y0)) + ".png"
  }

  predicate IsTable(z: Zone) { z.contentType == Table }

  predicate IsChart(z: Zone) { z.contentType == Chart }

  predicate IsOther(z: Zone) { z.contentType != Table && z.contentType != Chart }

  /** The chart's image: cropped to the named file when both paths are given, else none. `crop` stands
      for `crop_zone_to_image`, which gives `None` when rendering fails. */
  function ChartImage(pageNum: int, canCrop: bool, crop: (Zone, string) -> Option<string>, z: Zone): Option<string>
  {
    if canCrop then crop(z, ChartImageName(pageNum, z)) else None
  }

  function ChartZone(c: (Zone, Option<string>)): Zone { c.0 }

  /** `classify_and_route`'s loop over the zones. */
  function Route(zones: seq<Zone>, pageNum: int, canCrop: bool, crop: (Zone, string) -> Option<string>): (r: Routed)
    ensures r.tables == Filter(zones, IsTable)
    ensures r.textZones == Filter(zones, IsOther)
    ensures forall k :: 0 <= k < |r.charts| ==> r.charts[k].1 == ChartImage(pageNum, canCrop, crop, r.charts[k].0)
  {
    if |zones| == 0 then Routed([], [], [])
    else
      var z := zones[|zones| - 1];
      var r := Route(zones[..|zones| - 1], pageNum, canCrop, crop);
      var r' :=
        if z.contentType == Table then r.(tables := r.tables + [z])
        else if z.contentType == Chart then r.(charts := r.charts + [(z, ChartImage(pageNum, canCrop, crop, z))])
        else r.(textZones := r.textZones + [z]);
      r'
  }

  /** The chart bucket holds the CHART zones in their order. */
  lemma {:induction false} RouteCharts(zones: seq<Zone>, pageNum: int, canCrop: bool, crop: (Zone, string) -> Option<string>)
    ensures Map(Route(zones, pageNum, canCrop, crop).charts, ChartZone) == Filter(zones, IsChart)
  {
    if |zones| > 0 {
      var z := zones[|zones| - 1];
      var init := zones[..|zones| - 1];
      RouteCharts(init, pageNum, canCrop, crop);
      var charts := Route(init, pageNum, canCrop, crop).charts;
      var added := if IsChart(z) then [(z, ChartImage(pageNum, canCrop, crop, z))] else [];
      assert Route(zones, pageNum, canCrop, crop).charts == charts + added;
      MapAppend(charts, added, ChartZone);
    }
  }

  /** Every zone lands in exactly one bucket, the one its label names, and the bucket sizes add up. */
  lemma {:induction false} RoutePartition(zones: seq<Zone>, pageNum: int, canCrop: bool, crop: (Zone, string) -> Option<string>, z: Zone)
    requires z in zones
    ensures var r := Route(zones, pageNum, canCrop, crop);
      && (z in r.tables <==> z.contentType == Table)
      && (z in Map(r.charts, ChartZone) <==> z.contentType == Chart)
      && (z in r.textZones <==> z.contentType != Table && z.contentType != Chart)
  {
    RouteCharts(zones, pageNum, canCrop, crop);
  }

  lemma {:induction false} RouteSizes(zones: seq<Zone>, pageNum: int, canCrop: bool, crop: (Zone, string) -> Option<string>)
    ensures var r := Route(zones, pageNum, canCrop, crop);
      |r.tables| + |r.charts| + |r.textZones| == |zones|
  {
    if |zones| > 0 {
      RouteSizes(zones[..|zones| - 1], pageNum, canCrop, crop);
    }
  }

  /** `get_tables` and `get_charts` select the same zones the routing puts in its table and chart buckets. */
  function GetTables(zones: seq<Zone>): (r: seq<Zone>)
    ensures forall z :: z in r <==> z in zones && z.contentType == Table
  {
    Filter(zones, IsTable)
  }

  function GetCharts(zones: seq<Zone>): (r: seq<Zone>)
    ensures forall z :: z in r <==> z in zones && z.contentType == Chart
  {
    Filter(zones, IsChart)
  }

  /** Routing a classified page: tables and charts are what the getters return, and what is routed as
      text is never a TEXT zone but an UNKNOWN one. */
  lemma {:induction false} RoutePage(available: bool, lines: seq<LineIn>, rects: seq<RectIn>, curves: seq<CurveIn>,
                                     pageNum: int, canCrop: bool, crop: (Zone, string) -> Option<string>)
    ensures var zs := ClassifyPage(available, lines, rects, curves);
      var r := Route(zs, pageNum, canCrop, crop);
      && r.tables == GetTables(zs)
      && Map(r.charts, ChartZone) == GetCharts(zs)
      && forall z :: z in r.textZones ==> z.contentType == Unknown
  {
    var zs := ClassifyPage(available, lines, rects, curves);
    ClassifyPageNeverText(available, lines, rects, curves);
    RouteCharts(zs, pageNum, canCrop, crop);
    var r := Route(zs, pageNum, canCrop, crop);
    assert forall z :: z in r.textZones ==> z in zs;
  }
}

=== FILE: cli.dfy ===
/**
 The command line's conversion: its own per-chunk worker and its own
 collection of the chunks' results. The worker differs from the web
 service's pipeline: any OCR text that differs from the raw text replaces the
 page, under a heading marked "(OCR)"; the structured text is extracted
 without skipping any region; tables always come from the table extractor.
 A chunk whose worker future raised is left out of the document; a worker
 that caught its own error contributes its error marker. No file is written
 when no chunk's future returned.
 */
module Cli {
  import opened Common
  import opened Seqs
  import Loader
  import Controller
  import Api
  import Collect

  /** What the collaborators give for one page: the raw character text, the OCR engine's text
      (the raw text itself when OCR did not run), the structured text of the cropped page, the
      table extractor's tables, the image links and the visual extractor's chart links. */
  datatype WorkerInput = WorkerInput(
    raw: string,
    ocr: string,
    structured: string,
    tables: seq<string>,
    images: seq<string>,
    visuals: seq<string>)

  function OcrHeading(n: nat): string
  {
    "\n\n## Page " + NatToString(n) + " (OCR)\n\n"
  }

  /** The Markdown of page number `n`. Its first line is the OCR heading exactly when the OCR
      text differs from the raw text (an empty OCR text included), the plain heading otherwise. */
  function WorkerPage(chartsEnabled: bool, clean: string -> string, n: nat, p: WorkerInput): (r: string)
    ensures p.ocr != p.raw <==> IsPrefix(OcrHeading(n), r)
    ensures p.ocr == p.raw ==> IsPrefix(Controller.Heading(n), r)
  {
    var lead := "\n\n## Page " + NatToString(n);
    var body := Controller.Body(if chartsEnabled then p.visuals else [], p.images, p.tables, clean(p.structured));
    HeadingsShareLead(n, lead);
    PrefixOfAppend(OcrHeading(n), clean(p.ocr) + "\n");
    PrefixOfAppend(Controller.Heading(n), body);
    Diverge(lead, ' ', "(OCR)\n\n", '\n', body);
    if p.ocr != p.raw then OcrHeading(n) + clean(p.ocr) + "\n"
    else Controller.Heading(n) + body
  }

  lemma {:induction false} HeadingsShareLead(n: nat, lead: string)
    requires lead == "\n\n## Page " + NatToString(n)
    ensures OcrHeading(n) == lead + [' '] + "(OCR)\n\n"
    ensures Controller.Heading(n) == lead + ['\n']
  {
  }

  lemma {:induction false} PrefixOfAppend<T>(a: seq<T>, b: seq<T>)
    ensures IsPrefix(a, a + b)
  {
    assert (a + b)[..|a|] == a;
  }

  /** Two sequences that part after a common lead are not prefixes of one another. */
  lemma {:induction false} Diverge<T>(lead: seq<T>, x: T, xs: seq<T>, y: T, ys: seq<T>)
    requires x != y
    ensures !IsPrefix(lead + [x] + xs, lead + [y] + ys)
    ensures !IsPrefix(lead + [x] + xs, (lead + [y]) + ys)
  {
    assert (lead + [x] + xs)[|lead|] == x;
    assert (lead + [y] + ys)[|lead|] == y;
    assert lead + [y] + ys == (lead + [y]) + ys;
  }

  /** The command line and the web service decide differently about OCR only for a page whose OCR
      text is empty while its raw text is not: the command line then emits an empty OCR page. */
  lemma {:induction false} OcrDecisionsDiffer(p: WorkerInput, q: Controller.PageInput)
    requires q.raw == p.raw && q.ocr == p.ocr
    ensures (p.ocr != p.raw) != Controller.UsesOcr(q) <==> p.ocr == "" && p.raw != ""
  {
  }

  /** Away from OCR, with the neural engine off and the legacy fallbacks on, the worker's page
      is the web service's page. */
  lemma {:induction false} WorkerMatchesPipeline(f: Controller.Flags, clean: string -> string, n: nat, p: WorkerInput, q: Controller.PageInput)
    requires !f.useNeural && f.fallbackToLegacy
    requires p.ocr == p.raw && q.raw == p.raw && q.ocr == p.ocr
    requires q.legacyTables == p.tables && q.images == p.images && q.visuals == p.visuals
    requires q.structure([]) == p.structured
    ensures WorkerPage(f.chartsEnabled, clean, n, p) == Controller.PageFragment(f, clean, n, q)
  {
    assert Controller.TableMarkdowns(f, q) == [] + p.tables;
    assert [] + p.tables == p.tables;
    assert Controller.Ignored(f, q) == [];
    if f.chartsEnabled {
      assert Controller.Charts(f, n, q) == [] + p.visuals;
      assert [] + p.visuals == p.visuals;
    }
  }

  /** The Markdown of every page, page `i` numbered from the chunk's first page. */
  function WorkerPages(chartsEnabled: bool, clean: string -> string, start: nat, pages: seq<WorkerInput>): (fs: seq<string>)
    ensures |fs| == |pages|
    ensures forall i :: 0 <= i < |pages| ==> fs[i] == WorkerPage(chartsEnabled, clean, start + i, pages[i])
  {
    seq(|pages|, i requires 0 <= i < |pages| => WorkerPage(chartsEnabled, clean, start + i, pages[i]))
  }

  /** `worker_process_chunk`: the pages' Markdown joined by line breaks, or one error marker
      naming the chunk's page range when any step raised. */
  function WorkerChunk(chartsEnabled: bool, clean: string -> string, c: Loader.Chunk, pages: seq<WorkerInput>, raised: Option<string>): (r: string)
    ensures raised.Some? ==> r == Controller.ErrorMarker(c, raised.value)
    ensures raised.None? && |pages| > 0 ==>
      (pages[0].ocr != pages[0].raw <==> IsPrefix(OcrHeading(c.startPage), r))
  {
    if raised.Some? then Controller.ErrorMarker(c, raised.value)
    else
      var fs := WorkerPages(chartsEnabled, clean, c.startPage, pages);
      if |pages| == 0 then Join(fs, "\n")
      else if pages[0].ocr != pages[0].raw then
        JoinKeepsLead(fs, "\n", OcrHeading(c.startPage)); Join(fs, "\n")
      else
        JoinKeepsLead(fs, "\n", Controller.Heading(c.startPage));
        PlainNotOcr(c.startPage, Join(fs, "\n"));
        Join(fs, "\n")
  }

  /** Text that opens with the plain heading does not open with the OCR heading. */
  lemma {:induction false} PlainNotOcr(n: nat, r: string)
    requires IsPrefix(Controller.Heading(n), r)
    ensures !IsPrefix(OcrHeading(n), r)
  {
    var lead := "\n\n## Page " + NatToString(n);
    var h := Controller.Heading(n);
    HeadingsShareLead(n, lead);
    assert r == lead + ['\n'] + r[|h|..];
    Diverge(lead, ' ', "(OCR)\n\n", '\n', r[|h|..]);
  }

  /** In a chunk that raised nothing, page `i` is headed with number `start + i`, marked as OCR
      exactly when its OCR text differs from its raw text; a chunk that raised is its error
      marker whatever its pages held. */
  lemma {:induction false} WorkerPagesNumbered(chartsEnabled: bool, clean: string -> string, c: Loader.Chunk, pages: seq<WorkerInput>, raised: Option<string>, other: seq<WorkerInput>)
    ensures raised.None? ==>
      var fs := WorkerPages(chartsEnabled, clean, c.startPage, pages);
      && WorkerChunk(chartsEnabled, clean, c, pages, raised) == Join(fs, "\n")
      && forall i :: 0 <= i < |pages| ==>
        (pages[i].ocr != pages[i].raw <==> IsPrefix(OcrHeading(c.startPage + i), fs[i]))
    ensures raised.Some? ==>
      WorkerChunk(chartsEnabled, clean, c, pages, raised) == WorkerChunk(chartsEnabled, clean, c, other, raised)
        == Controller.ErrorMarker(c, raised.value)
  {
  }

  // ------------------------------------------------------------ removing the temporary file

  /** What one `unlink` attempt does. */
  datatype Unlink = Removed | PermissionDenied | OtherError

  /** The `finally` block: when the chunk's file exists, up to five `unlink` attempts, retrying
      only after a permission error; `attempt(k)` is what the `k`-th attempt does. */
  method RemoveTempFile(present: bool, attempt: nat -> Unlink) returns (tries: nat, removed: bool)
    ensures !present ==> tries == 0 && !removed
    ensures present ==> 1 <= tries <= 5
    ensures forall k :: 0 <= k < tries - 1 ==> attempt(k) == PermissionDenied
    ensures present && tries < 5 ==> attempt(tries - 1) != PermissionDenied
    ensures removed <==> tries > 0 && attempt(tries - 1) == Removed
  {
    tries, removed := 0, false;
    if !present {
      return;
    }
    var stop := false;
    while tries < 5 && !stop
      invariant 0 <= tries <= 5
      invariant forall k :: 0 <= k < tries - 1 ==> attempt(k) == PermissionDenied
      invariant tries > 0 && !stop ==> attempt(tries - 1) == PermissionDenied
      invariant stop ==> tries > 0 && attempt(tries - 1) != PermissionDenied
      invariant removed <==> tries > 0 && attempt(tries - 1) == Removed
      invariant tries == 0 ==> !stop
    {
      var r := attempt(tries);
      tries := tries + 1;
      removed := r == Removed;
      stop := r != PermissionDenied;
    }
  }

  // ------------------------------------------------------------ collecting the results

  /** Whether a chunk's future returned. */
  function ReturnedFor(outcome: Loader.Chunk -> Api.Outcome): Loader.Chunk -> bool
  {
    c => outcome(c).Returned?
  }

  /** What a chunk's future returned (meaningful only when it returned). */
  function MarkdownOf(outcome: Loader.Chunk -> Api.Outcome): Loader.Chunk -> string
  {
    c => if outcome(c).Returned? then outcome(c).md else ""
  }

  /** `convert` for one document: the results of the chunks whose futures returned, sorted by
      first page and joined by line breaks; nothing when no chunk returned (no file is written). */
  function Convert(order: seq<Loader.Chunk>, outcome: Loader.Chunk -> Api.Outcome): (r: Option<string>)
    ensures r.None? <==> forall c :: c in order ==> !outcome(c).Returned?
  {
    var done := Filter(order, ReturnedFor(outcome));
    if done == [] then
      assert forall c :: c in order ==> !outcome(c).Returned? by {
        forall c | c in order ensures !outcome(c).Returned? {
          assert c !in done;
        }
      }
      None
    else
      assert done[0] in order && outcome(done[0]).Returned?;
      Some(Collect.Assemble(Map(done, (c: Loader.Chunk) => Collect.Entry(c.startPage, MarkdownOf(outcome)(c)))))
  }

  /** However the chunks finish, the document is the Markdown of the chunks that returned, in the
      loader's page order; a chunk whose future raised leaves no trace; with no chunk returned
      there is no document. */
  lemma {:induction false} ConvertOmitsFailed(chunks: seq<Loader.Chunk>, order: seq<Loader.Chunk>, outcome: Loader.Chunk -> Api.Outcome)
    requires SortedBy(chunks, Loader.StartLt)
    requires multiset(order) == multiset(chunks)
    ensures var ok := Filter(chunks, ReturnedFor(outcome));
      && (Convert(order, outcome).None? <==> forall c :: c in chunks ==> outcome(c).Failed?)
      && (ok != [] ==> Convert(order, outcome) == Some(Join(Map(ok, MarkdownOf(outcome)), "\n")))
  {
    var p := ReturnedFor(outcome);
    var ok := Filter(chunks, p);
    var done := Filter(order, p);
    FilterPerm(order, chunks, p);
    FilterSorted(chunks, p, Loader.StartLt);
    assert |done| == |multiset(done)| == |multiset(ok)| == |ok|;
    if ok == [] {
      forall c | c in chunks ensures outcome(c).Failed? {
        assert !(c in ok);
      }
    } else {
      assert ok[0] in chunks && outcome(ok[0]).Returned?;
      AssembleInPageOrderFor(ok, done, outcome);
    }
  }

  lemma {:induction false} AssembleInPageOrderFor(ok: seq<Loader.Chunk>, done: seq<Loader.Chunk>, outcome: Loader.Chunk -> Api.Outcome)
    requires SortedBy(ok, Loader.StartLt)
    requires multiset(done) == multiset(ok)
    ensures Collect.Assemble(Map(done, (c: Loader.Chunk) => Collect.Entry(c.startPage, MarkdownOf(outcome)(c))))
      == Join(Map(ok, MarkdownOf(outcome)), "\n")
  {
    Api.AssembleInPageOrder(ok, done, MarkdownOf(outcome));
  }
}

=== FILE: collect.dfy ===
/**
 Reassembling a document from its chunks. Workers finish in any order; each
 finished chunk leaves an entry keyed by its first page, the entries are
 sorted by that key (a stable sort) and their texts joined with line breaks.
 Both the web service and the command line do this.
 */
module Collect {
  import opened Common
  import opened Seqs

  /** A finished chunk: its first page and its Markdown (or error marker). */
  datatype Entry = Entry(start: nat, text: string)

  function StartLe(a: Entry, b: Entry): bool { a.start <= b.start }

  lemma {:induction false} StartLeTotal()
    ensures TotalPreorder(StartLe)
  {
  }

  function TextsOf(es: seq<Entry>): (ts: seq<string>)
    ensures |ts| == |es| && forall i :: 0 <= i < |es| ==> ts[i] == es[i].text
  {
    seq(|es|, i requires 0 <= i < |es| => es[i].text)
  }

  /** Entries in page order. */
  function InPageOrder(es: seq<Entry>): seq<Entry>
  {
    SortBy(es, StartLe)
  }

  /** The entries sorted by first page, their texts joined by line breaks. */
  function Assemble(es: seq<Entry>): string
  {
    Join(TextsOf(InPageOrder(es)), "\n")
  }

  /** No two entries share a first page (chunks never overlap). */
  predicate DistinctStarts(es: seq<Entry>)
  {
    forall i, j :: 0 <= i < j < |es| ==> es[i].start != es[j].start
  }

  /** The entries come out with ascending first pages, each entry exactly once. */
  lemma {:induction false} InPageOrderSorted(es: seq<Entry>)
    ensures SortedBy(InPageOrder(es), StartLe)
    ensures multiset(InPageOrder(es)) == multiset(es)
    ensures forall i, j :: 0 <= i < j < |InPageOrder(es)| ==>
      InPageOrder(es)[i].start <= InPageOrder(es)[j].start
  {
    StartLeTotal();
    SortBySorted(es, StartLe);
  }

  /** The document does not depend on the order in which chunks finished: any two completion
      orders of the same entries give the same text. */
  lemma {:induction false} AssembleOrderFree(e1: seq<Entry>, e2: seq<Entry>)
    requires multiset(e1) == multiset(e2) && DistinctStarts(e1)
    ensures Assemble(e1) == Assemble(e2)
  {
    var s1 := InPageOrder(e1);
    var s2 := InPageOrder(e2);
    InPageOrderSorted(e1);
    InPageOrderSorted(e2);
    SortByMembers(e1, StartLe);
    forall x, y | x in s1 && y in s1 && StartLe(x, y) && StartLe(y, x) ensures x == y {
      var i :| 0 <= i < |e1| && e1[i] == x;
      var j :| 0 <= j < |e1| && e1[j] == y;
    }
    SortedUnique(s1, s2, StartLe);
  }
}

=== FILE: common.dfy ===
/**
 Shared vocabulary of the model: an Option type, Python-like character
 classes and the handful of string operations (strip, split, join, word
 splitting, case folding) that the repository's Python code relies on.
 */
module Common {

  datatype Option<+T> = None | Some(value: T)

  /** Python's `str.isspace()` / regex `\s` for one character (the full Unicode list). */
  predicate IsSpace(c: char)
  {
    var n := c as int;
    || (9 <= n <= 13) || (0x1C <= n <= 0x20) || n == 0x85 || n == 0xA0 || n == 0x1680
    || (0x2000 <= n <= 0x200A) || n == 0x2028 || n == 0x2029 || n == 0x202F
    || n == 0x205F || n == 0x3000
  }

  predicate IsDigit(c: char) { '0' <= c <= '9' }

  predicate IsAsciiLower(c: char) { 'a' <= c <= 'z' }

  predicate IsAsciiUpper(c: char) { 'A' <= c <= 'Z' }

  /** Letters: ASCII, Latin-1 letters and the Turkish letters outside Latin-1. */
  predicate IsLetter(c: char)
  {
    var n := c as int;
    || IsAsciiLower(c) || IsAsciiUpper(c)
    || (0xC0 <= n <= 0xFF && n != 0xD7 && n != 0xF7)
    || c == 'ğ' || c == 'Ğ' || c == 'ı' || c == 'İ' || c == 'ş' || c == 'Ş'
  }

  /** Python's `str.isalnum()` for one character. */
  predicate IsAlnum(c: char) { IsLetter(c) || IsDigit(c) }

  /** Regex `\w`: alphanumerics and the underscore. */
  predicate IsWordChar(c: char) { IsAlnum(c) || c == '_' }

  /** Python's `str.lower()` for one character (`İ` is left alone: Python turns it into two characters). */
  function LowerChar(c: char): (r: char)
    ensures IsAsciiUpper(c) ==> IsAsciiLower(r)
    ensures !IsAsciiUpper(c) && !IsLetter(c) ==> r == c
  {
    if IsAsciiUpper(c) then (c as int + 32) as char
    else if c == 'Ç' then 'ç'
    else if c == 'Ğ' then 'ğ'
    else if c == 'Ö' then 'ö'
    else if c == 'Ş' then 'ş'
    else if c == 'Ü' then 'ü'
    else c
  }

  function Lower(s: string): (r: string)
    ensures |r| == |s|
    ensures forall i :: 0 <= i < |s| ==> r[i] == LowerChar(s[i])
  {
    if |s| == 0 then "" else [LowerChar(s[0])] + Lower(s[1..])
  }

  /** Case equivalence used by regular expressions compiled with IGNORECASE;
      `I`, `İ`, `ı` and `i` are all equivalent there. */
  function FoldChar(c: char): char
  {
    if c == 'I' || c == 'İ' || c == 'ı' then 'i' else LowerChar(c)
  }

  predicate FoldEq(a: char, b: char) { FoldChar(a) == FoldChar(b) }

  /** `pattern` matches `s` at `i` letter by letter under IGNORECASE. */
  predicate FoldOccursAt(s: string, pattern: string, i: nat)
  {
    i + |pattern| <= |s| && forall k :: 0 <= k < |pattern| ==> FoldEq(s[i + k], pattern[k])
  }

  /** `re.search(re.escape(pattern), s, re.IGNORECASE)` finds a match. */
  predicate FoldContains(s: string, pattern: string)
  {
    exists i: nat :: i <= |s| && FoldOccursAt(s, pattern, i)
  }

  predicate IsBlank(s: string) { forall i :: 0 <= i < |s| ==> IsSpace(s[i]) }

  function LStrip(s: string): (r: string)
    ensures |r| <= |s| && r == s[|s| - |r|..]
    ensures |r| > 0 ==> !IsSpace(r[0])
    ensures IsBlank(s[..|s| - |r|])
  {
    if |s| > 0 && IsSpace(s[0]) then LStrip(s[1..]) else s
  }

  function RStrip(s: string): (r: string)
    ensures |r| <= |s| && r == s[..|r|]
    ensures |r| > 0 ==> !IsSpace(r[|r| - 1])
    ensures IsBlank(s[|r|..])
  {
    if |s| > 0 && IsSpace(s[|s| - 1]) then RStrip(s[..|s| - 1]) else s
  }

  /** Python's `str.strip()`. */
  function Strip(s: string): (r: string)
    ensures |r| <= |s|
    ensures |r| > 0 ==> !IsSpace(r[0]) && !IsSpace(r[|r| - 1])
    ensures r == "" <==> IsBlank(s)
  {
    var l := LStrip(s);
    var r := RStrip(l);
    assert |r| > 0 ==> r[0] == l[0];
    if r == "" then
      assert |l| == 0;
      assert s[..|s| - |l|] == s;
      r
    else
      r
  }

  /** A cell or line is "filled" when its stripped text is non-empty (Python's `if c.strip()`). */
  predicate IsFilled(s: string) { !IsBlank(s) }

  function CountChar(s: string, c: char): (n: nat)
    ensures n <= |s|
  {
    if |s| == 0 then 0 else (if s[0] == c then 1 else 0) + CountChar(s[1..], c)
  }

  lemma {:induction false} CountCharAppend(a: string, b: string, c: char)
    ensures CountChar(a + b, c) == CountChar(a, c) + CountChar(b, c)
  {
    if |a| == 0 {
      assert a + b == b;
    } else {
      assert (a + b)[1..] == a[1..] + b;
      CountCharAppend(a[1..], b, c);
    }
  }

  /** Python's `s.split(sep)` for a one-character separator. */
  function Split(s: string, sep: char): (parts: seq<string>)
    ensures |parts| >= 1
    ensures forall i :: 0 <= i < |parts| ==> sep !in parts[i]
  {
    if |s| == 0 then [""]
    else
      var rest := Split(s[1..], sep);
      if s[0] == sep then [""] + rest
      else [[s[0]] + rest[0]] + rest[1..]
  }

  /** Python's `sep.join(parts)`. */
  function Join(parts: seq<string>, sep: string): string
  {
    if |parts| == 0 then ""
    else if |parts| == 1 then parts[0]
    else parts[0] + sep + Join(parts[1..], sep)
  }

  /** A prefix of the first part is a prefix of the joined string. */
  lemma {:induction false} JoinKeepsLead(parts: seq<string>, sep: string, h: string)
    requires |parts| > 0 && |h| <= |parts[0]| && parts[0][..|h|] == h
    ensures |h| <= |Join(parts, sep)| && Join(parts, sep)[..|h|] == h
  {
    if |parts| > 1 {
      var r := Join(parts, sep);
      assert r == parts[0] + (sep + Join(parts[1..], sep));
      assert r[..|h|] == parts[0][..|h|];
    }
  }

  lemma {:induction false} JoinSplit(s: string, sep: char)
    ensures Join(Split(s, sep), [sep]) == s
  {
    if |s| > 0 {
      var rest := Split(s[1..], sep);
      JoinSplit(s[1..], sep);
      if s[0] == sep {
        assert Split(s, sep) == [""] + rest;
        assert Join([""] + rest, [sep]) == "" + [sep] + Join(rest, [sep]) by {
          assert ([""] + rest)[1..] == rest;
        }
        assert s == [s[0]] + s[1..];
      } else {
        var parts := [[s[0]] + rest[0]] + rest[1..];
        assert Split(s, sep) == parts;
        if |rest| == 1 {
          assert parts == [[s[0]] + rest[0]];
          assert Join(rest, [sep]) == rest[0];
        } else {
          assert parts[1..] == rest[1..];
          assert Join(rest, [sep]) == rest[0] + [sep] + Join(rest[1..], [sep]);
        }
        assert s == [s[0]] + s[1..];
      }
    }
  }

  /** Splitting at one separator splits the two sides independently. */
  lemma {:induction false} SplitAround(a: string, b: string, sep: char)
    ensures Split(a + [sep] + b, sep) == Split(a, sep) + Split(b, sep)
  {
    if |a| > 0 {
      var a1 := a[1..];
      assert (a + [sep] + b)[1..] == a1 + [sep] + b;
      SplitAround(a1, b, sep);
      if a[0] != sep {
        var ra := Split(a1, sep);
        var r := ra + Split(b, sep);
        assert r[0] == ra[0];
        assert r[1..] == ra[1..] + Split(b, sep);
      }
    } else {
      assert a + [sep] + b == [sep] + b;
      assert ([sep] + b)[1..] == b;
    }
  }

  /** A text without the separator is a single piece. */
  lemma {:induction false} SplitNone(a: string, sep: char)
    requires sep !in a
    ensures Split(a, sep) == [a]
  {
    if |a| > 0 {
      assert sep !in a[1..] by {
        forall i | 0 <= i < |a[1..]| ensures a[1..][i] != sep { assert a[1..][i] == a[i + 1]; }
      }
      SplitNone(a[1..], sep);
      assert a == [a[0]] + a[1..];
    }
  }

  /** Joining pieces without `c` with a separator without `c` gives a text without `c`. */
  lemma {:induction false} JoinFree(parts: seq<string>, sep: string, c: char)
    requires c !in sep && forall i :: 0 <= i < |parts| ==> c !in parts[i]
    ensures c !in Join(parts, sep)
  {
    if |parts| > 1 {
      JoinFree(parts[1..], sep, c);
    }
  }

  /** Splitting a join of separator-free pieces gives the pieces back. */
  lemma {:induction false} SplitJoin(parts: seq<string>, sep: char)
    requires |parts| >= 1
    requires forall i :: 0 <= i < |parts| ==> sep !in parts[i]
    ensures Split(Join(parts, [sep]), sep) == parts
  {
    SplitNone(parts[0], sep);
    if |parts| > 1 {
      SplitJoin(parts[1..], sep);
      SplitAround(parts[0], Join(parts[1..], [sep]), sep);
      assert parts == [parts[0]] + parts[1..];
    }
  }

  /** A separator-free text between two separators splits into it and two empty pieces. */
  lemma {:induction false} SplitFramed(mid: string, sep: char)
    requires sep !in mid
    ensures Split([sep] + mid + [sep], sep) == ["", mid, ""]
  {
    SplitNone(mid, sep);
    SplitNone("", sep);
    SplitAround(mid, "", sep);
    SplitAround("", mid + [sep], sep);
    assert [sep] + mid + [sep] == "" + [sep] + (mid + [sep] + "");
    assert mid + [sep] == mid + [sep] + "";
  }

  /** Joining two non-empty runs of pieces puts one separator between their joins. */
  lemma {:induction false} JoinAppend(p: seq<string>, q: seq<string>, sep: string)
    requires |p| >= 1 && |q| >= 1
    ensures Join(p + q, sep) == Join(p, sep) + sep + Join(q, sep)
  {
    assert (p + q)[0] == p[0];
    if |p| == 1 {
      assert (p + q)[1..] == q;
    } else {
      assert (p + q)[1..] == p[1..] + q;
      JoinAppend(p[1..], q, sep);
      assert p[0] + sep + (Join(p[1..], sep) + sep + Join(q, sep))
        == (p[0] + sep + Join(p[1..], sep)) + sep + Join(q, sep);
    }
  }

  /** A character counted zero times does not occur. */
  lemma {:induction false} CountZero(s: string, c: char)
    requires CountChar(s, c) == 0
    ensures c !in s
  {
    if |s| > 0 {
      CountZero(s[1..], c);
      assert s == [s[0]] + s[1..];
    }
  }

  /** Splitting on a character yields one more piece than the character's occurrences. */
  lemma {:induction false} SplitCount(s: string, sep: char)
    ensures |Split(s, sep)| == CountChar(s, sep) + 1
  {
    if |s| > 0 { SplitCount(s[1..], sep); }
  }

  /** Joining pieces free of `sep` with `sep` puts exactly one `sep` between neighbours. */
  lemma {:induction false} JoinCount(parts: seq<string>, sep: char)
    requires |parts| >= 1
    requires forall i :: 0 <= i < |parts| ==> sep !in parts[i]
    ensures CountChar(Join(parts, [sep]), sep) == |parts| - 1
  {
    NoCharCount(parts[0], sep);
    if |parts| > 1 {
      JoinCount(parts[1..], sep);
      CountCharAppend(parts[0] + [sep], Join(parts[1..], [sep]), sep);
      CountCharAppend(parts[0], [sep], sep);
    }
  }

  lemma {:induction false} NoCharCount(s: string, c: char)
    requires c !in s
    ensures CountChar(s, c) == 0
  {
    if |s| > 0 { NoCharCount(s[1..], c); }
  }

  /** Length of the leading run of characters that are not whitespace. */
  function NonSpaceRun(s: string): (n: nat)
    ensures n <= |s|
    ensures forall i :: 0 <= i < n ==> !IsSpace(s[i])
    ensures n < |s| ==> IsSpace(s[n])
  {
    if |s| == 0 || IsSpace(s[0]) then 0 else 1 + NonSpaceRun(s[1..])
  }

  /** Python's `str.split()` without arguments: the maximal runs of non-whitespace. */
  function Words(s: string): (ws: seq<string>)
    ensures forall i :: 0 <= i < |ws| ==> |ws[i]| > 0 && !HasSpace(ws[i])
    ensures IsBlank(s) ==> ws == []
  {
    if |s| == 0 then []
    else if IsSpace(s[0]) then Words(s[1..])
    else
      var n := NonSpaceRun(s);
      [s[..n]] + Words(s[n..])
  }

  predicate HasSpace(s: string) { exists i :: 0 <= i < |s| && IsSpace(s[i]) }

  /** The leading non-whitespace run ends at the first whitespace, whatever follows it. */
  lemma {:induction false} NonSpaceRunPrefix(a: string, rest: string)
    requires |rest| > 0 && IsSpace(rest[0])
    ensures NonSpaceRun(a + rest) == NonSpaceRun(a)
  {
    if |a| == 0 {
      assert a + rest == rest;
    } else if !IsSpace(a[0]) {
      assert (a + rest)[1..] == a[1..] + rest;
      NonSpaceRunPrefix(a[1..], rest);
    }
  }

  /** Splitting into words at a whitespace character splits the two sides independently. */
  lemma {:induction false} WordsAround(a: string, c: char, b: string)
    requires IsSpace(c)
    ensures Words(a + [c] + b) == Words(a) + Words(b)
    decreases |a|
  {
    var s := a + [c] + b;
    if |a| == 0 {
      assert s == [c] + b;
      assert s[1..] == b;
    } else if IsSpace(a[0]) {
      assert s[1..] == a[1..] + [c] + b;
      WordsAround(a[1..], c, b);
    } else {
      assert s == a + ([c] + b);
      NonSpaceRunPrefix(a, [c] + b);
      var n := NonSpaceRun(a);
      assert s[..n] == a[..n];
      assert s[n..] == a[n..] + [c] + b;
      WordsAround(a[n..], c, b);
    }
  }

  /** Whitespace in front of a text adds no word. */
  lemma {:induction false} WordsBlankPrefix(x: string, b: string)
    requires IsBlank(x)
    ensures Words(x + b) == Words(b)
    decreases |x|
  {
    if |x| == 0 {
      assert x + b == b;
    } else {
      assert (x + b)[1..] == x[1..] + b;
      WordsBlankPrefix(x[1..], b);
    }
  }

  /** Whitespace after a text adds no word. */
  lemma {:induction false} WordsBlankSuffix(a: string, y: string)
    requires IsBlank(y)
    ensures Words(a + y) == Words(a)
  {
    if |y| == 0 {
      assert a + y == a;
    } else {
      assert a + y == a + [y[0]] + y[1..];
      WordsAround(a, y[0], y[1..]);
    }
  }

  /** A non-empty text without whitespace is one word. */
  lemma {:induction false} WordsSingle(w: string)
    requires |w| > 0 && !HasSpace(w)
    ensures Words(w) == [w]
  {
    var n := NonSpaceRun(w);
    assert n == |w|;
    assert w[..n] == w;
  }

  /** Stripping does not change the words. */
  lemma {:induction false} WordsStrip(s: string)
    ensures Words(Strip(s)) == Words(s)
  {
    assert Strip(s) == RStrip(LStrip(s));
    WordsLStrip(s);
    WordsRStrip(LStrip(s));
  }

  lemma {:induction false} WordsLStrip(s: string)
    ensures Words(LStrip(s)) == Words(s)
  {
    var l := LStrip(s);
    var x := s[..|s| - |l|];
    assert s == x + l;
    WordsBlankPrefix(x, l);
  }

  lemma {:induction false} WordsRStrip(l: string)
    ensures Words(RStrip(l)) == Words(l)
  {
    var r := RStrip(l);
    var y := l[|r|..];
    assert l == r + y;
    WordsBlankSuffix(r, y);
  }

  /** `needle` occurs in `hay` at position `i`. */
  predicate OccursAt(hay: string, needle: string, i: int)
  {
    0 <= i && i + |needle| <= |hay| && hay[i..i + |needle|] == needle
  }

  /** Python's `needle in hay`. */
  predicate Contains(hay: string, needle: string)
  {
    exists i :: 0 <= i <= |hay| - |needle| && OccursAt(hay, needle, i)
  }

  /** Python's `int(x)`: truncation toward zero. */
  function Trunc(x: real): (n: int)
    ensures x >= 0.0 ==> n as real <= x < n as real + 1.0
    ensures x < 0.0 ==> n as real - 1.0 < x <= n as real
  {
    if x >= 0.0 then x.Floor else -((-x).Floor)
  }

  /** Python's `round(x)`: nearest integer, ties to even. */
  function RoundHalfEven(x: real): (n: int)
    ensures x - 0.5 <= n as real <= x + 0.5
  {
    var f := x.Floor;
    var d := x - f as real;
    if d < 0.5 then f
    else if d > 0.5 then f + 1
    else if f % 2 == 0 then f else f + 1
  }

  function Min(a: real, b: real): real { if a <= b then a else b }

  function Max(a: real, b: real): real { if a >= b then a else b }

  function Abs(a: real): real { if a >= 0.0 then a else -a }

  /** Decimal rendering of a natural number, as Python's `str(n)`. */
  function NatToString(n: nat): (s: string)
    ensures |s| > 0
    ensures forall i :: 0 <= i < |s| ==> IsDigit(s[i])
  {
    if n < 10 then [('0' as int + n) as char]
    else NatToString(n / 10) + [('0' as int + n % 10) as char]
  }

  function IntToString(n: int): (s: string)
    ensures |s| > 0
  {
    if n >= 0 then NatToString(n) else "-" + NatToString(-n)
  }
}

=== FILE: controller.dfy ===
/**
 The per-chunk pipeline shared by the web service's workers: for every page
 of a chunk, either the OCR text replaces the page, or the page is assembled
 from chart markers, images, tables and the structured text. The engines
 themselves (zones, OCR, neural tables, legacy tables, images, visuals,
 structure, cleaning) are collaborators whose outputs are inputs here.
 */
module Controller {
  import opened Common
  import Loader

  /** A rectangle handed to the text extractor as a region to ignore: `(x0, top, x1, bottom)`. What
      the extractor does with it is up to the `structure` collaborator. */
  datatype Region = Region(x0: real, top: real, x1: real, bottom: real)

  /** A chart found by the neural engine: its kind and its box. */
  datatype NeuralChart = NeuralChart(kind: string, box: Region)

  /** The neural engine's answer for a page: tables, charts and table boxes, or an error it raised. */
  datatype Neural = NeuralFailed | NeuralFound(tables: seq<string>, charts: seq<NeuralChart>, tableBoxes: seq<Region>)

  /** What the collaborators give for one page: the raw character text, the OCR engine's text, the
      neural engine's answer, the legacy table extractor's tables, the image links, the legacy
      visual extractor's chart links, and the structured text as a function of the regions it is
      handed to ignore. */
  datatype PageInput = PageInput(
    raw: string,
    ocr: string,
    neural: Neural,
    legacyTables: seq<string>,
    images: seq<string>,
    visuals: seq<string>,
    structure: seq<Region> -> string)

  /** The extraction switches the pipeline reads. */
  datatype Flags = Flags(useNeural: bool, tablesEnabled: bool, chartsEnabled: bool, fallbackToLegacy: bool)

  // ------------------------------------------------------------ one page

  function Heading(n: nat): string
  {
    "\n\n## Page " + NatToString(n) + "\n"
  }

  /** The OCR text replaces the page when it is non-empty and differs from the raw text. */
  predicate UsesOcr(p: PageInput)
  {
    p.ocr != "" && p.ocr != p.raw
  }

  predicate NeuralRuns(f: Flags) { f.useNeural && f.tablesEnabled }

  /** Whether the neural engine ran and answered. */
  predicate NeuralAnswered(f: Flags, p: PageInput) { NeuralRuns(f) && p.neural.NeuralFound? }

  function NeuralTables(f: Flags, p: PageInput): seq<string>
  {
    if NeuralAnswered(f, p) then p.neural.tables else []
  }

  function ChartBoxes(charts: seq<NeuralChart>): (bs: seq<Region>)
    ensures |bs| == |charts| && forall i :: 0 <= i < |charts| ==> bs[i] == charts[i].box
  {
    seq(|charts|, i requires 0 <= i < |charts| => charts[i].box)
  }

  /** The regions handed to the text extractor to ignore: every table box, then every chart box. */
  function Ignored(f: Flags, p: PageInput): seq<Region>
  {
    if NeuralAnswered(f, p) then p.neural.tableBoxes + ChartBoxes(p.neural.charts) else []
  }

  function ChartMarker(n: nat, c: NeuralChart): string
  {
    "\U{1F4CA} *Chart detected on Page " + NatToString(n) + "* (" + c.kind + ")"
  }

  function ChartMarkers(f: Flags, n: nat, p: PageInput): seq<string>
  {
    if NeuralAnswered(f, p) && f.chartsEnabled
    then seq(|p.neural.charts|, i requires 0 <= i < |p.neural.charts| => ChartMarker(n, p.neural.charts[i]))
    else []
  }

  /** Neural tables; the legacy extractor's only when there are none and the fallback is on. */
  function TableMarkdowns(f: Flags, p: PageInput): seq<string>
  {
    var t := NeuralTables(f, p);
    if t == [] && f.fallbackToLegacy then t + p.legacyTables else t
  }

  /** Chart markers; the legacy visual extractor's links only when charts are on and no marker exists. */
  function Charts(f: Flags, n: nat, p: PageInput): seq<string>
  {
    var c := ChartMarkers(f, n, p);
    if f.chartsEnabled && c == [] then c + p.visuals else c
  }

  /** A block of lines framed by line breaks, or nothing. */
  function Section(items: seq<string>): string
  {
    if items == [] then "" else "\n" + Join(items, "\n") + "\n"
  }

  /** What follows the heading: charts, images and tables, then the text on its own line. */
  function Body(charts: seq<string>, images: seq<string>, tables: seq<string>, text: string): string
  {
    Section(charts) + Section(images) + Section(tables) + "\n" + text + "\n"
  }

  /** The Markdown of page number `n`: it opens with the page's heading and ends with the page's
      text on a line of its own, after the charts, images and tables. */
  function PageFragment(f: Flags, clean: string -> string, n: nat, p: PageInput): (r: string)
    ensures |Heading(n)| <= |r| && r[..|Heading(n)|] == Heading(n)
    ensures var tail := "\n" + PageText(f, clean, p) + "\n";
      |tail| <= |r| && r[|r| - |tail|..] == tail
  {
    var mid := if UsesOcr(p) then ""
      else Section(Charts(f, n, p)) + Section(p.images) + Section(TableMarkdowns(f, p));
    var tail := "\n" + PageText(f, clean, p) + "\n";
    Framed(Heading(n), mid, tail);
    Heading(n) + mid + tail
  }

  /** Joining three strings keeps the first as a prefix and the last as a suffix. */
  lemma {:induction false} Framed(h: string, mid: string, tail: string)
    ensures |h| <= |h + mid + tail| && (h + mid + tail)[..|h|] == h
    ensures |tail| <= |h + mid + tail| && (h + mid + tail)[|h + mid + tail| - |tail|..] == tail
  {
  }

  // ------------------------------------------------------------ page properties

  /** An OCR page is its heading and cleaned OCR text only: nothing else the engines found changes it. */
  lemma {:induction false} OcrPageOnlyText(f: Flags, clean: string -> string, n: nat, p: PageInput, q: PageInput)
    requires UsesOcr(p) && q.raw == p.raw && q.ocr == p.ocr
    ensures PageFragment(f, clean, n, p) == PageFragment(f, clean, n, q)
    ensures PageFragment(f, clean, n, p) == Heading(n) + ("\n" + clean(p.ocr) + "\n")
  {
  }

  /** The text a page ends with: the cleaned OCR text on an OCR page, otherwise the cleaned
      structured text, extracted with the neural engine's regions handed over to ignore. */
  function PageText(f: Flags, clean: string -> string, p: PageInput): string
  {
    if UsesOcr(p) then clean(p.ocr) else clean(p.structure(Ignored(f, p)))
  }

  /** The legacy table extractor matters only when the neural engine gave no table and the fallback
      is on; then its tables are the page's tables. */
  lemma {:induction false} LegacyTablesOnlyAsFallback(f: Flags, clean: string -> string, n: nat, p: PageInput, legacy: seq<string>)
    ensures NeuralTables(f, p) == [] && f.fallbackToLegacy ==> TableMarkdowns(f, p) == p.legacyTables
    ensures !(NeuralTables(f, p) == [] && f.fallbackToLegacy) ==>
      PageFragment(f, clean, n, p) == PageFragment(f, clean, n, p.(legacyTables := legacy))
  {
    if NeuralTables(f, p) == [] && f.fallbackToLegacy {
      assert [] + p.legacyTables == p.legacyTables;
    }
  }

  /** Every table box and every chart box the neural engine reports is handed to the text extractor
      as a region to ignore, whether or not charts are on; one marker per chart is added only when
      charts are on. */
  lemma {:induction false} IgnoredRegionsAndMarkers(f: Flags, n: nat, p: PageInput)
    requires NeuralAnswered(f, p)
    ensures forall c :: c in p.neural.charts ==> c.box in Ignored(f, p)
    ensures forall b :: b in p.neural.tableBoxes ==> b in Ignored(f, p)
    ensures |ChartMarkers(f, n, p)| == if f.chartsEnabled then |p.neural.charts| else 0
  {
    var bs := ChartBoxes(p.neural.charts);
    forall c | c in p.neural.charts ensures c.box in Ignored(f, p) {
      var i :| 0 <= i < |p.neural.charts| && p.neural.charts[i] == c;
      assert bs[i] == c.box;
    }
  }

  /** The legacy visual extractor matters only when charts are on and the neural engine left no
      chart marker. */
  lemma {:induction false} VisualsOnlyWithoutMarkers(f: Flags, clean: string -> string, n: nat, p: PageInput, visuals: seq<string>)
    ensures f.chartsEnabled && ChartMarkers(f, n, p) == [] ==> Charts(f, n, p) == p.visuals
    ensures !(f.chartsEnabled && ChartMarkers(f, n, p) == []) ==>
      PageFragment(f, clean, n, p) == PageFragment(f, clean, n, p.(visuals := visuals))
  {
    if f.chartsEnabled && ChartMarkers(f, n, p) == [] {
      assert [] + p.visuals == p.visuals;
    }
  }

  // ------------------------------------------------------------ a chunk

  /** The fragment of every page, page `i` numbered from the chunk's first page. */
  function Fragments(f: Flags, clean: string -> string, start: nat, pages: seq<PageInput>): (fs: seq<string>)
    ensures |fs| == |pages|
    ensures forall i :: 0 <= i < |pages| ==> fs[i] == PageFragment(f, clean, start + i, pages[i])
  {
    seq(|pages|, i requires 0 <= i < |pages| => PageFragment(f, clean, start + i, pages[i]))
  }

  function ErrorMarker(c: Loader.Chunk, error: string): string
  {
    "\n\n[ERROR: Failed to process pages " + NatToString(c.startPage) + "-" + NatToString(c.endPage)
      + ": " + error + "]\n"
  }

  /** `process_chunk`: `raised` is the error any step raised while the chunk's pages were being
      processed (opening the file, zones, OCR, structure, cleaning, images, ...); the neural
      engine's own errors are caught per page and are part of `PageInput`. */
  function ProcessChunk(f: Flags, clean: string -> string, c: Loader.Chunk, pages: seq<PageInput>, raised: Option<string>): (r: string)
    ensures raised.Some? ==> r == ErrorMarker(c, raised.value)
    ensures raised.None? && |pages| > 0 ==>
      |Heading(c.startPage)| <= |r| && r[..|Heading(c.startPage)|] == Heading(c.startPage)
  {
    if raised.Some? then ErrorMarker(c, raised.value)
    else
      var fs := Fragments(f, clean, c.startPage, pages);
      var h := Heading(c.startPage);
      if |pages| == 0 then Join(fs, "\n")
      else JoinKeepsLead(fs, "\n", h); Join(fs, "\n")
  }

  /** A chunk that raised nothing is its pages' fragments joined by line breaks, page `i` headed
      "## Page (start + i)"; a chunk that raised is one error marker naming its page range,
      whatever its pages held. */
  lemma {:induction false} ChunkPagesNumbered(f: Flags, clean: string -> string, c: Loader.Chunk, pages: seq<PageInput>, raised: Option<string>, other: seq<PageInput>)
    ensures raised.None? ==>
      var fs := Fragments(f, clean, c.startPage, pages);
      && ProcessChunk(f, clean, c, pages, raised) == Join(fs, "\n")
      && forall i :: 0 <= i < |pages| ==>
        |Heading(c.startPage + i)| <= |fs[i]| && fs[i][..|Heading(c.startPage + i)|] == Heading(c.startPage + i)
    ensures raised.Some? ==>
      ProcessChunk(f, clean, c, pages, raised) == ProcessChunk(f, clean, c, other, raised) == ErrorMarker(c, raised.value)
  {
  }
}

=== FILE: geometry.dfy ===
/**
 Page geometry shared by the extraction engines: axis-aligned boxes, the
 overlap test used to suppress duplicate table detections, and the word /
 glyph records a PDF library hands over (coordinates are exact reals, `top`
 grows downwards as in PDF page space).
 */
module Geometry {
  import opened Common
  import opened Seqs

  datatype BBox = BBox(x0: real, y0: real, x1: real, y1: real)
  {
    function Width(): real { x1 - x0 }

    function Height(): real { y1 - y0 }

    function Area(): real { Width() * Height() }

    function CenterX(): real { (x0 + x1) / 2.0 }

    function CenterY(): real { (y0 + y1) / 2.0 }

    /** Closed-interval point test, borders included. */
    predicate ContainsPoint(x: real, y: real) { x0 <= x <= x1 && y0 <= y <= y1 }
  }

  /** `outer` contains `inner`, borders included. */
  predicate Encloses(outer: BBox, inner: BBox)
  {
    outer.x0 <= inner.x0 && inner.x1 <= outer.x1 && outer.y0 <= inner.y0 && inner.y1 <= outer.y1
  }

  /** The smallest box holding both boxes. */
  function Hull(a: BBox, b: BBox): (r: BBox)
    ensures Encloses(r, a) && Encloses(r, b)
    ensures forall c :: Encloses(c, a) && Encloses(c, b) ==> Encloses(c, r)
  {
    BBox(Min(a.x0, b.x0), Min(a.y0, b.y0), Max(a.x1, b.x1), Max(a.y1, b.y1))
  }

  /** The bounding box of a non-empty list of points (`min(xs)`, `min(ys)`, `max(xs)`, `max(ys)`). */
  function PointsBox(pts: seq<(real, real)>): (b: BBox)
    requires |pts| > 0
    ensures forall k :: 0 <= k < |pts| ==> b.ContainsPoint(pts[k].0, pts[k].1)
    ensures exists k :: 0 <= k < |pts| && b.x0 == pts[k].0
    ensures exists k :: 0 <= k < |pts| && b.x1 == pts[k].0
    ensures exists k :: 0 <= k < |pts| && b.y0 == pts[k].1
    ensures exists k :: 0 <= k < |pts| && b.y1 == pts[k].1
  {
    var p := pts[|pts| - 1];
    var single := BBox(p.0, p.1, p.0, p.1);
    if |pts| == 1 then single
    else
      var init := pts[..|pts| - 1];
      var b0 := PointsBox(init);
      assert forall k :: 0 <= k < |init| ==> init[k] == pts[k];
      Hull(b0, single)
  }

  /** A word or a single glyph as produced by the PDF library. */
  datatype Word = Word(text: string, x0: real, x1: real, top: real, bottom: real, size: real)

  /** The words' top coordinates, in order. */
  function Tops(ws: seq<Word>): (r: seq<real>)
    ensures |r| == |ws| && forall i :: 0 <= i < |ws| ==> r[i] == ws[i].top
  {
    Map(ws, (w: Word) => w.top)
  }

  /** The words' bottom coordinates, in order. */
  function Bottoms(ws: seq<Word>): (r: seq<real>)
    ensures |r| == |ws| && forall i :: 0 <= i < |ws| ==> r[i] == ws[i].bottom
  {
    Map(ws, (w: Word) => w.bottom)
  }

  /** Length of the overlap of the x-extents (negative when they are apart). */
  function OverlapX(a: BBox, b: BBox): real { Min(a.x1, b.x1) - Max(a.x0, b.x0) }

  function OverlapY(a: BBox, b: BBox): real { Min(a.y1, b.y1) - Max(a.y0, b.y0) }

  /**
   The two boxes overlap by at least `threshold` of the smaller box's area.
   Boxes that only touch, are apart, or where the smaller one has no positive
   area never overlap.
   */
  predicate Overlaps(a: BBox, b: BBox, threshold: real)
  {
    var dx := OverlapX(a, b);
    var dy := OverlapY(a, b);
    if dx <= 0.0 || dy <= 0.0 then false
    else
      var minArea := Min(a.Area(), b.Area());
      if minArea > 0.0 then (dx * dy) / minArea >= threshold else false
  }

  lemma {:induction false} OverlapsSymmetric(a: BBox, b: BBox, threshold: real)
    ensures Overlaps(a, b, threshold) <==> Overlaps(b, a, threshold)
  {
    assert OverlapX(a, b) == OverlapX(b, a);
    assert OverlapY(a, b) == OverlapY(b, a);
    assert Min(a.Area(), b.Area()) == Min(b.Area(), a.Area());
  }

  /** Boxes separated (or merely touching) along either axis never overlap. */
  lemma {:induction false} DisjointNeverOverlaps(a: BBox, b: BBox, threshold: real)
    requires a.x1 <= b.x0 || b.x1 <= a.x0 || a.y1 <= b.y0 || b.y1 <= a.y0
    ensures !Overlaps(a, b, threshold)
  {
  }

  /** A box without positive area overlaps nothing. */
  lemma {:induction false} ZeroAreaNeverOverlaps(a: BBox, b: BBox, threshold: real)
    requires a.Area() <= 0.0
    ensures !Overlaps(a, b, threshold) && !Overlaps(b, a, threshold)
  {
  }

  /** Any box with positive width and height overlaps itself completely. */
  lemma {:induction false} SelfOverlap(a: BBox, threshold: real)
    ensures Overlaps(a, a, threshold) <==> a.Width() > 0.0 && a.Height() > 0.0 && threshold <= 1.0
  {
    if a.Width() > 0.0 && a.Height() > 0.0 {
      assert OverlapX(a, a) == a.Width();
      assert OverlapY(a, a) == a.Height();
      assert a.Area() > 0.0;
      assert (a.Width() * a.Height()) / a.Area() == 1.0;
    }
  }
}

=== FILE: healer.dfy ===
/**
 The text healer (`TextHealer` in healer.py): repairs words that PDF text
 extraction tore apart ("v e" -> "ve", "prob- lem" -> "problem"). A
 stop-word vote picks Turkish or English; Turkish lines go through an ordered
 list of regular-expression substitutions, repeated until a pass changes
 nothing (at most five passes); English lines get one conservative merge.

 Each regular expression is a deterministic matcher `MatchAt` tried at every
 position from left to right, the way Python's `re.sub` scans: a match is
 replaced and scanning resumes at its end, otherwise the character is copied.
 `\b` is judged on the text being scanned. Every variable-length part of
 these expressions is a greedy run of one character class followed by `\b`
 or by a character outside the class, so backtracking can never produce a
 match other than the maximal run; the matchers take that run directly.
 */
module Healer {
  import opened Common
  import opened Seqs

  datatype Lang = Tr | En

  // ------------------------------------------------------------ language vote

  /** The stop words of each language, each listed once. */
  const TurkishStops: seq<string> :=
    ["ve", "bir", "bu", "için", "ile", "de", "da", "ki", "ne", "gibi", "her", "çok", "en", "daha"]
  const EnglishStops: seq<string> :=
    ["the", "and", "of", "to", "in", "is", "it", "you", "that", "for", "are", "on", "with", "as", "at"]

  /** Python's `set(text.lower().split())`. */
  function WordSet(text: string): set<string>
  {
    set w | w in Words(Lower(text))
  }

  function StopSet(stops: seq<string>): set<string>
  {
    set w | w in stops
  }

  /** How many of the stop words occur among the words of `text`. */
  function StopScore(text: string, stops: seq<string>): nat
  {
    var words := WordSet(text);
    CountIf(stops, w => w in words)
  }

  function DetectLanguage(text: string): Lang
  {
    if text == "" then Tr
    else if StopScore(text, EnglishStops) > StopScore(text, TurkishStops) then En
    else Tr
  }

  /** Counting the listed words that occur in a set is the size of the intersection, when no word is listed twice. */
  lemma {:induction false} CountMembers(stops: seq<string>, ws: set<string>)
    requires Distinct(stops)
    ensures CountIf(stops, w => w in ws) == |ws * StopSet(stops)|
  {
    if |stops| > 0 {
      var s0 := stops[..|stops| - 1];
      var x := stops[|stops| - 1];
      var p := w => w in ws;
      assert CountIf(stops, p) == CountIf(s0, p) + (if x in ws then 1 else 0);
      assert Distinct(s0) by {
        forall i, j | 0 <= i < j < |s0| ensures s0[i] != s0[j] {
          assert s0[i] == stops[i] && s0[j] == stops[j];
        }
      }
      CountMembers(s0, ws);
      StopSetSnoc(stops);
      InterAddOne(ws, StopSet(s0), x);
    }
  }

  lemma {:induction false} InterAddOne(ws: set<string>, a: set<string>, x: string)
    requires x !in a
    ensures |ws * (a + {x})| == |ws * a| + (if x in ws then 1 else 0)
  {
    if x in ws {
      assert ws * (a + {x}) == ws * a + {x};
    } else {
      assert ws * (a + {x}) == ws * a;
    }
  }

  lemma {:induction false} StopSetSnoc(stops: seq<string>)
    requires |stops| > 0 && Distinct(stops)
    ensures var s0 := stops[..|stops| - 1];
      var x := stops[|stops| - 1];
      StopSet(stops) == StopSet(s0) + {x} && x !in StopSet(s0)
  {
    var s0 := stops[..|stops| - 1];
    var x := stops[|stops| - 1];
    assert stops == s0 + [x];
    forall i | 0 <= i < |s0| ensures s0[i] != x {
      assert s0[i] == stops[i];
    }
  }

  lemma {:induction false} StopsDistinct()
    ensures Distinct(EnglishStops) && Distinct(TurkishStops)
  {
  }

  /** English is chosen exactly when strictly more distinct English than Turkish stop words occur
      among the lower-cased words; empty text and ties go to Turkish. */
  lemma {:induction false} DetectLanguageVote(text: string)
    ensures DetectLanguage(text) == En <==>
      text != "" && |WordSet(text) * StopSet(EnglishStops)| > |WordSet(text) * StopSet(TurkishStops)|
    ensures text == "" ==> DetectLanguage(text) == Tr
  {
    StopsDistinct();
    CountMembers(EnglishStops, WordSet(text));
    CountMembers(TurkishStops, WordSet(text));
  }

  // ------------------------------------------------------------ matchers

  /** `[a-zA-ZçğıöşüÇĞİÖŞÜ]` */
  predicate TurkishLetter(c: char) { IsAsciiLower(c) || IsAsciiUpper(c) || c in "çğıöşüÇĞİÖŞÜ" }

  /** `[a-zçğıöşü]` */
  predicate TurkishLower(c: char) { IsAsciiLower(c) || c in "çğıöşü" }

  /** Regex `\b` at position `p`: a word character on exactly one side. */
  predicate Boundary(s: string, p: nat)
  {
    (0 < p <= |s| && IsWordChar(s[p - 1])) != (p < |s| && IsWordChar(s[p]))
  }

  /** Length of the run of `cls` characters starting at `j`. */
  function Run(s: string, j: nat, cls: char -> bool): (n: nat)
    requires j <= |s|
    ensures j + n <= |s|
    ensures forall k :: j <= k < j + n ==> cls(s[k])
    ensures j + n < |s| ==> !cls(s[j + n])
    decreases |s| - j
  {
    if j < |s| && cls(s[j]) then 1 + Run(s, j + 1, cls) else 0
  }

  /** Text made of letters only: every fixed replacement of the healer is one. */
  type Letters = s: string | forall k :: 0 <= k < |s| ==> IsLetter(s[k])

  /** One substitution rule of the healer. */
  datatype Rule =
    | Spelled       // three single letters:      \b(L) (L) (L)\b      -> \1\2\3
    | Conjunction   // re_tr_conjunctions:        \b([vVdDkK]) ([eEiİ])\b
    | Particle      // re_tr_particles:           \b([bBdDnNşŞaAyYiIgGkK]) ([a-zçğıöşü]+)\b
    | ParticleE     // re_tr_particle_e:          \b([eE]) ([nN][a-zçğıöşü]*)\b
    | MergeO        // re_tr_merge_o:             \b([oO]) ([lLmMkKzsSnNrR][a-zçğıöşü]{1,})\b
    | Hyphen        // re_hyphen:                 ([a-zçğıöşü]{3,})\s?-\s?([a-zçğıöşü]{3,})
    | MergeGeneral  // re_tr_merge_general:       \b([a-np-zA-NP-ZçğıöşüÇĞİÖŞÜ]) ([a-zçğıöşü]{2,})\b
    | MergeEnglish  // re_en_merge:               \b([b-hj-np-zB-HJ-NP-Z]) ([a-z]{2,})\b
    | Literal(pattern: string, replacement: Letters, wordStart: bool)  // a fixed word, IGNORECASE

  /** A match ending before `end`, to be replaced by `text`. */
  datatype Match = Match(end: nat, text: string)

  /** The rules of the form `\b(first) (head tail{min,})\b`, replaced by their two groups: a lone
      letter, one space and a word, with the space dropped. */
  predicate IsLone(r: Rule)
  {
    r.Particle? || r.ParticleE? || r.MergeO? || r.MergeGeneral? || r.MergeEnglish?
  }

  datatype Shape = Shape(first: char -> bool, head: char -> bool, tail: char -> bool, min: nat)

  predicate ParticleLead(c: char) { c in "bBdDnNşŞaAyYiIgGkK" }
  predicate ELead(c: char) { c in "eE" }
  predicate NHead(c: char) { c in "nN" }
  predicate OLead(c: char) { c in "oO" }
  predicate OHead(c: char) { c in "lLmMkKzsSnNrR" }
  predicate GeneralLead(c: char) { TurkishLetter(c) && c != 'o' && c != 'O' }
  /** `[b-hj-np-zB-HJ-NP-Z]`: ASCII letters other than a, i, o in either case. */
  predicate EnglishLead(c: char) { (IsAsciiLower(c) || IsAsciiUpper(c)) && c !in "aAiIoO" }

  function ShapeOf(r: Rule): Shape
    requires IsLone(r)
  {
    match r
    case Particle => Shape(ParticleLead, TurkishLower, TurkishLower, 0)
    case ParticleE => Shape(ELead, NHead, TurkishLower, 0)
    case MergeO => Shape(OLead, OHead, TurkishLower, 1)
    case MergeGeneral => Shape(GeneralLead, TurkishLower, TurkishLower, 1)
    case MergeEnglish => Shape(EnglishLead, IsAsciiLower, IsAsciiLower, 1)
  }

  function JoinLone(s: string, i: nat, sh: Shape): (m: Option<Match>)
    requires i < |s|
    ensures m.Some? ==> i + 3 <= m.value.end <= |s|
    ensures m.Some? ==> s[i + 1] == ' ' && m.value.text == [s[i]] + s[i + 2..m.value.end]
  {
    if i + 3 <= |s| && Boundary(s, i) && sh.first(s[i]) && s[i + 1] == ' ' && sh.head(s[i + 2]) then
      var n := Run(s, i + 3, sh.tail);
      if n >= sh.min && Boundary(s, i + 3 + n) then Some(Match(i + 3 + n, [s[i]] + s[i + 2..i + 3 + n]))
      else None
    else None
  }

  /** The position after an optional whitespace character at `j` (regex `\s?`). */
  function SkipSpace(s: string, j: nat): (k: nat)
    requires j <= |s|
    ensures j <= k <= j + 1 && k <= |s|
  {
    if j < |s| && IsSpace(s[j]) then j + 1 else j
  }

  /** Where `re_hyphen` matches at `i`: the first fragment ends at `cut`, the second starts at `resume`. */
  datatype HyphenCut = HyphenCut(cut: nat, resume: nat, end: nat)

  function HyphenSplit(s: string, i: nat): (h: Option<HyphenCut>)
    requires i < |s|
    ensures h.Some? ==> i + 3 <= h.value.cut < h.value.resume <= h.value.end <= |s|
    ensures h.Some? ==> h.value.resume + 3 <= h.value.end
    ensures h.Some? ==> forall k :: h.value.cut <= k < h.value.resume ==> IsSpace(s[k]) || s[k] == '-'
  {
    var n1 := Run(s, i, TurkishLower);
    var j := i + n1;
    var j1 := SkipSpace(s, j);
    if n1 >= 3 && j1 < |s| && s[j1] == '-' then
      var j2 := SkipSpace(s, j1 + 1);
      var n2 := Run(s, j2, TurkishLower);
      if n2 >= 3 then Some(HyphenCut(j, j2, j2 + n2)) else None
    else None
  }

  function HyphenAt(s: string, i: nat): (m: Option<Match>)
    requires i < |s|
    ensures m.Some? ==> i + 7 <= m.value.end <= |s|
  {
    match HyphenSplit(s, i)
    case Some(h) => Some(Match(h.end, s[i..h.cut] + s[h.resume..h.end]))
    case None => None
  }

  /** Three single letters separated by single spaces, read as one word. */
  function SpelledAt(s: string, i: nat): (m: Option<Match>)
    requires i < |s|
    ensures m.Some? ==> m.value.end == i + 5 <= |s| && s[i + 1] == ' ' && s[i + 3] == ' '
  {
    if i + 5 <= |s| && Boundary(s, i) && TurkishLetter(s[i]) && s[i + 1] == ' ' && TurkishLetter(s[i + 2])
      && s[i + 3] == ' ' && TurkishLetter(s[i + 4]) && Boundary(s, i + 5)
    then Some(Match(i + 5, [s[i], s[i + 2], s[i + 4]]))
    else None
  }

  function ConjunctionAt(s: string, i: nat): (m: Option<Match>)
    requires i < |s|
    ensures m.Some? ==> m.value.end == i + 3 <= |s| && s[i + 1] == ' '
  {
    if i + 3 <= |s| && Boundary(s, i) && s[i] in "vVdDkK" && s[i + 1] == ' ' && s[i + 2] in "eEiİ"
      && Boundary(s, i + 3)
    then Some(Match(i + 3, [s[i], s[i + 2]]))
    else None
  }

  /** A fixed pattern under IGNORECASE, optionally anchored at a word start by `\b`. */
  function LiteralAt(s: string, i: nat, pattern: string, replacement: string, wordStart: bool): (m: Option<Match>)
    requires i < |s|
    ensures m.Some? ==> i < m.value.end <= |s|
  {
    if 0 < |pattern| && FoldOccursAt(s, pattern, i) && (!wordStart || Boundary(s, i))
    then Some(Match(i + |pattern|, replacement))
    else None
  }

  function MatchAt(r: Rule, s: string, i: nat): (m: Option<Match>)
    requires i < |s|
    ensures m.Some? ==> i < m.value.end <= |s|
  {
    match r
    case Spelled => SpelledAt(s, i)
    case Conjunction => ConjunctionAt(s, i)
    case Hyphen => HyphenAt(s, i)
    case Literal(pattern, replacement, wordStart) => LiteralAt(s, i, pattern, replacement, wordStart)
    case _ => JoinLone(s, i, ShapeOf(r))
  }

  /** The match the rule finds at each position of `s`. */
  function Matches(r: Rule, s: string): (t: seq<Option<Match>>)
    ensures |t| == |s|
    ensures forall k :: 0 <= k < |s| ==> t[k] == MatchAt(r, s, k)
  {
    seq(|s|, k requires 0 <= k < |s| => MatchAt(r, s, k))
  }

  /** Every match listed for `s` starts where it is listed, moves forward and stays inside `s`. */
  predicate MatchTable(t: seq<Option<Match>>, s: string)
  {
    |t| == |s| && forall k :: 0 <= k < |t| && t[k].Some? ==> k < t[k].value.end <= |s|
  }

  /** `re.sub` from position `i` on, given the match found at each position: a match is replaced
      and the scan resumes at its end, otherwise one character is copied. */
  function Scan(t: seq<Option<Match>>, s: string, i: nat): string
    requires MatchTable(t, s) && i <= |s|
    decreases |s| - i
  {
    if i == |s| then ""
    else
      match t[i]
      case Some(m) => m.text + Scan(t, s, m.end)
      case None => [s[i]] + Scan(t, s, i + 1)
  }

  function SubFrom(r: Rule, s: string, i: nat): string
    requires i <= |s|
  {
    Scan(Matches(r, s), s, i)
  }

  function Sub(r: Rule, s: string): string
  {
    SubFrom(r, s, 0)
  }

  /** The rules applied one after the other. */
  function ApplyAll(rules: seq<Rule>, s: string): string
  {
    if |rules| == 0 then s else ApplyAll(rules[1..], Sub(rules[0], s))
  }

  // ------------------------------------------------------------ the rule lists

  /** Steps 0 to 5 of a Turkish pass: the structural merges. */
  const Structural: seq<Rule> := [Spelled, Conjunction, Particle, ParticleE, MergeO, Hyphen, MergeGeneral]

  /** The two "normalize" entries at the head of the broken-word list. */
  const LeadingIdentities: seq<Rule> := [Literal("şı", "şı", false), Literal("ğı", "ğı", false)]

  /** The broken-word repairs anchored at a word start. */
  const BrokenWords: seq<Rule> := [
    Literal("ba ar", "başar", true),
    Literal("giri im", "girişim", true),
    Literal("dü ün", "düşün", true),
    Literal("ile i", "işleş", true),
    Literal("yap lar", "yapılar", true),
    Literal("sistem n", "sistemin", true),
    Literal("görünme yen", "görünmeyen", true),
    Literal("mekanizma lar", "mekanizmalar", true),
    Literal("ba l", "başl", true),
    Literal("ele tir", "eleştir", true),
    Literal("an lay", "anlay", true),
    Literal("kaz nd", "kazandı", true),
    Literal("gerçekle ti", "gerçekleşti", true)
  ]

  const DoubleShin: Rule := Literal("ışş", "ış", false)
  const TrailingIdentity: Rule := Literal("ığı", "ığı", false)
  const ShinYumusak: Rule := Literal("şğ", "ş", false)

  /** One Turkish pass exactly as written: the identity entries run with IGNORECASE too. */
  const TurkishRulesAsWritten: seq<Rule> :=
    Structural + LeadingIdentities + BrokenWords + [DoubleShin, TrailingIdentity, ShinYumusak]

  /** One Turkish pass without the three identity entries, which are meant to change nothing. */
  const TurkishRules: seq<Rule> := Structural + BrokenWords + [DoubleShin, ShinYumusak]

  function TrPassAsWritten(s: string): string { ApplyAll(TurkishRulesAsWritten, s) }

  function TrPass(s: string): string { ApplyAll(TurkishRules, s) }

  // ------------------------------------------------------------ passes

  const MaxPasses: nat := 5

  /** `pass` applied `k` times. */
  function Power(pass: string -> string, text: string, k: nat): string
  {
    if k == 0 then text else pass(Power(pass, text, k - 1))
  }

  /** The loop state at exit: the text and the number of passes run. */
  datatype Passes = Passes(text: string, count: nat)

  /** The `while text != prev_text and passes < max_passes` loop of `_heal_tr`. */
  function Repeat(pass: string -> string, text: string, prev: string, count: nat): Passes
    requires count <= MaxPasses
    decreases MaxPasses - count
  {
    if text != prev && count < MaxPasses then Repeat(pass, pass(text), text, count + 1)
    else Passes(text, count)
  }

  /** Running `n` passes from `text` is what the loop does: no earlier pass left its input unchanged,
      and unless the budget ran out the last one did. */
  predicate StoppedAfter(pass: string -> string, text: string, n: nat)
  {
    && n <= MaxPasses
    && (forall k: nat :: 0 < k < n ==> Power(pass, text, k) != Power(pass, text, k - 1))
    && (n < MaxPasses ==>
          (n == 0 && text == "") || (n > 0 && Power(pass, text, n) == Power(pass, text, n - 1)))
  }

  lemma {:induction false} RepeatFrom(pass: string -> string, text: string, t: string, prev: string, count: nat)
    requires count <= MaxPasses
    requires count == 0 ==> t == text && prev == ""
    requires count > 0 ==> t == Power(pass, text, count) && prev == Power(pass, text, count - 1)
    requires forall k: nat :: 0 < k < count ==> Power(pass, text, k) != Power(pass, text, k - 1)
    ensures Repeat(pass, t, prev, count).text == Power(pass, text, Repeat(pass, t, prev, count).count)
    ensures StoppedAfter(pass, text, Repeat(pass, t, prev, count).count)
    decreases MaxPasses - count
  {
    if t != prev && count < MaxPasses {
      assert Power(pass, text, count + 1) == pass(t);
      RepeatFrom(pass, text, pass(t), t, count + 1);
    }
  }

  /** The Turkish loop returns the text after the passes it ran, at most five, and stops at the first
      pass that changes nothing. */
  lemma {:induction false} RepeatSpec(pass: string -> string, text: string)
    ensures var r := Repeat(pass, text, "", 0);
      r.text == Power(pass, text, r.count) && StoppedAfter(pass, text, r.count)
  {
    RepeatFrom(pass, text, text, "", 0);
  }

  /** A non-empty text gets at least one pass, and before the budget runs out the loop only stops
      at a fixpoint of the pass. */
  lemma {:induction false} RepeatFixpoint(pass: string -> string, text: string)
    ensures var r := Repeat(pass, text, "", 0);
      && (text != "" ==> r.count > 0)
      && (0 < r.count < MaxPasses ==> pass(r.text) == r.text)
  {
    RepeatSpec(pass, text);
  }

  // ------------------------------------------------------------ lines and documents

  function HealEn(text: string): string { Sub(MergeEnglish, text) }

  /** `heal_line` with a given Turkish pass: a short line is returned as it is; a Turkish line gets
      between one and five passes, stopping at the first pass that changes nothing; an English line
      loses exactly its merged spaces. */
  function HealLineWith(trPass: string -> string, text: string, lang: Lang): (r: string)
    ensures |text| < 3 ==> r == text
    ensures |text| >= 3 && lang == Tr ==>
      exists k :: 0 < k <= MaxPasses && r == Power(trPass, text, k) && StoppedAfter(trPass, text, k)
    ensures |text| >= 3 && lang != Tr ==> r == KeepFrom(text, 0)
  {
    if |text| < 3 then text
    else if lang == Tr then
      RepeatSpec(trPass, text);
      RepeatFixpoint(trPass, text);
      Repeat(trPass, text, "", 0).text
    else
      HealEnDeletesMergedSpaces(text);
      HealEn(text)
  }

  /** `heal_line` as written: the Turkish pass keeps its identity entries. It never writes a line
      break, and a Turkish line is the as-written pass applied until it changes nothing. */
  function HealLine(text: string, lang: Lang): (r: string)
    ensures '\n' !in text ==> '\n' !in r
    ensures |text| >= 3 && lang == Tr ==>
      exists k :: 0 < k <= MaxPasses && r == Power(TrPassAsWritten, text, k) && StoppedAfter(TrPassAsWritten, text, k)
  {
    BothPassesLineless();
    HealLineWithNoNewline(TrPassAsWritten, text, lang);
    HealLineWith(TrPassAsWritten, text, lang)
  }

  /** `heal_line` with the identity entries left out, as they are meant to change nothing. */
  function HealLineIntended(text: string, lang: Lang): (r: string)
    ensures '\n' !in text ==> '\n' !in r
    ensures |text| >= 3 && lang == Tr ==>
      exists k :: 0 < k <= MaxPasses && r == Power(TrPass, text, k) && StoppedAfter(TrPass, text, k)
  {
    BothPassesLineless();
    HealLineWithNoNewline(TrPass, text, lang);
    HealLineWith(TrPass, text, lang)
  }

  /** `heal_document` with a given Turkish pass: one language for the whole text, then every line
      healed on its own. */
  function HealDocumentWith(trPass: string -> string, text: string): string
  {
    var lang := DetectLanguage(text);
    Join(Map(Split(text, '\n'), line => HealLineWith(trPass, line, lang)), "\n")
  }

  /** `heal_document` as written: the lines of the result are the document's lines, each healed
      in the one language detected for the whole document. */
  function HealDocument(text: string): (r: string)
    ensures var lines := Split(text, '\n');
      var out := Split(r, '\n');
      |out| == |lines| && forall i :: 0 <= i < |lines| ==> out[i] == HealLine(lines[i], DetectLanguage(text))
  {
    BothPassesLineless();
    HealDocumentWithLines(TrPassAsWritten, text);
    HealDocumentWith(TrPassAsWritten, text)
  }

  /** `heal_document` over the intended Turkish pass, line by line in the same way. */
  function HealDocumentIntended(text: string): (r: string)
    ensures var lines := Split(text, '\n');
      var out := Split(r, '\n');
      |out| == |lines| && forall i :: 0 <= i < |lines| ==> out[i] == HealLineIntended(lines[i], DetectLanguage(text))
  {
    BothPassesLineless();
    HealDocumentWithLines(TrPass, text);
    HealDocumentWith(TrPass, text)
  }

  // ------------------------------------------------------------ rules that match nowhere

  /** The rule matches nowhere in `s`. */
  predicate Inert(r: Rule, s: string)
  {
    forall i :: 0 <= i < |s| ==> MatchAt(r, s, i).None?
  }

  /** Scanning a stretch where nothing matches copies it. */
  lemma {:induction false} ScanCopy(t: seq<Option<Match>>, s: string, i: nat, j: nat)
    requires MatchTable(t, s) && i <= j <= |s|
    requires forall k :: i <= k < j ==> t[k].None?
    ensures Scan(t, s, i) == s[i..j] + Scan(t, s, j)
    decreases j - i
  {
    if i < j {
      assert Scan(t, s, i) == [s[i]] + Scan(t, s, i + 1);
      ScanCopy(t, s, i + 1, j);
      assert s[i..j] == [s[i]] + s[i + 1..j];
    } else {
      assert s[i..j] == [];
    }
  }

  lemma {:induction false} CopyFrom(r: Rule, s: string, i: nat, j: nat)
    requires i <= j <= |s|
    requires forall k :: i <= k < j ==> MatchAt(r, s, k).None?
    ensures SubFrom(r, s, i) == s[i..j] + SubFrom(r, s, j)
  {
    ScanCopy(Matches(r, s), s, i, j);
  }

  /** Where the rule matches, the scan writes the replacement and resumes at the match end. */
  lemma {:induction false} SubFromMatch(r: Rule, s: string, i: nat)
    requires i < |s| && MatchAt(r, s, i).Some?
    ensures SubFrom(r, s, i) == MatchAt(r, s, i).value.text + SubFrom(r, s, MatchAt(r, s, i).value.end)
  {
    var t := Matches(r, s);
    assert t[i] == MatchAt(r, s, i);
  }

  lemma {:induction false} InertFrom(r: Rule, s: string, i: nat)
    requires i <= |s| && Inert(r, s)
    ensures SubFrom(r, s, i) == s[i..]
  {
    CopyFrom(r, s, i, |s|);
  }

  /** A rule that matches nowhere leaves the text as it is. */
  lemma {:induction false} InertSub(r: Rule, s: string)
    requires Inert(r, s)
    ensures Sub(r, s) == s
  {
    InertFrom(r, s, 0);
  }

  lemma {:induction false} ApplyAllAppend(a: seq<Rule>, b: seq<Rule>, s: string)
    ensures ApplyAll(a + b, s) == ApplyAll(b, ApplyAll(a, s))
  {
    if |a| == 0 {
      assert a + b == b;
    } else {
      assert (a + b)[1..] == a[1..] + b;
      ApplyAllAppend(a[1..], b, Sub(a[0], s));
    }
  }

  lemma {:induction false} ApplyAllInert(rules: seq<Rule>, s: string)
    requires forall k :: 0 <= k < |rules| ==> Inert(rules[k], s)
    ensures ApplyAll(rules, s) == s
  {
    if |rules| > 0 {
      InertSub(rules[0], s);
      assert forall k :: 0 <= k < |rules| - 1 ==> rules[1..][k] == rules[k + 1];
      ApplyAllInert(rules[1..], s);
    }
  }

  /** Only a space is case-equivalent to a space. */
  lemma {:induction false} FoldSpace(c: char)
    ensures FoldEq(c, ' ') ==> c == ' '
  {
  }

  /** Every structural rule needs a space or a hyphen in the text. */
  lemma {:induction false} StructuralInert(r: Rule, s: string)
    requires !r.Literal? && ' ' !in s && '-' !in s
    ensures Inert(r, s)
  {
    forall i | 0 <= i < |s| ensures MatchAt(r, s, i).None? {
      if i + 1 < |s| {
        assert s[i + 1] != ' ' by { assert s[i + 1] in s; }
      }
      if r == Hyphen {
        var j1 := SkipSpace(s, i + Run(s, i, TurkishLower));
        if j1 < |s| {
          assert s[j1] != '-' by { assert s[j1] in s; }
        }
      }
    }
  }

  /** A fixed pattern containing a space cannot match a text without one. */
  lemma {:induction false} SpacedLiteralInert(r: Rule, s: string)
    requires r.Literal? && ' ' in r.pattern && ' ' !in s
    ensures Inert(r, s)
  {
    var k :| 0 <= k < |r.pattern| && r.pattern[k] == ' ';
    forall i | 0 <= i < |s| ensures MatchAt(r, s, i).None? {
      if i + k < |s| {
        assert s[i + k] != ' ' by { assert s[i + k] in s; }
        FoldSpace(s[i + k]);
      }
    }
  }

  /** A fixed pattern that occurs nowhere, case-insensitively, cannot match. */
  lemma {:induction false} AbsentLiteralInert(r: Rule, s: string)
    requires r.Literal? && forall i: nat :: i < |s| ==> !FoldOccursAt(s, r.pattern, i)
    ensures Inert(r, s)
  {
  }

  // ------------------------------------------------------------ characters a rule can write

  /** The characters a rule can bring in that were not in the text. */
  function Replacement(r: Rule): string
  {
    if r.Literal? then r.replacement else ""
  }

  lemma {:induction false} LoneSource(s: string, i: nat, sh: Shape)
    requires i < |s| && JoinLone(s, i, sh).Some?
    ensures forall c :: c in JoinLone(s, i, sh).value.text ==> c in s
  {
    var n := Run(s, i + 3, sh.tail);
    assert JoinLone(s, i, sh).value.text == [s[i]] + s[i + 2..i + 3 + n];
  }

  lemma {:induction false} HyphenSource(s: string, i: nat)
    requires i < |s| && HyphenAt(s, i).Some?
    ensures forall c :: c in HyphenAt(s, i).value.text ==> c in s
  {
    var h := HyphenSplit(s, i).value;
    var a, b := s[i..h.cut], s[h.resume..h.end];
    assert HyphenAt(s, i).value.text == a + b;
    forall c | c in a + b ensures c in s {
      if c in a {
        var k :| 0 <= k < |a| && a[k] == c;
        assert s[i + k] == c;
      } else {
        var k :| 0 <= k < |b| && b[k] == c;
        assert s[h.resume + k] == c;
      }
    }
  }

  lemma {:induction false} MatchSource(r: Rule, s: string, i: nat)
    requires i < |s| && MatchAt(r, s, i).Some?
    ensures forall c :: c in MatchAt(r, s, i).value.text ==> c in s || c in Replacement(r)
  {
    if IsLone(r) {
      LoneSource(s, i, ShapeOf(r));
    } else if r == Hyphen {
      HyphenSource(s, i);
    }
  }

  /** Every listed match writes only characters of `s` and of `extra`. */
  predicate WritesFrom(t: seq<Option<Match>>, s: string, extra: string)
  {
    forall k, c :: 0 <= k < |t| && t[k].Some? && c in t[k].value.text ==> c in s || c in extra
  }

  lemma {:induction false} ScanSource(t: seq<Option<Match>>, s: string, i: nat, extra: string)
    requires MatchTable(t, s) && i <= |s| && WritesFrom(t, s, extra)
    ensures forall c :: c in Scan(t, s, i) ==> c in s || c in extra
    decreases |s| - i
  {
    if i < |s| {
      match t[i]
      case Some(m) =>
        ScanSource(t, s, m.end, extra);
      case None =>
        ScanSource(t, s, i + 1, extra);
    }
  }

  lemma {:induction false} SubFromSource(r: Rule, s: string, i: nat)
    requires i <= |s|
    ensures forall c :: c in SubFrom(r, s, i) ==> c in s || c in Replacement(r)
  {
    var t := Matches(r, s);
    forall k, c | 0 <= k < |t| && t[k].Some? && c in t[k].value.text ensures c in s || c in Replacement(r) {
      MatchSource(r, s, k);
    }
    ScanSource(t, s, i, Replacement(r));
  }

  /** A substitution writes only characters of its input and of its fixed replacement. */
  lemma {:induction false} SubSource(r: Rule, s: string)
    ensures forall c :: c in Sub(r, s) ==> c in s || c in Replacement(r)
  {
    SubFromSource(r, s, 0);
  }

  /** A character that is in neither the text nor any replacement never appears. */
  lemma {:induction false} ApplyAllAbsent(rules: seq<Rule>, s: string, c: char)
    requires c !in s && NeverWrites(rules, c)
    ensures c !in ApplyAll(rules, s)
  {
    if |rules| > 0 {
      SubSource(rules[0], s);
      assert rules[0] in rules;
      assert forall r :: r in rules[1..] ==> r in rules;
      ApplyAllAbsent(rules[1..], Sub(rules[0], s), c);
    }
  }

  lemma {:induction false} PowerAbsent(pass: string -> string, text: string, k: nat, c: char)
    requires c !in text
    requires forall t: string :: c !in t ==> c !in pass(t)
    ensures c !in Power(pass, text, k)
  {
    if k > 0 {
      PowerAbsent(pass, text, k - 1, c);
    }
  }

  /** Replacements are letters, so no rule writes a non-letter of its own. */
  lemma {:induction false} NonLetterNeverWritten(rules: seq<Rule>, c: char)
    requires !IsLetter(c)
    ensures NeverWrites(rules, c)
  {
    forall r | r in rules ensures c !in Replacement(r) {
      if r.Literal? {
        var w: Letters := r.replacement;
      }
    }
  }

  /** No rule of the list writes `c` of its own. */
  predicate NeverWrites(rules: seq<Rule>, c: char)
  {
    forall r :: r in rules ==> c !in Replacement(r)
  }

  /** Neither Turkish pass, as written or intended, writes a line break into a text without one. */
  lemma {:induction false} TrPassesNoNewline(t: string)
    ensures '\n' !in t ==> '\n' !in TrPassAsWritten(t) && '\n' !in TrPass(t)
  {
    if '\n' !in t {
      NonLetterNeverWritten(TurkishRulesAsWritten, '\n');
      ApplyAllAbsent(TurkishRulesAsWritten, t, '\n');
      NonLetterNeverWritten(TurkishRules, '\n');
      ApplyAllAbsent(TurkishRules, t, '\n');
    }
  }

  /** A Turkish pass that writes no line break of its own. */
  ghost predicate KeepsLineless(trPass: string -> string)
  {
    forall t: string :: '\n' !in t ==> '\n' !in trPass(t)
  }

  lemma {:induction false} HealLineWithNoNewline(trPass: string -> string, line: string, lang: Lang)
    requires KeepsLineless(trPass)
    ensures '\n' !in line ==> '\n' !in HealLineWith(trPass, line, lang)
  {
    if '\n' !in line && |line| >= 3 {
      if lang == Tr {
        RepeatSpec(trPass, line);
        PowerAbsent(trPass, line, Repeat(trPass, line, "", 0).count, '\n');
      } else {
        SubSource(MergeEnglish, line);
      }
    }
  }

  lemma {:induction false} BothPassesLineless()
    ensures KeepsLineless(TrPassAsWritten) && KeepsLineless(TrPass)
  {
    forall t: string | '\n' !in t ensures '\n' !in TrPassAsWritten(t) && '\n' !in TrPass(t) {
      TrPassesNoNewline(t);
    }
  }

  /** Healing a line never introduces a line break, with the identity entries or without them. */
  lemma {:induction false} HealLineNoNewline(line: string, lang: Lang)
    requires '\n' !in line
    ensures '\n' !in HealLine(line, lang) && '\n' !in HealLineIntended(line, lang)
  {
    BothPassesLineless();
    HealLineWithNoNewline(TrPassAsWritten, line, lang);
    HealLineWithNoNewline(TrPass, line, lang);
  }

  /** Healing a document line by line gives back one healed line per line and keeps the number of
      line breaks, for any pass that writes no line break. */
  lemma {:induction false} HealDocumentWithLines(trPass: string -> string, text: string)
    requires KeepsLineless(trPass)
    ensures var lines := Split(text, '\n');
      var out := Split(HealDocumentWith(trPass, text), '\n');
      |out| == |lines| && forall i :: 0 <= i < |lines| ==> out[i] == HealLineWith(trPass, lines[i], DetectLanguage(text))
    ensures CountChar(HealDocumentWith(trPass, text), '\n') == CountChar(text, '\n')
  {
    var lang := DetectLanguage(text);
    var parts := Split(text, '\n');
    var healed := Map(parts, line => HealLineWith(trPass, line, lang));
    SplitCount(text, '\n');
    forall i | 0 <= i < |healed| ensures '\n' !in healed[i] {
      HealLineWithNoNewline(trPass, parts[i], lang);
    }
    assert "\n" == ['\n'];
    JoinCount(healed, '\n');
    SplitJoin(healed, '\n');
  }

  /** `heal_document` keeps the number of line breaks, with the identity entries or without them. */
  lemma {:induction false} HealDocumentNewlines(text: string)
    ensures CountChar(HealDocument(text), '\n') == CountChar(text, '\n')
    ensures CountChar(HealDocumentIntended(text), '\n') == CountChar(text, '\n')
  {
    BothPassesLineless();
    HealDocumentWithLines(TrPassAsWritten, text);
    HealDocumentWithLines(TrPass, text);
  }

  // ------------------------------------------------------------ the structural rules only delete separators

  /** Neither whitespace nor a hyphen. */
  predicate Inky(c: char) { !IsSpace(c) && c != '-' }

  /** `p` rejects whitespace and hyphens; the lemmas below only need this much of `Inky`. */
  predicate RejectsSeparators(p: char -> bool)
  {
    forall c :: IsSpace(c) || c == '-' ==> !p(c)
  }

  lemma {:induction false} FilterDropOne(a: string, x: char, b: string, p: char -> bool)
    requires !p(x)
    ensures Filter(a + [x] + b, p) == Filter(a + b, p)
  {
    assert Filter([x], p) == [] by { assert [x][..0] == []; }
    calc {
      Filter(a + [x] + b, p);
    == { FilterAppend(a + [x], b, p); }
      Filter(a + [x], p) + Filter(b, p);
    == { FilterAppend(a, [x], p); }
      Filter(a, p) + Filter(b, p);
    == { FilterAppend(a, b, p); }
      Filter(a + b, p);
    }
  }

  /** Dropping the separators of a match leaves what the match writes. */
  predicate KeepsInk(text: string, source: string, p: char -> bool)
  {
    Filter(text, p) == Filter(source, p) && |text| < |source|
  }

  lemma {:induction false} SpelledInky(s: string, i: nat, p: char -> bool)
    requires i < |s| && SpelledAt(s, i).Some? && !p(' ')
    ensures KeepsInk(SpelledAt(s, i).value.text, s[i..i + 5], p)
  {
    assert SpelledAt(s, i).value.text == [s[i], s[i + 2], s[i + 4]];
    assert s[i..i + 5] == [s[i]] + [' '] + ([s[i + 2]] + [' '] + [s[i + 4]]);
    FilterDropOne([s[i]], ' ', [s[i + 2]] + [' '] + [s[i + 4]], p);
    assert [s[i]] + ([s[i + 2]] + [' '] + [s[i + 4]]) == [s[i], s[i + 2]] + [' '] + [s[i + 4]];
    FilterDropOne([s[i], s[i + 2]], ' ', [s[i + 4]], p);
    assert [s[i], s[i + 2]] + [s[i + 4]] == [s[i], s[i + 2], s[i + 4]];
  }

  lemma {:induction false} DropSpaceInky(s: string, i: nat, e: nat, p: char -> bool)
    requires i + 2 <= e <= |s| && s[i + 1] == ' ' && !p(' ')
    ensures KeepsInk([s[i]] + s[i + 2..e], s[i..e], p)
  {
    assert s[i..e] == [s[i]] + [' '] + s[i + 2..e];
    FilterDropOne([s[i]], ' ', s[i + 2..e], p);
  }

  lemma {:induction false} ConjunctionInky(s: string, i: nat, p: char -> bool)
    requires i < |s| && ConjunctionAt(s, i).Some? && !p(' ')
    ensures KeepsInk(ConjunctionAt(s, i).value.text, s[i..i + 3], p)
  {
    assert ConjunctionAt(s, i).value.text == [s[i]] + s[i + 2..i + 3];
    DropSpaceInky(s, i, i + 3, p);
  }

  lemma {:induction false} LoneInky(s: string, i: nat, sh: Shape, p: char -> bool)
    requires i < |s| && JoinLone(s, i, sh).Some? && !p(' ')
    ensures KeepsInk(JoinLone(s, i, sh).value.text, s[i..JoinLone(s, i, sh).value.end], p)
  {
    DropSpaceInky(s, i, JoinLone(s, i, sh).value.end, p);
  }

  lemma {:induction false} HyphenInky(s: string, i: nat, p: char -> bool)
    requires i < |s| && HyphenAt(s, i).Some?
    requires RejectsSeparators(p)
    ensures KeepsInk(HyphenAt(s, i).value.text, s[i..HyphenAt(s, i).value.end], p)
  {
    var h := HyphenSplit(s, i).value;
    assert HyphenAt(s, i).value == Match(h.end, s[i..h.cut] + s[h.resume..h.end]);
    var a, b, c := s[i..h.cut], s[h.cut..h.resume], s[h.resume..h.end];
    SliceSplit(s, i, h.cut, h.resume);
    SliceSplit(s, i, h.resume, h.end);
    assert Filter(b, p) == [] by {
      assert forall x :: x in b ==> !p(x);
      FilterNone(b, p);
    }
    calc {
      Filter(a + b + c, p);
    == { FilterAppend(a + b, c, p); }
      Filter(a + b, p) + Filter(c, p);
    == { FilterAppend(a, b, p); }
      (Filter(a, p) + []) + Filter(c, p);
    == { assert Filter(a, p) + [] == Filter(a, p); }
      Filter(a, p) + Filter(c, p);
    == { FilterAppend(a, c, p); }
      Filter(a + c, p);
    }
  }

  lemma {:induction false} MatchInky(r: Rule, s: string, i: nat, p: char -> bool)
    requires i < |s| && !r.Literal? && MatchAt(r, s, i).Some? && RejectsSeparators(p)
    ensures KeepsInk(MatchAt(r, s, i).value.text, s[i..MatchAt(r, s, i).value.end], p)
  {
    assert !p(' ') by { assert IsSpace(' '); }
    if r == Spelled {
      SpelledInky(s, i, p);
    } else if r == Conjunction {
      ConjunctionInky(s, i, p);
    } else if r == Hyphen {
      HyphenInky(s, i, p);
    } else if IsLone(r) {
      LoneInky(s, i, ShapeOf(r), p);
    }
  }

  lemma {:induction false} InkyStep(text: string, rest: string, source: string, tail: string, p: char -> bool)
    requires Filter(text, p) == Filter(source, p) && Filter(rest, p) == Filter(tail, p)
    ensures Filter(text + rest, p) == Filter(source + tail, p)
  {
    FilterAppend(text, rest, p);
    FilterAppend(source, tail, p);
  }

  /** Every listed match keeps the ink of the stretch it replaces. */
  predicate InkyTable(t: seq<Option<Match>>, s: string, p: char -> bool)
    requires MatchTable(t, s)
  {
    forall k :: 0 <= k < |t| && t[k].Some? ==> KeepsInk(t[k].value.text, s[k..t[k].value.end], p)
  }

  lemma {:induction false} ScanInky(t: seq<Option<Match>>, s: string, i: nat, p: char -> bool)
    requires MatchTable(t, s) && i <= |s| && InkyTable(t, s, p)
    ensures Filter(Scan(t, s, i), p) == Filter(s[i..], p)
    ensures |Scan(t, s, i)| <= |s| - i
    decreases |s| - i
  {
    if i == |s| {
      assert s[i..] == [];
    } else {
      match t[i]
      case Some(m) =>
        ScanInky(t, s, m.end, p);
        SuffixSplit(s, i, m.end);
        InkyStep(m.text, Scan(t, s, m.end), s[i..m.end], s[m.end..], p);
      case None =>
        ScanInky(t, s, i + 1, p);
        SuffixSplit(s, i, i + 1);
        assert s[i..i + 1] == [s[i]];
        InkyStep([s[i]], Scan(t, s, i + 1), [s[i]], s[i + 1..], p);
    }
  }

  lemma {:induction false} SubFromInky(r: Rule, s: string, i: nat, p: char -> bool)
    requires i <= |s| && !r.Literal? && RejectsSeparators(p)
    ensures Filter(SubFrom(r, s, i), p) == Filter(s[i..], p)
    ensures |SubFrom(r, s, i)| <= |s| - i
  {
    var t := Matches(r, s);
    forall k | 0 <= k < |t| && t[k].Some? ensures KeepsInk(t[k].value.text, s[k..t[k].value.end], p) {
      MatchInky(r, s, k, p);
    }
    ScanInky(t, s, i, p);
  }

  lemma {:induction false} ApplyAllInky(rules: seq<Rule>, s: string, p: char -> bool)
    requires RejectsSeparators(p) && forall r :: r in rules ==> !r.Literal?
    ensures Filter(ApplyAll(rules, s), p) == Filter(s, p)
    ensures |ApplyAll(rules, s)| <= |s|
  {
    if |rules| > 0 {
      assert rules[0] in rules;
      SubFromInky(rules[0], s, 0, p);
      assert s[0..] == s;
      assert forall r :: r in rules[1..] ==> r in rules;
      ApplyAllInky(rules[1..], Sub(rules[0], s), p);
    }
  }

  /** The structural merges of a Turkish pass only delete whitespace and hyphens: with those removed,
      input and output are the same text, and the output is never longer. */
  lemma {:induction false} StructuralDeletesSeparators(s: string)
    ensures Filter(ApplyAll(Structural, s), Inky) == Filter(s, Inky)
    ensures |ApplyAll(Structural, s)| <= |s|
  {
    ApplyAllInky(Structural, s, Inky);
  }

  // ------------------------------------------------------------ English healing, position by position

  /** The space at `k` is one `re_en_merge` removes: it follows a lone consonant that starts a word
      and precedes a lower-case ASCII word of at least two letters. */
  predicate MergedSpace(s: string, k: nat)
  {
    && 0 < k && k + 2 < |s|
    && s[k] == ' ' && EnglishLead(s[k - 1]) && Boundary(s, k - 1)
    && IsAsciiLower(s[k + 1]) && IsAsciiLower(s[k + 2])
    && Boundary(s, k + 1 + Run(s, k + 1, IsAsciiLower))
  }

  /** The text from `i` on with every merged space removed and everything else kept. */
  function KeepFrom(s: string, i: nat): string
    requires i <= |s|
    decreases |s| - i
  {
    if i == |s| then "" else (if MergedSpace(s, i) then "" else [s[i]]) + KeepFrom(s, i + 1)
  }

  /** A merged space is exactly the second character of a match of the English rule. */
  lemma {:induction false} MergedSpaceMatch(s: string, k: nat)
    requires 0 < k < |s|
    ensures MergedSpace(s, k) <==> MatchAt(MergeEnglish, s, k - 1).Some?
  {
    if k + 2 < |s| && IsAsciiLower(s[k + 1]) {
      assert Run(s, k + 1, IsAsciiLower) == 1 + Run(s, k + 2, IsAsciiLower);
    }
  }

  lemma {:induction false} KeepCopy(s: string, a: nat, b: nat)
    requires a <= b <= |s|
    requires forall k :: a <= k < b ==> !MergedSpace(s, k)
    ensures KeepFrom(s, a) == s[a..b] + KeepFrom(s, b)
    decreases b - a
  {
    if a < b {
      assert !MergedSpace(s, a);
      KeepCopy(s, a + 1, b);
      calc {
        KeepFrom(s, a);
        [s[a]] + KeepFrom(s, a + 1);
        [s[a]] + (s[a + 1..b] + KeepFrom(s, b));
        ([s[a]] + s[a + 1..b]) + KeepFrom(s, b);
        { assert [s[a]] + s[a + 1..b] == s[a..b]; }
        s[a..b] + KeepFrom(s, b);
      }
    } else {
      assert s[a..b] == [];
    }
  }

  /** A match of the English rule at `i` keeps its first letter and drops the space after it. */
  lemma {:induction false} EnglishKeepHead(s: string, i: nat)
    requires i < |s| && !MergedSpace(s, i) && MatchAt(MergeEnglish, s, i).Some?
    ensures KeepFrom(s, i) == [s[i]] + KeepFrom(s, i + 2)
  {
    assert KeepFrom(s, i) == [s[i]] + KeepFrom(s, i + 1);
    MergedSpaceMatch(s, i + 1);
    assert KeepFrom(s, i + 1) == KeepFrom(s, i + 2);
  }

  /** The word of a match of the English rule is kept whole, and the position where the match ends
      holds no merged space. */
  lemma {:induction false} EnglishKeepWord(s: string, i: nat)
    requires i < |s| && MatchAt(MergeEnglish, s, i).Some?
    ensures var e := MatchAt(MergeEnglish, s, i).value.end;
      && i + 4 <= e
      && MatchAt(MergeEnglish, s, i).value.text == [s[i]] + s[i + 2..e]
      && KeepFrom(s, i + 2) == s[i + 2..e] + KeepFrom(s, e)
      && !MergedSpace(s, e)
  {
    var n := Run(s, i + 3, IsAsciiLower);
    var e := i + 3 + n;
    assert MatchAt(MergeEnglish, s, i).value.end == e;
    assert IsAsciiLower(s[i + 2]);
    forall k | i + 2 <= k < e ensures !MergedSpace(s, k) {
      assert IsAsciiLower(s[k]);
    }
    KeepCopy(s, i + 2, e);
    assert IsWordChar(s[e - 2]) && IsWordChar(s[e - 1]);
  }

  /** Where the English rule does not match, one character is copied on both sides. */
  lemma {:induction false} EnglishCopyStep(s: string, i: nat)
    requires i < |s| && !MergedSpace(s, i) && MatchAt(MergeEnglish, s, i).None?
    ensures SubFrom(MergeEnglish, s, i) == [s[i]] + SubFrom(MergeEnglish, s, i + 1)
    ensures KeepFrom(s, i) == [s[i]] + KeepFrom(s, i + 1)
    ensures !MergedSpace(s, i + 1)
  {
    CopyFrom(MergeEnglish, s, i, i + 1);
    assert s[i..i + 1] == [s[i]];
    if i + 1 < |s| {
      MergedSpaceMatch(s, i + 1);
    }
  }

  lemma {:induction false} EnglishFrom(s: string, i: nat)
    requires i <= |s| && !MergedSpace(s, i)
    ensures SubFrom(MergeEnglish, s, i) == KeepFrom(s, i)
    decreases |s| - i
  {
    if i < |s| {
      if MatchAt(MergeEnglish, s, i).Some? {
        var e := MatchAt(MergeEnglish, s, i).value.end;
        SubFromMatch(MergeEnglish, s, i);
        EnglishKeepHead(s, i);
        EnglishKeepWord(s, i);
        EnglishFrom(s, e);
        calc {
          SubFrom(MergeEnglish, s, i);
          ([s[i]] + s[i + 2..e]) + KeepFrom(s, e);
          { AppendAssoc([s[i]], s[i + 2..e], KeepFrom(s, e)); }
          [s[i]] + (s[i + 2..e] + KeepFrom(s, e));
          KeepFrom(s, i);
        }
      } else {
        EnglishCopyStep(s, i);
        EnglishFrom(s, i + 1);
      }
    }
  }

  /** English healing removes exactly the merged spaces and keeps every other character in order. */
  lemma {:induction false} HealEnDeletesMergedSpaces(s: string)
    ensures HealEn(s) == KeepFrom(s, 0)
  {
    EnglishFrom(s, 0);
  }

  // ------------------------------------------------------------ words the Turkish pass leaves alone

  /** One word with no space and no hyphen, containing neither `ışş` nor `şğ` in any letter case. */
  predicate CleanWord(s: string)
  {
    && ' ' !in s && '-' !in s
    && (forall i: nat :: i < |s| ==> !FoldOccursAt(s, "ışş", i))
    && (forall i: nat :: i < |s| ==> !FoldOccursAt(s, "şğ", i))
  }

  /** Rules applied in turn, when only the `j`-th of them matches anywhere. */
  lemma {:induction false} ApplyAllOne(rules: seq<Rule>, j: nat, s: string, t: string)
    requires j < |rules|
    requires forall k :: 0 <= k < j ==> Inert(rules[k], s)
    requires Sub(rules[j], s) == t
    requires forall k :: j < k < |rules| ==> Inert(rules[k], t)
    ensures ApplyAll(rules, s) == t
  {
    var rest := rules[1..];
    if j == 0 {
      forall k | 0 <= k < |rest| ensures Inert(rest[k], t) {
        assert rest[k] == rules[k + 1];
      }
      ApplyAllInert(rest, t);
    } else {
      InertSub(rules[0], s);
      forall k | 0 <= k < j - 1 ensures Inert(rest[k], s) {
        assert rest[k] == rules[k + 1];
      }
      forall k | j - 1 < k < |rest| ensures Inert(rest[k], t) {
        assert rest[k] == rules[k + 1];
      }
      assert rest[j - 1] == rules[j];
      ApplyAllOne(rest, j - 1, s, t);
    }
  }

  lemma {:induction false} BrokenWordsSpaced()
    ensures forall r :: r in BrokenWords ==> r.Literal? && ' ' in r.pattern
  {
  }

  /** Every rule of the corrected pass is inert on a clean word. */
  lemma {:induction false} CleanWordInert(s: string, k: nat)
    requires CleanWord(s) && k < |TurkishRules|
    ensures Inert(TurkishRules[k], s)
  {
    var r := TurkishRules[k];
    if k < |Structural| {
      assert r == Structural[k];
      StructuralInert(r, s);
    } else if k < |Structural| + |BrokenWords| {
      assert r == BrokenWords[k - |Structural|];
      BrokenWordsSpaced();
      SpacedLiteralInert(r, s);
    } else if r == DoubleShin {
      AbsentLiteralInert(r, s);
    } else {
      assert r == ShinYumusak;
      AbsentLiteralInert(r, s);
    }
  }

  /** The corrected Turkish pass leaves a clean word as it is. */
  lemma {:induction false} TrPassKeepsCleanWord(s: string)
    requires CleanWord(s)
    ensures TrPass(s) == s
  {
    forall k | 0 <= k < |TurkishRules| ensures Inert(TurkishRules[k], s) {
      CleanWordInert(s, k);
    }
    ApplyAllInert(TurkishRules, s);
  }

  /** Healing without the identity entries leaves a clean word unchanged in either language. */
  lemma {:induction false} HealLineIntendedKeepsCleanWord(s: string, lang: Lang)
    requires CleanWord(s)
    ensures HealLineIntended(s, lang) == s
  {
    if |s| >= 3 {
      if lang == Tr {
        TrPassKeepsCleanWord(s);
        assert Repeat(TrPass, s, "", 0) == Repeat(TrPass, s, s, 1);
      } else {
        StructuralInert(MergeEnglish, s);
        InertSub(MergeEnglish, s);
      }
    }
  }

  // ------------------------------------------------------------ the identity entries under IGNORECASE

  /** The "normalize" entry `ğı -> ğı`, the ninth rule of the pass as written. */
  const SoftGI: Rule := Literal("ğı", "ğı", false)

  /** One letter that differs, case-insensitively, from the pattern rules out a match. */
  lemma {:induction false} FoldMismatch(s: string, pattern: string, i: nat, k: nat)
    requires k < |pattern| && i + k < |s| && !FoldEq(s[i + k], pattern[k])
    ensures !FoldOccursAt(s, pattern, i)
  {
  }

  /** A pattern letter that matches no letter of `s` rules out a match anywhere. */
  lemma {:induction false} FoldAbsent(s: string, pattern: string, j: nat)
    requires j < |pattern| && forall k :: 0 <= k < |s| ==> !FoldEq(s[k], pattern[j])
    ensures forall i: nat :: i < |s| ==> !FoldOccursAt(s, pattern, i)
  {
    forall i: nat | i < |s| ensures !FoldOccursAt(s, pattern, i) {
      if i + j < |s| {
        FoldMismatch(s, pattern, i, j);
      }
    }
  }

  /** "değil" and "değıl" differ only in their fourth letter. */
  predicate IsDegil(s: string) { s == "değil" || s == "değıl" }

  /** Neither spelling contains an `ş` in any case. */
  lemma {:induction false} DegilNoShin(s: string)
    requires IsDegil(s)
    ensures forall k :: 0 <= k < |s| ==> !FoldEq(s[k], 'ş')
  {
    forall k | 0 <= k < |s| ensures !FoldEq(s[k], 'ş') {
      assert s[k] in "değilı" by { assert s[k] in s; }
    }
  }

  lemma {:induction false} DegilFoldAbsent(s: string, r: Rule)
    requires IsDegil(s)
    requires r in {Literal("şı", "şı", false), DoubleShin, TrailingIdentity, ShinYumusak}
    ensures Inert(r, s)
  {
    DegilNoShin(s);
    if r == Literal("şı", "şı", false) || r == ShinYumusak {
      FoldAbsent(s, r.pattern, 0);
    } else if r == DoubleShin {
      FoldAbsent(s, r.pattern, 1);
    } else {
      forall i: nat | i < |s| ensures !FoldOccursAt(s, r.pattern, i) {
        if i == 1 {
          FoldMismatch(s, r.pattern, 1, 0);
        } else if i + 1 < |s| {
          assert s[i + 1] != 'ğ';
          FoldMismatch(s, r.pattern, i, 1);
        }
      }
    }
    AbsentLiteralInert(r, s);
  }

  /** Sub of `ğı -> ğı` on either spelling: the match at the third letter writes a dotless `ı`. */
  lemma {:induction false} SoftGIOnDegil(s: string)
    requires IsDegil(s)
    ensures Sub(SoftGI, s) == "değıl"
  {
    FoldMismatch(s, "ğı", 0, 0);
    FoldMismatch(s, "ğı", 1, 0);
    CopyFrom(SoftGI, s, 0, 2);
    assert MatchAt(SoftGI, s, 2) == Some(Match(4, "ğı"));
    SubFromMatch(SoftGI, s, 2);
    CopyFrom(SoftGI, s, 4, 5);
    assert s[0..2] == "de" && s[4..5] == "l";
  }

  /** On either spelling every rule of the pass as written other than `ğı -> ğı` is inert. */
  lemma {:induction false} DegilOthersInert(s: string, k: nat)
    requires IsDegil(s)
    requires k < |TurkishRulesAsWritten| && k != |Structural| + 1
    ensures Inert(TurkishRulesAsWritten[k], s)
  {
    var r := TurkishRulesAsWritten[k];
    var n := |Structural|;
    if k < n {
      assert r == Structural[k];
      StructuralInert(r, s);
    } else if k == n {
      assert r == Literal("şı", "şı", false);
      DegilFoldAbsent(s, r);
    } else if k < n + 2 + |BrokenWords| {
      assert r == BrokenWords[k - n - 2];
      BrokenWordsSpaced();
      SpacedLiteralInert(r, s);
    } else {
      assert r == DoubleShin || r == TrailingIdentity || r == ShinYumusak;
      DegilFoldAbsent(s, r);
    }
  }

  lemma {:induction false} DegilPassAsWritten(s: string)
    requires IsDegil(s)
    ensures TrPassAsWritten(s) == "değıl"
  {
    var j := |Structural| + 1;
    assert TurkishRulesAsWritten[j] == SoftGI;
    forall k | 0 <= k < |TurkishRulesAsWritten| && k != j ensures Inert(TurkishRulesAsWritten[k], s) {
      DegilOthersInert(s, k);
    }
    forall k | j < k < |TurkishRulesAsWritten| ensures Inert(TurkishRulesAsWritten[k], "değıl") {
      DegilOthersInert("değıl", k);
    }
    SoftGIOnDegil(s);
    ApplyAllOne(TurkishRulesAsWritten, j, s, "değıl");
  }

  /** As written, healing the Turkish line "değil" (not) returns the misspelling "değıl" after two
      passes: under IGNORECASE the dotless `ı` of the identity entry also matches a dotted `i`. */
  lemma {:induction false} HealLineAsWrittenMisspellsDegil()
    ensures HealLine("değil", Tr) == "değıl"
  {
    DegilPassAsWritten("değil");
    DegilPassAsWritten("değıl");
    assert Repeat(TrPassAsWritten, "değil", "", 0) == Passes("değıl", 2);
  }

  /** Without the identity entries the same line comes back unchanged. */
  lemma {:induction false} HealLineKeepsDegil()
    ensures HealLineIntended("değil", Tr) == "değil"
  {
    var s := "değil";
    DegilNoShin(s);
    FoldAbsent(s, "ışş", 1);
    FoldAbsent(s, "şğ", 0);
    HealLineIntendedKeepsCleanWord(s, Tr);
  }

  // ------------------------------------------------------------ worked examples

  /** A conjunction split in two is joined. */
  lemma {:induction false} ConjunctionExample()
    ensures Sub(Conjunction, "v e") == "ve"
    ensures Sub(Conjunction, "d e") == "de"
  {
    SubFromMatch(Conjunction, "v e", 0);
    SubFromMatch(Conjunction, "d e", 0);
  }

  lemma {:induction false} ParticleExampleTail(s: string)
    requires s == "b u kitap güzel"
    ensures SubFrom(Particle, s, 3) == " kitap güzel"
  {
    forall k | 3 <= k < |s| ensures MatchAt(Particle, s, k).None? {
      if k == 8 {
        assert !Boundary(s, 8);
      } else {
        assert k + 3 > |s| || s[k + 1] != ' ';
      }
    }
    CopyFrom(Particle, s, 3, |s|);
    assert s[3..|s|] == " kitap güzel";
  }

  lemma {:induction false} BuKitap()
    ensures "bu" + " kitap güzel" == "bu kitap güzel"
  {
  }

  lemma {:induction false} ParticleExampleMatch(s: string)
    requires s == "b u kitap güzel"
    ensures MatchAt(Particle, s, 0) == Some(Match(3, "bu"))
  {
    assert Run(s, 3, TurkishLower) == 0;
    assert Boundary(s, 0) && Boundary(s, 3);
    assert [s[0]] + s[2..3] == "bu";
  }

  /** A detached Turkish particle letter is joined to its word. */
  lemma {:induction false} ParticleExample()
    ensures Sub(Particle, "b u kitap güzel") == "bu kitap güzel"
  {
    var s := "b u kitap güzel";
    ParticleExampleMatch(s);
    SubFromMatch(Particle, s, 0);
    ParticleExampleTail(s);
    BuKitap();
  }

  /** In "this is a book" no space follows a lone consonant, so English healing keeps "a book". */
  lemma {:induction false} EnglishKeepsABook()
    ensures HealEn("this is a book") == "this is a book"
  {
    var s := "this is a book";
    forall k | 0 <= k < |s| ensures MatchAt(MergeEnglish, s, k).None? {
      if k == 3 || k == 6 {
        assert !Boundary(s, k);
      } else if k != 8 {
        assert k + 3 > |s| || s[k + 1] != ' ';
      }
    }
    InertSub(MergeEnglish, s);
  }

  lemma {:induction false} HyphenExampleRuns(s: string)
    requires s == "prob- lem"
    ensures Run(s, 0, TurkishLower) == 4 && Run(s, 6, TurkishLower) == 3
  {
    assert !TurkishLower(s[4]);
    assert Run(s, 4, TurkishLower) == 0;
    assert Run(s, 9, TurkishLower) == 0;
  }

  lemma {:induction false} HyphenExampleMatch(s: string)
    requires s == "prob- lem"
    ensures MatchAt(Hyphen, s, 0) == Some(Match(9, "problem"))
  {
    HyphenExampleRuns(s);
    assert SkipSpace(s, 4) == 4 && SkipSpace(s, 5) == 6;
    assert HyphenSplit(s, 0) == Some(HyphenCut(4, 6, 9));
    assert s[0..4] + s[6..9] == "problem";
  }

  /** A word broken at a line-end hyphen is rejoined. */
  lemma {:induction false} HyphenExample()
    ensures Sub(Hyphen, "prob- lem") == "problem"
  {
    HyphenExampleMatch("prob- lem");
    SubFromMatch(Hyphen, "prob- lem", 0);
  }

  lemma {:induction false} EnglishExampleMatch(s: string)
    requires s == "t he cat"
    ensures MatchAt(MergeEnglish, s, 0) == Some(Match(4, "the"))
  {
    assert Run(s, 4, IsAsciiLower) == 0;
    assert Run(s, 3, IsAsciiLower) == 1;
    assert Boundary(s, 0) && Boundary(s, 4);
    assert [s[0]] + s[2..4] == "the";
  }

  lemma {:induction false} EnglishExampleTail(s: string)
    requires s == "t he cat"
    ensures SubFrom(MergeEnglish, s, 4) == " cat"
  {
    assert MatchAt(MergeEnglish, s, 4).None? && MatchAt(MergeEnglish, s, 6).None?;
    assert MatchAt(MergeEnglish, s, 5).None? by { assert s[6] != ' '; }
    assert MatchAt(MergeEnglish, s, 7).None?;
    CopyFrom(MergeEnglish, s, 4, 8);
    assert s[4..8] == " cat";
  }

  /** A detached first letter of an English word is joined to the rest; the next word stays apart. */
  lemma {:induction false} EnglishExample()
    ensures HealEn("t he cat") == "the cat"
  {
    var s := "t he cat";
    EnglishExampleMatch(s);
    SubFromMatch(MergeEnglish, s, 0);
    EnglishExampleTail(s);
  }
}

=== FILE: loader.dfy ===
/**
 Splitting a document into chunks of pages. The loader walks page indices
 0, size, 2*size, ... below the page count; each step copies pages
 [start, min(start + size, total)) into a temporary file and yields a chunk
 numbered from 1. Each step first makes sure the temporary directory exists;
 when that raises, the error is re-raised and the callers, which collect
 every chunk, get no chunk at all. A chunk whose save raises is skipped;
 failing to open the document is re-raised.
 */
module Loader {
  import opened Common
  import opened Seqs

  /** A chunk's 1-based first and last page. The file paths are left abstract. */
  datatype Chunk = Chunk(startPage: nat, endPage: nat)

  function MinNat(a: nat, b: nat): nat { if a <= b then a else b }

  /** The chunk whose 0-based first page index is `i`. */
  function ChunkAt(i: nat, total: nat, size: nat): Chunk
  {
    Chunk(i + 1, MinNat(i + size, total))
  }

  /** The chunks of the loop `for start_idx in range(i, total, size)`. */
  function ChunksFrom(i: nat, total: nat, size: nat): seq<Chunk>
    requires size > 0
    decreases if i < total then total - i else 0
  {
    if i >= total then [] else [ChunkAt(i, total, size)] + ChunksFrom(i + size, total, size)
  }

  function Chunks(total: nat, size: nat): seq<Chunk>
    requires size > 0
  {
    ChunksFrom(0, total, size)
  }

  /** Page `p` belongs to chunk `c`. */
  predicate Holds(c: Chunk, p: int) { c.startPage <= p <= c.endPage }

  lemma {:induction false} MulStep(n: nat, size: nat)
    ensures (n + 1) * size == n * size + size
  {
  }

  lemma {:induction false} MulMono(a: nat, b: nat, size: nat)
    requires a <= b
    ensures a * size <= b * size
  {
  }

  lemma {:induction false} DivBounds(x: nat, size: nat)
    requires size > 0
    ensures (x / size) * size <= x < (x / size) * size + size
  {
  }

  /** From `i`, the `k`-th chunk starts `k * size` pages later, and there are just enough chunks
      to reach the page count. */
  lemma {:induction false} ChunksFromForm(i: nat, total: nat, size: nat)
    requires size > 0
    ensures var n := |ChunksFrom(i, total, size)|;
      && (i < total ==> n > 0 && (n - 1) * size < total - i && total - i <= n * size)
      && (i >= total ==> n == 0)
    ensures forall k :: 0 <= k < |ChunksFrom(i, total, size)| ==>
      ChunksFrom(i, total, size)[k] == ChunkAt(i + k * size, total, size)
    decreases if i < total then total - i else 0
  {
    if i < total {
      var cs := ChunksFrom(i, total, size);
      var rest := ChunksFrom(i + size, total, size);
      ChunksFromForm(i + size, total, size);
      var m := |rest|;
      MulStep(m, size);
      if m > 0 {
        MulStep(m - 1, size);
      }
      forall k | 0 <= k < |cs| ensures cs[k] == ChunkAt(i + k * size, total, size) {
        if k > 0 {
          assert cs[k] == rest[k - 1];
          MulStep(k - 1, size);
        }
      }
    }
  }

  /** Chunk `k` spans pages `k * size + 1` to `min((k + 1) * size, total)`; the number of chunks is
      the least `n` with `n * size >= total`, that is ⌈total / size⌉, and none for an empty
      document. */
  lemma {:induction false} ChunkRanges(total: nat, size: nat)
    requires size > 0
    ensures var cs := Chunks(total, size);
      && total <= |cs| * size
      && (|cs| > 0 ==> (|cs| - 1) * size < total)
      && (total == 0 <==> cs == [])
      && forall k :: 0 <= k < |cs| ==>
        cs[k].startPage == k * size + 1 && cs[k].endPage == MinNat((k + 1) * size, total)
  {
    var cs := Chunks(total, size);
    ChunksFromForm(0, total, size);
    forall k | 0 <= k < |cs| ensures cs[k].endPage == MinNat((k + 1) * size, total) {
      MulStep(k, size);
    }
  }

  /** Chunk `k` exists only when its first page index is below the page count. */
  lemma {:induction false} StartBelow(total: nat, size: nat, k: nat)
    requires size > 0 && k < |Chunks(total, size)|
    ensures k * size < total
  {
    ChunkRanges(total, size);
    MulMono(k, |Chunks(total, size)| - 1, size);
  }

  /** Every chunk is non-empty and holds `size` pages except the last, which may hold fewer;
      neighbouring chunks are contiguous; the first starts at page 1 and the last ends at the
      last page. */
  lemma {:induction false} ChunksTile(total: nat, size: nat)
    requires size > 0
    ensures var cs := Chunks(total, size);
      && (forall k :: 0 <= k < |cs| ==> cs[k].startPage <= cs[k].endPage <= cs[k].startPage + size - 1)
      && (forall k :: 0 <= k < |cs| - 1 ==> cs[k].endPage == cs[k].startPage + size - 1)
      && (forall k :: 0 <= k < |cs| - 1 ==> cs[k + 1].startPage == cs[k].endPage + 1)
      && (|cs| > 0 ==> cs[0].startPage == 1 && cs[|cs| - 1].endPage == total)
  {
    var cs := Chunks(total, size);
    ChunkRanges(total, size);
    forall k | 0 <= k < |cs| ensures cs[k].startPage <= cs[k].endPage <= cs[k].startPage + size - 1 {
      StartBelow(total, size, k);
      MulStep(k, size);
    }
    forall k | 0 <= k < |cs| - 1
      ensures cs[k].endPage == cs[k].startPage + size - 1 && cs[k + 1].startPage == cs[k].endPage + 1
    {
      StartBelow(total, size, k + 1);
      MulStep(k, size);
    }
    if |cs| > 0 {
      MulStep(|cs| - 1, size);
    }
  }

  /** Some chunk holds page `p`. */
  predicate Covered(cs: seq<Chunk>, p: int)
  {
    exists k :: 0 <= k < |cs| && Holds(cs[k], p)
  }

  /** The chunk holding page `p`: the one at index `(p - 1) / size`. */
  lemma {:induction false} ChunkOfPage(total: nat, size: nat, p: nat) returns (k: nat)
    requires size > 0 && 1 <= p <= total
    ensures k < |Chunks(total, size)| && Holds(Chunks(total, size)[k], p)
  {
    var cs := Chunks(total, size);
    ChunkRanges(total, size);
    k := (p - 1) / size;
    DivBounds(p - 1, size);
    assert k < |cs| by {
      if k >= |cs| {
        MulMono(|cs|, k, size);
      }
    }
    MulStep(k, size);
  }

  /** Every page from 1 to the page count lies in exactly one chunk, and no chunk holds any other
      page. */
  lemma {:induction false} ChunksPartitionPages(total: nat, size: nat)
    requires size > 0
    ensures var cs := Chunks(total, size);
      && (forall p :: 1 <= p <= total ==> Covered(cs, p))
      && (forall p :: Covered(cs, p) ==> 1 <= p <= total)
      && (forall j, k, p :: 0 <= j < k < |cs| && Holds(cs[j], p) ==> !Holds(cs[k], p))
  {
    var cs := Chunks(total, size);
    ChunkRanges(total, size);
    ChunksTile(total, size);
    forall p | 1 <= p <= total ensures Covered(cs, p) {
      var k := ChunkOfPage(total, size, p);
    }
    forall j, k, p | 0 <= j < k < |cs| && Holds(cs[j], p) ensures !Holds(cs[k], p) {
      MulStep(j, size);
      MulMono(j + 1, k, size);
    }
  }

  /** The number of pages chunk `c` holds. */
  function Pages(c: Chunk): int { c.endPage - c.startPage + 1 }

  /** From index `i`, the chunks hold the remaining pages. */
  lemma {:induction false} PagesFrom(i: nat, total: nat, size: nat)
    requires size > 0
    ensures SumOf(ChunksFrom(i, total, size), Pages) == if i < total then total - i else 0
    decreases if i < total then total - i else 0
  {
    if i < total {
      var cs := ChunksFrom(i, total, size);
      var rest := ChunksFrom(i + size, total, size);
      PagesFrom(i + size, total, size);
      assert cs[0] == ChunkAt(i, total, size) && cs[1..] == rest;
    }
  }

  /** The chunks hold `total` pages between them. */
  lemma {:induction false} ChunksHoldAllPages(total: nat, size: nat)
    requires size > 0
    ensures SumOf(Chunks(total, size), Pages) == total
  {
    PagesFrom(0, total, size);
  }

  function StartLt(a: Chunk, b: Chunk): bool { a.startPage < b.startPage }

  function StartOf(c: Chunk): nat { c.startPage }

  /** Chunks come with strictly ascending first pages. */
  lemma {:induction false} ChunksAscending(total: nat, size: nat)
    requires size > 0
    ensures SortedBy(Chunks(total, size), StartLt)
  {
    var cs := Chunks(total, size);
    ChunkRanges(total, size);
    forall i, j | 0 <= i < j < |cs| ensures StartLt(cs[i], cs[j]) {
      MulStep(i, size);
      MulMono(i + 1, j, size);
    }
  }

  // ------------------------------------------------------------ the generator

  /** What opening the document gives: its page count, or the error it raised. */
  datatype Opened = OpenFailed(error: string) | Opened(total: nat)

  /** The generator's outcome: the chunks yielded, or the error re-raised. */
  datatype Streamed = Raised(error: string) | Yielded(chunks: seq<Chunk>)

  /** The error of the first chunk, in loop order, whose directory step raised. */
  function FirstDirError(cs: seq<Chunk>, dirError: Chunk -> Option<string>): (e: Option<string>)
    ensures e.None? <==> forall c :: c in cs ==> dirError(c).None?
    ensures e.Some? ==> exists c :: c in cs && dirError(c) == e
  {
    if |cs| == 0 then None
    else if dirError(cs[0]).Some? then dirError(cs[0])
    else FirstDirError(cs[1..], dirError)
  }

  /** `stream_chunks`, as its callers consume it: to the end or to the first error.
      `dirError(c)` is what creating the temporary directory raises at chunk `c`'s step, if
      anything; `saved(c)` says whether writing chunk `c`'s temporary file succeeds. A step of zero
      makes `range` raise, a negative step yields nothing. */
  function StreamChunks(doc: Opened, size: int, dirError: Chunk -> Option<string>, saved: Chunk -> bool): (r: Streamed)
    ensures doc.OpenFailed? ==> r == Raised(doc.error)
    ensures doc.Opened? && size > 0 ==>
      (r.Yielded? <==> forall c :: c in Chunks(doc.total, size) ==> dirError(c).None?)
    ensures doc.Opened? && size > 0 && r.Raised? ==>
      exists c :: c in Chunks(doc.total, size) && dirError(c) == Some(r.error)
  {
    if doc.OpenFailed? then Raised(doc.error)
    else if size == 0 then Raised("range() arg 3 must not be zero")
    else if size < 0 then Yielded([])
    else
      match FirstDirError(Chunks(doc.total, size), dirError)
      case Some(e) => Raised(e)
      case None => Yielded(Filter(Chunks(doc.total, size), saved))
  }

  /** When the temporary directory can be made at every step, the yielded chunks keep the loop's
      order; a chunk is yielded exactly when its file was written, so a failed save does not stop
      the later chunks; when every write succeeds all chunks are yielded. */
  lemma {:induction false} StreamSkipsFailedSaves(total: nat, size: nat, dirError: Chunk -> Option<string>, saved: Chunk -> bool)
    requires size > 0
    ensures var r := StreamChunks(Opened(total), size, dirError, saved);
      (forall c :: c in Chunks(total, size) ==> dirError(c).None?) ==>
      && r.Yielded?
      && IsSubseq(r.chunks, Chunks(total, size))
      && (forall c :: c in r.chunks <==> c in Chunks(total, size) && saved(c))
      && ((forall c :: c in Chunks(total, size) ==> saved(c)) ==> r.chunks == Chunks(total, size))
      && SortedBy(r.chunks, StartLt)
  {
    var cs := Chunks(total, size);
    FilterIsSubseq(cs, saved);
    ChunksAscending(total, size);
    FilterSorted(cs, saved, StartLt);
    if forall c :: c in cs ==> saved(c) {
      FilterAll(cs, saved);
    }
  }
}

=== FILE: markdown.dfy ===
/**
 Markdown rendering of extracted tables. Two renderers share the layout
 "| a | b |" / "| --- | --- |" / body rows, joined by line breaks with one
 trailing break:

 - the neural engine's matrix renderer heals every non-empty cell, escapes
   `|` inside cells and pads every row to the widest row;
 - the plain table renderer of the multi-strategy extractor takes the
   header's width and pads or truncates every body row to it.
 */
module Markdown {
  import opened Common
  import Healer

  // ------------------------------------------------------------ cells

  /** `s` with every `a` replaced by `b`. */
  function ReplaceChar(s: string, a: char, b: char): (r: string)
    ensures |r| == |s|
    ensures forall i :: 0 <= i < |s| ==> r[i] == (if s[i] == a then b else s[i])
  {
    seq(|s|, i requires 0 <= i < |s| => if s[i] == a then b else s[i])
  }

  /** The cleaning both renderers apply to a cell: surrounding whitespace stripped, then every
      line break inside turned into a space. */
  function CleanCell(s: string): (r: string)
    ensures '\n' !in r
    ensures |r| <= |s|
    ensures r == "" <==> IsBlank(s)
  {
    ReplaceChar(Strip(s), '\n', ' ')
  }

  /** Every `|` preceded by a backslash, so that it does not end the cell. */
  function EscapePipes(s: string): (r: string)
    ensures |r| == |s| + CountChar(s, '|')
    ensures |r| > 0 ==> r[0] != '|'
    ensures '\n' in r <==> '\n' in s
  {
    if |s| == 0 then ""
    else
      var rest := EscapePipes(s[1..]);
      assert '\n' in s <==> s[0] == '\n' || '\n' in s[1..] by {
        assert s == [s[0]] + s[1..];
      }
      (if s[0] == '|' then "\\|" else [s[0]]) + rest
  }

  /** How a Markdown reader reads an escaped cell back: `\|` stands for `|`. */
  function UnescapePipes(s: string): string
  {
    if |s| == 0 then ""
    else if |s| >= 2 && s[0] == '\\' && s[1] == '|' then "|" + UnescapePipes(s[2..])
    else [s[0]] + UnescapePipes(s[1..])
  }

  /** Escaping loses nothing: reading the escaped cell back gives the cell. */
  lemma {:induction false} EscapeRoundTrip(s: string)
    ensures UnescapePipes(EscapePipes(s)) == s
  {
    if |s| > 0 {
      var rest := EscapePipes(s[1..]);
      EscapeRoundTrip(s[1..]);
      if s[0] == '|' {
        assert EscapePipes(s) == "\\|" + rest;
        assert (("\\|" + rest)[2..]) == rest;
      } else {
        assert EscapePipes(s) == [s[0]] + rest;
        assert ([s[0]] + rest)[1..] == rest;
      }
      assert s == [s[0]] + s[1..];
    }
  }

  /** Every `|` of an escaped cell is preceded by a backslash: no cell can end early. */
  lemma {:induction false} EscapedPipes(s: string)
    ensures forall k :: 0 <= k < |EscapePipes(s)| && EscapePipes(s)[k] == '|' ==>
      k > 0 && EscapePipes(s)[k - 1] == '\\'
  {
    if |s| > 0 {
      EscapedPipes(s[1..]);
      var rest := EscapePipes(s[1..]);
      var head: string := if s[0] == '|' then "\\|" else [s[0]];
      var r := head + rest;
      assert EscapePipes(s) == r;
      forall k | 0 <= k < |r| && r[k] == '|' ensures k > 0 && r[k - 1] == '\\' {
        if k >= |head| {
          var j := k - |head|;
          assert rest[j] == '|';
          if j > 0 {
            assert r[k - 1] == rest[j - 1];
          }
        }
      }
    }
  }

  // ------------------------------------------------------------ rows

  /** One Markdown table line. */
  function Row(cells: seq<string>): string
  {
    "| " + Join(cells, " | ") + " |"
  }

  lemma {:induction false} RowFree(cells: seq<string>)
    requires forall i :: 0 <= i < |cells| ==> '\n' !in cells[i]
    ensures '\n' !in Row(cells)
  {
    JoinFree(cells, " | ", '\n');
  }

  /** The `---` cells of the separator line. */
  function Dashes(n: nat): (r: seq<string>)
    ensures |r| == n && forall i :: 0 <= i < n ==> r[i] == "---"
  {
    seq(n, i => "---")
  }

  function Blanks(n: nat): (r: seq<string>)
    ensures |r| == n && forall i :: 0 <= i < n ==> r[i] == ""
  {
    seq(n, i => "")
  }

  /** A row brought to `n` cells: short rows are padded with empty cells, long rows truncated. */
  function PadTo(row: seq<string>, n: nat): (r: seq<string>)
    ensures |r| == n
    ensures forall i :: 0 <= i < n ==> r[i] == (if i < |row| then row[i] else "")
  {
    if |row| >= n then row[..n] else row + Blanks(n - |row|)
  }

  /** The line of every row. */
  function RowLines(rows: seq<seq<string>>): (ls: seq<string>)
    ensures |ls| == |rows| && forall k :: 0 <= k < |rows| ==> ls[k] == Row(rows[k])
  {
    seq(|rows|, k requires 0 <= k < |rows| => Row(rows[k]))
  }

  /** Header, separator of `n` dashes, then the body rows. */
  function TableLines(header: seq<string>, n: nat, body: seq<seq<string>>): seq<string>
  {
    [Row(header), Row(Dashes(n))] + RowLines(body)
  }

  /** `"\n".join(lines) + "\n"` */
  function Render(lines: seq<string>): string
  {
    Join(lines, "\n") + "\n"
  }

  predicate NoBreaks(rows: seq<seq<string>>)
  {
    forall k, i :: 0 <= k < |rows| && 0 <= i < |rows[k]| ==> '\n' !in rows[k][i]
  }

  predicate CellsFree(row: seq<string>)
  {
    forall i :: 0 <= i < |row| ==> '\n' !in row[i]
  }

  lemma {:induction false} NoBreaksCons(header: seq<string>, body: seq<seq<string>>)
    requires CellsFree(header) && NoBreaks(body)
    ensures NoBreaks([header] + body)
  {
    forall k, i | 0 <= k < |[header] + body| && 0 <= i < |([header] + body)[k]|
      ensures '\n' !in ([header] + body)[k][i]
    {
      if k > 0 {
        assert ([header] + body)[k] == body[k - 1];
      }
    }
  }

  lemma {:induction false} PadFree(row: seq<string>, n: nat)
    requires CellsFree(row)
    ensures CellsFree(PadTo(row, n))
  {
  }

  /** Split at line breaks, a rendered table is its lines followed by the empty remainder after
      the final break. */
  lemma {:induction false} RenderSplit(header: seq<string>, n: nat, body: seq<seq<string>>)
    requires NoBreaks([header] + body)
    ensures Split(Render(TableLines(header, n, body)), '\n') == TableLines(header, n, body) + [""]
  {
    var lines := TableLines(header, n, body);
    assert forall i :: 0 <= i < |header| ==> '\n' !in header[i] by {
      assert ([header] + body)[0] == header;
    }
    RowFree(header);
    RowFree(Dashes(n));
    forall k | 0 <= k < |lines| ensures '\n' !in lines[k] {
      if k >= 2 {
        assert lines[k] == Row(body[k - 2]);
        assert ([header] + body)[k - 1] == body[k - 2];
        RowFree(body[k - 2]);
      }
    }
    SplitJoin(lines, '\n');
    SplitNone("", '\n');
    SplitAround(Join(lines, "\n"), "", '\n');
    assert Render(lines) == Join(lines, "\n") + ['\n'] + "";
  }

  /** The split lines of a rendered table one by one. */
  lemma {:induction false} RenderedLines(header: seq<string>, n: nat, body: seq<seq<string>>)
    requires NoBreaks([header] + body)
    ensures var ls := Split(Render(TableLines(header, n, body)), '\n');
      && |ls| == |body| + 3 && ls[|body| + 2] == ""
      && ls[0] == Row(header) && ls[1] == Row(Dashes(n))
      && forall k :: 0 <= k < |body| ==> ls[k + 2] == Row(body[k])
  {
    RenderSplit(header, n, body);
  }

  // ------------------------------------------------------------ the neural engine's matrix renderer

  /** A matrix cell: cleaned, healed when non-empty, pipes escaped. */
  function MatrixCell(s: string): (r: string)
    ensures '\n' !in r
  {
    var t := CleanCell(s);
    var healed := if |t| > 0 then Healer.HealDocument(t) else t;
    assert '\n' !in healed by {
      if |t| > 0 {
        NoCharCount(t, '\n');
        Healer.HealDocumentNewlines(t);
        CountZero(healed, '\n');
      }
    }
    EscapePipes(healed)
  }

  function MatrixRow(row: seq<string>): (r: seq<string>)
    ensures |r| == |row| && forall i :: 0 <= i < |row| ==> r[i] == MatrixCell(row[i])
  {
    seq(|row|, i requires 0 <= i < |row| => MatrixCell(row[i]))
  }

  function MatrixRows(m: seq<seq<string>>): (r: seq<seq<string>>)
    ensures |r| == |m| && forall k :: 0 <= k < |m| ==> r[k] == MatrixRow(m[k])
  {
    seq(|m|, k requires 0 <= k < |m| => MatrixRow(m[k]))
  }

  /** The widest row's length. */
  function MaxWidth(rows: seq<seq<string>>): (w: nat)
    requires |rows| > 0
    ensures forall k :: 0 <= k < |rows| ==> |rows[k]| <= w
    ensures exists k :: 0 <= k < |rows| && |rows[k]| == w
  {
    if |rows| == 1 then |rows[0]|
    else
      var rest := MaxWidth(rows[1..]);
      assert forall k :: 1 <= k < |rows| ==> rows[k] == rows[1..][k - 1];
      if |rows[0]| >= rest then |rows[0]| else rest
  }

  function PadAll(rows: seq<seq<string>>, n: nat): (r: seq<seq<string>>)
    ensures |r| == |rows| && forall k :: 0 <= k < |rows| ==> r[k] == PadTo(rows[k], n)
  {
    seq(|rows|, k requires 0 <= k < |rows| => PadTo(rows[k], n))
  }

  /** `_matrix_to_markdown`: `None` below two rows. */
  function MatrixToMarkdown(m: seq<seq<string>>): (r: Option<string>)
    ensures r.None? <==> |m| < 2
  {
    if |m| < 2 then None
    else
      var cells := MatrixRows(m);
      var n := MaxWidth(cells);
      var padded := PadAll(cells, n);
      Some(Render(TableLines(padded[0], n, padded[1..])))
  }

  /** Each line of a rendered matrix: the header, `n` dashes, then every row in order, each padded
      with empty cells to the widest row's width `n` and never truncated, every cell cleaned, healed
      and escaped; the text ends with a line break. */
  lemma {:induction false} MatrixToMarkdownLines(m: seq<seq<string>>)
    requires |m| >= 2
    ensures var n := MaxWidth(MatrixRows(m));
      var ls := Split(MatrixToMarkdown(m).value, '\n');
      && |ls| == |m| + 2 && ls[|m| + 1] == ""
      && ls[1] == Row(Dashes(n))
      && ls[0] == Row(PadTo(MatrixRow(m[0]), n))
      && (forall k :: 1 <= k < |m| ==> ls[k + 1] == Row(PadTo(MatrixRow(m[k]), n)))
      && (forall k :: 0 <= k < |m| ==> |m[k]| <= n)
  {
    var n := MaxWidth(MatrixRows(m));
    var padded := PadAll(MatrixRows(m), n);
    PaddedFree(m, n);
    RenderedLines(padded[0], n, padded[1..]);
    assert MatrixToMarkdown(m).value == Render(TableLines(padded[0], n, padded[1..]));
    forall k | 1 <= k < |m| ensures padded[1..][k - 1] == PadTo(MatrixRow(m[k]), n) {
      PaddedRowAt(m, n, k);
    }
  }

  lemma {:induction false} PaddedFree(m: seq<seq<string>>, n: nat)
    requires |m| >= 2
    ensures var padded := PadAll(MatrixRows(m), n); NoBreaks([padded[0]] + padded[1..])
  {
    var cells := MatrixRows(m);
    var padded := PadAll(cells, n);
    forall k | 0 <= k < |padded| ensures CellsFree(padded[k]) {
      PadFree(cells[k], n);
    }
    NoBreaksCons(padded[0], padded[1..]);
  }

  lemma {:induction false} PaddedRowAt(m: seq<seq<string>>, n: nat, k: nat)
    requires 1 <= k < |m|
    ensures PadAll(MatrixRows(m), n)[1..][k - 1] == PadTo(MatrixRow(m[k]), n)
  {
  }

  // ------------------------------------------------------------ the plain table renderer

  /** A cell of an extracted table: missing or empty cells become "", others are cleaned. */
  function TableCell(c: Option<string>): string
  {
    if c.None? || c.value == "" then "" else CleanCell(c.value)
  }

  function TableRow(row: seq<Option<string>>): (r: seq<string>)
    ensures |r| == |row| && forall i :: 0 <= i < |row| ==> r[i] == TableCell(row[i])
  {
    seq(|row|, i requires 0 <= i < |row| => TableCell(row[i]))
  }

  /** The body rows brought to the header's width. */
  function PaddedBodyRows(t: seq<seq<Option<string>>>, n: nat): (r: seq<seq<string>>)
    ensures |r| == |t| && forall k :: 0 <= k < |t| ==> r[k] == PadTo(TableRow(t[k]), n)
  {
    seq(|t|, k requires 0 <= k < |t| => PadTo(TableRow(t[k]), n))
  }

  lemma {:induction false} BodyRowAt(t: seq<seq<Option<string>>>, n: nat, k: nat)
    requires 1 <= k < |t|
    ensures PaddedBodyRows(t[1..], n)[k - 1] == PadTo(TableRow(t[k]), n)
  {
    assert t[1..][k - 1] == t[k];
  }

  /** `_table_to_markdown`: `None` below two rows; the header sets the width. */
  function TableToMarkdown(t: seq<seq<Option<string>>>): (r: Option<string>)
    ensures r.None? <==> |t| < 2
  {
    if |t| < 2 then None
    else
      var header := TableRow(t[0]);
      Some(Render(TableLines(header, |header|, PaddedBodyRows(t[1..], |header|))))
  }

  /** A rendered table has one line per row plus the separator; the header keeps its cells and
      every body row is padded with empty cells or cut to the header's width. */
  lemma {:induction false} TableToMarkdownLines(t: seq<seq<Option<string>>>)
    requires |t| >= 2
    ensures var n := |t[0]|;
      var ls := Split(TableToMarkdown(t).value, '\n');
      && |ls| == |t| + 2 && ls[|t| + 1] == ""
      && ls[0] == Row(TableRow(t[0]))
      && ls[1] == Row(Dashes(n))
      && (forall k :: 1 <= k < |t| ==> ls[k + 1] == Row(PadTo(TableRow(t[k]), n)))
  {
    var header := TableRow(t[0]);
    var n := |header|;
    var body := PaddedBodyRows(t[1..], n);
    forall k | 0 <= k < |body| ensures CellsFree(body[k]) {
      PadFree(TableRow(t[1..][k]), n);
    }
    NoBreaksCons(header, body);
    RenderedLines(header, n, body);
    assert TableToMarkdown(t).value == Render(TableLines(header, n, body));
    forall k | 1 <= k < |t| ensures body[k - 1] == PadTo(TableRow(t[k]), n) {
      BodyRowAt(t, n, k);
    }
  }
}

=== FILE: ocr.dfy ===
/**
 The OCR heuristics: when a page's extracted text is poor enough to be
 replaced by OCR, how an OCR candidate is scored, how OCR output is cleaned
 and rejected as garbage, and how many of its words a dictionary knows.
 Rendering the page, preprocessing the image and Tesseract itself are
 outside the model: the text OCR produced for a page is an input.
 */
module Ocr {
  import opened Common
  import opened Seqs

  // ---------------------------------------------------------------------
  // The quality dictionary.

  /** The built-in word list: common Turkish and English words and Turkish economics terms. */
  const DefaultDictionary: set<string> := {
    "ve", "bir", "bu", "için", "ile", "da", "de", "ne", "var", "olan",
    "gibi", "daha", "çok", "nasıl", "neden", "kadar", "sonra", "önce",
    "olarak", "arasında", "üzerinde", "ise", "ya", "veya", "hem", "ancak",
    "the", "and", "for", "is", "in", "to", "of", "a", "an", "it",
    "that", "this", "with", "from", "have", "are", "was", "were", "be",
    "ekonomi", "enflasyon", "faiz", "bütçe", "vergi", "gelir", "yatırım",
    "piyasa", "fiyat", "talep", "arz", "üretim", "tüketim", "büyüme"
  }

  /** The two substitutions `[0-9_]+` and `\W+` turn everything but letters into spaces. */
  function LettersOnly(s: string): (r: string)
    ensures |r| == |s|
    ensures forall i :: 0 <= i < |s| ==> r[i] == (if IsLetter(s[i]) then s[i] else ' ')
  {
    Map(s, (c: char) => if IsLetter(c) then c else ' ')
  }

  /** The distinct words of at least three letters that the ratio is taken over. */
  function Candidates(text: string): set<string>
  {
    set w | w in Words(LettersOnly(text)) && |w| >= 3
  }

  predicate Known(dictionary: set<string>, w: string)
  {
    w in dictionary || Lower(w) in dictionary
  }

  function KnownCandidates(dictionary: set<string>, text: string): (m: set<string>)
    ensures m <= Candidates(text)
  {
    set w | w in Candidates(text) && Known(dictionary, w)
  }

  /** `measure_words_matched`: the share of candidate words the dictionary knows, as is or lower-cased;
      0 when there is no candidate. It is 1 exactly when every candidate is known and 0 exactly when
      none is. */
  function MeasureWordsMatched(dictionary: set<string>, text: string): (r: real)
    ensures 0.0 <= r <= 1.0
    ensures |Candidates(text)| == 0 ==> r == 0.0
    ensures r == 0.0 <==> forall w :: w in Candidates(text) ==> !Known(dictionary, w)
    ensures r == 1.0 <==> |Candidates(text)| > 0 && forall w :: w in Candidates(text) ==> Known(dictionary, w)
  {
    var ws := Candidates(text);
    var m := KnownCandidates(dictionary, text);
    if |ws| == 0 then 0.0
    else
      SubsetCard(m, ws);
      assert forall w :: w in ws ==> (w in m <==> Known(dictionary, w));
      assert |m| == 0 <==> m == {};
      assert m == ws <==> forall w :: w in ws ==> Known(dictionary, w);
      Ratio(|m|, |ws|);
      |m| as real / |ws| as real
  }

  lemma {:induction false} Ratio(p: nat, q: nat)
    requires p <= q && q > 0
    ensures 0.0 <= p as real / q as real <= 1.0
    ensures p as real / q as real == 0.0 <==> p == 0
    ensures p as real / q as real == 1.0 <==> p == q
  {
    var r := p as real / q as real;
    assert r * q as real == p as real;
  }

  /** A proper subset is smaller. */
  lemma {:induction false} SubsetCard<T>(a: set<T>, b: set<T>)
    requires a <= b
    ensures |a| <= |b|
    ensures |a| == |b| ==> a == b
    decreases |b|
  {
    if b != {} {
      var x :| x in b;
      SubsetCard(a - {x}, b - {x});
      if x in a {
        assert a == (a - {x}) + {x};
        assert b == (b - {x}) + {x};
      } else {
        assert a - {x} == a;
      }
    }
  }

  // ---------------------------------------------------------------------
  // When to run OCR.

  datatype OcrMode = Off | On | Auto

  /** The configured `enable` value: "off", "on", and anything else meaning "auto". */
  function ParseMode(enable: string): OcrMode
  {
    if enable == "off" then Off else if enable == "on" then On else Auto
  }

  /** The "auto" rule: no text, fewer than 50 characters, or spaces under 5% of the stripped text. */
  predicate PoorText(text: string)
  {
    var stripped := Strip(text);
    stripped == "" || |stripped| < 50 || 20 * CountChar(stripped, ' ') < |stripped|
  }

  /** `_needs_ocr`. */
  predicate NeedsOcr(mode: OcrMode, text: string)
  {
    match mode
    case Off => false
    case On => true
    case Auto => PoorText(text)
  }

  /** `process_page`; `ocr` is what OCR produces for the page. "off" keeps the text, "on" always takes
      the OCR text, and "auto" takes it exactly for poor text. */
  function ProcessPage(mode: OcrMode, text: string, ocr: string): (r: string)
    ensures mode == Off ==> r == text
    ensures mode == On ==> r == ocr
    ensures mode == Auto && !PoorText(text) ==> r == text
    ensures mode == Auto && PoorText(text) ==> r == ocr
  {
    if mode == Off then text
    else if mode == On then ocr
    else
      var stripped := Strip(text);
      if stripped == "" then ocr
      else if |stripped| < 50 then ocr
      else if |stripped| >= 50 && 20 * CountChar(stripped, ' ') < |stripped| then ocr
      else text
  }

  /** `_needs_ocr` says exactly when `process_page` runs OCR. */
  lemma {:induction false} NeedsOcrAgrees(mode: OcrMode, text: string, ocr: string)
    ensures ProcessPage(mode, text, ocr) == if NeedsOcr(mode, text) then ocr else text
  {
  }

  /** In "auto" mode a page with at least 50 stripped characters, one in twenty of them a space, keeps
      its text; an empty or blank page is always sent to OCR. */
  lemma {:induction false} AutoThresholds(text: string)
    ensures var stripped := Strip(text);
      && (|stripped| >= 50 && 20 * CountChar(stripped, ' ') >= |stripped| ==> !NeedsOcr(Auto, text))
      && (IsBlank(text) ==> NeedsOcr(Auto, text))
  {
  }

  /** `process_pages_parallel`: one result per page number; pages with text are processed like
      `process_page`, a failed OCR gives "", and page numbers without a text give "". */
  function ProcessPagesParallel(mode: OcrMode, pageCount: nat, texts: seq<string>, ocr: seq<Option<string>>): (r: seq<string>)
    requires |ocr| == pageCount
    ensures |r| == pageCount
    ensures forall i :: 0 <= i < pageCount && i >= |texts| ==> r[i] == ""
  {
    seq(pageCount, i requires 0 <= i < pageCount =>
      if i >= |texts| then ""
      else if NeedsOcr(mode, texts[i]) then (if ocr[i].Some? then ocr[i].value else "")
      else texts[i])
  }

  /** The parallel run gives each page what the sequential `process_page` gives it, whenever OCR succeeds. */
  lemma {:induction false} ParallelAgreesWithSequential(mode: OcrMode, pageCount: nat, texts: seq<string>, ocr: seq<Option<string>>, i: nat)
    requires |ocr| == pageCount && i < pageCount && i < |texts| && ocr[i].Some?
    ensures ProcessPagesParallel(mode, pageCount, texts, ocr)[i] == ProcessPage(mode, texts[i], ocr[i].value)
  {
    NeedsOcrAgrees(mode, texts[i], ocr[i].value);
  }

  // ---------------------------------------------------------------------
  // Scoring an OCR candidate.

  /** The total length of the words. */
  function TotalLength(ws: seq<string>): int
  {
    SumOf(ws, (w: string) => |w|)
  }

  /** `_score_ocr_result`: the word count, plus 10 when the average word is longer than 4, minus 20
      when more than half of the words have at most 2 characters, minus 15 when fewer than half of the
      characters are alphanumeric; never below 0. */
  function ScoreOcrResult(text: string): (score: nat)
    ensures score <= |Words(text)| + 10
    ensures IsBlank(text) ==> score == 0
  {
    var words := Words(text);
    if text == "" || |words| == 0 then 0
    else
      var n := |words|;
      var bonus := if TotalLength(words) > 4 * n then 10 else 0;
      var short := if 2 * CountIf(words, (w: string) => |w| <= 2) > n then 20 else 0;
      var sparse := if 2 * CountIf(text, IsAlnum) < |text| then 15 else 0;
      var s := n + bonus - short - sparse;
      if s < 0 then 0 else s
  }

  /** Long words, few short words and a mostly alphanumeric text earn the full bonus; text of short
      noise words scores nothing when there are at most 20 of them. */
  lemma {:induction false} ScoreExtremes(text: string)
    ensures var words := Words(text);
      var n := |words|;
      && ((n > 0 && TotalLength(words) > 4 * n && 2 * CountIf(words, (w: string) => |w| <= 2) <= n
           && 2 * CountIf(text, IsAlnum) >= |text|) ==> ScoreOcrResult(text) == n + 10)
      && ((n <= 20 && 2 * CountIf(words, (w: string) => |w| <= 2) > n && TotalLength(words) <= 4 * n)
          ==> ScoreOcrResult(text) == 0)
  {
  }

  // ---------------------------------------------------------------------
  // Cleaning OCR output: the noise substitutions.

  /** The length of the leading run of characters of the class. */
  function ClassRun(s: string, cls: char -> bool): (n: nat)
    ensures n <= |s|
    ensures forall i :: 0 <= i < n ==> cls(s[i])
    ensures n < |s| ==> !cls(s[n])
  {
    if |s| == 0 || !cls(s[0]) then 0 else 1 + ClassRun(s[1..], cls)
  }

  /** `re.sub('[...]{m,}', ' ', s)`: every maximal run of at least `m` characters of the class
      becomes one space; shorter runs stay. */
  function RunSub(s: string, cls: char -> bool, m: nat): string
    requires m >= 1
    decreases |s|
  {
    if |s| == 0 then ""
    else
      var j := ClassRun(s, cls);
      if j >= m then " " + RunSub(s[j..], cls, m)
      else
        var k := if j == 0 then 1 else j;
        s[..k] + RunSub(s[k..], cls, m)
  }

  /** At position `i` of `s` there are at least `m` characters of the class. */
  predicate LongRunAt(s: string, cls: char -> bool, m: nat, i: nat)
  {
    i + m <= |s| && forall k :: i <= k < i + m ==> cls(s[k])
  }

  /** The characters a substitution for the class leaves alone: those outside the class that are not
      whitespace. */
  function Untouched(cls: char -> bool): char -> bool
  {
    (c: char) => !cls(c) && !IsSpace(c)
  }

  /** A run substitution keeps every character outside the class that is not whitespace, in order. */
  lemma {:induction false} RunSubKeepsOthers(s: string, cls: char -> bool, m: nat)
    requires m >= 1
    ensures Filter(RunSub(s, cls, m), Untouched(cls)) == Filter(s, Untouched(cls))
    decreases |s|
  {
    if |s| > 0 {
      var p := Untouched(cls);
      var j := ClassRun(s, cls);
      var k := if j >= m then j else if j == 0 then 1 else j;
      var x := if j >= m then " " else s[..k];
      RunSubKeepsOthers(s[k..], cls, m);
      assert RunSub(s, cls, m) == x + RunSub(s[k..], cls, m);
      if j >= m {
        FilterNone(x, p);
        FilterNone(s[..k], p);
      }
      FilterStep(s, k, x, RunSub(s[k..], cls, m), p);
    }
  }

  /** After the substitution no run of `m` characters of the class is left, provided the space that
      replaces a run is not itself in the class. */
  lemma {:induction false} RunSubLeavesNoLongRun(s: string, cls: char -> bool, m: nat)
    requires m >= 1 && !cls(' ')
    ensures forall i: nat :: !LongRunAt(RunSub(s, cls, m), cls, m, i)
    decreases |s|
  {
    var r := RunSub(s, cls, m);
    if |s| > 0 {
      var j := ClassRun(s, cls);
      var k := if j >= m then j else if j == 0 then 1 else j;
      var x := if j >= m then " " else s[..k];
      var t := RunSub(s[k..], cls, m);
      RunSubLeavesNoLongRun(s[k..], cls, m);
      assert r == x + t;
      forall i: nat ensures !LongRunAt(r, cls, m, i) {
        if i >= |x| {
          assert forall q :: 0 <= q < |t| ==> r[q + |x|] == t[q];
          assert !LongRunAt(t, cls, m, i - |x|);
        } else if j >= m || j == 0 {
          assert i == 0 && !cls(r[0]);
        } else if j == |s| {
          assert |r| == j;
        } else {
          RunSubStartsWith(s[j..], cls, m);
          assert r[j] == s[j];
        }
      }
    }
  }

  /** A text starting outside the class keeps its first character. */
  lemma {:induction false} RunSubStartsWith(s: string, cls: char -> bool, m: nat)
    requires m >= 1 && |s| > 0 && !cls(s[0])
    ensures |RunSub(s, cls, m)| > 0 && RunSub(s, cls, m)[0] == s[0]
  {
    assert ClassRun(s, cls) == 0;
  }

  /** Without a run of `m` characters of the class the text is unchanged. */
  lemma {:induction false} RunSubKeepsClean(s: string, cls: char -> bool, m: nat)
    requires m >= 1
    requires forall i: nat :: !LongRunAt(s, cls, m, i)
    ensures RunSub(s, cls, m) == s
    decreases |s|
  {
    if |s| > 0 {
      var j := ClassRun(s, cls);
      assert !LongRunAt(s, cls, m, 0);
      assert j < m;
      var k := if j == 0 then 1 else j;
      forall i: nat ensures !LongRunAt(s[k..], cls, m, i) {
        assert forall q :: 0 <= q < |s| - k ==> s[k..][q] == s[q + k];
        assert !LongRunAt(s, cls, m, i + k);
      }
      RunSubKeepsClean(s[k..], cls, m);
      assert s == s[..k] + s[k..];
    }
  }

  /** Substituting a second time changes nothing. */
  lemma {:induction false} RunSubIdempotent(s: string, cls: char -> bool, m: nat)
    requires m >= 1 && !cls(' ')
    ensures RunSub(RunSub(s, cls, m), cls, m) == RunSub(s, cls, m)
  {
    RunSubLeavesNoLongRun(s, cls, m);
    RunSubKeepsClean(RunSub(s, cls, m), cls, m);
  }

  /** A run substitution brings in no character outside the class except the space. */
  lemma {:induction false} RunSubBringsNothing(s: string, cls: char -> bool, m: nat, p: char -> bool)
    requires m >= 1 && !p(' ')
    requires forall i :: 0 <= i < |s| ==> !p(s[i])
    ensures forall i :: 0 <= i < |RunSub(s, cls, m)| ==> !p(RunSub(s, cls, m)[i])
    decreases |s|
  {
    if |s| > 0 {
      var j := ClassRun(s, cls);
      var k := if j >= m then j else if j == 0 then 1 else j;
      var x := if j >= m then " " else s[..k];
      RunSubBringsNothing(s[k..], cls, m, p);
      assert RunSub(s, cls, m) == x + RunSub(s[k..], cls, m);
    }
  }

  predicate IsBracket(c: char) { c == '<' || c == '>' || c == '{' || c == '}' || c == '|' }

  /** Where a match of `\s*[<>{}|]\s*` at the start of `s` ends, if there is one: the leading
      whitespace, one bracket, and the whitespace after it. */
  function BracketMatch(s: string): (e: Option<nat>)
    ensures e.Some? ==> 0 < e.value <= |s|
  {
    var j := ClassRun(s, IsSpace);
    if j < |s| && IsBracket(s[j]) then Some(j + 1 + ClassRun(s[j + 1..], IsSpace)) else None
  }

  /** Where the scan resumes when nothing matches at the start: after the leading whitespace, which no
      match can start inside, or after one character. */
  function Skip(s: string): (k: nat)
    requires |s| > 0
    ensures 0 < k <= |s|
    ensures BracketMatch(s).None? ==> forall i :: 0 <= i < k ==> !IsBracket(s[i])
  {
    var j := ClassRun(s, IsSpace);
    if j == 0 then 1 else j
  }

  /** `re.sub(r'\s*[<>{}|]\s*', ' ', s)`: each of `<>{}|`, together with the whitespace around it,
      becomes one space. */
  function BracketSub(s: string): (r: string)
    ensures forall i :: 0 <= i < |r| ==> !IsBracket(r[i])
    decreases |s|
  {
    if |s| == 0 then ""
    else
      match BracketMatch(s)
      case Some(k) => " " + BracketSub(s[k..])
      case None => var k := Skip(s); s[..k] + BracketSub(s[k..])
  }

  /** The bracket substitution keeps every other non-whitespace character, in order. */
  lemma {:induction false} BracketSubKeepsOthers(s: string)
    ensures Filter(BracketSub(s), Untouched(IsBracket)) == Filter(s, Untouched(IsBracket))
    decreases |s|
  {
    if |s| > 0 {
      var k, x := BracketStep(s);
      BracketSubKeepsOthers(s[k..]);
      FilterStep(s, k, x, BracketSub(s[k..]), Untouched(IsBracket));
    }
  }

  /** A text rewritten piece by piece keeps the characters `p` selects when each piece does. */
  lemma {:induction false} FilterStep(s: string, k: nat, x: string, y: string, p: char -> bool)
    requires k <= |s|
    requires Filter(x, p) == Filter(s[..k], p) && Filter(y, p) == Filter(s[k..], p)
    ensures Filter(x + y, p) == Filter(s, p)
  {
    FilterAppend(x, y, p);
    assert s == s[..k] + s[k..];
    FilterAppend(s[..k], s[k..], p);
  }

  /** One step of the bracket substitution: the first `k` characters become `x`, which holds the same
      untouched characters. */
  lemma {:induction false} BracketStep(s: string) returns (k: nat, x: string)
    requires |s| > 0
    ensures 0 < k <= |s| && BracketSub(s) == x + BracketSub(s[k..])
    ensures Filter(x, Untouched(IsBracket)) == Filter(s[..k], Untouched(IsBracket))
  {
    match BracketMatch(s)
    case Some(e) =>
      k, x := e, " ";
      FilterNone(x, Untouched(IsBracket));
      BracketHead(s);
    case None =>
      k := Skip(s);
      x := s[..k];
  }

  /** A bracket with the whitespace around it holds no untouched character. */
  lemma {:induction false} BracketHead(s: string)
    requires BracketMatch(s).Some?
    ensures Filter(s[..BracketMatch(s).value], Untouched(IsBracket)) == []
  {
    var j := ClassRun(s, IsSpace);
    var t := s[j + 1..];
    var k := BracketMatch(s).value;
    assert k == j + 1 + ClassRun(t, IsSpace);
    forall c | c in s[..k] ensures !Untouched(IsBracket)(c) {
      var q :| 0 <= q < k && s[..k][q] == c;
      if q > j {
        assert t[q - j - 1] == c;
      }
    }
    FilterNone(s[..k], Untouched(IsBracket));
  }

  /** A text without any of `<>{}|` is unchanged. */
  lemma {:induction false} BracketSubKeepsClean(s: string)
    requires forall i :: 0 <= i < |s| ==> !IsBracket(s[i])
    ensures BracketSub(s) == s
    decreases |s|
  {
    if |s| > 0 {
      var k := Skip(s);
      assert BracketMatch(s).None?;
      BracketSubKeepsClean(s[k..]);
      assert s == s[..k] + s[k..];
    }
  }

  // ---------------------------------------------------------------------
  // The noise patterns, applied in order.

  predicate IsDash(c: char) { c == '—' || c == '–' || c == '-' }
  predicate IsDot(c: char) { c == '.' }
  predicate IsQuote(c: char) { c == '\'' || c == '"' }
  predicate IsSlash(c: char) { c == '/' || c == '\\' }
  predicate IsEquals(c: char) { c == '=' }
  predicate IsStar(c: char) { c == '*' }
  predicate IsUnderscore(c: char) { c == '_' }

  /** A character some noise pattern can remove. */
  predicate IsNoise(c: char)
  {
    IsDash(c) || IsDot(c) || IsQuote(c) || IsSlash(c) || IsBracket(c) || IsEquals(c) || IsStar(c) || IsUnderscore(c)
  }

  /** The eight noise substitutions of `_clean_ocr_output`, each replacing its matches by a space:
      runs of two dashes, three dots, two quotes, two slashes, a bracket-like character with its
      surrounding whitespace, and runs of two `=`, `*` and `_`. */
  function Noise(s: string): string
  {
    var s1 := RunSub(s, IsDash, 2);
    var s2 := RunSub(s1, IsDot, 3);
    var s3 := RunSub(s2, IsQuote, 2);
    var s4 := RunSub(s3, IsSlash, 2);
    var s5 := BracketSub(s4);
    var s6 := RunSub(s5, IsEquals, 2);
    var s7 := RunSub(s6, IsStar, 2);
    RunSub(s7, IsUnderscore, 2)
  }

  /** A substitution that keeps the characters outside its class keeps those outside every class. */
  lemma {:induction false} KeepsText(a: string, b: string, cls: char -> bool)
    requires forall c :: cls(c) ==> IsNoise(c)
    requires Filter(b, Untouched(cls)) == Filter(a, Untouched(cls))
    ensures Filter(b, Untouched(IsNoise)) == Filter(a, Untouched(IsNoise))
  {
    FilterFilter(b, Untouched(cls), Untouched(IsNoise));
    FilterFilter(a, Untouched(cls), Untouched(IsNoise));
  }

  /** Noise removal keeps every non-whitespace character that no pattern can remove, in order. */
  lemma {:induction false} NoiseKeepsText(s: string)
    ensures Filter(Noise(s), Untouched(IsNoise)) == Filter(s, Untouched(IsNoise))
  {
    var s1 := RunSub(s, IsDash, 2);
    var s2 := RunSub(s1, IsDot, 3);
    var s3 := RunSub(s2, IsQuote, 2);
    var s4 := RunSub(s3, IsSlash, 2);
    var s5 := BracketSub(s4);
    var s6 := RunSub(s5, IsEquals, 2);
    var s7 := RunSub(s6, IsStar, 2);
    var s8 := RunSub(s7, IsUnderscore, 2);
    assert Noise(s) == s8;
    RunSubKeepsOthers(s, IsDash, 2);
    KeepsText(s, s1, IsDash);
    RunSubKeepsOthers(s1, IsDot, 3);
    KeepsText(s1, s2, IsDot);
    RunSubKeepsOthers(s2, IsQuote, 2);
    KeepsText(s2, s3, IsQuote);
    RunSubKeepsOthers(s3, IsSlash, 2);
    KeepsText(s3, s4, IsSlash);
    BracketSubKeepsOthers(s4);
    KeepsText(s4, s5, IsBracket);
    RunSubKeepsOthers(s5, IsEquals, 2);
    KeepsText(s5, s6, IsEquals);
    RunSubKeepsOthers(s6, IsStar, 2);
    KeepsText(s6, s7, IsStar);
    RunSubKeepsOthers(s7, IsUnderscore, 2);
    KeepsText(s7, s8, IsUnderscore);
  }

  /** After noise removal none of `<>{}|` is left, nor two underscores in a row. */
  lemma {:induction false} NoiseLeavesNoBrackets(s: string)
    ensures forall i :: 0 <= i < |Noise(s)| ==> !IsBracket(Noise(s)[i])
    ensures forall i: nat :: !LongRunAt(Noise(s), IsUnderscore, 2, i)
  {
    var s5 := BracketSub(RunSub(RunSub(RunSub(RunSub(s, IsDash, 2), IsDot, 3), IsQuote, 2), IsSlash, 2));
    var s6 := RunSub(s5, IsEquals, 2);
    var s7 := RunSub(s6, IsStar, 2);
    assert Noise(s) == RunSub(s7, IsUnderscore, 2);
    RunSubBringsNothing(s5, IsEquals, 2, IsBracket);
    RunSubBringsNothing(s6, IsStar, 2, IsBracket);
    RunSubBringsNothing(s7, IsUnderscore, 2, IsBracket);
    RunSubLeavesNoLongRun(s7, IsUnderscore, 2);
  }

  // ---------------------------------------------------------------------
  // The line loop.

  /** `re.sub(r'[^\w]', '', word)`. */
  function StripNonWord(w: string): string
  {
    Filter(w, IsWordChar)
  }

  /** The one-character cleaned words that are kept: digits and these letters. */
  predicate ValidSingle(c: char)
  {
    c in "0123456789abcdeişığüöçABCDEİŞIĞÜÖÇ"
  }

  /** A word is kept when its cleaned form has at least two characters, or is one valid character. */
  predicate Meaningful(w: string)
  {
    var cw := StripNonWord(w);
    |cw| >= 2 || (|cw| == 1 && ValidSingle(cw[0]))
  }

  /** The meaningful words of one line, as written in the line. */
  function LineWords(line: string): (ws: seq<string>)
    ensures forall i :: 0 <= i < |ws| ==> |ws[i]| > 0 && !HasSpace(ws[i]) && Meaningful(ws[i])
  {
    var ws := Filter(Words(line), Meaningful);
    assert forall i :: 0 <= i < |ws| ==> ws[i] in Words(line);
    ws
  }

  /** What the line loop builds: the clean lines and all the kept words. */
  datatype LineScan = LineScan(lines: seq<string>, words: seq<string>)

  /** The line loop: a line with meaningful words contributes them joined by single spaces as a clean
      line, and adds them to the word list; other lines are dropped. */
  function ScanLines(lines: seq<string>): (r: LineScan)
    ensures forall i :: 0 <= i < |r.words| ==> |r.words[i]| > 0 && !HasSpace(r.words[i]) && Meaningful(r.words[i])
    ensures |r.lines| == 0 <==> |r.words| == 0
  {
    if |lines| == 0 then LineScan([], [])
    else
      var ws := LineWords(lines[0]);
      var rest := ScanLines(lines[1..]);
      if |ws| > 0 then LineScan([Join(ws, " ")] + rest.lines, ws + rest.words) else rest
  }

  /** The meaningful words of all the lines, line after line. */
  function MeaningfulWords(lines: seq<string>): seq<string>
  {
    if |lines| == 0 then [] else LineWords(lines[0]) + MeaningfulWords(lines[1..])
  }

  /** The words of all the texts, text after text. */
  function AllWords(texts: seq<string>): seq<string>
  {
    if |texts| == 0 then [] else Words(texts[0]) + AllWords(texts[1..])
  }

  /** The words collected are the meaningful words of every line, in order. */
  lemma {:induction false} ScanCollectsLineWords(lines: seq<string>)
    ensures ScanLines(lines).words == MeaningfulWords(lines)
  {
    if |lines| > 0 {
      ScanCollectsLineWords(lines[1..]);
    }
  }

  /** Joining with a non-empty whitespace separator: the words of the join are the parts' words, in order. */
  lemma {:induction false} WordsJoin(parts: seq<string>, sep: string)
    requires |sep| > 0 && IsBlank(sep)
    ensures Words(Join(parts, sep)) == AllWords(parts)
  {
    if |parts| == 1 {
      assert AllWords(parts) == Words(parts[0]) + AllWords([]);
    } else if |parts| > 1 {
      var rest := parts[1..];
      var j := Join(rest, sep);
      WordsJoin(rest, sep);
      assert Join(parts, sep) == parts[0] + [sep[0]] + (sep[1..] + j);
      WordsAround(parts[0], sep[0], sep[1..] + j);
      WordsBlankPrefix(sep[1..], j);
    }
  }

  /** Words that are already single words split back into themselves. */
  lemma {:induction false} WordsOfWords(ws: seq<string>)
    requires forall i :: 0 <= i < |ws| ==> |ws[i]| > 0 && !HasSpace(ws[i])
    ensures AllWords(ws) == ws
  {
    if |ws| > 0 {
      WordsOfWords(ws[1..]);
      WordsSingle(ws[0]);
      assert ws == [ws[0]] + ws[1..];
    }
  }

  /** The clean lines hold exactly the collected words. */
  lemma {:induction false} ScanLinesHoldWords(lines: seq<string>)
    ensures AllWords(ScanLines(lines).lines) == ScanLines(lines).words
  {
    if |lines| > 0 {
      var ws := LineWords(lines[0]);
      var rest := ScanLines(lines[1..]);
      ScanLinesHoldWords(lines[1..]);
      if |ws| > 0 {
        var j := Join(ws, " ");
        var ls := [j] + rest.lines;
        assert ls[0] == j && ls[1..] == rest.lines;
        WordsJoin(ws, " ");
        WordsOfWords(ws);
      }
    }
  }

  // ---------------------------------------------------------------------
  // The garbage gates.

  /** `sum(len(re.sub(r'[^\w]', '', w)) for w in words)`. */
  function CleanLength(words: seq<string>): int
  {
    SumOf(words, (w: string) => |StripNonWord(w)|)
  }

  /** More than ten words whose cleaned lengths average under 2.1. */
  predicate ShortOnAverage(words: seq<string>)
  {
    |words| > 10 && 10 * CleanLength(words) < 21 * |words|
  }

  /** Fewer than 40% of the characters are alphanumeric. */
  predicate MostlyNonAlnum(s: string)
  {
    5 * CountIf(s, IsAlnum) < 2 * |s|
  }

  predicate IsConsonant(c: char)
  {
    c in "bcdfghjklmnpqrstvwxyzBCDFGHJKLMNPQRSTVWXYZ"
  }

  /** `len(re.findall('[...]{m,}', s))`: the number of maximal runs of at least `m` characters of the class. */
  function LongRuns(s: string, cls: char -> bool, m: nat): nat
    decreases |s|
  {
    if |s| == 0 then 0
    else
      var j := ClassRun(s, cls);
      if j == 0 then LongRuns(s[1..], cls, m)
      else (if j >= m then 1 else 0) + LongRuns(s[j..], cls, m)
  }

  /** A lower-case ASCII letter directly followed by an upper-case one. */
  predicate HasMidCaps(w: string)
  {
    exists i :: 0 <= i < |w| - 1 && IsAsciiLower(w[i]) && IsAsciiUpper(w[i + 1])
  }

  /** The cased characters that `str.isupper()` and `str.islower()` look at: ASCII, Latin-1 and the
      Turkish letters outside Latin-1. */
  predicate IsUpperCase(c: char)
  {
    IsAsciiUpper(c) || (0xC0 <= c as int <= 0xDE && c as int != 0xD7) || c == 'Ğ' || c == 'İ' || c == 'Ş'
  }

  predicate IsLowerCase(c: char)
  {
    IsAsciiLower(c) || (0xDF <= c as int <= 0xFF && c as int != 0xF7) || c == 'ğ' || c == 'ı' || c == 'ş'
  }

  /** `str.isupper()`: some upper-case character and no lower-case one. */
  predicate IsUpperWord(w: string)
  {
    (exists i :: 0 <= i < |w| && IsUpperCase(w[i])) && forall i :: 0 <= i < |w| ==> !IsLowerCase(w[i])
  }

  /** Words whose presence shows real Turkish or English text. */
  const CommonWords: set<string> := {
    "ve", "bir", "bu", "için", "ile", "da", "de", "ne", "var", "olan",
    "the", "and", "for", "is", "in", "to", "of", "a", "an", "it",
    "gibi", "daha", "çok", "nasıl", "neden", "kadar", "sonra", "önce",
    "olarak", "arasında", "üzerinde", "altında", "hakkında", "göre",
    "ise", "ya", "veya", "hem", "ancak", "fakat", "çünkü",
    "that", "this", "with", "from", "have", "are", "was", "were", "be"
  }

  /** How many words longer than one character are common words once lower-cased. */
  function CommonFound(words: seq<string>): nat
  {
    CountIf(words, (w: string) => |w| > 1 && Lower(w) in CommonWords)
  }

  /** The word-level gibberish tests: more than 25% of words with a mid-word capital, more than 30%
      short all-caps words, more than half of over 15 words with at most two word characters, under
      30% distinct lower-cased forms among over 20 words, or no common word among over 8. */
  predicate WordsGibberish(words: seq<string>)
  {
    var n := |words|;
    || 4 * CountIf(words, HasMidCaps) > n
    || 10 * CountIf(words, (w: string) => |w| <= 3 && IsUpperWord(w)) > 3 * n
    || (n > 15 && 2 * CountIf(words, (w: string) => |StripNonWord(w)| <= 2) > n)
    || (n > 20 && 10 * |set w | w in words :: Lower(w)| < 3 * n)
    || (n > 8 && CommonFound(words) == 0)
  }

  /** The gibberish tests: more than 15% as many runs of four consonants as words, or word-level gibberish. */
  predicate Gibberish(result: string, words: seq<string>)
  {
    20 * LongRuns(result, IsConsonant, 4) > 3 * |words| || WordsGibberish(words)
  }

  /** `_clean_ocr_output`: noise removed, each line reduced to its meaningful words, the lines joined by
      blank lines, and the whole rejected ("") when the words are too short on average, the text is
      under 40% alphanumeric, or it looks like gibberish; otherwise the result stripped. */
  function CleanOcrOutput(text: string): (r: string)
    ensures text == "" ==> r == ""
  {
    if text == "" then ""
    else
      var scan := ScanLines(Split(Noise(text), '\n'));
      var result := Join(scan.lines, "\n\n");
      if Rejected(scan.words, result) then "" else Strip(result)
  }

  /** The three rejections, in the order they are tried. */
  predicate Rejected(words: seq<string>, result: string)
  {
    || ShortOnAverage(words)
    || (result != "" && MostlyNonAlnum(result))
    || (result != "" && |words| > 3 && Gibberish(result, words))
  }

  /** The words of the cleaned output are exactly the meaningful words of the de-noised lines, in
      order, and there is at least one. */
  lemma {:induction false} CleanOcrKeepsMeaningfulWords(text: string)
    ensures var r := CleanOcrOutput(text);
      r != "" ==>
        && Words(r) == MeaningfulWords(Split(Noise(text), '\n'))
        && |Words(r)| > 0
        && (forall i :: 0 <= i < |Words(r)| ==> Meaningful(Words(r)[i]))
  {
    if CleanOcrOutput(text) != "" {
      var scan, result := CleanOcrAccepted(text);
      JoinedWords(Split(Noise(text), '\n'));
      ScanCollectsLineWords(Split(Noise(text), '\n'));
    }
  }

  /** The words of a non-empty output pass the average-length test and the word-level gibberish tests. */
  lemma {:induction false} CleanOcrPassesWordTests(text: string)
    ensures var r := CleanOcrOutput(text);
      r != "" ==> !ShortOnAverage(Words(r)) && (|Words(r)| > 3 ==> !WordsGibberish(Words(r)))
  {
    if CleanOcrOutput(text) != "" {
      var scan, result := CleanOcrAccepted(text);
      JoinedWords(Split(Noise(text), '\n'));
    }
  }

  /** The stripped join of the clean lines holds exactly the collected words. */
  lemma {:induction false} JoinedWords(lines: seq<string>)
    ensures Words(Strip(Join(ScanLines(lines).lines, "\n\n"))) == ScanLines(lines).words
  {
    var scan := ScanLines(lines);
    var result := Join(scan.lines, "\n\n");
    WordsStrip(result);
    assert IsBlank("\n\n");
    WordsJoin(scan.lines, "\n\n");
    ScanLinesHoldWords(lines);
  }

  /** A non-empty output is the stripped join of the clean lines, which none of the tests rejected. */
  lemma {:induction false} CleanOcrAccepted(text: string) returns (scan: LineScan, result: string)
    ensures scan == ScanLines(Split(Noise(text), '\n')) && result == Join(scan.lines, "\n\n")
    ensures CleanOcrOutput(text) != "" ==>
      result != "" && !Rejected(scan.words, result) && CleanOcrOutput(text) == Strip(result)
  {
    scan := ScanLines(Split(Noise(text), '\n'));
    result := Join(scan.lines, "\n\n");
  }

  /** A non-empty cleaned output is at least 40% alphanumeric. */
  lemma {:induction false} CleanOcrIsDense(text: string)
    ensures var r := CleanOcrOutput(text);
      r != "" ==> 5 * CountIf(r, IsAlnum) >= 2 * |r|
  {
    var r := CleanOcrOutput(text);
    if r != "" {
      var scan, result := CleanOcrAccepted(text);
      StripKeepsAlnum(result);
    }
  }

  /** Stripping removes no alphanumeric character. */
  lemma {:induction false} StripKeepsAlnum(s: string)
    ensures CountIf(Strip(s), IsAlnum) == CountIf(s, IsAlnum)
  {
    assert Strip(s) == RStrip(LStrip(s));
    LStripKeepsAlnum(s);
    RStripKeepsAlnum(LStrip(s));
  }

  lemma {:induction false} LStripKeepsAlnum(s: string)
    ensures CountIf(LStrip(s), IsAlnum) == CountIf(s, IsAlnum)
  {
    var l := LStrip(s);
    var x := s[..|s| - |l|];
    assert s == x + l;
    BlankHasNoAlnum(x);
    CountIfAppend(x, l, IsAlnum);
  }

  lemma {:induction false} RStripKeepsAlnum(l: string)
    ensures CountIf(RStrip(l), IsAlnum) == CountIf(l, IsAlnum)
  {
    var r := RStrip(l);
    var y := l[|r|..];
    assert l == r + y;
    BlankHasNoAlnum(y);
    CountIfAppend(r, y, IsAlnum);
  }

  lemma {:induction false} BlankHasNoAlnum(s: string)
    requires IsBlank(s)
    ensures CountIf(s, IsAlnum) == 0
  {
    forall i | 0 <= i < |s| ensures !IsAlnum(s[i]) {
      SpaceNotAlnum(s[i]);
    }
    CountIfZero(s, IsAlnum);
  }

  lemma {:induction false} SpaceNotAlnum(c: char)
    requires IsSpace(c)
    ensures !IsAlnum(c)
  {
  }

  /** No run of `m` characters of the class exists exactly when none is counted. */
  lemma {:induction false} LongRunsNone(s: string, cls: char -> bool, m: nat)
    requires m >= 1
    ensures LongRuns(s, cls, m) == 0 <==> forall i: nat :: !LongRunAt(s, cls, m, i)
    decreases |s|
  {
    if |s| > 0 {
      var j := ClassRun(s, cls);
      var d := if j == 0 then 1 else j;
      LongRunsNone(s[d..], cls, m);
      if j >= m {
        assert LongRunAt(s, cls, m, 0);
      } else {
        assert LongRuns(s, cls, m) == LongRuns(s[d..], cls, m);
        forall i: nat | i < d ensures !LongRunAt(s, cls, m, i) {
          if j == 0 {
            assert !cls(s[0]);
          } else if j < |s| {
            assert !cls(s[j]);
          }
        }
        forall i: nat ensures LongRunAt(s, cls, m, i + d) <==> LongRunAt(s[d..], cls, m, i) {
          LongRunShift(s, d, cls, m, i);
        }
        if forall i: nat :: !LongRunAt(s[d..], cls, m, i) {
          forall i: nat ensures !LongRunAt(s, cls, m, i) {
            if i >= d {
              LongRunShift(s, d, cls, m, i - d);
            }
          }
        }
      }
    }
  }

  lemma {:induction false} LongRunShift(s: string, d: nat, cls: char -> bool, m: nat, i: nat)
    requires d <= |s|
    ensures LongRunAt(s, cls, m, i + d) <==> LongRunAt(s[d..], cls, m, i)
  {
    assert forall k :: d <= k < |s| ==> s[d..][k - d] == s[k];
  }
}

=== FILE: rivers.dfy ===
/**
 Whitespace-river detection: the x-axis projection histogram of (eroded)
 word boxes and the scan that turns runs of almost-empty columns into column
 separators. Both the neural engine (`find_whitespace_rivers`) and the
 spatial extractor (`extract_table`) use this scheme, with different
 clipping of the word spans and a different minimum run width.
 */
module Rivers {
  import opened Common
  import opened Geometry
  import opened Seqs

  /** Columns whose count is at most this are treated as empty. */
  const NoiseThreshold: int := 1

  /** Integer span of a word after `int()` truncation and erosion (before clipping). */
  function ErodedSpan(w: Word): (r: (int, int))
    ensures r.1 - r.0 <= Trunc(w.x1) - Trunc(w.x0)
    ensures Trunc(w.x1) - Trunc(w.x0) > 2 ==> r.0 < r.1
  {
    var a := Trunc(w.x0);
    var b := Trunc(w.x1);
    if b - a > 6 then (a + 2, b - 2)
    else if b - a > 2 then (a + 1, b - 1)
    else (a, b)
  }

  /**
   Half-open histogram range a word covers in the neural engine: clipped to
   `[0, width - 1]`, and ignored unless it is non-empty. The last column is
   therefore never covered.
   */
  function EngineSpan(w: Word, width: nat): (r: (nat, nat))
    ensures r.0 <= r.1
    ensures r.0 < r.1 ==> r.1 <= width - 1
  {
    var (a, b) := ErodedSpan(w);
    var lo := if a < 0 then 0 else a;
    var hi := if b > width - 1 then width - 1 else b;
    if lo < hi then (lo, hi) else (0, 0)
  }

  /**
   Range a word covers in the spatial extractor, where the clipped bounds go
   straight into a NumPy slice `histogram[lo:hi]`: a negative stop counts from
   the end of the array, and there is no emptiness guard.
   */
  function SliceSpan(w: Word, width: nat): (r: (nat, nat))
    ensures r.0 <= r.1 <= width
  {
    var (a, b) := ErodedSpan(w);
    var lo := if a < 0 then 0 else a;
    var hi := if b > width - 1 then width - 1 else b;
    var stop := if hi < 0 then (if width + hi < 0 then 0 else width + hi) else hi;
    var start := if lo > width then width else lo;
    if start < stop then (start, stop) else (0, 0)
  }

  /** Number of spans covering column `x`. */
  function Coverage(spans: seq<(nat, nat)>, x: int): nat
  {
    if |spans| == 0 then 0
    else Coverage(spans[..|spans| - 1], x) + (if spans[|spans| - 1].0 <= x < spans[|spans| - 1].1 then 1 else 0)
  }

  predicate SpansWithin(spans: seq<(nat, nat)>, width: nat)
  {
    forall k :: 0 <= k < |spans| ==> spans[k].0 <= spans[k].1 <= width
  }

  /** Builds the projection histogram: column `x` holds the number of spans covering it. */
  method Histogram(spans: seq<(nat, nat)>, width: nat) returns (h: seq<nat>)
    requires SpansWithin(spans, width)
    ensures |h| == width
    ensures forall x :: 0 <= x < width ==> h[x] == Coverage(spans, x)
  {
    var a := new nat[width](_ => 0);
    var k := 0;
    while k < |spans|
      invariant 0 <= k <= |spans|
      invariant forall x :: 0 <= x < width ==> a[x] == Coverage(spans[..k], x)
    {
      var (lo, hi) := spans[k];
      var j := lo;
      while j < hi
        invariant lo <= j <= hi
        invariant forall x :: 0 <= x < width ==>
          a[x] == Coverage(spans[..k], x) + (if lo <= x < j then 1 else 0)
      {
        a[j] := a[j] + 1;
        j := j + 1;
      }
      assert spans[..k + 1][..k] == spans[..k];
      k := k + 1;
    }
    assert spans[..|spans|] == spans;
    h := a[..];
  }

  // ---------------------------------------------------------------------
  // The river scan.

  /**
   The scan from column `x` on, with `start` the first column of the run of
   quiet columns in progress: a run closed by a busy column at `e` is reported
   as its midpoint when it is at least `minGap` wide; a run still open at the
   right edge is not reported.
   */
  function RiverScan(h: seq<nat>, x: nat, start: Option<nat>, minGap: nat): seq<real>
    decreases |h| - x
  {
    if x >= |h| then []
    else if h[x] <= NoiseThreshold then
      RiverScan(h, x + 1, if start.None? then Some(x) else start, minGap)
    else if start.Some? then
      (if x - start.value >= minGap then [(start.value + x) as real / 2.0] else [])
      + RiverScan(h, x + 1, None, minGap)
    else RiverScan(h, x + 1, None, minGap)
  }

  predicate Quiet(h: seq<nat>, s: int, e: int)
    requires 0 <= s <= e <= |h|
  {
    forall i :: s <= i < e ==> h[i] <= NoiseThreshold
  }

  /**
   Columns `s..e-1` form a maximal quiet run that is closed by the busy column
   `e` and is at least `minGap` wide.
   */
  predicate IsRiver(h: seq<nat>, s: int, e: int, minGap: nat)
  {
    && 0 <= s && s + minGap <= e < |h| && s < e
    && Quiet(h, s, e)
    && h[e] > NoiseThreshold
    && (s == 0 || h[s - 1] > NoiseThreshold)
  }

  /** `p` is the midpoint of some river. */
  ghost predicate IsRiverMidpoint(h: seq<nat>, p: real, minGap: nat)
  {
    exists s, e :: IsRiver(h, s, e, minGap) && p == (s + e) as real / 2.0
  }

  /** The state the scan is in when it reaches column `x`. */
  predicate ScanState(h: seq<nat>, x: nat, start: Option<nat>)
  {
    x <= |h| &&
    match start
    case None => x == 0 || h[x - 1] > NoiseThreshold
    case Some(s) => s <= x && Quiet(h, s, x) && (s == 0 || h[s - 1] > NoiseThreshold)
  }

  function RunStart(x: nat, start: Option<nat>): nat
  {
    if start.Some? && start.value <= x then start.value else x
  }

  /** Every reported point is the midpoint of a river, and the points increase strictly. */
  lemma {:induction false} ScanSound(h: seq<nat>, x: nat, start: Option<nat>, minGap: nat)
    requires ScanState(h, x, start)
    requires minGap >= 1
    ensures forall p :: p in RiverScan(h, x, start, minGap) ==>
      exists s, e :: RunStart(x, start) <= s && x <= e && IsRiver(h, s, e, minGap) && p == (s + e) as real / 2.0
    ensures forall i, j :: 0 <= i < j < |RiverScan(h, x, start, minGap)| ==>
      RiverScan(h, x, start, minGap)[i] < RiverScan(h, x, start, minGap)[j]
    ensures forall p :: p in RiverScan(h, x, start, minGap) ==>
      RunStart(x, start) as real + minGap as real / 2.0 <= p <= |h| as real - 1.0 - minGap as real / 2.0
    decreases |h| - x
  {
    if x < |h| {
      var r := RiverScan(h, x, start, minGap);
      if h[x] <= NoiseThreshold {
        var st := if start.None? then Some(x) else start;
        ScanSound(h, x + 1, st, minGap);
      } else {
        ScanSound(h, x + 1, None, minGap);
        var rest := RiverScan(h, x + 1, None, minGap);
        if start.Some? && x - start.value >= minGap {
          var s := start.value;
          var m := (s + x) as real / 2.0;
          assert r == [m] + rest;
          assert IsRiver(h, s, x, minGap);
          forall p | p in r
            ensures exists s', e :: RunStart(x, start) <= s' && x <= e && IsRiver(h, s', e, minGap) && p == (s' + e) as real / 2.0
          {
            if p == m {
            } else {
              assert p in rest;
            }
          }
          forall i, j | 0 <= i < j < |r| ensures r[i] < r[j] {
            if i == 0 {
              assert r[j] in rest;
            } else {
              assert r[i] == rest[i - 1] && r[j] == rest[j - 1];
            }
          }
        }
      }
    }
  }

  /** Every river from `x` on (or the one in progress) is reported. */
  lemma {:induction false} ScanComplete(h: seq<nat>, x: nat, start: Option<nat>, minGap: nat, s: nat, e: nat)
    requires ScanState(h, x, start)
    requires IsRiver(h, s, e, minGap)
    requires x <= e
    requires start.Some? ==> s == start.value || x <= s
    requires start.None? ==> x <= s
    ensures (s + e) as real / 2.0 in RiverScan(h, x, start, minGap)
    decreases |h| - x
  {
    if x < e {
      if h[x] <= NoiseThreshold {
        var st := if start.None? then Some(x) else start;
        if start.None? && x < s {
          assert h[s - 1] > NoiseThreshold;
        }
        ScanComplete(h, x + 1, st, minGap, s, e);
      } else {
        // a busy column before the river's end lies before the river
        assert x < s;
        ScanComplete(h, x + 1, None, minGap, s, e);
      }
    } else {
      // x == e: the river closes here
      assert h[x] > NoiseThreshold;
    }
  }

  /** Separators: 0, the midpoint of every river, and the page width. */
  function RiversSpec(h: seq<nat>, minGap: nat): seq<real>
  {
    [0.0] + RiverScan(h, 0, None, minGap) + [|h| as real]
  }

  /** The river scan as the source writes it: one pass over the histogram. */
  method ScanRivers(h: seq<nat>, minGap: nat) returns (rivers: seq<real>)
    ensures rivers == RiversSpec(h, minGap)
  {
    rivers := [0.0];
    var start: Option<nat> := None;
    var x := 0;
    while x < |h|
      invariant 0 <= x <= |h|
      invariant rivers + RiverScan(h, x, start, minGap) == [0.0] + RiverScan(h, 0, None, minGap)
    {
      if h[x] <= NoiseThreshold {
        if start.None? {
          start := Some(x);
        }
      } else {
        if start.Some? {
          if x - start.value >= minGap {
            rivers := rivers + [(start.value + x) as real / 2.0];
          }
          start := None;
        }
      }
      x := x + 1;
    }
    rivers := rivers + [|h| as real];
  }

  /**
   `VisionCortex.find_whitespace_rivers`: [] without words, otherwise the
   separators of the histogram of the words' eroded spans, with quiet runs of at
   least 3 columns.
   */
  method FindWhitespaceRivers(words: seq<Word>, pageWidth: real) returns (rivers: seq<real>)
    requires pageWidth >= 0.0
    ensures |words| == 0 ==> rivers == []
    ensures |words| > 0 ==> rivers == RiversSpec(EngineHistogram(words, Trunc(pageWidth)), 3)
  {
    if |words| == 0 {
      return [];
    }
    var width: nat := Trunc(pageWidth);
    var spans := EngineSpans(words, width);
    var h := Histogram(spans, width);
    assert h == EngineHistogram(words, width);
    rivers := ScanRivers(h, 3);
  }

  function EngineSpans(words: seq<Word>, width: nat): (spans: seq<(nat, nat)>)
    ensures |spans| == |words|
    ensures SpansWithin(spans, width)
    ensures forall k :: 0 <= k < |words| ==> spans[k] == EngineSpan(words[k], width)
  {
    if |words| == 0 then [] else EngineSpans(words[..|words| - 1], width) + [EngineSpan(words[|words| - 1], width)]
  }

  function SliceSpans(words: seq<Word>, width: nat): (spans: seq<(nat, nat)>)
    ensures |spans| == |words|
    ensures SpansWithin(spans, width)
    ensures forall k :: 0 <= k < |words| ==> spans[k] == SliceSpan(words[k], width)
  {
    if |words| == 0 then [] else SliceSpans(words[..|words| - 1], width) + [SliceSpan(words[|words| - 1], width)]
  }

  /** The engine's histogram as a value: column counts of the engine spans. */
  function EngineHistogram(words: seq<Word>, width: nat): (h: seq<nat>)
    ensures |h| == width
    ensures forall x :: 0 <= x < width ==> h[x] == Coverage(EngineSpans(words, width), x)
  {
    seq(width, x requires 0 <= x < width => Coverage(EngineSpans(words, width), x))
  }

  /** The spatial extractor's histogram: column counts of the NumPy-slice spans. */
  function SliceHistogram(words: seq<Word>, width: nat): (h: seq<nat>)
    ensures |h| == width
    ensures forall x :: 0 <= x < width ==> h[x] == Coverage(SliceSpans(words, width), x)
  {
    seq(width, x requires 0 <= x < width => Coverage(SliceSpans(words, width), x))
  }

  /** No span in the neural engine reaches the last column. */
  lemma {:induction false} EngineLastColumnEmpty(words: seq<Word>, width: nat)
    requires width > 0
    ensures Coverage(EngineSpans(words, width), width - 1) == 0
  {
    if |words| > 0 {
      EngineLastColumnEmpty(words[..|words| - 1], width);
      assert EngineSpans(words, width)[..|words| - 1] == EngineSpans(words[..|words| - 1], width);
    }
  }

  /**
   The separators found for a page of positive width start at 0, end at the
   width, increase strictly, and every interior one is the midpoint of a quiet
   run of at least 3 columns that is closed before the page edge; conversely
   every such run yields a separator.
   */
  lemma {:induction false} RiversShape(h: seq<nat>, minGap: nat)
    requires |h| > 0 && minGap >= 1
    ensures RiversSpec(h, minGap)[0] == 0.0
    ensures Last(RiversSpec(h, minGap)) == |h| as real
    ensures forall i, j :: 0 <= i < j < |RiversSpec(h, minGap)| ==>
      RiversSpec(h, minGap)[i] < RiversSpec(h, minGap)[j]
    ensures forall i :: 0 < i < |RiversSpec(h, minGap)| - 1 ==> IsRiverMidpoint(h, RiversSpec(h, minGap)[i], minGap)
    ensures forall s, e :: IsRiver(h, s, e, minGap) ==> (s + e) as real / 2.0 in RiversSpec(h, minGap)
  {
    var sc := RiverScan(h, 0, None, minGap);
    var r := RiversSpec(h, minGap);
    ScanSound(h, 0, None, minGap);
    assert r == [0.0] + sc + [|h| as real];
    forall i, j | 0 <= i < j < |r| ensures r[i] < r[j] {
      if i == 0 {
        if j < |r| - 1 { assert r[j] == sc[j - 1] && sc[j - 1] in sc; }
      } else if j < |r| - 1 {
        assert r[i] == sc[i - 1] && r[j] == sc[j - 1];
      } else {
        assert r[i] == sc[i - 1] && sc[i - 1] in sc;
      }
    }
    forall i | 0 < i < |r| - 1 ensures IsRiverMidpoint(h, r[i], minGap) {
      assert r[i] == sc[i - 1] && sc[i - 1] in sc;
    }
    forall s, e | IsRiver(h, s, e, minGap) ensures (s + e) as real / 2.0 in r {
      ScanComplete(h, 0, None, minGap, s, e);
    }
  }

  /** The neural engine's separators for a page with words and positive width. */
  lemma {:induction false} FindWhitespaceRiversShape(words: seq<Word>, pageWidth: real)
    requires |words| > 0 && pageWidth >= 1.0
    ensures var r := RiversSpec(EngineHistogram(words, Trunc(pageWidth)), 3);
      && r[0] == 0.0 && Last(r) == Trunc(pageWidth) as real
      && (forall i, j :: 0 <= i < j < |r| ==> r[i] < r[j])
  {
    RiversShape(EngineHistogram(words, Trunc(pageWidth)), 3);
  }
}

=== FILE: seqs.dfy ===
/**
 Sequence vocabulary used throughout the model: flattening, filtering,
 subsequences, prefixes and a stable insertion sort (Python's `sorted` is
 stable, and several passes of the engine depend on that).
 */
module Seqs {

  function Flatten<T>(ss: seq<seq<T>>): seq<T>
  {
    if |ss| == 0 then [] else Flatten(ss[..|ss| - 1]) + ss[|ss| - 1]
  }

  lemma {:induction false} FlattenAppend<T>(ss: seq<seq<T>>, s: seq<T>)
    ensures Flatten(ss + [s]) == Flatten(ss) + s
  {
    assert (ss + [s])[..|ss|] == ss;
  }

  lemma {:induction false} FlattenCons<T>(s: seq<T>, ss: seq<seq<T>>)
    ensures Flatten([s] + ss) == s + Flatten(ss)
  {
    if |ss| == 0 {
      assert [s] + ss == [s];
      assert Flatten([s]) == Flatten([s][..0]) + s;
    } else {
      var init := ss[..|ss| - 1];
      FlattenCons(s, init);
      assert ([s] + ss)[..|ss|] == [s] + init;
    }
  }

  lemma {:induction false} FlattenExtendLast<T>(gs: seq<seq<T>>, x: T)
    requires |gs| > 0
    ensures Flatten(gs[..|gs| - 1] + [gs[|gs| - 1] + [x]]) == Flatten(gs) + [x]
  {
    var init := gs[..|gs| - 1];
    var g := gs[|gs| - 1];
    assert gs == init + [g];
    calc {
      Flatten(init + [g + [x]]);
      { FlattenAppend(init, g + [x]); }
      Flatten(init) + (g + [x]);
      (Flatten(init) + g) + [x];
      { FlattenAppend(init, g); }
      Flatten(init + [g]) + [x];
    }
  }

  /** Appending `x` to the `k`-th group adds `x` to the flattened elements. */
  lemma {:induction false} FlattenUpdate<T>(ss: seq<seq<T>>, k: nat, x: T)
    requires k < |ss|
    ensures multiset(Flatten(ss[k := ss[k] + [x]])) == multiset(Flatten(ss)) + multiset{x}
  {
    var n := |ss| - 1;
    var init := ss[..n];
    var u := ss[k := ss[k] + [x]];
    if k == n {
      assert u == init + [ss[n] + [x]];
      FlattenExtendLast(ss, x);
    } else {
      assert u == init[k := init[k] + [x]] + [ss[n]];
      FlattenAppend(init[k := init[k] + [x]], ss[n]);
      FlattenUpdate(init, k, x);
      SnocSplit(ss);
      FlattenAppend(init, ss[n]);
    }
  }

  /** Every element of a group is an element of the flattened sequence. */
  lemma {:induction false} FlattenMember<T>(ss: seq<seq<T>>, k: nat, j: nat)
    requires k < |ss| && j < |ss[k]|
    ensures ss[k][j] in multiset(Flatten(ss))
  {
    var n := |ss| - 1;
    FlattenAppend(ss[..n], ss[n]);
    assert ss[..n] + [ss[n]] == ss;
    if k == n {
      assert ss[k][j] in Flatten(ss[..n]) + ss[n];
    } else {
      FlattenMember(ss[..n], k, j);
      assert ss[..n][k] == ss[k];
      assert ss[k][j] in Flatten(ss[..n]);
    }
  }

  function Last<T>(s: seq<T>): T
    requires |s| > 0
  {
    s[|s| - 1]
  }

  /** `a` keeps some elements of `b`, in the order they have in `b`. */
  predicate IsSubseq<T(==)>(a: seq<T>, b: seq<T>)
  {
    if |a| == 0 then true
    else if |b| == 0 then false
    else if a[|a| - 1] == b[|b| - 1] && IsSubseq(a[..|a| - 1], b[..|b| - 1]) then true
    else IsSubseq(a, b[..|b| - 1])
  }

  lemma {:induction false} SubseqRefl<T>(a: seq<T>)
    ensures IsSubseq(a, a)
  {
    if |a| > 0 { SubseqRefl(a[..|a| - 1]); }
  }

  lemma {:induction false} SubseqExtend<T>(a: seq<T>, b: seq<T>, x: T)
    requires IsSubseq(a, b)
    ensures IsSubseq(a, b + [x])
  {
    if |a| > 0 {
      assert (b + [x])[..|b|] == b;
    }
  }

  lemma {:induction false} SubseqBoth<T>(a: seq<T>, b: seq<T>, x: T)
    requires IsSubseq(a, b)
    ensures IsSubseq(a + [x], b + [x])
  {
    assert (a + [x])[..|a|] == a;
    assert (b + [x])[..|b|] == b;
  }

  lemma {:induction false} SubseqMembers<T>(a: seq<T>, b: seq<T>)
    requires IsSubseq(a, b)
    ensures forall x :: x in a ==> x in b
    ensures |a| <= |b|
  {
    if |a| > 0 {
      if a[|a| - 1] == b[|b| - 1] && IsSubseq(a[..|a| - 1], b[..|b| - 1]) {
        SubseqMembers(a[..|a| - 1], b[..|b| - 1]);
        assert a == a[..|a| - 1] + [a[|a| - 1]];
        assert b == b[..|b| - 1] + [b[|b| - 1]];
      } else {
        SubseqMembers(a, b[..|b| - 1]);
        assert b == b[..|b| - 1] + [b[|b| - 1]];
      }
    }
  }

  predicate IsPrefix<T(==)>(a: seq<T>, b: seq<T>)
  {
    |a| <= |b| && a == b[..|a|]
  }

  function Filter<T(!new)>(s: seq<T>, p: T -> bool): (r: seq<T>)
    ensures |r| <= |s|
    ensures forall x :: x in r <==> x in s && p(x)
  {
    if |s| == 0 then [] else Filter(s[..|s| - 1], p) + (if p(s[|s| - 1]) then [s[|s| - 1]] else [])
  }

  /** Filtering with a predicate every element meets changes nothing. */
  lemma {:induction false} FilterAll<T(!new)>(s: seq<T>, p: T -> bool)
    requires forall i :: 0 <= i < |s| ==> p(s[i])
    ensures Filter(s, p) == s
  {
    if |s| > 0 {
      var s0 := s[..|s| - 1];
      FilterAll(s0, p);
      assert Filter(s, p) == Filter(s0, p) + [s[|s| - 1]];
      assert s == s0 + [s[|s| - 1]];
    }
  }

  /** Filtering with a predicate no element meets leaves nothing. */
  lemma {:induction false} FilterNone<T(!new)>(s: seq<T>, p: T -> bool)
    requires forall x :: x in s ==> !p(x)
    ensures Filter(s, p) == []
  {
    if |s| > 0 {
      FilterNone(s[..|s| - 1], p);
      assert s[|s| - 1] in s;
    }
  }

  /** A slice is the concatenation of its two halves. */
  lemma {:induction false} SliceSplit<T>(s: seq<T>, i: nat, j: nat, k: nat)
    requires i <= j <= k <= |s|
    ensures s[i..k] == s[i..j] + s[j..k]
  {
  }

  /** A non-empty sequence is its front followed by its last element. */
  lemma {:induction false} SnocSplit<T>(s: seq<T>)
    requires |s| > 0
    ensures s == s[..|s| - 1] + [s[|s| - 1]]
  {
  }

  /** Two sequences that agree position by position, one with an extra last element. */
  lemma {:induction false} SnocEq<T>(a: seq<T>, b: seq<T>, x: T)
    requires |a| == |b| + 1 && a[|b|] == x
    requires forall k :: 0 <= k < |b| ==> a[k] == b[k]
    ensures a == b + [x]
  {
  }

  lemma {:induction false} AppendAssoc<T>(a: seq<T>, b: seq<T>, c: seq<T>)
    ensures (a + b) + c == a + (b + c)
  {
  }

  /** A suffix is the slice up to the split point followed by the rest. */
  lemma {:induction false} SuffixSplit<T>(s: seq<T>, i: nat, j: nat)
    requires i <= j <= |s|
    ensures s[i..] == s[i..j] + s[j..]
  {
  }

  /** Filtering distributes over concatenation. */
  lemma {:induction false} FilterAppend<T(!new)>(a: seq<T>, b: seq<T>, p: T -> bool)
    ensures Filter(a + b, p) == Filter(a, p) + Filter(b, p)
  {
    if |b| == 0 {
      assert a + b == a;
    } else {
      var b0 := b[..|b| - 1];
      assert (a + b)[..|a + b| - 1] == a + b0;
      FilterAppend(a, b0, p);
    }
  }

  lemma {:induction false} FilterCons<T(!new)>(x: T, s: seq<T>, p: T -> bool)
    ensures Filter([x] + s, p) == (if p(x) then [x] else []) + Filter(s, p)
  {
    FilterAppend([x], s, p);
    assert Filter([x], p) == Filter([x][..0], p) + (if p(x) then [x] else []);
  }

  /** Filtering with a stricter predicate after a weaker one is filtering with the stricter one. */
  lemma {:induction false} FilterFilter<T(!new)>(s: seq<T>, p: T -> bool, q: T -> bool)
    requires forall x :: q(x) ==> p(x)
    ensures Filter(Filter(s, p), q) == Filter(s, q)
  {
    if |s| > 0 {
      var s0 := s[..|s| - 1];
      var x := s[|s| - 1];
      FilterFilter(s0, p, q);
      FilterAppend(Filter(s0, p), if p(x) then [x] else [], q);
      assert Filter([x], q) == Filter([x][..0], q) + (if q(x) then [x] else []);
    }
  }

  /** Filtering keeps the surviving elements in their original order. */
  lemma {:induction false} FilterIsSubseq<T(!new)>(s: seq<T>, p: T -> bool)
    ensures IsSubseq(Filter(s, p), s)
  {
    if |s| == 0 {
    } else {
      var s0 := s[..|s| - 1];
      FilterIsSubseq(s0, p);
      assert s == s0 + [s[|s| - 1]];
      if p(s[|s| - 1]) {
        assert Filter(s, p) == Filter(s0, p) + [s[|s| - 1]];
        SubseqBoth(Filter(s0, p), s0, s[|s| - 1]);
      } else {
        assert Filter(s, p) == Filter(s0, p);
        SubseqExtend(Filter(s0, p), s0, s[|s| - 1]);
      }
    }
  }

  /** Counting in two sequences gives the same number when the predicates agree position by position. */
  lemma {:induction false} CountIfAgree<T, U>(s: seq<T>, p: T -> bool, t: seq<U>, q: U -> bool)
    requires |s| == |t|
    requires forall i :: 0 <= i < |s| ==> p(s[i]) == q(t[i])
    ensures CountIf(s, p) == CountIf(t, q)
  {
    if |s| > 0 { CountIfAgree(s[..|s| - 1], p, t[..|t| - 1], q); }
  }

  /** `[0, 1, ..., n - 1]`. */
  function Range(n: nat): (r: seq<nat>)
    ensures |r| == n && forall i :: 0 <= i < n ==> r[i] == i
  {
    if n == 0 then [] else Range(n - 1) + [n - 1]
  }

  /** Removes elements satisfying `p` from the end until the last one does not (a `while ...: pop()` loop). */
  function DropTrailing<T>(s: seq<T>, p: T -> bool): (r: seq<T>)
  {
    if |s| == 0 then s
    else if p(s[|s| - 1]) then DropTrailing(s[..|s| - 1], p)
    else s
  }

  /**
   The result is a prefix whose last element fails `p`, and every element
   removed satisfies `p`.
   */
  lemma {:induction false} DropTrailingSpec<T>(s: seq<T>, p: T -> bool)
    ensures var r := DropTrailing(s, p);
      && IsPrefix(r, s)
      && (|r| > 0 ==> !p(r[|r| - 1]))
      && forall i :: |r| <= i < |s| ==> p(s[i])
  {
    if |s| > 0 && p(s[|s| - 1]) {
      var s0 := s[..|s| - 1];
      DropTrailingSpec(s0, p);
      var r := DropTrailing(s0, p);
      forall i | |r| <= i < |s| ensures p(s[i]) {
        if i < |s| - 1 { assert s[i] == s0[i]; }
      }
    }
  }

  /** Dropping trailing elements a second time removes nothing. */
  lemma {:induction false} DropTrailingIdempotent<T>(s: seq<T>, p: T -> bool)
    ensures DropTrailing(DropTrailing(s, p), p) == DropTrailing(s, p)
  {
    DropTrailingSpec(s, p);
  }

  /** The indices below `n` that `keep` selects, in increasing order. */
  function Indices(n: nat, keep: nat -> bool): seq<nat>
  {
    if n == 0 then [] else Indices(n - 1, keep) + (if keep(n - 1) then [n - 1] else [])
  }

  lemma {:induction false} IndicesSpec(n: nat, keep: nat -> bool)
    ensures var v := Indices(n, keep);
      && (forall k :: 0 <= k < |v| ==> v[k] < n)
      && (forall j: nat :: j < n ==> (j in v <==> keep(j)))
      && (forall a, b :: 0 <= a < b < |v| ==> v[a] < v[b])
  {
    if n > 0 {
      IndicesSpec(n - 1, keep);
    }
  }

  lemma {:induction false} IndicesNone(n: nat, keep: nat -> bool)
    requires forall j: nat :: j < n ==> !keep(j)
    ensures Indices(n, keep) == []
  {
    if n > 0 { IndicesNone(n - 1, keep); }
  }

  lemma {:induction false} IndicesAll(n: nat, keep: nat -> bool)
    requires forall j: nat :: j < n ==> keep(j)
    ensures Indices(n, keep) == Range(n)
  {
    if n > 0 { IndicesAll(n - 1, keep); }
  }

  /** Python's `sum(...)` over floats. */
  function Sum(s: seq<real>): real
  {
    if |s| == 0 then 0.0 else Sum(s[..|s| - 1]) + s[|s| - 1]
  }

  /** Every element in `[lo, hi]` puts the sum in `[n * lo, n * hi]`. */
  lemma {:induction false} SumBounds(s: seq<real>, lo: real, hi: real)
    requires forall i :: 0 <= i < |s| ==> lo <= s[i] <= hi
    ensures (|s| as real) * lo <= Sum(s) <= (|s| as real) * hi
  {
    if |s| > 0 {
      SumBounds(s[..|s| - 1], lo, hi);
      assert (|s| as real) * lo == ((|s| - 1) as real) * lo + lo;
      assert (|s| as real) * hi == ((|s| - 1) as real) * hi + hi;
    }
  }

  /** The arithmetic mean (Python's `sum(s) / len(s)`). */
  function Mean(s: seq<real>): real
    requires |s| > 0
  {
    Sum(s) / (|s| as real)
  }

  /** The mean lies between the smallest and the largest element. */
  lemma {:induction false} MeanBetween(s: seq<real>)
    requires |s| > 0
    ensures MinOf(s) <= Mean(s) <= MaxOf(s)
  {
    SumBounds(s, MinOf(s), MaxOf(s));
    DivBetween(Sum(s), |s| as real, MinOf(s), MaxOf(s));
  }

  lemma {:induction false} DivBetween(t: real, n: real, lo: real, hi: real)
    requires n > 0.0 && n * lo <= t <= n * hi
    ensures lo <= t / n <= hi
  {
    assert t / n * n == t;
  }

  function CountIf<T>(s: seq<T>, p: T -> bool): (n: nat)
    ensures n <= |s|
  {
    if |s| == 0 then 0 else CountIf(s[..|s| - 1], p) + (if p(s[|s| - 1]) then 1 else 0)
  }

  lemma {:induction false} CountIfFilter<T(!new)>(s: seq<T>, p: T -> bool)
    ensures CountIf(s, p) == |Filter(s, p)|
  {
    if |s| > 0 { CountIfFilter(s[..|s| - 1], p); }
  }

  lemma {:induction false} CountIfPositive<T>(s: seq<T>, p: T -> bool, i: int)
    requires 0 <= i < |s| && p(s[i])
    ensures CountIf(s, p) >= 1
  {
    if i < |s| - 1 { CountIfPositive(s[..|s| - 1], p, i); }
  }

  lemma {:induction false} CountIfZero<T>(s: seq<T>, p: T -> bool)
    requires forall i :: 0 <= i < |s| ==> !p(s[i])
    ensures CountIf(s, p) == 0
  {
    if |s| > 0 { CountIfZero(s[..|s| - 1], p); }
  }

  lemma {:induction false} CountIfAll<T>(s: seq<T>, p: T -> bool)
    requires forall i :: 0 <= i < |s| ==> p(s[i])
    ensures CountIf(s, p) == |s|
  {
    if |s| > 0 { CountIfAll(s[..|s| - 1], p); }
  }

  lemma {:induction false} CountIfMono<T>(s: seq<T>, p: T -> bool, q: T -> bool)
    requires forall i :: 0 <= i < |s| && p(s[i]) ==> q(s[i])
    ensures CountIf(s, p) <= CountIf(s, q)
  {
    if |s| > 0 { CountIfMono(s[..|s| - 1], p, q); }
  }

  lemma {:induction false} CountIfAppend<T>(a: seq<T>, b: seq<T>, p: T -> bool)
    ensures CountIf(a + b, p) == CountIf(a, p) + CountIf(b, p)
  {
    if |b| == 0 {
      assert a + b == a;
    } else {
      assert (a + b)[..|a + b| - 1] == a + b[..|b| - 1];
      CountIfAppend(a, b[..|b| - 1], p);
    }
  }

  /** Two distinct positions contribute to the count whenever they meet `p`. */
  lemma {:induction false} CountIfPair<T>(s: seq<T>, p: T -> bool, i: int, j: int)
    requires 0 <= i < j < |s|
    ensures CountIf(s, p) >= (if p(s[i]) then 1 else 0) + (if p(s[j]) then 1 else 0)
  {
    if j < |s| - 1 {
      CountIfPair(s[..|s| - 1], p, i, j);
    } else if p(s[i]) {
      CountIfPositive(s[..|s| - 1], p, i);
    }
  }

  function MinOf(s: seq<real>): (m: real)
    requires |s| > 0
    ensures m in s
    ensures forall i :: 0 <= i < |s| ==> m <= s[i]
  {
    if |s| == 1 then s[0]
    else
      var m := MinOf(s[..|s| - 1]);
      assert m in s[..|s| - 1];
      if s[|s| - 1] < m then s[|s| - 1] else m
  }

  function MaxOf(s: seq<real>): (m: real)
    requires |s| > 0
    ensures m in s
    ensures forall i :: 0 <= i < |s| ==> s[i] <= m
  {
    if |s| == 1 then s[0]
    else
      var m := MaxOf(s[..|s| - 1]);
      assert m in s[..|s| - 1];
      if s[|s| - 1] > m then s[|s| - 1] else m
  }

  function Map<T, U>(s: seq<T>, f: T -> U): (r: seq<U>)
    ensures |r| == |s|
    ensures forall i :: 0 <= i < |s| ==> r[i] == f(s[i])
  {
    if |s| == 0 then [] else Map(s[..|s| - 1], f) + [f(s[|s| - 1])]
  }

  lemma {:induction false} MapPrefix<T, U>(s: seq<T>, f: T -> U, k: nat)
    requires k <= |s|
    ensures Map(s[..k], f) == Map(s, f)[..k]
  {
  }

  /** Mapping a sequence with one element removed removes the same element of the image. */
  lemma {:induction false} MapWithout<T, U>(s: seq<T>, f: T -> U, k: nat)
    requires k < |s|
    ensures Map(s[..k] + s[k + 1..], f) == Map(s, f)[..k] + Map(s, f)[k + 1..]
  {
    var rest := s[..k] + s[k + 1..];
    var m := Map(s, f);
    forall i | 0 <= i < |rest| ensures Map(rest, f)[i] == (m[..k] + m[k + 1..])[i] {
      if i < k {
        assert rest[i] == s[i];
      } else {
        assert rest[i] == s[i + 1];
      }
    }
  }

  // ---------------------------------------------------------------------
  // Cutting a sequence into runs.

  /**
   Scans `s` left to right and appends each element to the current run when
   `join(run, x)` holds, otherwise starts a new run with it — the loop shape
   `groups[-1].append(x)` / `groups.append([x])` the engine uses for line
   positions, glyphs and text lines.
   */
  function GroupRuns<T>(s: seq<T>, join: (seq<T>, T) -> bool): (gs: seq<seq<T>>)
    ensures |s| == 0 <==> |gs| == 0
    ensures forall k :: 0 <= k < |gs| ==> |gs[k]| > 0
  {
    if |s| == 0 then []
    else
      var gs0 := GroupRuns(s[..|s| - 1], join);
      var x := s[|s| - 1];
      if |gs0| == 0 then [[x]]
      else if join(gs0[|gs0| - 1], x) then gs0[..|gs0| - 1] + [gs0[|gs0| - 1] + [x]]
      else gs0 + [[x]]
  }

  /** The runs, read in order, are the input: grouping only cuts. */
  lemma {:induction false} GroupRunsFlatten<T>(s: seq<T>, join: (seq<T>, T) -> bool)
    ensures Flatten(GroupRuns(s, join)) == s
  {
    if |s| > 0 {
      GroupRunsFlatten(s[..|s| - 1], join);
      GroupRunsLast(s, join);
    }
  }

  /** Grouping one more element adds it at the end of the flattened runs. */
  lemma {:induction false} GroupRunsLast<T>(s: seq<T>, join: (seq<T>, T) -> bool)
    requires |s| > 0
    ensures Flatten(GroupRuns(s, join)) == Flatten(GroupRuns(s[..|s| - 1], join)) + [s[|s| - 1]]
  {
    var gs0 := GroupRuns(s[..|s| - 1], join);
    var x := s[|s| - 1];
    if |gs0| == 0 {
      assert GroupRuns(s, join) == [[x]];
      FlattenAppend([], [x]);
    } else if join(gs0[|gs0| - 1], x) {
      assert GroupRuns(s, join) == gs0[..|gs0| - 1] + [gs0[|gs0| - 1] + [x]];
      FlattenExtendLast(gs0, x);
    } else {
      assert GroupRuns(s, join) == gs0 + [[x]];
      FlattenAppend(gs0, [x]);
    }
  }

  /** Every element after the first of a run was joined to the part of the run before it. */
  predicate RunsJoined<T>(gs: seq<seq<T>>, join: (seq<T>, T) -> bool)
  {
    forall k, i :: 0 <= k < |gs| && 0 < i < |gs[k]| ==> join(gs[k][..i], gs[k][i])
  }

  /** Every run after the first starts with an element the previous run refused. */
  predicate RunsBroken<T>(gs: seq<seq<T>>, join: (seq<T>, T) -> bool)
    requires forall k :: 0 <= k < |gs| ==> |gs[k]| > 0
  {
    forall k :: 0 < k < |gs| ==> !join(gs[k - 1], gs[k][0])
  }

  lemma {:induction false} RunsNewRun<T>(gs0: seq<seq<T>>, x: T, join: (seq<T>, T) -> bool)
    requires |gs0| > 0 && forall k :: 0 <= k < |gs0| ==> |gs0[k]| > 0
    requires RunsJoined(gs0, join) && RunsBroken(gs0, join)
    requires !join(gs0[|gs0| - 1], x)
    ensures RunsJoined(gs0 + [[x]], join) && RunsBroken(gs0 + [[x]], join)
  {
    var gs := gs0 + [[x]];
    forall k, i | 0 <= k < |gs| && 0 < i < |gs[k]| ensures join(gs[k][..i], gs[k][i]) {
      assert k < |gs0| && gs[k] == gs0[k];
    }
    forall k | 0 < k < |gs| ensures !join(gs[k - 1], gs[k][0]) {
      assert gs[k - 1] == gs0[k - 1];
      if k < |gs0| { assert gs[k] == gs0[k]; }
    }
  }

  lemma {:induction false} RunsExtendLast<T>(gs0: seq<seq<T>>, x: T, join: (seq<T>, T) -> bool)
    requires |gs0| > 0 && forall k :: 0 <= k < |gs0| ==> |gs0[k]| > 0
    requires RunsJoined(gs0, join) && RunsBroken(gs0, join)
    requires join(gs0[|gs0| - 1], x)
    ensures var gs := gs0[..|gs0| - 1] + [gs0[|gs0| - 1] + [x]];
      RunsJoined(gs, join) && RunsBroken(gs, join)
  {
    var n := |gs0|;
    var g := gs0[n - 1];
    var gs := gs0[..n - 1] + [g + [x]];
    assert |gs| == n;
    forall k, i | 0 <= k < n && 0 < i < |gs[k]| ensures join(gs[k][..i], gs[k][i]) {
      if k < n - 1 {
        assert gs[k] == gs0[k];
      } else if i < |g| {
        assert gs[k][..i] == g[..i] && gs[k][i] == g[i];
      } else {
        assert gs[k][..i] == g && gs[k][i] == x;
      }
    }
    forall k | 0 < k < n ensures !join(gs[k - 1], gs[k][0]) {
      assert gs[k - 1] == gs0[k - 1];
      assert gs[k][0] == gs0[k][0];
    }
  }

  /**
   Inside a run every element was accepted by `join`; at every cut the new
   run's first element was refused by the run before it.
   */
  lemma {:induction false} GroupRunsCuts<T>(s: seq<T>, join: (seq<T>, T) -> bool)
    ensures RunsJoined(GroupRuns(s, join), join)
    ensures RunsBroken(GroupRuns(s, join), join)
  {
    if |s| > 0 {
      var s0 := s[..|s| - 1];
      var gs0 := GroupRuns(s0, join);
      GroupRunsCuts(s0, join);
      var x := s[|s| - 1];
      if |gs0| == 0 {
        assert GroupRuns(s, join) == [[x]];
      } else if join(gs0[|gs0| - 1], x) {
        RunsExtendLast(gs0, x, join);
      } else {
        RunsNewRun(gs0, x, join);
      }
    }
  }

  // ---------------------------------------------------------------------
  // Stable insertion sort with respect to a total preorder.

  ghost predicate TotalPreorder<T(!new)>(le: (T, T) -> bool)
  {
    && (forall a, b :: le(a, b) || le(b, a))
    && (forall a, b, c :: le(a, b) && le(b, c) ==> le(a, c))
  }

  predicate SortedBy<T>(s: seq<T>, le: (T, T) -> bool)
  {
    forall i, j :: 0 <= i < j < |s| ==> le(s[i], s[j])
  }

  /** Inserts `x` after every element it is not smaller than (so equal keys keep their order). */
  function Insert<T>(s: seq<T>, x: T, le: (T, T) -> bool): (r: seq<T>)
    ensures multiset(r) == multiset(s) + multiset{x}
    ensures |r| == |s| + 1
  {
    if |s| == 0 || le(s[|s| - 1], x) then s + [x]
    else
      var r := Insert(s[..|s| - 1], x, le) + [s[|s| - 1]];
      assert s == s[..|s| - 1] + [s[|s| - 1]];
      r
  }

  lemma {:induction false} InsertSorted<T(!new)>(s: seq<T>, x: T, le: (T, T) -> bool)
    requires TotalPreorder(le)
    requires SortedBy(s, le)
    ensures SortedBy(Insert(s, x, le), le)
    ensures forall y :: y in Insert(s, x, le) <==> y in s || y == x
  {
    var r := Insert(s, x, le);
    assert forall y :: y in r <==> y in multiset(r);
    if |s| == 0 || le(s[|s| - 1], x) {
    } else {
      var p := s[..|s| - 1];
      InsertSorted(p, x, le);
      var q := Insert(p, x, le);
      assert forall y :: y in q ==> le(y, s[|s| - 1]) by {
        forall y | y in q ensures le(y, s[|s| - 1]) {
          if y == x {
          } else {
            assert y in p;
            var k :| 0 <= k < |p| && p[k] == y;
            assert s[k] == y;
          }
        }
      }
      assert r == q + [s[|s| - 1]];
      forall i, j | 0 <= i < j < |r| ensures le(r[i], r[j]) {
        if j == |r| - 1 {
          assert r[i] in q;
        } else {
          assert r[i] == q[i] && r[j] == q[j];
        }
      }
    }
  }

  /** Python's `sorted(s, key=...)`: a stable sort by `le`. */
  function SortBy<T>(s: seq<T>, le: (T, T) -> bool): (r: seq<T>)
    ensures multiset(r) == multiset(s)
    ensures |r| == |s|
  {
    if |s| == 0 then []
    else
      var r := Insert(SortBy(s[..|s| - 1], le), s[|s| - 1], le);
      assert s == s[..|s| - 1] + [s[|s| - 1]];
      r
  }

  lemma {:induction false} SortBySorted<T(!new)>(s: seq<T>, le: (T, T) -> bool)
    requires TotalPreorder(le)
    ensures SortedBy(SortBy(s, le), le)
  {
    if |s| > 0 {
      SortBySorted(s[..|s| - 1], le);
      InsertSorted(SortBy(s[..|s| - 1], le), s[|s| - 1], le);
    }
  }

  lemma {:induction false} SortByMembers<T>(s: seq<T>, le: (T, T) -> bool)
    ensures forall x :: x in SortBy(s, le) <==> x in s
  {
    var r := SortBy(s, le);
    assert forall x :: x in r <==> x in multiset(r);
    assert forall x :: x in s <==> x in multiset(s);
  }

  /** The head of a sorted sequence comes no later than any of its elements. */
  lemma {:induction false} SortedHead<T>(a: seq<T>, x: T, le: (T, T) -> bool)
    requires SortedBy(a, le) && x in a && le(a[0], a[0])
    ensures le(a[0], x)
  {
    var i :| 0 <= i < |a| && a[i] == x;
  }

  lemma {:induction false} MultisetTail<T>(a: seq<T>, b: seq<T>)
    requires |a| > 0 && |b| > 0 && a[0] == b[0] && multiset(a) == multiset(b)
    ensures multiset(a[1..]) == multiset(b[1..])
  {
    assert a == [a[0]] + a[1..];
    assert b == [b[0]] + b[1..];
    assert multiset(a) == multiset{a[0]} + multiset(a[1..]);
    assert multiset(b) == multiset{a[0]} + multiset(b[1..]);
    forall x ensures multiset(a[1..])[x] == multiset(b[1..])[x] {
      assert multiset(a)[x] == multiset{a[0]}[x] + multiset(a[1..])[x];
      assert multiset(b)[x] == multiset{a[0]}[x] + multiset(b[1..])[x];
    }
  }

  /** Two sorted arrangements of the same elements agree when no two distinct elements are tied. */
  lemma {:induction false} SortedUnique<T(!new)>(a: seq<T>, b: seq<T>, le: (T, T) -> bool)
    requires forall x :: le(x, x)
    requires SortedBy(a, le) && SortedBy(b, le) && multiset(a) == multiset(b)
    requires forall x, y :: x in a && y in a && le(x, y) && le(y, x) ==> x == y
    ensures a == b
  {
    if |a| == 0 {
      assert |b| == |multiset(b)| == 0;
    } else {
      assert |b| == |multiset(b)| == |a|;
      assert a[0] in multiset(b);
      assert b[0] in multiset(a);
      SortedHead(a, b[0], le);
      SortedHead(b, a[0], le);
      MultisetTail(a, b);
      assert forall x :: x in a[1..] ==> x in a;
      SortedUnique(a[1..], b[1..], le);
      assert a == [a[0]] + a[1..];
      assert b == [b[0]] + b[1..];
    }
  }

  /** Sorting a sequence that is already in order leaves it as it is: elements tied under `le`
      keep their order, as in a stable sort. */
  lemma {:induction false} SortByIdentity<T>(s: seq<T>, le: (T, T) -> bool)
    requires SortedBy(s, le)
    ensures SortBy(s, le) == s
  {
    if |s| > 0 {
      var p := s[..|s| - 1];
      assert SortedBy(p, le);
      SortByIdentity(p, le);
      if |p| > 0 {
        assert le(p[|p| - 1], s[|s| - 1]);
      }
      assert Insert(p, s[|s| - 1], le) == p + [s[|s| - 1]];
      assert s == p + [s[|s| - 1]];
    }
  }

  function RealLe(a: real, b: real): bool { a <= b }

  /** Python's `sorted(xs)` on floats. */
  function SortReals(xs: seq<real>): (r: seq<real>)
    ensures multiset(r) == multiset(xs)
    ensures |r| == |xs|
    ensures forall i, j :: 0 <= i < j < |r| ==> r[i] <= r[j]
  {
    SortBySorted(xs, RealLe);
    SortBy(xs, RealLe)
  }

  // ---------------------------------------------------------------------
  // Permutations.

  /** Taking the first element of `a` out of `a`, and its copy at `j` out of `b`, keeps them permutations. */
  lemma {:induction false} PermRemove<T>(a: seq<T>, b: seq<T>, j: nat)
    requires |a| > 0 && j < |b| && b[j] == a[0] && multiset(a) == multiset(b)
    ensures multiset(a[1..]) == multiset(b[..j] + b[j + 1..])
  {
    var rest := b[..j] + b[j + 1..];
    assert a == [a[0]] + a[1..];
    assert b == b[..j] + [b[j]] + b[j + 1..];
    assert multiset(b) == multiset(b[..j]) + multiset{a[0]} + multiset(b[j + 1..]);
    assert multiset(rest) == multiset(b[..j]) + multiset(b[j + 1..]);
    forall x ensures multiset(a[1..])[x] == multiset(rest)[x] {
      assert multiset(a)[x] == multiset{a[0]}[x] + multiset(a[1..])[x];
      assert multiset(b)[x] == multiset(b[..j])[x] + multiset{a[0]}[x] + multiset(b[j + 1..])[x];
    }
  }

  /** `sum(f(x) for x in s)`. */
  function SumOf<T>(s: seq<T>, f: T -> int): int
  {
    if |s| == 0 then 0 else f(s[0]) + SumOf(s[1..], f)
  }

  lemma {:induction false} SumOfAppend<T>(a: seq<T>, b: seq<T>, f: T -> int)
    ensures SumOf(a + b, f) == SumOf(a, f) + SumOf(b, f)
  {
    if |a| == 0 {
      assert a + b == b;
    } else {
      assert (a + b)[0] == a[0];
      assert (a + b)[1..] == a[1..] + b;
      SumOfAppend(a[1..], b, f);
    }
  }

  /** A sum does not depend on the order of its terms. */
  lemma {:induction false} SumOfPerm<T>(a: seq<T>, b: seq<T>, f: T -> int)
    requires multiset(a) == multiset(b)
    ensures SumOf(a, f) == SumOf(b, f)
    decreases |a|
  {
    if |a| == 0 {
      assert |b| == |multiset(b)| == 0;
    } else {
      assert a[0] in multiset(b);
      var j :| 0 <= j < |b| && b[j] == a[0];
      PermRemove(a, b, j);
      var rest := b[..j] + b[j + 1..];
      assert |rest| == |a[1..]| by {
        assert |multiset(rest)| == |multiset(a[1..])|;
      }
      SumOfPerm(a[1..], rest, f);
      assert b == b[..j] + ([b[j]] + b[j + 1..]);
      SumOfAppend(b[..j], [b[j]] + b[j + 1..], f);
      SumOfAppend(b[..j], b[j + 1..], f);
      assert ([b[j]] + b[j + 1..])[1..] == b[j + 1..];
    }
  }

  lemma {:induction false} MapAppend<T, U>(a: seq<T>, b: seq<T>, f: T -> U)
    ensures Map(a + b, f) == Map(a, f) + Map(b, f)
  {
    var l := Map(a + b, f);
    var r := Map(a, f) + Map(b, f);
    forall i | 0 <= i < |l| ensures l[i] == r[i] {
      if i < |a| {
        assert (a + b)[i] == a[i];
      } else {
        assert (a + b)[i] == b[i - |a|];
      }
    }
  }

  /** Applying a function to two permutations of each other gives permutations of each other. */
  lemma {:induction false} MapPerm<T, U>(a: seq<T>, b: seq<T>, f: T -> U)
    requires multiset(a) == multiset(b)
    ensures multiset(Map(a, f)) == multiset(Map(b, f))
    decreases |a|
  {
    if |a| == 0 {
      assert |b| == |multiset(b)| == 0;
    } else {
      assert a[0] in multiset(b);
      var j :| 0 <= j < |b| && b[j] == a[0];
      var rest := b[..j] + b[j + 1..];
      PermRemove(a, b, j);
      MapPerm(a[1..], rest, f);
      MapHead(a, f);
      MapDrop(b, j, f);
    }
  }

  /** Taking element `j` out of a sequence takes its image out of the mapped multiset. */
  lemma {:induction false} MapDrop<T, U>(s: seq<T>, j: nat, f: T -> U)
    requires j < |s|
    ensures multiset(Map(s, f)) == multiset{f(s[j])} + multiset(Map(s[..j] + s[j + 1..], f))
  {
    MapSplit(s, j, f);
    MapAppend(s[..j], s[j + 1..], f);
    MultisetMiddle(Map(s[..j], f), f(s[j]), Map(s[j + 1..], f));
  }

  lemma {:induction false} MapHead<T, U>(s: seq<T>, f: T -> U)
    requires |s| > 0
    ensures multiset(Map(s, f)) == multiset{f(s[0])} + multiset(Map(s[1..], f))
  {
    var l := Map(s, f);
    var r := [f(s[0])] + Map(s[1..], f);
    forall i | 0 <= i < |s| ensures l[i] == r[i] {
      if i > 0 {
        assert s[1..][i - 1] == s[i];
      }
    }
    assert l == r;
  }

  lemma {:induction false} MapSplit<T, U>(s: seq<T>, j: nat, f: T -> U)
    requires j < |s|
    ensures Map(s, f) == Map(s[..j], f) + [f(s[j])] + Map(s[j + 1..], f)
  {
    var l := Map(s, f);
    var r := Map(s[..j], f) + [f(s[j])] + Map(s[j + 1..], f);
    forall i | 0 <= i < |s| ensures l[i] == r[i] {
      if i > j {
        assert s[j + 1..][i - j - 1] == s[i];
      }
    }
  }

  lemma {:induction false} MultisetMiddle<U>(x: seq<U>, y: U, z: seq<U>)
    ensures multiset(x + [y] + z) == multiset{y} + multiset(x + z)
  {
    assert multiset(x + [y] + z) == multiset(x) + multiset([y]) + multiset(z);
    assert multiset(x + z) == multiset(x) + multiset(z);
  }

  /** No element of `s` occurs twice. */
  predicate Distinct<T(==)>(s: seq<T>)
  {
    forall i, j :: 0 <= i < j < |s| ==> s[i] != s[j]
  }

  /** The position of the first occurrence of `x` in `s`. */
  function FirstIndex<T(==)>(s: seq<T>, x: T): (i: nat)
    requires x in s
    ensures i < |s| && s[i] == x && x !in s[..i]
  {
    if s[0] == x then 0 else 1 + FirstIndex(s[1..], x)
  }

  /** Python's `list.remove(x)`: drop the first occurrence of `x`. */
  function RemoveFirst<T(==)>(s: seq<T>, x: T): (r: seq<T>)
    requires x in s
  {
    var i := FirstIndex(s, x);
    s[..i] + s[i + 1..]
  }

  /** No two elements of `s` share a key. */
  ghost predicate KeysDistinct<T, K>(s: seq<T>, key: T -> K)
  {
    forall i, j :: 0 <= i < j < |s| ==> key(s[i]) != key(s[j])
  }

  /** An element whose key no other element has occurs once. */
  lemma {:induction false} CountOne<T, K>(b: seq<T>, u: nat, key: T -> K)
    requires KeysDistinct(b, key) && u < |b|
    ensures multiset(b)[b[u]] == 1
  {
    var c := b[u];
    forall w | 0 <= w < u ensures b[..u][w] != c {
      assert b[..u][w] == b[w];
    }
    var after := b[u + 1..];
    forall w | 0 <= w < |after| ensures after[w] != c {
      assert after[w] == b[u + 1 + w];
    }
    assert b == b[..u] + [c] + b[u + 1..];
    assert multiset(b) == multiset(b[..u]) + multiset{c} + multiset(b[u + 1..]);
  }

  /** An element at two positions occurs at least twice. */
  lemma {:induction false} CountTwo<T>(a: seq<T>, i: nat, j: nat)
    requires i < j < |a| && a[i] == a[j]
    ensures multiset(a)[a[i]] >= 2
  {
    assert a == a[..j] + a[j..];
    assert a[..j][i] == a[i] && a[j..][0] == a[i];
    assert multiset(a) == multiset(a[..j]) + multiset(a[j..]);
  }

  /** A permutation of a sequence with distinct keys has distinct keys. */
  lemma {:induction false} PermKeysDistinct<T, K>(a: seq<T>, b: seq<T>, key: T -> K)
    requires multiset(a) == multiset(b) && KeysDistinct(b, key)
    ensures KeysDistinct(a, key)
  {
    forall i, j | 0 <= i < j < |a| ensures key(a[i]) != key(a[j]) {
      assert a[i] in multiset(b) && a[j] in multiset(b);
      var u :| 0 <= u < |b| && b[u] == a[i];
      var v :| 0 <= v < |b| && b[v] == a[j];
      CountOne(b, u, key);
      if a[i] == a[j] {
        CountTwo(a, i, j);
      }
    }
  }

  /** Filtering keeps keys distinct. */
  lemma {:induction false} FilterKeysDistinct<T(!new), K>(s: seq<T>, p: T -> bool, key: T -> K)
    requires KeysDistinct(s, key)
    ensures KeysDistinct(Filter(s, p), key)
  {
    if |s| > 0 {
      var q := s[..|s| - 1];
      var x := s[|s| - 1];
      assert KeysDistinct(q, key);
      FilterKeysDistinct(q, p, key);
      var r := Filter(s, p);
      var fq := Filter(q, p);
      if p(x) {
        assert r == fq + [x];
        forall i | 0 <= i < |fq| ensures key(fq[i]) != key(x) {
          assert fq[i] in q;
          var k :| 0 <= k < |q| && q[k] == fq[i];
          assert s[k] == fq[i];
        }
      } else {
        assert r == fq;
      }
    }
  }

  /** Filtering keeps a sequence sorted. */
  lemma {:induction false} FilterSorted<T(!new)>(s: seq<T>, p: T -> bool, le: (T, T) -> bool)
    requires SortedBy(s, le)
    ensures SortedBy(Filter(s, p), le)
  {
    if |s| > 0 {
      var q := s[..|s| - 1];
      var x := s[|s| - 1];
      assert SortedBy(q, le);
      FilterSorted(q, p, le);
      var fq := Filter(q, p);
      if p(x) {
        assert Filter(s, p) == fq + [x];
        forall i | 0 <= i < |fq| ensures le(fq[i], x) {
          assert fq[i] in q;
          var k :| 0 <= k < |q| && q[k] == fq[i];
          assert s[k] == fq[i];
        }
      } else {
        assert Filter(s, p) == fq;
      }
    }
  }

  /** Filtering keeps every copy of an element that passes and no copy of one that does not. */
  lemma {:induction false} FilterCount<T(!new)>(s: seq<T>, p: T -> bool)
    ensures forall x :: multiset(Filter(s, p))[x] == if p(x) then multiset(s)[x] else 0
  {
    if |s| > 0 {
      var q := s[..|s| - 1];
      var y := s[|s| - 1];
      FilterCount(q, p);
      assert s == q + [y];
      var tail := if p(y) then [y] else [];
      assert Filter(s, p) == Filter(q, p) + tail;
      forall x ensures multiset(Filter(s, p))[x] == if p(x) then multiset(s)[x] else 0 {
        assert multiset(Filter(s, p))[x] == multiset(Filter(q, p))[x] + multiset(tail)[x];
        assert multiset(s)[x] == multiset(q)[x] + multiset([y])[x];
      }
    }
  }

  /** Filtering two permutations of each other gives permutations of each other. */
  lemma {:induction false} FilterPerm<T(!new)>(a: seq<T>, b: seq<T>, p: T -> bool)
    requires multiset(a) == multiset(b)
    ensures multiset(Filter(a, p)) == multiset(Filter(b, p))
  {
    FilterCount(a, p);
    FilterCount(b, p);
    forall x ensures multiset(Filter(a, p))[x] == multiset(Filter(b, p))[x] {
    }
  }

  /** The images of the elements that pass a filter are exactly the images of passing elements. */
  lemma {:induction false} MapFilterMembers<T(!new), U>(s: seq<T>, p: T -> bool, f: T -> U)
    ensures forall y :: y in Map(Filter(s, p), f) <==> exists k :: 0 <= k < |s| && p(s[k]) && f(s[k]) == y
  {
    var v := Filter(s, p);
    var r := Map(v, f);
    forall y | y in r ensures exists k :: 0 <= k < |s| && p(s[k]) && f(s[k]) == y {
      var j :| 0 <= j < |r| && r[j] == y;
      assert v[j] in v;
      var k :| 0 <= k < |s| && s[k] == v[j];
    }
    forall y | exists k :: 0 <= k < |s| && p(s[k]) && f(s[k]) == y ensures y in r {
      var k :| 0 <= k < |s| && p(s[k]) && f(s[k]) == y;
      assert s[k] in v;
      var j :| 0 <= j < |v| && v[j] == s[k];
      assert r[j] == y;
    }
  }
}

=== FILE: structure.dfy ===
/**
 The heading and line structurer run on a page's words after extraction: the
 body font size is the most frequent word size, words are grouped into lines
 by their top coordinate with a tolerance of 3 points, every line is healed,
 and a line whose largest word is at least 1.2 times the body size becomes a
 Markdown heading of level 1, 2 or 3.
 */
module Structure {
  import opened Common
  import opened Seqs
  import opened Geometry
  import Glyphs
  import Healer

  // ------------------------------------------------------------ the body size

  /** How often `x` occurs in `s`. */
  function Occurrences(s: seq<real>, x: real): nat
  {
    CountIf(s, (y: real) => y == x)
  }

  /** The scan behind `Counter(sizes).most_common(1)`: `b` is the best index among the first `j`. */
  predicate ModeSoFar(s: seq<real>, j: nat, b: nat)
  {
    && b < j <= |s|
    && (forall k :: 0 <= k < j ==> Occurrences(s, s[k]) <= Occurrences(s, s[b]))
    && (forall k :: 0 <= k < b ==> Occurrences(s, s[k]) < Occurrences(s, s[b]))
  }

  function ModeFrom(s: seq<real>, j: nat, b: nat): (r: nat)
    requires ModeSoFar(s, j, b)
    ensures ModeSoFar(s, |s|, r)
    decreases |s| - j
  {
    if j == |s| then b
    else if Occurrences(s, s[j]) > Occurrences(s, s[b]) then ModeFrom(s, j + 1, j)
    else ModeFrom(s, j + 1, b)
  }

  /** Index of the mode: the value counted most often, the earliest seen among equally frequent ones
      (`most_common` keeps the first of equal counts, and a `Counter` lists values in order of first
      appearance). */
  function ModeIndex(s: seq<real>): (b: nat)
    requires |s| > 0
    ensures b < |s|
    ensures forall k :: 0 <= k < |s| ==> Occurrences(s, s[k]) <= Occurrences(s, s[b])
    ensures forall k :: 0 <= k < b ==> Occurrences(s, s[k]) < Occurrences(s, s[b])
  {
    ModeFrom(s, 1, 0)
  }

  function Mode(s: seq<real>): real
    requires |s| > 0
  {
    s[ModeIndex(s)]
  }

  /** The body size is a size some word has, no size occurs more often, and every size occurring
      as often appears first later in the page. */
  lemma {:induction false} ModeIsMostFrequent(s: seq<real>)
    requires |s| > 0
    ensures Mode(s) in s
    ensures forall x :: x in s ==> Occurrences(s, x) <= Occurrences(s, Mode(s))
    ensures forall k :: 0 <= k < |s| && Occurrences(s, s[k]) == Occurrences(s, Mode(s)) ==>
      ModeIndex(s) <= k
  {
    forall x | x in s ensures Occurrences(s, x) <= Occurrences(s, Mode(s)) {
      var k :| 0 <= k < |s| && s[k] == x;
    }
  }

  // ------------------------------------------------------------ lines

  /** A line of words keyed by the top of the word that opened it. */
  datatype Line = Line(anchor: real, words: seq<Word>)

  /** Two tops are on the same line when they differ by less than 3 points. */
  predicate Near(anchor: real, y: real) { Abs(anchor - y) < 3.0 }

  /** The first line whose anchor is near `y`, or `|lines|` when there is none (dict keys are visited in
      insertion order). */
  function FirstNear(lines: seq<Line>, y: real): (k: nat)
    ensures k <= |lines|
    ensures k < |lines| ==> Near(lines[k].anchor, y)
    ensures forall i :: 0 <= i < k ==> !Near(lines[i].anchor, y)
  {
    if |lines| == 0 then 0
    else if Near(lines[0].anchor, y) then 0
    else 1 + FirstNear(lines[1..], y)
  }

  /** One step of the grouping loop. */
  function Place(lines: seq<Line>, w: Word): seq<Line>
  {
    var k := FirstNear(lines, w.top);
    if k < |lines| then lines[k := Line(lines[k].anchor, lines[k].words + [w])]
    else lines + [Line(w.top, [w])]
  }

  function GroupLines(words: seq<Word>): seq<Line>
  {
    if |words| == 0 then [] else Place(GroupLines(words[..|words| - 1]), words[|words| - 1])
  }

  /** The words of each line, in line order. */
  function WordsOf(lines: seq<Line>): (ws: seq<seq<Word>>)
    ensures |ws| == |lines| && forall i :: 0 <= i < |lines| ==> ws[i] == lines[i].words
  {
    seq(|lines|, i requires 0 <= i < |lines| => lines[i].words)
  }

  /** What the grouping loop keeps true: every line was opened by a word whose top is its anchor,
      every word of a line is near its anchor, and no two anchors are near each other. */
  predicate WellGrouped(lines: seq<Line>)
  {
    && (forall i :: 0 <= i < |lines| ==> |lines[i].words| > 0 && lines[i].words[0].top == lines[i].anchor)
    && (forall i, j :: 0 <= i < |lines| && 0 <= j < |lines[i].words| ==> Near(lines[i].anchor, lines[i].words[j].top))
    && (forall i, j :: 0 <= i < j < |lines| ==> !Near(lines[i].anchor, lines[j].anchor))
  }

  lemma {:induction false} PlaceGrouped(lines: seq<Line>, w: Word)
    requires WellGrouped(lines)
    ensures WellGrouped(Place(lines, w))
  {
    var k := FirstNear(lines, w.top);
    var r := Place(lines, w);
    if k < |lines| {
      assert forall i :: 0 <= i < |lines| && i != k ==> r[i] == lines[i];
      assert r[k].words == lines[k].words + [w];
      forall i, j | 0 <= i < |r| && 0 <= j < |r[i].words| ensures Near(r[i].anchor, r[i].words[j].top) {
        if i == k && j == |lines[k].words| {
          assert r[i].words[j] == w;
        } else if i == k {
          assert r[i].words[j] == lines[k].words[j];
        }
      }
    } else {
      forall i | 0 <= i < |lines| ensures !Near(r[i].anchor, r[|lines|].anchor) {
        assert !Near(lines[i].anchor, w.top);
      }
    }
  }

  /** Placing a word adds exactly that word to the lines. */
  lemma {:induction false} PlaceAddsWord(lines: seq<Line>, w: Word)
    ensures multiset(Flatten(WordsOf(Place(lines, w)))) == multiset(Flatten(WordsOf(lines))) + multiset{w}
  {
    var k := FirstNear(lines, w.top);
    var ws := WordsOf(lines);
    if k < |lines| {
      assert WordsOf(Place(lines, w)) == ws[k := ws[k] + [w]];
      FlattenUpdate(ws, k, w);
    } else {
      assert WordsOf(Place(lines, w)) == ws + [[w]];
      FlattenAppend(ws, [w]);
    }
  }

  /** Every word lands in exactly one line, every line is anchored at the top of its first word and
      holds only words near that anchor, and distinct lines have anchors at least 3 points apart. */
  lemma {:induction false} GroupLinesSpec(words: seq<Word>)
    ensures WellGrouped(GroupLines(words))
    ensures multiset(Flatten(WordsOf(GroupLines(words)))) == multiset(words)
  {
    if |words| > 0 {
      var w0 := words[..|words| - 1];
      GroupLinesSpec(w0);
      PlaceGrouped(GroupLines(w0), words[|words| - 1]);
      PlaceAddsWord(GroupLines(w0), words[|words| - 1]);
      SnocSplit(words);
    }
  }

  // ------------------------------------------------------------ headings

  /** 0 for body text, otherwise the heading level. */
  function HeadingLevel(maxSize: real, body: real): nat
  {
    if maxSize < body * 1.2 then 0
    else if maxSize > body * 2.0 then 1
    else if maxSize > body * 1.5 then 2
    else 3
  }

  function Prefix(level: nat): string
  {
    if level == 1 then "# " else if level == 2 then "## " else "### "
  }

  /** Importance of a level: body text lowest, level 1 highest. */
  function Rank(level: nat): nat { if level == 0 then 0 else 4 - Min3(level) }

  function Min3(level: nat): nat { if level > 3 then 3 else level }

  /** A line is a heading exactly when its largest size reaches 1.2 times the body size; a larger
      maximum never gives a less important line, for any body size. */
  lemma {:induction false} HeadingBands(m1: real, m2: real, body: real)
    ensures HeadingLevel(m1, body) > 0 <==> m1 >= body * 1.2
    ensures HeadingLevel(m1, body) <= 3
    ensures HeadingLevel(m1, body) == 1 <==> m1 >= body * 1.2 && m1 > body * 2.0
    ensures m1 <= m2 ==> Rank(HeadingLevel(m1, body)) <= Rank(HeadingLevel(m2, body))
  {
  }

  // ------------------------------------------------------------ emitting the page

  function AnchorLe(a: Line, b: Line): bool { a.anchor <= b.anchor }

  lemma {:induction false} AnchorLeTotal()
    ensures TotalPreorder(AnchorLe)
  {
  }

  function WordTexts(ws: seq<Word>): (ts: seq<string>)
    ensures |ts| == |ws| && forall i :: 0 <= i < |ws| ==> ts[i] == ws[i].text
  {
    if |ws| == 0 then [] else [ws[0].text] + WordTexts(ws[1..])
  }

  /** The words of a line left to right, joined by single spaces. */
  function BaseLine(l: Line): string
  {
    Join(WordTexts(SortBy(l.words, Glyphs.X0Le)), " ")
  }

  /** The line's text healed in the language detected for it; a line whose words hold no line
      break heals to text without one. */
  function HealedLine(l: Line): (r: string)
    ensures NoNewlines(l.words) ==> '\n' !in r
  {
    var base := BaseLine(l);
    BaseLineNoNewline(l);
    Healer.HealLine(base, Healer.DetectLanguage(base))
  }

  function LevelOf(l: Line, body: real): nat
  {
    if |l.words| == 0 then 0 else HeadingLevel(MaxOf(Glyphs.Sizes(l.words)), body)
  }

  /** The healed text of a line, with the heading prefix and surrounding blank lines when it is one. */
  function RenderLine(l: Line, body: real): string
  {
    if LevelOf(l, body) == 0 then HealedLine(l) else "\n" + Prefix(LevelOf(l, body)) + HealedLine(l) + "\n"
  }

  function RenderLines(lines: seq<Line>, body: real): seq<string>
  {
    if |lines| == 0 then [] else [RenderLine(lines[0], body)] + RenderLines(lines[1..], body)
  }

  /** The lines in the order they are emitted: by anchor, top of the page first. */
  function SortedLines(words: seq<Word>): seq<Line>
  {
    SortBy(GroupLines(words), AnchorLe)
  }

  /** `extract_text_with_structure` from the extracted words on. */
  function ExtractTextWithStructure(words: seq<Word>): (md: string)
    ensures |words| == 0 ==> md == ""
  {
    if |words| == 0 then ""
    else Join(RenderLines(SortedLines(words), Mode(Glyphs.Sizes(words))), "\n")
  }

  // ------------------------------------------------------------ the emitted lines

  /** The output lines one page line gives: its healed text, or for a heading an empty line, the
      prefixed text and another empty line. */
  function Pieces(l: Line, body: real): seq<string>
  {
    var level := LevelOf(l, body);
    if level == 0 then [HealedLine(l)] else ["", Prefix(level) + HealedLine(l), ""]
  }

  function AllPieces(lines: seq<Line>, body: real): seq<string>
  {
    if |lines| == 0 then [] else Pieces(lines[0], body) + AllPieces(lines[1..], body)
  }

  predicate NoNewlines(words: seq<Word>)
  {
    forall i :: 0 <= i < |words| ==> '\n' !in words[i].text
  }

  lemma {:induction false} BaseLineNoNewline(l: Line)
    ensures NoNewlines(l.words) ==> '\n' !in BaseLine(l)
  {
    if NoNewlines(l.words) {
      var sorted := SortBy(l.words, Glyphs.X0Le);
      SortByMembers(l.words, Glyphs.X0Le);
      var ts := WordTexts(sorted);
      forall i | 0 <= i < |ts| ensures '\n' !in ts[i] {
        assert sorted[i] in l.words;
      }
      JoinFree(ts, " ", '\n');
    }
  }

  lemma {:induction false} RenderLineSplit(l: Line, body: real)
    requires NoNewlines(l.words)
    ensures Split(RenderLine(l, body), '\n') == Pieces(l, body)
  {
    var level := LevelOf(l, body);
    var t := HealedLine(l);
    if level == 0 {
      SplitNone(t, '\n');
    } else {
      var mid := Prefix(level) + t;
      assert '\n' !in mid;
      SplitFramed(mid, '\n');
      AppendAssoc("\n", Prefix(level), t);
    }
  }

  lemma {:induction false} RenderLinesSplit(lines: seq<Line>, body: real)
    requires |lines| > 0
    requires forall i :: 0 <= i < |lines| ==> NoNewlines(lines[i].words)
    ensures Split(Join(RenderLines(lines, body), "\n"), '\n') == AllPieces(lines, body)
  {
    RenderLineSplit(lines[0], body);
    var rs := RenderLines(lines, body);
    if |lines| == 1 {
      assert lines[1..] == [];
      assert RenderLines(lines[1..], body) == [];
      assert rs == [RenderLine(lines[0], body)];
      assert AllPieces(lines, body) == Pieces(lines[0], body) + [];
    } else {
      RenderLinesSplit(lines[1..], body);
      assert rs[1..] == RenderLines(lines[1..], body);
      SplitAround(rs[0], Join(rs[1..], "\n"), '\n');
    }
  }

  /** Split at line breaks, the page is every line in anchor order as its healed text, headings
      between empty lines with their `#` prefix (when no word text holds a line break). */
  lemma {:induction false} ExtractLines(words: seq<Word>)
    requires |words| > 0 && NoNewlines(words)
    ensures Split(ExtractTextWithStructure(words), '\n') ==
      AllPieces(SortedLines(words), Mode(Glyphs.Sizes(words)))
  {
    var lines := SortedLines(words);
    GroupLinesSpec(words);
    var g := GroupLines(words);
    SortByMembers(g, AnchorLe);
    forall i | 0 <= i < |lines| ensures NoNewlines(lines[i].words) {
      assert lines[i] in g;
      var k :| 0 <= k < |g| && g[k] == lines[i];
      forall j | 0 <= j < |g[k].words| ensures '\n' !in g[k].words[j].text {
        FlattenMember(WordsOf(g), k, j);
        assert g[k].words[j] in multiset(words);
      }
    }
    RenderLinesSplit(lines, Mode(Glyphs.Sizes(words)));
  }

  /** Lines come out top to bottom, each exactly once. */
  lemma {:induction false} LinesInAnchorOrder(words: seq<Word>)
    ensures SortedBy(SortedLines(words), AnchorLe)
    ensures multiset(SortedLines(words)) == multiset(GroupLines(words))
  {
    AnchorLeTotal();
    SortBySorted(GroupLines(words), AnchorLe);
  }
}

=== FILE: structure_parser.dfy ===
/**
 Turning the words inside a detected table region into a matrix of cell
 texts (`StructureParser` in engine_neural.py): row separators from the grid
 or from clustering the words' vertical extents, each word placed in the
 first row and column interval that holds its centre, then three clean-up
 passes — the adaptive row filter, ghost-column pruning and footer-row
 pruning.
 */
module StructureParser {
  import opened Common
  import opened Seqs
  import opened Geometry
  import opened TableDetector
  import opened Glyphs

  /** A table as rows of cell texts. */
  type Matrix = seq<seq<string>>

  /** Every row has exactly `width` cells. */
  predicate Rectangular(m: Matrix, width: nat)
  {
    forall i :: 0 <= i < |m| ==> |m[i]| == width
  }

  // ---------------------------------------------------------------------
  // Row clustering (`_cluster_rows`).

  /** A word further than this below the lowest bottom so far starts a new row. */
  const RowGap: real := 3.0

  function TopLe(a: Word, b: Word): bool { a.top <= b.top }

  /** Row separators found so far and the lowest bottom edge seen so far. */
  datatype RowScan = RowScan(bounds: seq<real>, bottom: real)

  /** The loop over the words sorted by top. */
  function ScanRows(ws: seq<Word>): (s: RowScan)
    requires |ws| > 0
    ensures |s.bounds| >= 1
  {
    if |ws| == 1 then RowScan([ws[0].top - 1.0], ws[0].bottom)
    else
      var s0 := ScanRows(ws[..|ws| - 1]);
      var w := ws[|ws| - 1];
      var bounds := if w.top > s0.bottom + RowGap then s0.bounds + [(s0.bottom + w.top) / 2.0] else s0.bounds;
      RowScan(bounds, Max(s0.bottom, w.bottom))
  }

  /** `_cluster_rows`: row separators for a table without horizontal rules. */
  function ClusterRows(words: seq<Word>): (bounds: seq<real>)
    ensures words == [] <==> bounds == []
    ensures words != [] ==> |bounds| >= 2
  {
    if |words| == 0 then []
    else
      var s := ScanRows(SortBy(words, TopLe));
      s.bounds + [s.bottom + 1.0]
  }

  /** A word box whose top edge is not below its bottom edge. */
  predicate Upright(w: Word) { w.top <= w.bottom }

  predicate Increasing(s: seq<real>)
  {
    forall i, j :: 0 <= i < j < |s| ==> s[i] < s[j]
  }

  predicate ScanInvariant(ws: seq<Word>, s: RowScan)
    requires |ws| > 0
  {
    && |s.bounds| > 0
    && Increasing(s.bounds)
    && s.bounds[|s.bounds| - 1] < s.bottom
    && s.bounds[0] == ws[0].top - 1.0
    && (forall i :: 0 <= i < |ws| ==> ws[i].bottom <= s.bottom)
  }

  /** Appending a value above the last keeps a sequence strictly increasing. */
  lemma {:induction false} IncreasingSnoc(b: seq<real>, x: real)
    requires Increasing(b) && (|b| > 0 ==> b[|b| - 1] < x)
    ensures Increasing(b + [x])
  {
    var c := b + [x];
    forall i, j | 0 <= i < j < |c| ensures c[i] < c[j] {
      if j < |b| {
        assert c[i] == b[i] && c[j] == b[j];
      } else if i < |b| - 1 {
        assert b[i] < b[|b| - 1];
      }
    }
  }

  lemma {:induction false} ScanStep(ws: seq<Word>)
    requires |ws| > 1 && Upright(ws[|ws| - 1])
    requires ScanInvariant(ws[..|ws| - 1], ScanRows(ws[..|ws| - 1]))
    ensures ScanInvariant(ws, ScanRows(ws))
  {
    var ws0 := ws[..|ws| - 1];
    var s0 := ScanRows(ws0);
    var w := ws[|ws| - 1];
    var s := ScanRows(ws);
    assert s.bottom == Max(s0.bottom, w.bottom);
    assert ws[0] == ws0[0];
    if w.top > s0.bottom + RowGap {
      IncreasingSnoc(s0.bounds, (s0.bottom + w.top) / 2.0);
    }
    forall i | 0 <= i < |ws| ensures ws[i].bottom <= s.bottom {
      if i < |ws| - 1 { assert ws[i] == ws0[i]; }
    }
  }

  lemma {:induction false} ScanRowsInvariant(ws: seq<Word>)
    requires |ws| > 0
    requires forall i :: 0 <= i < |ws| ==> Upright(ws[i])
    ensures ScanInvariant(ws, ScanRows(ws))
  {
    if |ws| > 1 {
      ScanRowsInvariant(ws[..|ws| - 1]);
      ScanStep(ws);
    }
  }

  /**
   For words whose boxes are upright the separators strictly increase, and
   every word's vertical centre lies strictly inside the outermost pair, so
   the clustered rows lose no word.
   */
  lemma {:induction false} ClusterRowsCover(words: seq<Word>)
    requires forall w :: w in words ==> Upright(w)
    ensures var b := ClusterRows(words);
      && Increasing(b)
      && forall w :: w in words ==> b[0] < (w.top + w.bottom) / 2.0 < b[|b| - 1]
  {
    if |words| > 0 {
      var sorted := SortBy(words, TopLe);
      SortByMembers(words, TopLe);
      assert forall i :: 0 <= i < |sorted| ==> Upright(sorted[i]) by {
        forall i | 0 <= i < |sorted| ensures Upright(sorted[i]) {
          assert sorted[i] in sorted;
        }
      }
      ScanRowsInvariant(sorted);
      SortBySorted(words, TopLe);
      var s := ScanRows(sorted);
      var b := s.bounds + [s.bottom + 1.0];
      IncreasingSnoc(s.bounds, s.bottom + 1.0);
      forall w | w in words ensures b[0] < (w.top + w.bottom) / 2.0 < b[|b| - 1] {
        var k :| 0 <= k < |sorted| && sorted[k] == w;
        if k > 0 {
          assert TopLe(sorted[0], sorted[k]);
        }
      }
    }
  }

  // ---------------------------------------------------------------------
  // Placing words in cells (`_map_words_to_grid`).

  /** `v` lies in the half-open interval number `k` of `bounds`. */
  predicate InSlot(bounds: seq<real>, v: real, k: int)
  {
    0 <= k && k + 1 < |bounds| && bounds[k] <= v < bounds[k + 1]
  }

  function SlotFrom(bounds: seq<real>, v: real, i: nat): (r: Option<nat>)
    ensures r.Some? ==> i <= r.value && InSlot(bounds, v, r.value)
    ensures r.Some? ==> forall k :: i <= k < r.value ==> !InSlot(bounds, v, k)
    ensures r.None? ==> forall k :: i <= k ==> !InSlot(bounds, v, k)
    decreases |bounds| - i
  {
    if i + 1 >= |bounds| then None
    else if bounds[i] <= v < bounds[i + 1] then Some(i)
    else SlotFrom(bounds, v, i + 1)
  }

  /** The first interval holding `v` (the search loop with `break`), if any. */
  function FirstSlot(bounds: seq<real>, v: real): (r: Option<nat>)
    ensures r.Some? ==> InSlot(bounds, v, r.value) && forall k :: 0 <= k < r.value ==> !InSlot(bounds, v, k)
    ensures r.None? ==> forall k :: 0 <= k ==> !InSlot(bounds, v, k)
  {
    SlotFrom(bounds, v, 0)
  }

  /** The cell of a word: the row slot of its vertical centre and the column slot of its horizontal centre. */
  function CellOf(w: Word, rows: seq<real>, cols: seq<real>): (c: Option<(nat, nat)>)
    ensures c.Some? ==> c.value.0 + 1 < |rows| && c.value.1 + 1 < |cols|
  {
    match (FirstSlot(rows, (w.top + w.bottom) / 2.0), FirstSlot(cols, (w.x0 + w.x1) / 2.0))
    case (Some(i), Some(j)) => Some((i, j))
    case _ => None
  }

  /** An all-empty grid of word lists. */
  function EmptyCells(rows: nat, cols: nat): (cells: seq<seq<seq<string>>>)
    ensures |cells| == rows && forall i :: 0 <= i < rows ==> |cells[i]| == cols
    ensures forall i, j :: 0 <= i < rows && 0 <= j < cols ==> cells[i][j] == []
  {
    seq(rows, _ => seq(cols, _ => []))
  }

  /** The loop that appends each word's text to its cell, in the order the words come. */
  function PlaceWords(words: seq<Word>, rows: seq<real>, cols: seq<real>): (cells: seq<seq<seq<string>>>)
    requires |rows| >= 2 && |cols| >= 2
    ensures |cells| == |rows| - 1 && forall i :: 0 <= i < |cells| ==> |cells[i]| == |cols| - 1
  {
    if |words| == 0 then EmptyCells(|rows| - 1, |cols| - 1)
    else
      var cells := PlaceWords(words[..|words| - 1], rows, cols);
      var w := words[|words| - 1];
      match CellOf(w, rows, cols)
      case None => cells
      case Some((i, j)) => cells[i := cells[i][j := cells[i][j] + [w.text]]]
  }

  /** Reference definition of one cell: the texts of the words whose cell it is, in input order. */
  function CellTexts(words: seq<Word>, rows: seq<real>, cols: seq<real>, i: nat, j: nat): seq<string>
  {
    if |words| == 0 then []
    else
      var w := words[|words| - 1];
      CellTexts(words[..|words| - 1], rows, cols, i, j) + (if CellOf(w, rows, cols) == Some((i, j)) then [w.text] else [])
  }

  lemma {:induction false} PlaceWordsCells(words: seq<Word>, rows: seq<real>, cols: seq<real>)
    requires |rows| >= 2 && |cols| >= 2
    ensures forall i, j :: 0 <= i < |rows| - 1 && 0 <= j < |cols| - 1 ==>
      PlaceWords(words, rows, cols)[i][j] == CellTexts(words, rows, cols, i, j)
  {
    if |words| > 0 {
      PlaceWordsCells(words[..|words| - 1], rows, cols);
    }
  }

  /** `_map_words_to_grid`: the matrix of cells, each the space-joined texts of its words. */
  function MapWordsToGrid(words: seq<Word>, rows: seq<real>, cols: seq<real>): (m: Matrix)
    ensures |rows| < 2 || |cols| < 2 ==> m == []
    ensures |rows| >= 2 && |cols| >= 2 ==> |m| == |rows| - 1 && Rectangular(m, |cols| - 1)
  {
    if |cols| - 1 <= 0 || |rows| - 1 <= 0 then []
    else
      var cells := PlaceWords(words, rows, cols);
      seq(|rows| - 1, i requires 0 <= i < |rows| - 1 =>
        seq(|cols| - 1, j requires 0 <= j < |cols| - 1 => Join(cells[i][j], " ")))
  }

  /**
   Cell (i, j) joins, in input order, the texts of exactly the words whose
   centre lies in row interval i and column interval j and in no earlier
   interval; words outside every interval appear nowhere.
   */
  lemma {:induction false} MapWordsToGridCells(words: seq<Word>, rows: seq<real>, cols: seq<real>)
    requires |rows| >= 2 && |cols| >= 2
    ensures forall i, j :: 0 <= i < |rows| - 1 && 0 <= j < |cols| - 1 ==>
      MapWordsToGrid(words, rows, cols)[i][j] == Join(CellTexts(words, rows, cols, i, j), " ")
  {
    PlaceWordsCells(words, rows, cols);
  }

  // ---------------------------------------------------------------------
  // Adaptive row filter (`_filter_rows_adaptive`).

  /** The configured fill threshold when the configuration does not set one. */
  const DefaultAdaptiveThreshold: real := 0.3

  /** Threshold for rows that sit on a horizontal rule. */
  const OnGridThreshold: real := 0.1

  /** A row sits on a rule when its position is closer than this to the rule. */
  const GridSnap: real := 3.0

  /** Number of cells with visible text. */
  function Filled(row: seq<string>): nat
  {
    CountIf(row, IsFilled)
  }

  /** The standard test, defined only for a row with cells (Python divides by its length). */
  predicate KeepByRatio(row: seq<string>, threshold: real)
  {
    |row| > 0 && (Filled(row) as real) / (|row| as real) >= threshold
  }

  /** The pass without horizontal rules; `None` stands for the ZeroDivisionError an empty row raises. */
  function FilterByRatio(m: Matrix, threshold: real): (r: Option<Matrix>)
    ensures r.None? <==> exists i :: 0 <= i < |m| && |m[i]| == 0
    ensures r.Some? ==> r.value == Filter(m, (row: seq<string>) => KeepByRatio(row, threshold))
  {
    if |m| == 0 then Some([])
    else
      var last := m[|m| - 1];
      match FilterByRatio(m[..|m| - 1], threshold)
      case None => None
      case Some(kept) =>
        if |last| == 0 then None
        else Some(kept + (if KeepByRatio(last, threshold) then [last] else []))
  }

  /** Position of row `i`: the i-th sorted rule position, 0 past the last rule. */
  function RowY(grid: GridStructure, i: nat): real
  {
    var ps := RowBoundaries(grid);
    if i < |ps| then ps[i] else 0.0
  }

  predicate OnGrid(grid: GridStructure, i: nat)
  {
    exists k :: 0 <= k < |grid.horizontal| && Abs(RowY(grid, i) - grid.horizontal[k].position) < GridSnap
  }

  /** The test with horizontal rules, for row number `i`. */
  predicate KeepOnGrid(row: seq<string>, grid: GridStructure, i: nat, adaptive: real)
  {
    var filled := Filled(row);
    var ratio := if |row| > 0 then (filled as real) / (|row| as real) else 0.0;
    var threshold := if OnGrid(grid, i) then OnGridThreshold else adaptive;
    ratio >= threshold || filled >= 1
  }

  function FilterOnGrid(m: Matrix, grid: GridStructure, adaptive: real): (r: Matrix)
    ensures IsSubseq(r, m)
  {
    if |m| == 0 then []
    else
      var m0 := m[..|m| - 1];
      var last := m[|m| - 1];
      var r0 := FilterOnGrid(m0, grid, adaptive);
      assert m == m0 + [last];
      if KeepOnGrid(last, grid, |m| - 1, adaptive) then
        SubseqBoth(r0, m0, last);
        r0 + [last]
      else
        SubseqExtend(r0, m0, last);
        r0
  }

  /** `_filter_rows_adaptive`; `None` when Python would raise ZeroDivisionError. */
  function FilterRowsAdaptive(m: Matrix, grid: GridStructure, adaptive: real): (r: Option<Matrix>)
    ensures r.Some? ==> IsSubseq(r.value, m)
  {
    if |m| == 0 || |grid.horizontal| == 0 then
      var r := FilterByRatio(m, adaptive);
      FilterIsSubseq(m, (row: seq<string>) => KeepByRatio(row, adaptive));
      r
    else Some(FilterOnGrid(m, grid, adaptive))
  }

  predicate HasFilled(row: seq<string>) { Filled(row) >= 1 }

  /** With a positive threshold the grid test reduces to "some cell is filled". */
  lemma {:induction false} KeepOnGridIff(row: seq<string>, grid: GridStructure, i: nat, adaptive: real)
    requires adaptive > 0.0
    ensures KeepOnGrid(row, grid, i, adaptive) <==> HasFilled(row)
  {
    if Filled(row) == 0 && |row| > 0 {
      assert (0 as real) / (|row| as real) == 0.0;
    }
  }

  lemma {:induction false} FilterOnGridFilled(m: Matrix, grid: GridStructure, adaptive: real)
    requires adaptive > 0.0
    ensures FilterOnGrid(m, grid, adaptive) == Filter(m, HasFilled)
  {
    if |m| > 0 {
      FilterOnGridFilled(m[..|m| - 1], grid, adaptive);
      KeepOnGridIff(m[|m| - 1], grid, |m| - 1, adaptive);
    }
  }

  /**
   With horizontal rules and a positive configured threshold, the filter keeps
   exactly the rows with at least one filled cell, in order; without rules it
   keeps exactly the rows whose fill ratio reaches the threshold, and fails
   only on a row without cells.
   */
  lemma {:induction false} FilterRowsAdaptiveKeeps(m: Matrix, grid: GridStructure, adaptive: real)
    requires adaptive > 0.0
    ensures |m| > 0 && |grid.horizontal| > 0 ==>
      FilterRowsAdaptive(m, grid, adaptive) == Some(Filter(m, HasFilled))
    ensures |grid.horizontal| == 0 ==>
      (FilterRowsAdaptive(m, grid, adaptive).None? <==> exists i :: 0 <= i < |m| && |m[i]| == 0)
    ensures |grid.horizontal| == 0 && FilterRowsAdaptive(m, grid, adaptive).Some? ==>
      forall row :: row in FilterRowsAdaptive(m, grid, adaptive).value <==> row in m && KeepByRatio(row, adaptive)
  {
    if |m| > 0 && |grid.horizontal| > 0 {
      FilterOnGridFilled(m, grid, adaptive);
    }
  }

  /** A matrix whose rows all have cells never makes the filter fail. */
  lemma {:induction false} FilterRowsAdaptiveDefined(m: Matrix, grid: GridStructure, adaptive: real, width: nat)
    requires width > 0 && Rectangular(m, width)
    ensures FilterRowsAdaptive(m, grid, adaptive).Some?
    ensures Rectangular(FilterRowsAdaptive(m, grid, adaptive).value, width)
  {
    var r := FilterRowsAdaptive(m, grid, adaptive).value;
    SubseqMembers(r, m);
    forall i | 0 <= i < |r| ensures |r[i]| == width {
      assert r[i] in m;
    }
  }

  // ---------------------------------------------------------------------
  // Ghost columns (`_prune_ghost_columns`).

  /** Columns filled in fewer than this share of the rows are dropped. */
  const MinColumnFill: real := 0.15

  /** Rows in which column `j` exists and is filled. */
  function ColumnFill(m: Matrix, j: nat): nat
  {
    if |m| == 0 then 0
    else
      var row := m[|m| - 1];
      ColumnFill(m[..|m| - 1], j) + (if j < |row| && IsFilled(row[j]) then 1 else 0)
  }

  /** Python's `filled / num_rows >= min_fill_ratio`. */
  predicate ColumnKept(m: Matrix, j: nat, minFill: real)
  {
    |m| > 0 && (ColumnFill(m, j) as real) / (|m| as real) >= minFill
  }

  /** The qualifying columns among `0 .. n - 1`, in order. */
  function KeptBelow(m: Matrix, n: nat, minFill: real): seq<nat>
  {
    Indices(n, (j: nat) => ColumnKept(m, j, minFill))
  }

  /** The columns kept, counted against the first row's width; column 0 when none qualifies. */
  function KeptColumns(m: Matrix, minFill: real): (v: seq<nat>)
    requires |m| > 0
  {
    var v := KeptBelow(m, |m[0]|, minFill);
    if v == [] && |m[0]| > 0 then [0] else v
  }

  /** The cells of `row` at the listed columns that exist in it. */
  function Project(row: seq<string>, cols: seq<nat>): (r: seq<string>)
    ensures (forall k :: 0 <= k < |cols| ==> cols[k] < |row|) ==>
      |r| == |cols| && forall k :: 0 <= k < |cols| ==> r[k] == row[cols[k]]
  {
    if |cols| == 0 then []
    else Project(row, cols[..|cols| - 1]) + (if cols[|cols| - 1] < |row| then [row[cols[|cols| - 1]]] else [])
  }

  /** `_prune_ghost_columns`. */
  function PruneGhostColumns(m: Matrix, minFill: real): (r: Matrix)
    ensures |r| == |m|
  {
    if |m| == 0 then m
    else
      var cols := KeptColumns(m, minFill);
      seq(|m|, i requires 0 <= i < |m| => Project(m[i], cols))
  }

  /** No column below `width` qualifies. */
  predicate NoneKept(m: Matrix, width: nat, minFill: real)
  {
    forall c: nat :: c < width ==> !ColumnKept(m, c, minFill)
  }

  /**
   The kept columns are exactly the qualifying ones among the first row's
   columns, in increasing order — or column 0 alone when none qualifies.
   */
  lemma {:induction false} KeptColumnsSpec(m: Matrix, minFill: real)
    requires |m| > 0
    ensures var cols := KeptColumns(m, minFill);
      && (!NoneKept(m, |m[0]|, minFill) ==> forall j: nat :: j < |m[0]| ==> (j in cols <==> ColumnKept(m, j, minFill)))
      && (NoneKept(m, |m[0]|, minFill) && |m[0]| > 0 ==> cols == [0])
      && (forall a, b :: 0 <= a < b < |cols| ==> cols[a] < cols[b])
      && (forall k :: 0 <= k < |cols| ==> cols[k] < |m[0]|)
  {
    var keep := (j: nat) => ColumnKept(m, j, minFill);
    var v := KeptBelow(m, |m[0]|, minFill);
    IndicesSpec(|m[0]|, keep);
    if NoneKept(m, |m[0]|, minFill) {
      IndicesNone(|m[0]|, keep);
    } else {
      var c: nat :| c < |m[0]| && ColumnKept(m, c, minFill);
      assert c in v;
    }
  }

  /**
   On a rectangular matrix the row count is kept and row i of the result
   holds, in order, the cells of row i at the kept columns.
   */
  lemma {:induction false} PruneGhostColumnsKeeps(m: Matrix, width: nat, minFill: real)
    requires |m| > 0 && Rectangular(m, width)
    ensures var cols := KeptColumns(m, minFill);
      && Rectangular(PruneGhostColumns(m, minFill), |cols|)
      && (forall k :: 0 <= k < |cols| ==> cols[k] < width)
      && forall i, k :: 0 <= i < |m| && 0 <= k < |cols| ==> PruneGhostColumns(m, minFill)[i][k] == m[i][cols[k]]
  {
    var cols := KeptColumns(m, minFill);
    KeptColumnsSpec(m, minFill);
    assert |m[0]| == width;
    forall i | 0 <= i < |m|
      ensures |Project(m[i], cols)| == |cols| && forall k :: 0 <= k < |cols| ==> Project(m[i], cols)[k] == m[i][cols[k]]
    {
      assert |m[i]| == width;
    }
  }

  /** Two columns whose cells are filled in the same rows have the same fill. */
  lemma {:induction false} ColumnFillAgree(p: Matrix, k: nat, m: Matrix, c: nat)
    requires |p| == |m|
    requires forall i :: 0 <= i < |m| ==> (k < |p[i]| && IsFilled(p[i][k])) == (c < |m[i]| && IsFilled(m[i][c]))
    ensures ColumnFill(p, k) == ColumnFill(m, c)
  {
    if |m| > 0 {
      ColumnFillAgree(p[..|p| - 1], k, m[..|m| - 1], c);
    }
  }

  /** Column k of the pruned matrix qualifies exactly when the original column it came from does. */
  lemma {:induction false} PrunedColumnFill(m: Matrix, width: nat, minFill: real, k: nat)
    requires |m| > 0 && Rectangular(m, width)
    requires k < |KeptColumns(m, minFill)|
    ensures ColumnKept(PruneGhostColumns(m, minFill), k, minFill) <==> ColumnKept(m, KeptColumns(m, minFill)[k], minFill)
  {
    var cols := KeptColumns(m, minFill);
    var p := PruneGhostColumns(m, minFill);
    PruneGhostColumnsKeeps(m, width, minFill);
    ColumnFillAgree(p, k, m, cols[k]);
  }

  /** After pruning, every remaining column qualifies — or the single fallback column still does not. */
  lemma {:induction false} PrunedColumnsAll(m: Matrix, width: nat, minFill: real)
    requires |m| > 0 && Rectangular(m, width)
    ensures var p := PruneGhostColumns(m, minFill);
      KeptColumns(p, minFill) == Range(|KeptColumns(m, minFill)|)
  {
    var cols := KeptColumns(m, minFill);
    var p := PruneGhostColumns(m, minFill);
    PruneGhostColumnsKeeps(m, width, minFill);
    KeptColumnsSpec(m, minFill);
    assert |p[0]| == |cols|;
    var keep := (j: nat) => ColumnKept(p, j, minFill);
    if NoneKept(m, width, minFill) && width > 0 {
      PrunedColumnFill(m, width, minFill, 0);
      IndicesNone(1, keep);
    } else {
      forall k: nat | k < |cols| ensures keep(k) {
        PrunedColumnFill(m, width, minFill, k);
        assert cols[k] in cols;
      }
      IndicesAll(|cols|, keep);
    }
  }

  /** Pruning a rectangular matrix a second time changes nothing. */
  lemma {:induction false} PruneGhostColumnsIdempotent(m: Matrix, width: nat, minFill: real)
    requires |m| > 0 && Rectangular(m, width)
    ensures PruneGhostColumns(PruneGhostColumns(m, minFill), minFill) == PruneGhostColumns(m, minFill)
  {
    var p := PruneGhostColumns(m, minFill);
    PruneGhostColumnsKeeps(m, width, minFill);
    PrunedColumnsAll(m, width, minFill);
    var cols2 := KeptColumns(p, minFill);
    forall i | 0 <= i < |p| ensures Project(p[i], cols2) == p[i] {
      ProjectRange(p[i]);
    }
  }

  lemma {:induction false} ProjectRange(row: seq<string>)
    ensures Project(row, Range(|row|)) == row
  {
  }

  // ---------------------------------------------------------------------
  // Footer rows (`_prune_footer_rows`).

  /** Index of the first non-whitespace character at or after `i`. */
  function SkipSpaces(s: string, i: nat): (j: nat)
    requires i <= |s|
    ensures i <= j <= |s|
    ensures forall k :: i <= k < j ==> IsSpace(s[k])
    ensures j < |s| ==> !IsSpace(s[j])
    decreases |s| - i
  {
    if i < |s| && IsSpace(s[i]) then SkipSpaces(s, i + 1) else i
  }

  /** Index of the first non-digit at or after `i`. */
  function SkipDigits(s: string, i: nat): (j: nat)
    requires i <= |s|
    ensures i <= j <= |s|
    ensures forall k :: i <= k < j ==> IsDigit(s[k])
    ensures j < |s| ==> !IsDigit(s[j])
    decreases |s| - i
  {
    if i < |s| && IsDigit(s[i]) then SkipDigits(s, i + 1) else i
  }

  /** `s` starts with `word`, ignoring case. */
  predicate StartsFolded(s: string, word: string)
  {
    |word| <= |s| && forall k :: 0 <= k < |word| ==> FoldEq(s[k], word[k])
  }

  /** Length of the optional page word ("Page", "Sayfa", "Bölüm", any case) and the spaces after it. */
  function PageWordEnd(s: string): (n: nat)
    ensures n <= |s|
  {
    if StartsFolded(s, "Page") then SkipSpaces(s, 4)
    else if StartsFolded(s, "Sayfa") then SkipSpaces(s, 5)
    else if StartsFolded(s, "Bölüm") then SkipSpaces(s, 5)
    else 0
  }

  /** From `p`: optional spaces, an optional '-', then the end. */
  predicate FooterTail(s: string, p: nat)
    requires p <= |s|
  {
    var q := SkipSpaces(s, p);
    q == |s| || (q == |s| - 1 && s[q] == '-')
  }

  /**
   The page-number pattern: an optional page word, an optional '-', a number,
   optionally a '-' or '/' and a second number, an optional trailing '-'
   (spaces allowed between the parts). Every choice point of the regular
   expression has at most one way to succeed except the optional
   "separator and second number", which is tried first and given up when the
   rest does not match.
   */
  predicate IsFooterText(s: string)
  {
    var a := PageWordEnd(s);
    var i0 := if a < |s| && s[a] == '-' then a + 1 else a;
    var i1 := SkipSpaces(s, i0);
    var i2 := SkipDigits(s, i1);
    i2 > i1 &&
      var j := SkipSpaces(s, i2);
      if j < |s| && (s[j] == '-' || s[j] == '/') then
        var k := SkipSpaces(s, j + 1);
        var k2 := SkipDigits(s, k);
        (k2 > k && FooterTail(s, k2)) || FooterTail(s, i2)
      else FooterTail(s, i2)
  }

  /** A row with exactly one filled cell whose stripped text is a page number. */
  predicate IsFooterRow(row: seq<string>)
  {
    var filled := Filter(row, IsFilled);
    |filled| == 1 && IsFooterText(Strip(filled[0]))
  }

  /** `_prune_footer_rows`: drops page-number rows from the bottom. */
  function PruneFooterRows(m: Matrix): (r: Matrix)
  {
    DropTrailing(m, IsFooterRow)
  }

  /**
   The result is a prefix of the input that does not end in a page-number
   row, every row removed is a page-number row, and pruning again removes
   nothing.
   */
  lemma {:induction false} PruneFooterRowsSpec(m: Matrix)
    ensures var r := PruneFooterRows(m);
      && IsPrefix(r, m)
      && (|r| > 0 ==> !IsFooterRow(r[|r| - 1]))
      && (forall i :: |r| <= i < |m| ==> IsFooterRow(m[i]))
      && PruneFooterRows(r) == r
  {
    DropTrailingSpec(m, IsFooterRow);
    DropTrailingIdempotent(m, IsFooterRow);
  }

  /** "Page 12" is a page number. */
  lemma {:induction false} FooterExamplePage()
    ensures IsFooterText("Page 12")
  {
    assert StartsFolded("Page 12", "Page");
    assert SkipSpaces("Page 12", 4) == 5;
    assert SkipDigits("Page 12", 5) == 7;
  }

  /** "Total" is not a page number. */
  lemma {:induction false} FooterExampleReject()
    ensures !IsFooterText("Total")
  {
    assert PageWordEnd("Total") == 0 by {
      assert !FoldEq("Total"[0], "Page"[0]);
      assert !FoldEq("Total"[0], "Sayfa"[0]);
      assert !FoldEq("Total"[0], "Bölüm"[0]);
    }
    assert SkipSpaces("Total", 0) == 0;
    assert SkipDigits("Total", 0) == 0;
  }

  // ---------------------------------------------------------------------
  // The whole pass (`parse_table`).

  /**
   The words a region contributes: words rebuilt from the glyphs when glyphs
   are given, otherwise the page words whose top-left corner is in the box.
   */
  function TableWords(region: TableRegion, words: seq<Word>, chars: seq<Word>): seq<Word>
  {
    if |chars| > 0 then ReconstructWordsInBbox(chars, region.bbox)
    else Filter(words, (w: Word) => region.bbox.ContainsPoint(w.x0, w.top))
  }

  /** The row separators: the grid's rules, or clustered word rows when there are fewer than two rules. */
  function RowSeparators(grid: GridStructure, words: seq<Word>): seq<real>
  {
    var rows := RowBoundaries(grid);
    if |rows| < 2 then ClusterRows(words) else rows
  }

  /** The rows that survive the adaptive filter (the filter cannot fail on this input, see ParseTableShape). */
  function FilteredCells(m: Matrix, grid: GridStructure, adaptive: real): Matrix
  {
    match FilterRowsAdaptive(m, grid, adaptive)
    case Some(r) => r
    case None => []
  }

  /** Everything `parse_table` does once it has the region's words: place, filter, prune. */
  function GridMatrix(grid: GridStructure, tw: seq<Word>, adaptive: real): Matrix
  {
    var matrix := MapWordsToGrid(tw, RowSeparators(grid, tw), ColumnBoundaries(grid));
    PruneFooterRows(PruneGhostColumns(FilteredCells(matrix, grid, adaptive), MinColumnFill))
  }

  /** `parse_table`. */
  function ParseTable(region: TableRegion, words: seq<Word>, chars: seq<Word>, adaptive: real): (m: Matrix)
    ensures region.grid.None? ==> m == []
  {
    if region.grid.None? then []
    else
      var tw := TableWords(region, words, chars);
      if |tw| == 0 then [] else GridMatrix(region.grid.value, tw, adaptive)
  }

  /** All rows have the width of the first. */
  predicate IsRectangular(m: Matrix)
  {
    forall i :: 0 <= i < |m| ==> |m[i]| == |m[0]|
  }

  /** The filter and the ghost-column pass keep a rectangular matrix rectangular. */
  lemma {:induction false} CleanedRectangular(m: Matrix, grid: GridStructure, adaptive: real, width: nat)
    requires width > 0 && Rectangular(m, width)
    ensures IsRectangular(PruneGhostColumns(FilteredCells(m, grid, adaptive), MinColumnFill))
  {
    FilterRowsAdaptiveDefined(m, grid, adaptive, width);
    var f := FilteredCells(m, grid, adaptive);
    if |f| > 0 {
      PruneGhostColumnsKeeps(f, width, MinColumnFill);
    }
  }

  /** A prefix of a rectangular matrix is rectangular. */
  lemma {:induction false} PrefixRectangular(r: Matrix, m: Matrix)
    requires IsRectangular(m) && IsPrefix(r, m)
    ensures IsRectangular(r)
  {
    forall i | 0 <= i < |r| ensures |r[i]| == |r[0]| {
      assert r[i] == m[i] && r[0] == m[0];
    }
  }

  lemma {:induction false} GridMatrixShape(grid: GridStructure, tw: seq<Word>, adaptive: real)
    ensures IsRectangular(GridMatrix(grid, tw, adaptive))
    ensures PruneFooterRows(GridMatrix(grid, tw, adaptive)) == GridMatrix(grid, tw, adaptive)
    ensures |grid.vertical| < 2 ==> GridMatrix(grid, tw, adaptive) == []
  {
    var rows := RowSeparators(grid, tw);
    var cols := ColumnBoundaries(grid);
    var matrix := MapWordsToGrid(tw, rows, cols);
    var cleaned := PruneGhostColumns(FilteredCells(matrix, grid, adaptive), MinColumnFill);
    if |rows| >= 2 && |cols| >= 2 {
      CleanedRectangular(matrix, grid, adaptive, |cols| - 1);
    } else {
      assert matrix == [];
      assert FilteredCells(matrix, grid, adaptive) == [];
    }
    PruneFooterRowsSpec(cleaned);
    PrefixRectangular(PruneFooterRows(cleaned), cleaned);
  }

  /**
   A parsed table is rectangular, has no page-number row left to prune, and is
   empty when the region has no grid, no words, or fewer than two vertical
   rules; the adaptive filter never meets a row without cells.
   */
  lemma {:induction false} ParseTableShape(region: TableRegion, words: seq<Word>, chars: seq<Word>, adaptive: real)
    ensures var m := ParseTable(region, words, chars, adaptive);
      && IsRectangular(m)
      && PruneFooterRows(m) == m
      && (region.grid.None? || TableWords(region, words, chars) == [] ==> m == [])
      && (region.grid.Some? && |region.grid.value.vertical| < 2 ==> m == [])
  {
    if region.grid.Some? && TableWords(region, words, chars) != [] {
      GridMatrixShape(region.grid.value, TableWords(region, words, chars), adaptive);
    }
  }

  // ---------------------------------------------------------------------
  // Header detection (`identify_headers`).

  /**
   `identify_headers`: no answer without words, without a grid or without a
   word in the region; otherwise the first row. The font-size comparison only
   chooses between two branches that both answer 1.
   */
  function IdentifyHeaders(words: seq<Word>, region: TableRegion): (r: Option<nat>)
    ensures r.Some? ==> r.value == 1
    ensures r.None? <==> region.grid.None? || forall w :: w in words ==> !region.bbox.ContainsPoint(w.x0, w.top)
  {
    if |words| == 0 || region.grid.None? then None
    else
      var inside := WordsIn(region.bbox, words);
      if |inside| == 0 then None
      else
        assert inside[0] in inside;
        Some(1)
  }
}

=== FILE: table_detector.dfy ===
/**
 The neural engine's table detector: bordered tables from clustered ruling
 lines, borderless tables from whitespace rivers, confidence-ordered
 suppression of overlapping detections, and the region classifiers
 (chart guard, region type, OCR need) that decide what happens to a region.
 */
module TableDetector {
  import opened Common
  import opened Seqs
  import opened Geometry
  import opened Rivers

  /** A ruling line: `position` is y for a horizontal line and x for a vertical one. */
  datatype GridLine = GridLine(position: real, start: real, end: real, isHorizontal: bool)

  datatype GridStructure = GridStructure(horizontal: seq<GridLine>, vertical: seq<GridLine>, bbox: Option<BBox>)

  datatype TableRegion = TableRegion(bbox: BBox, grid: Option<GridStructure>, isBordered: bool, confidence: real)

  /** A vector curve, by its corner coordinates. */
  datatype Curve = Curve(x0: real, y0: real, x1: real, y1: real)

  /** A line segment that is neither horizontal nor vertical, by its top edge. */
  datatype Diagonal = Diagonal(top: real)

  datatype RegionType = TableKind | ChartKind | TextKind | UnknownKind

  /** The page features `analyze_layout` hands to the detectors. */
  datatype Layout = Layout(
    horizontal: seq<GridLine>,
    vertical: seq<GridLine>,
    diagonals: seq<Diagonal>,
    curves: seq<Curve>,
    words: seq<Word>,
    pageWidth: real,
    pageHeight: real)

  function Positions(lines: seq<GridLine>): (ps: seq<real>)
    ensures |ps| == |lines|
    ensures forall i :: 0 <= i < |lines| ==> ps[i] == lines[i].position
  {
    Map(lines, (l: GridLine) => l.position)
  }

  /** Row separators of a grid: the sorted y-positions of its horizontal lines. */
  function RowBoundaries(g: GridStructure): (r: seq<real>)
    ensures multiset(r) == multiset(Positions(g.horizontal))
    ensures SortedReals(r)
  {
    SortReals(Positions(g.horizontal))
  }

  /** Column separators of a grid: the sorted x-positions of its vertical lines. */
  function ColumnBoundaries(g: GridStructure): (r: seq<real>)
    ensures multiset(r) == multiset(Positions(g.vertical))
    ensures SortedReals(r)
  {
    SortReals(Positions(g.vertical))
  }

  // ---------------------------------------------------------------------
  // Clustering of line positions.

  /**
   `_cluster_positions`: cuts the sequence wherever a value lies more than
   `gap` after its predecessor.
   */
  function ClusterPositions(ps: seq<real>, gap: real): (gs: seq<seq<real>>)
    ensures |ps| == 0 <==> |gs| == 0
    ensures forall k :: 0 <= k < |gs| ==> |gs[k]| > 0
  {
    if |ps| == 0 then []
    else
      var gs0 := ClusterPositions(ps[..|ps| - 1], gap);
      var p := ps[|ps| - 1];
      if |gs0| == 0 then [[p]]
      else if p - Last(Last(gs0)) > gap then gs0 + [[p]]
      else gs0[..|gs0| - 1] + [Last(gs0) + [p]]
  }

  /** The groups, read in order, are the input: clustering only cuts. */
  lemma {:induction false} ClusterFlatten(ps: seq<real>, gap: real)
    ensures Flatten(ClusterPositions(ps, gap)) == ps
  {
    if |ps| > 0 {
      var ps0 := ps[..|ps| - 1];
      var gs0 := ClusterPositions(ps0, gap);
      ClusterFlatten(ps0, gap);
      var p := ps[|ps| - 1];
      assert ps == ps0 + [p];
      if |gs0| == 0 {
        assert ClusterPositions(ps, gap) == [[p]];
        FlattenAppend([], [p]);
      } else if p - Last(Last(gs0)) > gap {
        assert ClusterPositions(ps, gap) == gs0 + [[p]];
        FlattenAppend(gs0, [p]);
      } else {
        assert ClusterPositions(ps, gap) == gs0[..|gs0| - 1] + [Last(gs0) + [p]];
        FlattenExtendLast(gs0, p);
      }
    }
  }

  /** Starting a new group more than `gap` after the last value keeps both gap properties. */
  lemma {:induction false} GapsNewGroup(gs0: seq<seq<real>>, p: real, gap: real)
    requires |gs0| > 0 && forall k :: 0 <= k < |gs0| ==> |gs0[k]| > 0
    requires WithinGap(gs0, gap) && BreaksBeyondGap(gs0, gap)
    requires p - Last(Last(gs0)) > gap
    ensures WithinGap(gs0 + [[p]], gap) && BreaksBeyondGap(gs0 + [[p]], gap)
  {
    var gs := gs0 + [[p]];
    forall k, i | 0 <= k < |gs| && 0 < i < |gs[k]| ensures gs[k][i] - gs[k][i - 1] <= gap {
      assert k < |gs0| && gs[k] == gs0[k];
    }
    forall k | 0 < k < |gs| ensures gs[k][0] - Last(gs[k - 1]) > gap {
      assert gs[k - 1] == gs0[k - 1];
      if k < |gs0| { assert gs[k] == gs0[k]; }
    }
  }

  /** Appending a value at most `gap` after the last one keeps both gap properties. */
  lemma {:induction false} GapsExtendLast(gs0: seq<seq<real>>, p: real, gap: real)
    requires |gs0| > 0 && forall k :: 0 <= k < |gs0| ==> |gs0[k]| > 0
    requires WithinGap(gs0, gap) && BreaksBeyondGap(gs0, gap)
    requires p - Last(Last(gs0)) <= gap
    ensures var gs := gs0[..|gs0| - 1] + [Last(gs0) + [p]];
      WithinGap(gs, gap) && BreaksBeyondGap(gs, gap)
  {
    var n := |gs0|;
    var g := Last(gs0);
    var gs := gs0[..n - 1] + [g + [p]];
    assert |gs| == n;
    forall k, i | 0 <= k < n && 0 < i < |gs[k]| ensures gs[k][i] - gs[k][i - 1] <= gap {
      if k < n - 1 {
        assert gs[k] == gs0[k];
      } else if i < |g| {
        assert gs[k][i] == gs0[k][i] && gs[k][i - 1] == gs0[k][i - 1];
      } else {
        assert gs[k][i] == p && gs[k][i - 1] == Last(g);
      }
    }
    forall k | 0 < k < n ensures gs[k][0] - Last(gs[k - 1]) > gap {
      assert gs[k - 1] == gs0[k - 1];
      assert gs[k][0] == gs0[k][0];
    }
  }

  /**
   Inside a group neighbours are at most `gap` apart; each group after the
   first starts more than `gap` after the previous group's last value.
   */
  lemma {:induction false} ClusterGaps(ps: seq<real>, gap: real)
    ensures WithinGap(ClusterPositions(ps, gap), gap)
    ensures BreaksBeyondGap(ClusterPositions(ps, gap), gap)
  {
    if |ps| > 0 {
      var ps0 := ps[..|ps| - 1];
      var gs0 := ClusterPositions(ps0, gap);
      ClusterGaps(ps0, gap);
      var p := ps[|ps| - 1];
      if |gs0| == 0 {
        assert ClusterPositions(ps, gap) == [[p]];
      } else if p - Last(Last(gs0)) > gap {
        assert ClusterPositions(ps, gap) == gs0 + [[p]];
        GapsNewGroup(gs0, p, gap);
      } else {
        assert ClusterPositions(ps, gap) == gs0[..|gs0| - 1] + [Last(gs0) + [p]];
        GapsExtendLast(gs0, p, gap);
      }
    }
  }

  predicate WithinGap(gs: seq<seq<real>>, gap: real)
  {
    forall k, i :: 0 <= k < |gs| && 0 < i < |gs[k]| ==> gs[k][i] - gs[k][i - 1] <= gap
  }

  predicate BreaksBeyondGap(gs: seq<seq<real>>, gap: real)
    requires forall k :: 0 <= k < |gs| ==> |gs[k]| > 0
  {
    forall k :: 0 < k < |gs| ==> gs[k][0] - Last(gs[k - 1]) > gap
  }

  /** Every value of a group lies more than `gap` below every value of a later group. */
  predicate GroupsApart(gs: seq<seq<real>>, gap: real)
  {
    forall k, k', i, j :: 0 <= k < k' < |gs| && 0 <= i < |gs[k]| && 0 <= j < |gs[k']| ==>
      gs[k][i] + gap < gs[k'][j]
  }

  predicate AllAtMost(gs: seq<seq<real>>, m: real)
  {
    forall k, i :: 0 <= k < |gs| && 0 <= i < |gs[k]| ==> gs[k][i] <= m
  }

  predicate SortedReals(s: seq<real>)
  {
    forall i, j :: 0 <= i < j < |s| ==> s[i] <= s[j]
  }

  /** On sorted input the last value of the last group is the largest input value. */
  lemma {:induction false} ClusterUpper(ps: seq<real>, gap: real)
    requires SortedReals(ps) && |ps| > 0
    ensures Last(Last(ClusterPositions(ps, gap))) == Last(ps)
    ensures AllAtMost(ClusterPositions(ps, gap), Last(ps))
  {
    var ps0 := ps[..|ps| - 1];
    var gs0 := ClusterPositions(ps0, gap);
    var p := ps[|ps| - 1];
    var gs := ClusterPositions(ps, gap);
    if |gs0| == 0 {
      assert gs == [[p]];
    } else {
      ClusterUpper(ps0, gap);
      assert AllAtMost(gs0, Last(ps0));
      assert Last(ps0) <= p;
      if p - Last(Last(gs0)) > gap {
        assert gs == gs0 + [[p]];
        forall k, i | 0 <= k < |gs| && 0 <= i < |gs[k]| ensures gs[k][i] <= p {
          if k < |gs0| { assert gs[k] == gs0[k]; }
        }
      } else {
        var g := Last(gs0);
        assert gs == gs0[..|gs0| - 1] + [g + [p]];
        forall k, i | 0 <= k < |gs| && 0 <= i < |gs[k]| ensures gs[k][i] <= p {
          if k < |gs| - 1 || i < |g| { assert gs[k][i] == gs0[k][i]; }
        }
      }
    }
  }

  /** Starting a new group far enough above every grouped value keeps the groups apart. */
  lemma {:induction false} ApartNewGroup(gs0: seq<seq<real>>, p: real, gap: real, m: real)
    requires GroupsApart(gs0, gap) && AllAtMost(gs0, m) && m + gap < p
    ensures GroupsApart(gs0 + [[p]], gap)
  {
    var gs := gs0 + [[p]];
    forall k, k', i, j | 0 <= k < k' < |gs| && 0 <= i < |gs[k]| && 0 <= j < |gs[k']|
      ensures gs[k][i] + gap < gs[k'][j]
    {
      assert gs[k] == gs0[k];
      if k' < |gs0| {
        assert gs[k'] == gs0[k'];
      } else {
        assert gs[k'][j] == p;
        assert gs0[k][i] <= m;
      }
    }
  }

  /** Appending to the last group a value not below its first value keeps the groups apart. */
  lemma {:induction false} ApartExtendLast(gs0: seq<seq<real>>, p: real, gap: real)
    requires |gs0| > 0 && |Last(gs0)| > 0
    requires GroupsApart(gs0, gap) && Last(gs0)[0] <= p
    ensures GroupsApart(gs0[..|gs0| - 1] + [Last(gs0) + [p]], gap)
  {
    var n := |gs0|;
    var g := Last(gs0);
    var gs := gs0[..n - 1] + [g + [p]];
    assert |gs| == n;
    forall k, k', i, j | 0 <= k < k' < n && 0 <= i < |gs[k]| && 0 <= j < |gs[k']|
      ensures gs[k][i] + gap < gs[k'][j]
    {
      assert gs[k] == gs0[k];
      if k' < n - 1 {
        assert gs[k'] == gs0[k'];
      } else if j < |g| {
        assert gs[k'][j] == gs0[n - 1][j];
      } else {
        assert gs[k'][j] == p;
        assert gs0[k][i] + gap < gs0[n - 1][0];
      }
    }
  }

  /** On sorted input every value of a group lies more than `gap` below every value of a later group. */
  lemma {:induction false} ClusterSeparated(ps: seq<real>, gap: real)
    requires SortedReals(ps)
    ensures GroupsApart(ClusterPositions(ps, gap), gap)
  {
    if |ps| > 0 {
      var ps0 := ps[..|ps| - 1];
      var gs0 := ClusterPositions(ps0, gap);
      var p := ps[|ps| - 1];
      assert SortedReals(ps0);
      ClusterSeparated(ps0, gap);
      if |gs0| == 0 {
        assert ClusterPositions(ps, gap) == [[p]];
      } else {
        ClusterUpper(ps0, gap);
        assert Last(ps0) <= p;
        if p - Last(Last(gs0)) > gap {
          assert ClusterPositions(ps, gap) == gs0 + [[p]];
          ApartNewGroup(gs0, p, gap, Last(ps0));
        } else {
          assert Last(gs0)[0] <= Last(ps0);
          assert ClusterPositions(ps, gap) == gs0[..|gs0| - 1] + [Last(gs0) + [p]];
          ApartExtendLast(gs0, p, gap);
        }
      }
    }
  }

  // ---------------------------------------------------------------------
  // Overlap suppression.

  /** Sort order of `_merge_overlapping`: descending confidence. */
  function ConfidenceDesc(a: TableRegion, b: TableRegion): bool { a.confidence >= b.confidence }

  lemma {:induction false} ConfidenceDescTotal()
    ensures TotalPreorder(ConfidenceDesc)
  {
  }

  /** Overlap threshold used when suppressing duplicate detections. */
  const SuppressThreshold: real := 0.3

  predicate Clashes(t: TableRegion, e: TableRegion)
  {
    Overlaps(t.bbox, e.bbox, SuppressThreshold)
  }

  /** `t` overlaps one of the regions kept so far. */
  predicate OverlapsAny(t: TableRegion, kept: seq<TableRegion>)
  {
    exists j :: 0 <= j < |kept| && Clashes(t, kept[j])
  }

  /** No kept region overlaps one kept before it. */
  predicate PairwiseApart(r: seq<TableRegion>)
  {
    forall i, j :: 0 <= i < j < |r| ==> !Clashes(r[j], r[i])
  }

  /** Greedy pass: keep a region unless it overlaps a region kept before it. */
  function KeepNonOverlapping(ts: seq<TableRegion>): (r: seq<TableRegion>)
    ensures |r| <= |ts|
    ensures PairwiseApart(r)
  {
    if |ts| == 0 then []
    else
      var r0 := KeepNonOverlapping(ts[..|ts| - 1]);
      var t := ts[|ts| - 1];
      if OverlapsAny(t, r0) then r0
      else
        var r := r0 + [t];
        assert forall i, j :: 0 <= i < j < |r| - 1 ==> r[i] == r0[i] && r[j] == r0[j];
        r
  }

  /** The kept regions are a subsequence of the input. */
  lemma {:induction false} KeepSubseq(ts: seq<TableRegion>)
    ensures IsSubseq(KeepNonOverlapping(ts), ts)
  {
    if |ts| > 0 {
      var p := ts[..|ts| - 1];
      KeepSubseq(p);
      var r0 := KeepNonOverlapping(p);
      var t := ts[|ts| - 1];
      assert ts == p + [t];
      if OverlapsAny(t, r0) {
        SubseqExtend(r0, p, t);
      } else {
        SubseqBoth(r0, p, t);
      }
    }
  }

  /** A region is dropped only because it overlaps a region that was kept. */
  lemma {:induction false} KeepMaximal(ts: seq<TableRegion>)
    ensures forall i :: 0 <= i < |ts| ==> ts[i] in KeepNonOverlapping(ts) || OverlapsAny(ts[i], KeepNonOverlapping(ts))
  {
    if |ts| > 0 {
      var p := ts[..|ts| - 1];
      KeepMaximal(p);
      var r0 := KeepNonOverlapping(p);
      var r := KeepNonOverlapping(ts);
      forall i | 0 <= i < |ts| ensures ts[i] in r || OverlapsAny(ts[i], r) {
        if i < |ts| - 1 {
          assert ts[i] == p[i];
          if ts[i] !in r0 {
            var j :| 0 <= j < |r0| && Clashes(ts[i], r0[j]);
            assert r[j] == r0[j];
          }
        }
      }
    }
  }

  /** Regions that pairwise do not overlap all survive the greedy pass, in order. */
  lemma {:induction false} KeepAllWhenApart(ts: seq<TableRegion>)
    requires PairwiseApart(ts)
    ensures KeepNonOverlapping(ts) == ts
  {
    if |ts| > 0 {
      var p := ts[..|ts| - 1];
      assert PairwiseApart(p) by {
        forall i, j | 0 <= i < j < |p| ensures !Clashes(p[j], p[i]) {
          assert p[i] == ts[i] && p[j] == ts[j];
        }
      }
      KeepAllWhenApart(p);
      var t := ts[|ts| - 1];
      assert !OverlapsAny(t, p);
      assert ts == p + [t];
    }
  }

  /**
   `_merge_overlapping`: zero or one region is returned as is; otherwise the
   regions are ordered by descending confidence (stably) and each is kept
   unless it overlaps, at 30%, a region kept before it.
   */
  function MergeOverlapping(ts: seq<TableRegion>): (r: seq<TableRegion>)
    ensures |ts| <= 1 ==> r == ts
    ensures |r| <= |ts|
    ensures PairwiseApart(r) || |ts| <= 1
  {
    if |ts| <= 1 then ts
    else KeepNonOverlapping(SortBy(ts, ConfidenceDesc))
  }

  /**
   What suppression keeps: a subsequence of the confidence-ordered input, in
   descending confidence, pairwise non-overlapping, and every region of the
   input either kept or overlapping a kept one.
   */
  lemma {:induction false} MergeOverlappingSpec(ts: seq<TableRegion>)
    requires |ts| > 1
    ensures var r := MergeOverlapping(ts);
      && IsSubseq(r, SortBy(ts, ConfidenceDesc))
      && SortedBy(r, ConfidenceDesc)
      && PairwiseApart(r)
      && (forall t :: t in ts ==> t in r || OverlapsAny(t, r))
  {
    var sorted := SortBy(ts, ConfidenceDesc);
    var r := KeepNonOverlapping(sorted);
    assert MergeOverlapping(ts) == r;
    ConfidenceDescTotal();
    SortBySorted(ts, ConfidenceDesc);
    KeepSubseq(sorted);
    SubseqSorted(r, sorted);
    MergeKeepsOrCovers(ts);
  }

  lemma {:induction false} MergeKeepsOrCovers(ts: seq<TableRegion>)
    requires |ts| > 1
    ensures forall t :: t in ts ==> t in MergeOverlapping(ts) || OverlapsAny(t, MergeOverlapping(ts))
  {
    var sorted := SortBy(ts, ConfidenceDesc);
    var r := KeepNonOverlapping(sorted);
    assert MergeOverlapping(ts) == r;
    SortByMembers(ts, ConfidenceDesc);
    KeepMaximal(sorted);
    forall t | t in ts ensures t in r || OverlapsAny(t, r) {
      assert t in sorted;
      var k :| 0 <= k < |sorted| && sorted[k] == t;
    }
  }

  /** A subsequence of a confidence-ordered sequence is confidence-ordered. */
  lemma {:induction false} SubseqSorted(a: seq<TableRegion>, b: seq<TableRegion>)
    requires IsSubseq(a, b)
    requires SortedBy(b, ConfidenceDesc)
    ensures SortedBy(a, ConfidenceDesc)
  {
    if |a| > 0 {
      var b0 := b[..|b| - 1];
      assert SortedBy(b0, ConfidenceDesc);
      if a[|a| - 1] == b[|b| - 1] && IsSubseq(a[..|a| - 1], b0) {
        SubseqSorted(a[..|a| - 1], b0);
        SubseqMembers(a[..|a| - 1], b0);
        forall i, j | 0 <= i < j < |a| ensures ConfidenceDesc(a[i], a[j]) {
          if j == |a| - 1 {
            assert a[i] in a[..|a| - 1];
            var k :| 0 <= k < |b0| && b0[k] == a[i];
            assert b[k] == a[i];
          } else {
            assert a[i] == a[..|a| - 1][i] && a[j] == a[..|a| - 1][j];
          }
        }
      } else {
        SubseqSorted(a, b0);
      }
    }
  }

  // ---------------------------------------------------------------------
  // Bordered tables.

  /** Vertical lines that reach into the band `[yMin, yMax]`. */
  function SpanningLines(vLines: seq<GridLine>, yMin: real, yMax: real): (r: seq<GridLine>)
    ensures forall l :: l in r <==> l in vLines && l.start <= yMax && l.end >= yMin
  {
    Filter(vLines, (l: GridLine) => l.start <= yMax && l.end >= yMin)
  }

  /** Horizontal lines whose position lies in `[yMin, yMax]`. */
  function LinesInBand(hLines: seq<GridLine>, yMin: real, yMax: real): (r: seq<GridLine>)
    ensures forall l :: l in r <==> l in hLines && yMin <= l.position <= yMax
  {
    Filter(hLines, (l: GridLine) => yMin <= l.position <= yMax)
  }

  /** The bordered region for one group of row positions, if enough vertical lines span it. */
  function BorderedRegion(g: seq<real>, hLines: seq<GridLine>, vLines: seq<GridLine>): (r: Option<TableRegion>)
    requires |g| > 0
    ensures r.Some? <==> |g| >= 2 && |SpanningLines(vLines, MinOf(g), MaxOf(g))| >= 2
    ensures r.Some? ==> r.value.bbox.y0 == MinOf(g) && r.value.bbox.y1 == MaxOf(g)
    ensures r.Some? ==> r.value.isBordered && r.value.confidence == 0.9
  {
    if |g| < 2 then None
    else
      var yMin := MinOf(g);
      var yMax := MaxOf(g);
      var relevant := SpanningLines(vLines, yMin, yMax);
      if |relevant| < 2 then None
      else
        var xs := SortReals(Positions(relevant));
        var box := BBox(MinOf(xs), yMin, MaxOf(xs), yMax);
        var grid := GridStructure(LinesInBand(hLines, yMin, yMax), relevant, Some(box));
        Some(TableRegion(box, Some(grid), true, 0.9))
  }

  /** A bordered region's columns run from its leftmost to its rightmost spanning vertical line. */
  lemma {:induction false} BorderedRegionColumns(g: seq<real>, hLines: seq<GridLine>, vLines: seq<GridLine>)
    requires |g| > 0
    ensures BorderedRegion(g, hLines, vLines).Some? ==>
      var t := BorderedRegion(g, hLines, vLines).value;
      && t.grid.Some?
      && t.grid.value.vertical == SpanningLines(vLines, MinOf(g), MaxOf(g))
      && |t.grid.value.vertical| >= 2
      && forall i :: 0 <= i < |t.grid.value.vertical| ==>
           t.bbox.x0 <= t.grid.value.vertical[i].position <= t.bbox.x1
  {
    var relevant := SpanningLines(vLines, MinOf(g), MaxOf(g));
    var ps := Positions(relevant);
    var xs := SortReals(ps);
    forall i | 0 <= i < |relevant| ensures MinOf(xs) <= relevant[i].position <= MaxOf(xs) {
      assert ps[i] == relevant[i].position;
      assert ps[i] in multiset(ps);
      assert ps[i] in multiset(xs);
      var m :| 0 <= m < |xs| && xs[m] == ps[i];
    }
  }

  function BorderedFromGroups(gs: seq<seq<real>>, hLines: seq<GridLine>, vLines: seq<GridLine>): (r: seq<TableRegion>)
    requires forall k :: 0 <= k < |gs| ==> |gs[k]| > 0
    ensures |r| <= |gs|
    ensures forall i :: 0 <= i < |r| ==> r[i].isBordered && r[i].confidence == 0.9
  {
    if |gs| == 0 then []
    else
      var p := gs[..|gs| - 1];
      assert forall k :: 0 <= k < |p| ==> p[k] == gs[k];
      var r0 := BorderedFromGroups(p, hLines, vLines);
      var reg := BorderedRegion(gs[|gs| - 1], hLines, vLines);
      if reg.Some? then r0 + [reg.value] else r0
  }

  /** Every value of every group lies strictly below `m`. */
  predicate AllBelow(gs: seq<seq<real>>, m: real)
  {
    forall k, i :: 0 <= k < |gs| && 0 <= i < |gs[k]| ==> gs[k][i] < m
  }

  /** Regions built from groups that lie below `m` end below `m`. */
  lemma {:induction false} BorderedBelow(gs: seq<seq<real>>, hLines: seq<GridLine>, vLines: seq<GridLine>, m: real)
    requires forall k :: 0 <= k < |gs| ==> |gs[k]| > 0
    requires AllBelow(gs, m)
    ensures forall i :: 0 <= i < |BorderedFromGroups(gs, hLines, vLines)| ==>
      BorderedFromGroups(gs, hLines, vLines)[i].bbox.y1 < m
  {
    if |gs| > 0 {
      var p := gs[..|gs| - 1];
      assert forall k :: 0 <= k < |p| ==> p[k] == gs[k];
      BorderedBelow(p, hLines, vLines, m);
      var g := gs[|gs| - 1];
      var reg := BorderedRegion(g, hLines, vLines);
      if reg.Some? {
        var a :| 0 <= a < |g| && g[a] == MaxOf(g);
        assert g[a] < m;
      }
    }
  }

  /** Each region ends more than `gap` above the start of every later region. */
  predicate StackedApart(r: seq<TableRegion>, gap: real)
  {
    forall i, j :: 0 <= i < j < |r| ==> r[i].bbox.y1 + gap < r[j].bbox.y0
  }

  /** Bordered regions come from groups in group order, so each lies more than `gap` above the next. */
  lemma {:induction false} BorderedOrdered(gs: seq<seq<real>>, hLines: seq<GridLine>, vLines: seq<GridLine>, gap: real)
    requires forall k :: 0 <= k < |gs| ==> |gs[k]| > 0
    requires GroupsApart(gs, gap)
    ensures StackedApart(BorderedFromGroups(gs, hLines, vLines), gap)
  {
    if |gs| > 0 {
      var p := gs[..|gs| - 1];
      assert forall k :: 0 <= k < |p| ==> p[k] == gs[k];
      BorderedOrdered(p, hLines, vLines, gap);
      var r0 := BorderedFromGroups(p, hLines, vLines);
      var g := gs[|gs| - 1];
      var reg := BorderedRegion(g, hLines, vLines);
      if reg.None? {
        assert BorderedFromGroups(gs, hLines, vLines) == r0;
      } else {
        var r := r0 + [reg.value];
        assert BorderedFromGroups(gs, hLines, vLines) == r;
        var b :| 0 <= b < |g| && g[b] == MinOf(g);
        assert AllBelow(p, MinOf(g) - gap) by {
          forall k, i | 0 <= k < |p| && 0 <= i < |p[k]| ensures p[k][i] < MinOf(g) - gap {
            assert gs[k][i] + gap < gs[|gs| - 1][b];
          }
        }
        BorderedBelow(p, hLines, vLines, MinOf(g) - gap);
        forall i, j | 0 <= i < j < |r| ensures r[i].bbox.y1 + gap < r[j].bbox.y0 {
          if j < |r| - 1 {
            assert r[i] == r0[i] && r[j] == r0[j];
          }
        }
      }
    }
  }

  /** Vertical gap that starts a new bordered table. */
  const TableGap: real := 50.0

  /**
   `_detect_bordered_tables`: the sorted row positions are clustered with gap
   50; every group of at least two rows spanned by at least two vertical lines
   becomes a bordered region of confidence 0.9.
   */
  function DetectBordered(hLines: seq<GridLine>, vLines: seq<GridLine>): (r: seq<TableRegion>)
    ensures |hLines| < 2 || |vLines| < 2 ==> r == []
    ensures forall i :: 0 <= i < |r| ==> r[i].isBordered && r[i].confidence == 0.9
  {
    if |hLines| < 2 || |vLines| < 2 then []
    else BorderedFromGroups(ClusterPositions(SortReals(Positions(hLines)), TableGap), hLines, vLines)
  }

  /** Bordered regions lie one below the other, each more than 50 points above the next. */
  lemma {:induction false} DetectBorderedOrdered(hLines: seq<GridLine>, vLines: seq<GridLine>)
    ensures StackedApart(DetectBordered(hLines, vLines), TableGap)
  {
    if |hLines| >= 2 && |vLines| >= 2 {
      var hs := SortReals(Positions(hLines));
      var gs := ClusterPositions(hs, TableGap);
      assert SortedReals(hs);
      ClusterSeparated(hs, TableGap);
      BorderedOrdered(gs, hLines, vLines, TableGap);
      assert DetectBordered(hLines, vLines) == BorderedFromGroups(gs, hLines, vLines);
    }
  }

  /** Bordered regions are vertically apart, so none of them suppresses another. */
  lemma {:induction false} BorderedNeverOverlap(hLines: seq<GridLine>, vLines: seq<GridLine>)
    ensures PairwiseApart(DetectBordered(hLines, vLines))
  {
    var r := DetectBordered(hLines, vLines);
    DetectBorderedOrdered(hLines, vLines);
    forall i, j | 0 <= i < j < |r| ensures !Clashes(r[j], r[i]) {
      DisjointNeverOverlaps(r[j].bbox, r[i].bbox, SuppressThreshold);
    }
  }

  // ---------------------------------------------------------------------
  // Borderless tables.

  /** `find_whitespace_rivers` as a value (see `Rivers.FindWhitespaceRivers`). */
  function RiversOf(words: seq<Word>, pageWidth: real): (r: seq<real>)
    requires pageWidth >= 0.0
    ensures |words| == 0 ==> r == []
    ensures |words| > 0 ==> |r| >= 2 && r[0] == 0.0 && Last(r) == Trunc(pageWidth) as real
  {
    if |words| == 0 then [] else RiversSpec(EngineHistogram(words, Trunc(pageWidth)), 3)
  }

  /** Words below the top 15% of the page. */
  function DataZoneWords(words: seq<Word>, pageHeight: real): (r: seq<Word>)
    ensures forall w :: w in r <==> w in words && w.top > pageHeight * 0.15
  {
    Filter(words, (w: Word) => w.top > pageHeight * 0.15)
  }

  /**
   `_detect_borderless_tables`: with at least 10 words, the rivers of the data
   words (those below the top 15%, or all words when fewer than 10 are) must
   give at least two columns; the single region then spans the rivers
   horizontally and the data words vertically, with confidence 0.7.
   */
  function DetectBorderless(words: seq<Word>, pageWidth: real, pageHeight: real): (r: seq<TableRegion>)
    requires pageWidth >= 0.0
    ensures |words| < 10 ==> r == []
    ensures |r| <= 1
    ensures |r| == 1 ==>
      && !r[0].isBordered && r[0].confidence == 0.7
      && r[0].bbox.x0 == 0.0 && r[0].bbox.x1 == Trunc(pageWidth) as real
  {
    if |words| < 10 then []
    else
      var dw0 := DataZoneWords(words, pageHeight);
      var dw := if |dw0| < 10 then words else dw0;
      var rivers := RiversOf(dw, pageWidth);
      if |rivers| < 3 then []
      else
        var yMin := MinOf(Tops(dw));
        var yMax := MaxOf(Bottoms(dw));
        var box := BBox(rivers[0], yMin, Last(rivers), yMax);
        var lines := Map(rivers, (x: real) => GridLine(x, yMin, yMax, false));
        [TableRegion(box, Some(GridStructure([], lines, Some(box))), false, 0.7)]
  }

  /** The borderless region encloses every word it was derived from. */
  lemma {:induction false} BorderlessEnclosesWords(words: seq<Word>, pageWidth: real, pageHeight: real)
    requires pageWidth >= 0.0
    ensures |DetectBorderless(words, pageWidth, pageHeight)| == 1 ==>
      var b := DetectBorderless(words, pageWidth, pageHeight)[0].bbox;
      var dw0 := DataZoneWords(words, pageHeight);
      var dw := if |dw0| < 10 then words else dw0;
      forall i :: 0 <= i < |dw| ==> b.y0 <= dw[i].top && dw[i].bottom <= b.y1
  {
    var dw0 := DataZoneWords(words, pageHeight);
    var dw := if |dw0| < 10 then words else dw0;
    assert forall i :: 0 <= i < |dw| ==> Tops(dw)[i] == dw[i].top && Bottoms(dw)[i] == dw[i].bottom;
  }

  /**
   `detect_tables`: bordered detection first, borderless only when it finds
   nothing, then overlap suppression.
   */
  function DetectTables(layout: Layout): (r: seq<TableRegion>)
    requires layout.pageWidth >= 0.0
  {
    var bordered := DetectBordered(layout.horizontal, layout.vertical);
    MergeOverlapping(if |bordered| > 0 then bordered
      else DetectBorderless(layout.words, layout.pageWidth, layout.pageHeight))
  }

  /**
   Bordered regions, when there are any, come out of `detect_tables` all of
   them and in their top-to-bottom order; otherwise the at most one borderless
   region does.
   */
  lemma {:induction false} DetectTablesResult(layout: Layout)
    requires layout.pageWidth >= 0.0
    ensures var b := DetectBordered(layout.horizontal, layout.vertical);
      && (|b| > 0 ==> DetectTables(layout) == b)
      && (|b| == 0 ==> DetectTables(layout) == DetectBorderless(layout.words, layout.pageWidth, layout.pageHeight))
  {
    var b := DetectBordered(layout.horizontal, layout.vertical);
    if |b| > 1 {
      assert DetectTables(layout) == MergeOverlapping(b);
      BorderedKeptWhole(layout.horizontal, layout.vertical);
    } else if |b| == 0 {
      var bl := DetectBorderless(layout.words, layout.pageWidth, layout.pageHeight);
      assert DetectTables(layout) == MergeOverlapping(bl);
    }
  }

  /** Suppression keeps several bordered regions exactly as detected. */
  lemma {:induction false} BorderedKeptWhole(hLines: seq<GridLine>, vLines: seq<GridLine>)
    requires |DetectBordered(hLines, vLines)| > 1
    ensures MergeOverlapping(DetectBordered(hLines, vLines)) == DetectBordered(hLines, vLines)
  {
    var b := DetectBordered(hLines, vLines);
    BorderedNeverOverlap(hLines, vLines);
    assert SortedBy(b, ConfidenceDesc) by {
      forall i, j | 0 <= i < j < |b| ensures ConfidenceDesc(b[i], b[j]) {
        assert b[i].confidence == 0.9 && b[j].confidence == 0.9;
      }
    }
    SortByIdentity(b, ConfidenceDesc);
    KeepAllWhenApart(b);
    assert MergeOverlapping(b) == KeepNonOverlapping(SortBy(b, ConfidenceDesc));
  }

  // ---------------------------------------------------------------------
  // Region classifiers.

  function CurvesIn(region: BBox, curves: seq<Curve>): nat
  {
    CountIf(curves, (c: Curve) => region.ContainsPoint(c.x0, c.y0))
  }

  function LinesAcross(lines: seq<GridLine>, lo: real, hi: real): nat
  {
    CountIf(lines, (l: GridLine) => lo <= l.position <= hi)
  }

  /** `classify_region`: more than 5 curves inside → CHART; two row and two column lines → TABLE; else TEXT. */
  function ClassifyRegion(region: BBox, layout: Layout): (r: RegionType)
    ensures r != UnknownKind
    ensures r == ChartKind <==> CurvesIn(region, layout.curves) > 5
    ensures r == TableKind <==>
      && CurvesIn(region, layout.curves) <= 5
      && LinesAcross(layout.horizontal, region.y0, region.y1) >= 2
      && LinesAcross(layout.vertical, region.x0, region.x1) >= 2
    ensures r == TextKind <==>
      && CurvesIn(region, layout.curves) <= 5
      && (LinesAcross(layout.horizontal, region.y0, region.y1) < 2 || LinesAcross(layout.vertical, region.x0, region.x1) < 2)
  {
    if CurvesIn(region, layout.curves) > 5 then ChartKind
    else if LinesAcross(layout.horizontal, region.y0, region.y1) >= 2
         && LinesAcross(layout.vertical, region.x0, region.x1) >= 2 then TableKind
    else TextKind
  }

  /** Growing the region can only add curves and lines: a chart stays a chart, and a table becomes a table or a chart. */
  lemma {:induction false} ClassifyRegionGrow(small: BBox, big: BBox, layout: Layout)
    requires Encloses(big, small)
    ensures ClassifyRegion(small, layout) == ChartKind ==> ClassifyRegion(big, layout) == ChartKind
    ensures ClassifyRegion(small, layout) == TableKind ==> ClassifyRegion(big, layout) != TextKind
  {
    CountIfMono(layout.curves, (c: Curve) => small.ContainsPoint(c.x0, c.y0), (c: Curve) => big.ContainsPoint(c.x0, c.y0));
    CountIfMono(layout.horizontal, (l: GridLine) => small.y0 <= l.position <= small.y1, (l: GridLine) => big.y0 <= l.position <= big.y1);
    CountIfMono(layout.vertical, (l: GridLine) => small.x0 <= l.position <= small.x1, (l: GridLine) => big.x0 <= l.position <= big.x1);
  }

  /** A curve is significant when it is wider or taller than 10 points. */
  predicate Significant(c: Curve) { Abs(c.x1 - c.x0) > 10.0 || Abs(c.y1 - c.y0) > 10.0 }

  /** `detect_chart_indicators`: many significant curves or more than 10 diagonal lines. */
  function DetectChartIndicators(layout: Layout, curveThreshold: int): (r: bool)
    ensures |layout.diagonals| > 10 ==> r
    ensures CountIf(layout.curves, Significant) > curveThreshold ==> r
    ensures CountIf(layout.curves, Significant) <= curveThreshold && |layout.diagonals| <= 10 ==> !r
  {
    CountIf(layout.curves, Significant) > curveThreshold || |layout.diagonals| > 10
  }

  /** Tiny curves (bullets) never make a page look like a chart. */
  lemma {:induction false} TinyCurvesIgnored(layout: Layout, curveThreshold: int)
    requires curveThreshold >= 0 && |layout.diagonals| <= 10
    requires forall i :: 0 <= i < |layout.curves| ==> !Significant(layout.curves[i])
    ensures !DetectChartIndicators(layout, curveThreshold)
  {
    CountIfZero(layout.curves, Significant);
  }

  function DiagonalsIn(region: BBox, ds: seq<Diagonal>): nat
  {
    CountIf(ds, (d: Diagonal) => region.y0 <= d.top <= region.y1)
  }

  /** `ChartGuard.is_chart`: more curves inside than the threshold, or more than 5 diagonals in the band. */
  function ChartGuard(region: BBox, layout: Layout, curveThreshold: int): (r: bool)
    ensures DiagonalsIn(region, layout.diagonals) > 5 ==> r
    ensures CurvesIn(region, layout.curves) > curveThreshold ==> r
    ensures r ==> CurvesIn(region, layout.curves) > curveThreshold || DiagonalsIn(region, layout.diagonals) > 5
  {
    CurvesIn(region, layout.curves) > curveThreshold || DiagonalsIn(region, layout.diagonals) > 5
  }

  /** A chart region stays a chart when the region grows. */
  lemma {:induction false} IsChartGrow(small: BBox, big: BBox, layout: Layout, curveThreshold: int)
    requires Encloses(big, small)
    ensures ChartGuard(small, layout, curveThreshold) ==> ChartGuard(big, layout, curveThreshold)
  {
    CountIfMono(layout.curves, (c: Curve) => small.ContainsPoint(c.x0, c.y0), (c: Curve) => big.ContainsPoint(c.x0, c.y0));
    CountIfMono(layout.diagonals, (d: Diagonal) => small.y0 <= d.top <= small.y1, (d: Diagonal) => big.y0 <= d.top <= big.y1);
  }

  /** Words whose top-left corner lies in the region. */
  function WordsIn(region: BBox, words: seq<Word>): (r: seq<Word>)
    ensures forall w :: w in r <==> w in words && region.ContainsPoint(w.x0, w.top)
  {
    Filter(words, (w: Word) => region.ContainsPoint(w.x0, w.top))
  }

  /** `ContentHealer.needs_ocr`: fewer words than 30% of one word per 5000 square points. */
  function RegionNeedsOcr(region: TableRegion, words: seq<Word>): (r: bool)
    ensures r ==> region.bbox.Area() > 0.0
    ensures r <==> (|WordsIn(region.bbox, words)| as real) * 5000.0 < region.bbox.Area() * 0.3
  {
    |WordsIn(region.bbox, words)| as real < (region.bbox.Area() / 5000.0) * 0.3
  }
}

=== FILE: tables.dfy ===
/**
 The legacy table extractor: the gate that skips text-heavy pages, the order
 in which the two table libraries are tried, and the validator that rejects
 paragraphs and detection noise mistaken for tables. The libraries' own
 table finding is left out: the tables they report are inputs.
 */
module Tables {
  import opened Common
  import opened Seqs
  import Markdown

  /** A table as a library reports it: rows of cells, a cell possibly missing (`None`). */
  type RawTable = seq<seq<Option<string>>>

  // ------------------------------------------------------------ the validator

  /** `not cell or not str(cell).strip()` */
  predicate EmptyCell(c: Option<string>) { c.None? || Strip(c.value) == "" }

  /** A filled cell whose stripped text is longer than 60 characters: likely a paragraph. */
  predicate LongCell(c: Option<string>) { !EmptyCell(c) && |Strip(c.value)| > 60 }

  predicate NonEmptyRow(row: seq<Option<string>>) { |row| > 0 }

  /** The widest row. */
  function LongestRow(t: RawTable): (w: nat)
    ensures forall i :: 0 <= i < |t| ==> |t[i]| <= w
    ensures |t| > 0 ==> exists i :: 0 <= i < |t| && |t[i]| == w
    ensures |t| == 0 ==> w == 0
  {
    if |t| == 0 then 0
    else
      var m := LongestRow(t[..|t| - 1]);
      var w := |t[|t| - 1]|;
      assert forall i :: 0 <= i < |t| - 1 ==> t[..|t| - 1][i] == t[i];
      if w >= m then w else m
  }

  /** The narrowest non-empty row, or 0 when every row is empty. */
  function MinWidth(t: RawTable): (w: nat)
    ensures w == 0 <==> forall i :: 0 <= i < |t| ==> |t[i]| == 0
    ensures forall i :: 0 <= i < |t| && NonEmptyRow(t[i]) ==> w <= |t[i]|
    ensures w > 0 ==> exists i :: 0 <= i < |t| && |t[i]| == w
  {
    if |t| == 0 then 0
    else
      var m := MinWidth(t[..|t| - 1]);
      var w := |t[|t| - 1]|;
      assert forall i :: 0 <= i < |t| - 1 ==> t[..|t| - 1][i] == t[i];
      if w == 0 then m
      else if m == 0 || w < m then w
      else m
  }

  /** The cell counts the validator works with; empty rows contribute nothing. */
  function Slots(t: RawTable): nat { |Flatten(t)| }
  function Empties(t: RawTable): nat { CountIf(Flatten(t), EmptyCell) }
  function Longs(t: RawTable): nat { CountIf(Flatten(t), LongCell) }

  /** The filled cells: every slot that is not empty. */
  function Checked(t: RawTable): int { Slots(t) - Empties(t) }

  /** More than 30% of the filled cells are long. */
  predicate Wordy(t: RawTable)
  {
    Checked(t) > 0 && 10 * Longs(t) > 3 * Checked(t)
  }

  /** More than 85% of the slots are empty. */
  predicate Sparse(t: RawTable)
  {
    Slots(t) > 0 && 20 * Empties(t) > 17 * Slots(t)
  }

  /** The widest row has more than three times the cells of the narrowest non-empty row. */
  predicate Ragged(t: RawTable)
  {
    MinWidth(t) > 0 && LongestRow(t) > MinWidth(t) * 3
  }

  /** `_is_valid_table` */
  predicate IsValidTable(t: RawTable)
  {
    |t| >= 2 && |t[0]| >= 2 && !Wordy(t) && !Sparse(t) && !Ragged(t)
  }

  lemma {:induction false} LongIsFilled(t: RawTable)
    ensures Longs(t) <= Checked(t)
  {
    CountIfMono(Flatten(t), LongCell, FilledCell);
    CountComplement(Flatten(t), EmptyCell, FilledCell);
  }

  predicate FilledCell(c: Option<string>) { !EmptyCell(c) }

  /** Every element either meets a predicate or meets its complement. */
  lemma {:induction false} CountComplement<T>(s: seq<T>, p: T -> bool, q: T -> bool)
    requires forall i :: 0 <= i < |s| ==> q(s[i]) == !p(s[i])
    ensures CountIf(s, p) + CountIf(s, q) == |s|
  {
    if |s| > 0 {
      CountComplement(s[..|s| - 1], p, q);
    }
  }

  /** Row widths are within a factor of three of each other exactly when the table is not ragged. */
  lemma {:induction false} RaggedIff(t: RawTable)
    ensures Ragged(t) <==> exists i, j :: 0 <= i < |t| && 0 <= j < |t| && NonEmptyRow(t[j]) && |t[i]| > 3 * |t[j]|
  {
    if Ragged(t) {
      var i :| 0 <= i < |t| && |t[i]| == LongestRow(t);
      var j :| 0 <= j < |t| && |t[j]| == MinWidth(t);
      assert NonEmptyRow(t[j]) && |t[i]| > 3 * |t[j]|;
    }
    if exists i, j :: 0 <= i < |t| && 0 <= j < |t| && NonEmptyRow(t[j]) && |t[i]| > 3 * |t[j]| {
      var i, j :| 0 <= i < |t| && 0 <= j < |t| && NonEmptyRow(t[j]) && |t[i]| > 3 * |t[j]|;
      assert LongestRow(t) >= |t[i]| && MinWidth(t) <= |t[j]|;
    }
  }

  /** A table passes the validator exactly when it has two rows, a header of two cells, at most
      30% of its filled cells long, at least 15% of its slots filled, and no non-empty row more
      than three times as wide as another row. */
  lemma {:induction false} ValidTableMeans(t: RawTable)
    ensures IsValidTable(t) <==>
      && |t| >= 2 && |t[0]| >= 2
      && 10 * Longs(t) <= 3 * Checked(t)
      && 20 * (Slots(t) - Empties(t)) >= 3 * Slots(t)
      && forall i, j :: 0 <= i < |t| && 0 <= j < |t| && NonEmptyRow(t[j]) ==> |t[i]| <= 3 * |t[j]|
  {
    LongIsFilled(t);
    RaggedIff(t);
  }

  /** Empty rows after the first two do not change the verdict. */
  lemma {:induction false} EmptyRowIgnored(t: RawTable)
    requires |t| >= 2
    ensures IsValidTable(t + [[]]) == IsValidTable(t)
  {
    var u := t + [[]];
    assert u[..|u| - 1] == t;
    FlattenAppend(t, []);
    assert Flatten(t) + [] == Flatten(t);
  }

  // ------------------------------------------------------------ the digit-ratio gate

  /** The non-space characters the gate counts. */
  function NonSpaceCount(s: string): nat
  {
    |s| - CountChar(s, ' ')
  }

  function DigitCount(s: string): (n: nat)
    ensures n <= |s|
  {
    CountIf(s, IsDigit)
  }

  /** The page's words (`None` when no page could be read or the check raised) show a text-heavy
      page: some text, of which at most 20% of the non-space characters are digits. */
  predicate TextHeavy(words: Option<seq<string>>)
  {
    && words.Some? && words.value != []
    && var all := Join(words.value, "");
    && all != ""
    && NonSpaceCount(all) > 0
    && 5 * DigitCount(all) <= NonSpaceCount(all)
  }

  /** A page whose text is all digits is never skipped; one without digits always is. */
  lemma {:induction false} GateExamples(words: seq<string>)
    requires words != [] && Join(words, "") != ""
    ensures var all := Join(words, "");
      && (DigitCount(all) == |all| ==> !TextHeavy(Some(words)))
      && (DigitCount(all) == 0 && NonSpaceCount(all) > 0 ==> TextHeavy(Some(words)))
  {
    var all := Join(words, "");
    if DigitCount(all) == |all| {
      assert CountChar(all, ' ') == 0 by {
        DigitsNoSpace(all);
      }
    }
  }

  /** A text made only of digits has no space in it. */
  lemma {:induction false} DigitsNoSpace(s: string)
    requires DigitCount(s) == |s|
    ensures CountChar(s, ' ') == 0
  {
    forall i | 0 <= i < |s| ensures s[i] != ' ' {
      AllCounted(s, IsDigit, i);
    }
    NoCharCount(s, ' ');
  }

  /** When every element is counted, each element meets the predicate. */
  lemma {:induction false} AllCounted<T>(s: seq<T>, p: T -> bool, i: nat)
    requires CountIf(s, p) == |s| && i < |s|
    ensures p(s[i])
  {
    var q := s[..|s| - 1];
    assert CountIf(q, p) <= |q|;
    if i < |s| - 1 {
      AllCounted(q, p, i);
    }
  }

  // ------------------------------------------------------------ the strategies

  /** A table Camelot reports: its accuracy score and its Markdown (`None` when the frame is empty
      or could not be rendered). */
  datatype CamelotTable = CamelotTable(accuracy: real, md: Option<string>)

  /** The Markdown of the tables at or above the accuracy threshold, in order. */
  function Accurate(tables: seq<CamelotTable>, minAccuracy: real): (r: seq<string>)
    ensures |r| <= |tables|
    ensures forall s :: s in r <==> exists k :: 0 <= k < |tables| && tables[k].accuracy >= minAccuracy * 100.0 && tables[k].md == Some(s)
  {
    if |tables| == 0 then []
    else
      var rest := Accurate(tables[..|tables| - 1], minAccuracy);
      var t := tables[|tables| - 1];
      assert forall k :: 0 <= k < |tables| - 1 ==> tables[..|tables| - 1][k] == tables[k];
      rest + (if t.accuracy >= minAccuracy * 100.0 && t.md.Some? then [t.md.value] else [])
  }

  /** `_extract_camelot`: the lattice flavour when the page has vector graphics, then the stream
      flavour when the lattice gave nothing and the stream fallback is on. A flavour that raised
      gives `None`. */
  function Camelot(hasVectors: bool, lattice: Option<seq<CamelotTable>>, stream: Option<seq<CamelotTable>>,
                   minAccuracy: real, fallbackStream: bool): seq<string>
  {
    var first := if hasVectors && lattice.Some? then Accurate(lattice.value, minAccuracy) else [];
    if first == [] && fallbackStream && stream.Some? then first + Accurate(stream.value, minAccuracy) else first
  }

  /** The stream flavour is consulted only when the lattice flavour gave nothing. */
  lemma {:induction false} StreamOnlyAsFallback(hasVectors: bool, lattice: Option<seq<CamelotTable>>, stream: Option<seq<CamelotTable>>,
                                                other: Option<seq<CamelotTable>>, minAccuracy: real, fallbackStream: bool)
    requires hasVectors && lattice.Some? && Accurate(lattice.value, minAccuracy) != []
    ensures Camelot(hasVectors, lattice, stream, minAccuracy, fallbackStream)
      == Camelot(hasVectors, lattice, other, minAccuracy, fallbackStream)
      == Accurate(lattice.value, minAccuracy)
  {
  }

  /** The Markdown of a table the validator passed (which always has two rows). */
  function Rendered(t: RawTable): string
  {
    var md := Markdown.TableToMarkdown(t);
    if md.Some? then md.value else ""
  }

  /** `_process_pdfplumber_page`: the Markdown of every table that passes the validator, in order. */
  function Plumber(tables: seq<RawTable>): seq<string>
  {
    Map(Filter(tables, IsValidTable), Rendered)
  }

  /** Every table pdfplumber contributes is the rendering of a valid table the library reported,
      and every valid table contributes one, in the library's order. */
  lemma {:induction false} PlumberRendersValid(tables: seq<RawTable>)
    ensures forall s :: s in Plumber(tables) <==>
      exists k :: 0 <= k < |tables| && IsValidTable(tables[k]) && Rendered(tables[k]) == s
    ensures |Plumber(tables)| == CountIf(tables, IsValidTable)
    ensures IsSubseq(Filter(tables, IsValidTable), tables)
  {
    CountIfFilter(tables, IsValidTable);
    FilterIsSubseq(tables, IsValidTable);
    MapFilterMembers(tables, IsValidTable, Rendered);
  }

  /** A valid table always renders, so its rendering is the Markdown of the table. */
  lemma {:induction false} ValidRenders(t: RawTable)
    requires IsValidTable(t)
    ensures Markdown.TableToMarkdown(t) == Some(Rendered(t))
  {
  }

  /** `extract_tables`: nothing when tables are off or the page is text-heavy; otherwise Camelot's
      tables when it is installed and found some, else pdfplumber's. */
  function ExtractTables(enabled: bool, words: Option<seq<string>>, camelotInstalled: bool, camelot: seq<string>, plumber: seq<string>): (r: seq<string>)
    ensures !enabled || TextHeavy(words) ==> r == []
  {
    if !enabled || TextHeavy(words) then []
    else
      var all := if camelotInstalled then camelot else [];
      if all == [] then all + plumber else all
  }

  /** pdfplumber is consulted only when Camelot gave nothing; then its tables are the result. */
  lemma {:induction false} PlumberOnlyAsFallback(enabled: bool, words: Option<seq<string>>, camelotInstalled: bool,
                                                 camelot: seq<string>, plumber: seq<string>, other: seq<string>)
    requires enabled && !TextHeavy(words)
    ensures camelotInstalled && camelot != [] ==>
      ExtractTables(enabled, words, camelotInstalled, camelot, plumber)
        == ExtractTables(enabled, words, camelotInstalled, camelot, other) == camelot
    ensures !(camelotInstalled && camelot != []) ==>
      ExtractTables(enabled, words, camelotInstalled, camelot, plumber) == plumber
  {
    if !(camelotInstalled && camelot != []) {
      assert [] + plumber == plumber;
    }
  }
}

=== FILE: tag_manager.dfy ===
/**
 The persistent list of user tags (blacklist patterns). The YAML file is
 abstracted as a value: absent, unreadable, or holding a list of tags.
 Loading, adding, removing and listing are functions from the file's state
 to the result and the file's next state.
 */
module TagManager {
  import opened Seqs

  /** The tags file: missing, present but unreadable (or without a `tags` list), or storing a list. */
  datatype TagFile = NoFile | Unreadable | Stored(tags: seq<string>)

  /** What `add_tag` and `remove_tag` return, together with the file they leave behind. */
  datatype TagOutcome = TagOutcome(changed: bool, file: TagFile)

  /** `load_user_tags`: the stored list; nothing for a missing or unreadable file. */
  function LoadUserTags(f: TagFile): seq<string>
  {
    if f.Stored? then f.tags else []
  }

  /** `add_tag`: a pattern already listed is refused; a new one is appended and the list saved. */
  function AddTag(f: TagFile, pattern: string): (o: TagOutcome)
    ensures o.changed <==> pattern !in LoadUserTags(f)
    ensures !o.changed ==> o.file == f
    ensures o.changed ==> LoadUserTags(o.file) == LoadUserTags(f) + [pattern]
  {
    var tags := LoadUserTags(f);
    if pattern in tags then TagOutcome(false, f)
    else TagOutcome(true, Stored(tags + [pattern]))
  }

  /** `remove_tag`: an absent pattern is refused; otherwise its first occurrence is removed and the list saved. */
  function RemoveTag(f: TagFile, pattern: string): (o: TagOutcome)
    ensures o.changed <==> pattern in LoadUserTags(f)
    ensures !o.changed ==> o.file == f
  {
    var tags := LoadUserTags(f);
    if pattern !in tags then TagOutcome(false, f)
    else TagOutcome(true, Stored(RemoveFirst(tags, pattern)))
  }

  /** `list_tags`. */
  function ListTags(f: TagFile): (tags: seq<string>)
    ensures f.NoFile? ==> tags == []
  {
    LoadUserTags(f)
  }

  /** Removing a listed pattern drops exactly its first occurrence: the tags before it and after it keep
      their order, and the list loses one copy of the pattern and nothing else. */
  lemma {:induction false} RemoveTagFirstOnly(f: TagFile, pattern: string)
    requires pattern in LoadUserTags(f)
    ensures var tags := LoadUserTags(f);
      var i := FirstIndex(tags, pattern);
      var after := LoadUserTags(RemoveTag(f, pattern).file);
      && RemoveTag(f, pattern).changed
      && after == tags[..i] + tags[i + 1..]
      && pattern !in tags[..i]
      && multiset(after) == multiset(tags) - multiset{pattern}
  {
    var tags := LoadUserTags(f);
    var i := FirstIndex(tags, pattern);
    assert tags == tags[..i] + [pattern] + tags[i + 1..];
    MultisetMiddle(tags[..i], pattern, tags[i + 1..]);
  }

  /** Adding a new pattern and removing it again gives back the list it started from. */
  lemma {:induction false} AddThenRemove(f: TagFile, pattern: string)
    requires pattern !in LoadUserTags(f)
    ensures var added := AddTag(f, pattern).file;
      LoadUserTags(RemoveTag(added, pattern).file) == LoadUserTags(f)
  {
    var tags := LoadUserTags(f);
    var t := tags + [pattern];
    var i := FirstIndex(t, pattern);
    assert forall k :: 0 <= k < |tags| ==> t[k] == tags[k] != pattern;
    assert i == |tags|;
    assert t[..i] == tags;
  }

  /** Adding the same pattern twice changes the list once. */
  lemma {:induction false} AddTagIdempotent(f: TagFile, pattern: string)
    ensures var once := AddTag(f, pattern).file;
      && !AddTag(once, pattern).changed
      && AddTag(once, pattern).file == once
  {
  }

  /** Adding and removing keep a list without repeats free of repeats. */
  lemma {:induction false} TagsStayDistinct(f: TagFile, pattern: string)
    requires Distinct(LoadUserTags(f))
    ensures Distinct(LoadUserTags(AddTag(f, pattern).file))
    ensures Distinct(LoadUserTags(RemoveTag(f, pattern).file))
  {
    var tags := LoadUserTags(f);
    if pattern in tags {
      DistinctRemove(tags, FirstIndex(tags, pattern));
    } else {
      DistinctAppend(tags, pattern);
    }
  }

  lemma {:induction false} DistinctRemove(tags: seq<string>, i: nat)
    requires Distinct(tags) && i < |tags|
    ensures Distinct(tags[..i] + tags[i + 1..])
  {
    var r := tags[..i] + tags[i + 1..];
    forall a, b | 0 <= a < b < |r| ensures r[a] != r[b] {
      var a' := if a < i then a else a + 1;
      var b' := if b < i then b else b + 1;
      assert r[a] == tags[a'] && r[b] == tags[b'];
    }
  }

  lemma {:induction false} DistinctAppend(tags: seq<string>, pattern: string)
    requires Distinct(tags) && pattern !in tags
    ensures Distinct(tags + [pattern])
  {
    var t := tags + [pattern];
    forall a, b | 0 <= a < b < |t| ensures t[a] != t[b] {
      assert t[a] == if a < |tags| then tags[a] else pattern;
      assert t[b] == if b < |tags| then tags[b] else pattern;
    }
  }
}

=== FILE: visual.dfy ===
/**
 The legacy geometric helpers of the extraction layer (visual.py): a page
 classifier that counts curves and grid lines, and the spatial table
 extractor, which cuts a page's words into columns at the whitespace rivers
 of the lower page, clusters them into rows, drops footer and noise rows,
 maps header lines onto the same columns and finally prunes columns that are
 almost never filled.
 */
module Visual {
  import opened Common
  import opened Seqs
  import opened Geometry
  import Rivers
  import StructureParser
  import Glyphs

  // ---------------------------------------------------------------------
  // Page classification (`GeometricClassifier.classify_page`).

  datatype PageKind = ChartPage | TablePage | TextPage

  /** The bounding coordinates of a curve or a line as the PDF library reports them. */
  datatype Stroke = Stroke(x0: real, y0: real, x1: real, y1: real)

  /** A curve wider or taller than 10 points; smaller ones are bullets and noise. */
  predicate SignificantCurve(c: Stroke) { c.x1 - c.x0 > 10.0 || c.y1 - c.y0 > 10.0 }

  predicate NearHorizontal(l: Stroke) { Abs(l.y0 - l.y1) < 2.0 }

  predicate NearVertical(l: Stroke) { Abs(l.x0 - l.x1) < 2.0 }

  /**
   CHART when more than `thresholdCurve` curves are significant; otherwise
   TABLE when there are more than `thresholdGrid` lines with more than two
   near-horizontal and more than two near-vertical ones; otherwise TEXT.
   */
  function ClassifyPageKind(curves: seq<Stroke>, lines: seq<Stroke>, thresholdCurve: int, thresholdGrid: int): (r: PageKind)
    ensures r == ChartPage <==> CountIf(curves, SignificantCurve) > thresholdCurve
    ensures r == TablePage <==>
      && CountIf(curves, SignificantCurve) <= thresholdCurve
      && |lines| > thresholdGrid && CountIf(lines, NearHorizontal) > 2 && CountIf(lines, NearVertical) > 2
    ensures r == TextPage <==>
      && CountIf(curves, SignificantCurve) <= thresholdCurve
      && (|lines| <= thresholdGrid || CountIf(lines, NearHorizontal) <= 2 || CountIf(lines, NearVertical) <= 2)
  {
    if CountIf(curves, SignificantCurve) > thresholdCurve then ChartPage
    else if |lines| > thresholdGrid && CountIf(lines, NearHorizontal) > 2 && CountIf(lines, NearVertical) > 2 then TablePage
    else TextPage
  }

  /** Curves no larger than 10 points in both directions never change the verdict. */
  lemma {:induction false} ClassifyIgnoresSmallCurves(curves: seq<Stroke>, small: seq<Stroke>, lines: seq<Stroke>, thresholdCurve: int, thresholdGrid: int)
    requires forall k :: 0 <= k < |small| ==> !SignificantCurve(small[k])
    ensures ClassifyPageKind(curves + small, lines, thresholdCurve, thresholdGrid) == ClassifyPageKind(curves, lines, thresholdCurve, thresholdGrid)
  {
    CountIfAppend(curves, small, SignificantCurve);
    CountIfZero(small, SignificantCurve);
  }

  /** More lines never turn a TABLE page into anything else, and more curves never turn a CHART page into anything else. */
  lemma {:induction false} ClassifyMonotone(curves: seq<Stroke>, lines: seq<Stroke>, more: seq<Stroke>, thresholdCurve: int, thresholdGrid: int)
    ensures ClassifyPageKind(curves, lines, thresholdCurve, thresholdGrid) == TablePage ==>
      ClassifyPageKind(curves, lines + more, thresholdCurve, thresholdGrid) == TablePage
    ensures ClassifyPageKind(curves, lines, thresholdCurve, thresholdGrid) == ChartPage ==>
      ClassifyPageKind(curves + more, lines, thresholdCurve, thresholdGrid) == ChartPage
  {
    CountIfAppend(lines, more, NearHorizontal);
    CountIfAppend(lines, more, NearVertical);
    CountIfAppend(curves, more, SignificantCurve);
  }

  // ---------------------------------------------------------------------
  // Column dividers.

  /** Words in the top fifth of the page are header candidates; the others are data. */
  function DataZone(height: int): Word -> bool
  {
    (w: Word) => w.top > (height as real) * 0.2
  }

  function HeaderZone(height: int): Word -> bool
  {
    (w: Word) => w.top <= (height as real) * 0.2
  }

  /** Fewer data words than this and the whole page is used for the histogram. */
  const MinDataWords: nat := 10

  /** The words whose spans build the histogram. */
  function DataWords(words: seq<Word>, height: int): (r: seq<Word>)
    ensures |Filter(words, DataZone(height))| >= MinDataWords ==>
      forall w :: w in r <==> w in words && w.top > (height as real) * 0.2
    ensures |Filter(words, DataZone(height))| < MinDataWords ==> r == words
  {
    var d := Filter(words, DataZone(height));
    if |d| < MinDataWords then words else d
  }

  /**
   `0`, the midpoint of every closed run of columns covered by at most one
   eroded data word, and the page width (runs of any width count here).
   */
  function Dividers(words: seq<Word>, width: nat, height: int): (d: seq<real>)
    ensures |d| >= 2 && d[0] == 0.0 && Last(d) == width as real
  {
    Rivers.RiversSpec(Rivers.SliceHistogram(DataWords(words, height), width), 1)
  }

  /**
   On a page at least one point wide the dividers increase strictly; each
   inner one is the midpoint of a quiet run of the data words' histogram and
   every quiet run closed before the page edge gives one.
   */
  lemma {:induction false} DividersShape(words: seq<Word>, width: nat, height: int)
    requires width >= 1
    ensures var d := Dividers(words, width, height);
      var h := Rivers.SliceHistogram(DataWords(words, height), width);
      && StructureParser.Increasing(d)
      && (forall i :: 0 < i < |d| - 1 ==> Rivers.IsRiverMidpoint(h, d[i], 1))
      && (forall s, e :: Rivers.IsRiver(h, s, e, 1) ==> (s + e) as real / 2.0 in d)
  {
    Rivers.RiversShape(Rivers.SliceHistogram(DataWords(words, height), width), 1);
  }

  // ---------------------------------------------------------------------
  // Placing words between dividers.

  function CenterX(w: Word): real { (w.x0 + w.x1) / 2.0 }

  /** The first interval `[d[i], d[i + 1])` with `i >= from` that holds `c`. */
  function FirstDividerSlot(d: seq<real>, c: real, from: nat): (r: Option<nat>)
    decreases |d| - from
    ensures r.Some? ==> from <= r.value && r.value + 1 < |d| && d[r.value] <= c < d[r.value + 1]
    ensures r.Some? ==> forall j :: from <= j < r.value ==> !(d[j] <= c < d[j + 1])
    ensures r.None? ==> forall j :: from <= j && j + 1 < |d| ==> !(d[j] <= c < d[j + 1])
  {
    if from + 1 >= |d| then None
    else if d[from] <= c < d[from + 1] then Some(from)
    else FirstDividerSlot(d, c, from + 1)
  }

  /**
   The slot of a word centred at `c`: the first interval holding it; slot 0
   when it lies left of the first divider, the last slot when it lies right of
   the last one, and none otherwise.
   */
  function SlotOf(d: seq<real>, c: real): (r: Option<nat>)
    requires |d| >= 2
    ensures r.Some? ==> r.value < |d| - 1
  {
    var f := FirstDividerSlot(d, c, 0);
    if f.Some? then f
    else if c < d[0] then Some(0)
    else if c > Last(d) then Some(|d| - 2)
    else None
  }

  /** A point between `d[from]` and the last divider lies in one of the intervals from `from` on. */
  lemma {:induction false} SomeInterval(d: seq<real>, c: real, from: nat)
    requires from < |d| && d[from] <= c < Last(d)
    ensures exists j :: from <= j && j + 1 < |d| && d[j] <= c < d[j + 1]
    decreases |d| - from
  {
    if c < d[from + 1] {
      assert from + 1 < |d| && d[from] <= c < d[from + 1];
    } else {
      SomeInterval(d, c, from + 1);
    }
  }

  /**
   With strictly increasing dividers a word goes to the one interval holding
   its centre, to slot 0 or the last slot when it lies outside them, and is
   dropped exactly when its centre sits on the last divider.
   */
  lemma {:induction false} SlotOfIntervals(d: seq<real>, c: real)
    requires |d| >= 2 && StructureParser.Increasing(d)
    ensures SlotOf(d, c).None? <==> c == Last(d)
    ensures forall i :: 0 <= i < |d| - 1 && d[i] <= c < d[i + 1] ==> SlotOf(d, c) == Some(i)
    ensures c < d[0] ==> SlotOf(d, c) == Some(0)
    ensures c > Last(d) ==> SlotOf(d, c) == Some(|d| - 2)
  {
    var n := |d| - 1;
    if d[0] <= c < Last(d) {
      SomeInterval(d, c, 0);
    }
    if c == Last(d) {
      forall j | 0 <= j && j + 1 < |d| ensures !(d[j] <= c < d[j + 1]) {
        if j + 1 < n {
          assert d[j + 1] < d[n];
        }
      }
    }
    forall i | 0 <= i < n && d[i] <= c < d[i + 1] ensures SlotOf(d, c) == Some(i) {
      var f := FirstDividerSlot(d, c, 0);
      assert f.Some?;
      IntervalsDisjoint(d, f.value, i, c);
    }
  }

  /** With strictly increasing dividers no point lies in two intervals. */
  lemma {:induction false} IntervalsDisjoint(d: seq<real>, a: nat, b: nat, c: real)
    requires StructureParser.Increasing(d) && a + 1 < |d| && b + 1 < |d|
    requires d[a] <= c < d[a + 1] && d[b] <= c < d[b + 1]
    ensures a == b
  {
  }

  /** What slot `i` accumulates: the text of every word placed there followed by a space, in order. */
  function SlotText(ws: seq<Word>, d: seq<real>, i: nat): string
    requires |d| >= 2
  {
    if |ws| == 0 then ""
    else
      var w := ws[|ws| - 1];
      SlotText(ws[..|ws| - 1], d, i) + (if SlotOf(d, CenterX(w)) == Some(i) then w.text + " " else "")
  }

  /** A row's cells: one per interval between dividers, each stripped. */
  function RowCells(ws: seq<Word>, d: seq<real>): (cells: seq<string>)
    requires |d| >= 2
    ensures |cells| == |d| - 1
  {
    seq(|d| - 1, i requires 0 <= i < |d| - 1 => Strip(SlotText(ws, d, i)))
  }

  /** A slot holds text exactly when some word of the row is placed in it; a cell no word reaches is empty. */
  lemma {:induction false} SlotTextEmpty(ws: seq<Word>, d: seq<real>, i: nat)
    requires |d| >= 2
    ensures SlotText(ws, d, i) == "" <==> forall k :: 0 <= k < |ws| ==> SlotOf(d, CenterX(ws[k])) != Some(i)
    ensures i < |d| - 1 && SlotText(ws, d, i) == "" ==> RowCells(ws, d)[i] == ""
  {
    if |ws| > 0 {
      var init := ws[..|ws| - 1];
      var w := ws[|ws| - 1];
      var hit := SlotOf(d, CenterX(w)) == Some(i);
      SlotTextEmpty(init, d, i);
      assert SlotText(ws, d, i) == SlotText(init, d, i) + (if hit then w.text + " " else "");
      assert forall k :: 0 <= k < |init| ==> init[k] == ws[k];
      if hit {
        assert |SlotText(ws, d, i)| > 0;
      } else {
        assert SlotText(ws, d, i) == SlotText(init, d, i);
      }
    }
  }

  // ---------------------------------------------------------------------
  // Rows.

  function Bottom(w: Word): real { w.bottom }

  /** A word joins the row being built when its top lies more than 2 points above the row's lowest bottom. */
  predicate JoinsRow(run: seq<Word>, w: Word)
  {
    |run| > 0 && w.top < MaxOf(Map(run, Bottom)) - 2.0
  }

  /** The words, sorted by top, cut into rows. */
  function Rows(words: seq<Word>): (rows: seq<seq<Word>>)
    ensures forall k :: 0 <= k < |rows| ==> |rows[k]| > 0
  {
    GroupRuns(SortBy(words, StructureParser.TopLe), JoinsRow)
  }

  /** The rows hold every word exactly once, in top order; inside a row every word was accepted, at every cut it was refused. */
  lemma {:induction false} RowsPartition(words: seq<Word>)
    ensures Flatten(Rows(words)) == SortBy(words, StructureParser.TopLe)
    ensures RunsJoined(Rows(words), JoinsRow) && RunsBroken(Rows(words), JoinsRow)
  {
    GroupRunsFlatten(SortBy(words, StructureParser.TopLe), JoinsRow);
    GroupRunsCuts(SortBy(words, StructureParser.TopLe), JoinsRow);
  }

  predicate NonEmpty(s: string) { s != "" }

  function FilledCount(cells: seq<string>): nat
  {
    CountIf(cells, NonEmpty)
  }

  /** At least one filled cell, and not a lone cell in column 0 shorter than two characters. */
  predicate KeepsRow(cells: seq<string>)
  {
    FilledCount(cells) >= 1 && !(FilledCount(cells) == 1 && |cells[0]| < 2)
  }

  /** A kept row with one filled cell has it in column 0, at least two characters long. */
  lemma {:induction false} SingleCellRow(cells: seq<string>)
    requires KeepsRow(cells) && FilledCount(cells) == 1
    ensures |cells[0]| >= 2
    ensures forall j :: 0 < j < |cells| ==> cells[j] == ""
  {
    forall j | 0 < j < |cells| ensures cells[j] == "" {
      CountIfPair(cells, NonEmpty, 0, j);
    }
  }

  const FooterTriggers: seq<string> := [
    "hazırlamaktan sorumlu", "sorumlu kişiler", "yasal uyarı",
    "disclaimer", "bridgewater", "machine translated"]

  /** The row's cells, joined by spaces and lower-cased, contain a footer phrase. */
  predicate IsFooterTrigger(cells: seq<string>)
  {
    exists k :: 0 <= k < |FooterTriggers| && Contains(Lower(Join(cells, " ")), FooterTriggers[k])
  }

  function MidY(w: Word): real { (w.top + w.bottom) / 2.0 }

  /** The mean vertical centre of a row's words. */
  function RowCenterY(ws: seq<Word>): real
  {
    if |ws| == 0 then 0.0 else Mean(Map(ws, MidY))
  }

  /** The cells of a row, its words placed in x order. */
  function Cells(ws: seq<Word>, d: seq<real>): (cells: seq<string>)
    requires |d| >= 2
    ensures |cells| == |d| - 1
  {
    RowCells(SortBy(ws, Glyphs.X0Le), d)
  }

  /** The row's centre lies in the bottom tenth of the page. */
  predicate Low(ws: seq<Word>, height: int)
  {
    RowCenterY(SortBy(ws, Glyphs.X0Le)) > (height as real) * 0.9
  }

  /** What the scan does with one row. */
  datatype Verdict = Kept(cells: seq<string>) | Skipped | Stopped

  /** The verdict on one row (dividers always number at least two; with fewer the row is skipped). */
  function Judge(ws: seq<Word>, d: seq<real>, height: int): (v: Verdict)
    ensures v.Kept? ==> |d| >= 2 && v.cells == Cells(ws, d) && !IsFooterTrigger(v.cells) && KeepsRow(v.cells)
  {
    if |d| < 2 then Skipped
    else
      var cells := Cells(ws, d);
      if IsFooterTrigger(cells) then (if Low(ws, height) then Stopped else Skipped)
      else if KeepsRow(cells) then Kept(cells)
      else Skipped
  }

  function Judging(d: seq<real>, height: int): seq<Word> -> Verdict
  {
    ws => Judge(ws, d, height)
  }

  /** The rows' cells the verdicts keep, up to the first `Stopped`. */
  function CollectRows(vs: seq<Verdict>): (m: StructureParser.Matrix)
    ensures |m| <= |vs|
  {
    if |vs| == 0 then []
    else match vs[0]
      case Stopped => []
      case Skipped => CollectRows(vs[1..])
      case Kept(cells) => [cells] + CollectRows(vs[1..])
  }

  /** Every collected row comes from a `Kept` verdict. */
  lemma {:induction false} CollectKept(vs: seq<Verdict>)
    ensures forall i :: 0 <= i < |CollectRows(vs)| ==> Kept(CollectRows(vs)[i]) in vs
  {
    if |vs| > 0 {
      CollectKept(vs[1..]);
      assert forall v :: v in vs[1..] ==> v in vs;
    }
  }

  /** A `Stopped` verdict hides everything after it. */
  lemma {:induction false} CollectStops(vs: seq<Verdict>, k: nat)
    requires k < |vs| && vs[k] == Stopped
    ensures CollectRows(vs) == CollectRows(vs[..k])
  {
    if k > 0 {
      CollectStops(vs[1..], k - 1);
      assert vs[..k][1..] == vs[1..][..k - 1];
    }
  }

  /** A `Skipped` verdict contributes nothing. */
  lemma {:induction false} CollectSkips(vs: seq<Verdict>, k: nat)
    requires k < |vs| && vs[k] == Skipped
    ensures CollectRows(vs) == CollectRows(vs[..k] + vs[k + 1..])
  {
    var rest := vs[..k] + vs[k + 1..];
    if k == 0 {
      assert rest == vs[1..];
    } else {
      CollectSkips(vs[1..], k - 1);
      assert rest[0] == vs[0];
      assert rest[1..] == vs[1..][..k - 1] + vs[1..][k..];
    }
  }

  /** The body: the kept rows, up to the first footer row low on the page. */
  function BodyRows(rows: seq<seq<Word>>, d: seq<real>, height: int): (m: StructureParser.Matrix)
    requires |d| >= 2
    ensures |m| <= |rows|
  {
    CollectRows(Map(rows, Judging(d, height)))
  }

  /** Every body row is the cells of one of the rows, with one cell per interval between dividers, no footer phrase, and passes the noise filter. */
  lemma {:induction false} BodyRowsShape(rows: seq<seq<Word>>, d: seq<real>, height: int)
    requires |d| >= 2
    ensures StructureParser.Rectangular(BodyRows(rows, d, height), |d| - 1)
    ensures forall i :: 0 <= i < |BodyRows(rows, d, height)| ==>
      !IsFooterTrigger(BodyRows(rows, d, height)[i]) && KeepsRow(BodyRows(rows, d, height)[i])
  {
    var vs := Map(rows, Judging(d, height));
    var m := CollectRows(vs);
    CollectKept(vs);
    forall i | 0 <= i < |m| ensures |m[i]| == |d| - 1 && !IsFooterTrigger(m[i]) && KeepsRow(m[i]) {
      var k :| 0 <= k < |vs| && vs[k] == Kept(m[i]);
      assert vs[k] == Judging(d, height)(rows[k]);
    }
  }

  /** A footer row low on the page ends the scan: nothing below it is read. */
  lemma {:induction false} BodyStopsAtLowFooter(rows: seq<seq<Word>>, d: seq<real>, height: int, k: nat)
    requires |d| >= 2 && k < |rows|
    ensures IsFooterTrigger(Cells(rows[k], d)) && Low(rows[k], height) ==>
      BodyRows(rows, d, height) == BodyRows(rows[..k], d, height)
  {
    if IsFooterTrigger(Cells(rows[k], d)) && Low(rows[k], height) {
      var vs := Map(rows, Judging(d, height));
      assert vs[k] == Judge(rows[k], d, height) == Stopped;
      CollectStops(vs, k);
      MapPrefix(rows, Judging(d, height), k);
    }
  }

  /** A row the scan skips (a footer row higher up, or a noise row) leaves the other rows' result as it is. */
  lemma {:induction false} BodySkipsRow(rows: seq<seq<Word>>, d: seq<real>, height: int, k: nat)
    requires |d| >= 2 && k < |rows|
    requires if IsFooterTrigger(Cells(rows[k], d)) then !Low(rows[k], height) else !KeepsRow(Cells(rows[k], d))
    ensures BodyRows(rows, d, height) == BodyRows(rows[..k] + rows[k + 1..], d, height)
  {
    var vs := Map(rows, Judging(d, height));
    assert vs[k] == Judge(rows[k], d, height) == Skipped;
    CollectSkips(vs, k);
    MapWithout(rows, Judging(d, height), k);
  }

  // ---------------------------------------------------------------------
  // Header lookback.

  /** A header word that is not a lone character other than `%`, `#` or `$`. */
  predicate MeaningfulHeader(w: Word)
  {
    |w.text| >= 2 || w.text == "%" || w.text == "#" || w.text == "$"
  }

  /**
   The header-line loop from `ws` on: `anchor` is the top of the line being
   built (`cur`); a meaningful word more than 3 points below it starts a new
   line, any other meaningful word joins the current one.
   */
  function HeaderRowsFrom(ws: seq<Word>, anchor: real, cur: seq<Word>): (rows: seq<seq<Word>>)
    ensures forall k :: 0 <= k < |rows| ==> |rows[k]| > 0
    decreases |ws|
  {
    if |ws| == 0 then (if cur == [] then [] else [cur])
    else if !MeaningfulHeader(ws[0]) then HeaderRowsFrom(ws[1..], anchor, cur)
    else if ws[0].top > anchor + 3.0 then (if cur == [] then [] else [cur]) + HeaderRowsFrom(ws[1..], ws[0].top, [ws[0]])
    else HeaderRowsFrom(ws[1..], anchor, cur + [ws[0]])
  }

  /** Header lines, anchored first at the top of the highest header word (even a skipped one). */
  function HeaderRows(hw: seq<Word>): (rows: seq<seq<Word>>)
    ensures forall k :: 0 <= k < |rows| ==> |rows[k]| > 0
  {
    if |hw| == 0 then [] else HeaderRowsFrom(hw, hw[0].top, [])
  }

  lemma {:induction false} HeaderRowsFromFlatten(ws: seq<Word>, anchor: real, cur: seq<Word>)
    ensures Flatten(HeaderRowsFrom(ws, anchor, cur)) == cur + Filter(ws, MeaningfulHeader)
    decreases |ws|
  {
    if |ws| == 0 {
      assert Flatten([cur]) == Flatten([cur][..0]) + cur;
    } else {
      var w := ws[0];
      var tail := ws[1..];
      assert ws == [w] + tail;
      FilterCons(w, tail, MeaningfulHeader);
      var ft := Filter(tail, MeaningfulHeader);
      if !MeaningfulHeader(w) {
        HeaderRowsFromFlatten(tail, anchor, cur);
        assert Filter(ws, MeaningfulHeader) == [] + ft == ft;
      } else if w.top > anchor + 3.0 {
        var rest := HeaderRowsFrom(tail, w.top, [w]);
        HeaderRowsFromFlatten(tail, w.top, [w]);
        HeaderNewLine(cur, rest);
        assert HeaderRowsFrom(ws, anchor, cur) == (if cur == [] then [] else [cur]) + rest;
        assert Filter(ws, MeaningfulHeader) == [w] + ft;
      } else {
        HeaderRowsFromFlatten(tail, anchor, cur + [w]);
        assert HeaderRowsFrom(ws, anchor, cur) == HeaderRowsFrom(tail, anchor, cur + [w]);
        AppendAssoc(cur, [w], ft);
        assert Filter(ws, MeaningfulHeader) == [w] + ft;
      }
    }
  }

  lemma {:induction false} HeaderNewLine(cur: seq<Word>, rest: seq<seq<Word>>)
    ensures Flatten((if cur == [] then [] else [cur]) + rest) == cur + Flatten(rest)
  {
    if cur == [] {
      assert [] + rest == rest;
    } else {
      FlattenCons(cur, rest);
    }
  }

  /** The header lines hold exactly the meaningful header words, in order. */
  lemma {:induction false} HeaderRowsCover(hw: seq<Word>)
    ensures Flatten(HeaderRows(hw)) == Filter(hw, MeaningfulHeader)
  {
    if |hw| > 0 {
      HeaderRowsFromFlatten(hw, hw[0].top, []);
      assert [] + Filter(hw, MeaningfulHeader) == Filter(hw, MeaningfulHeader);
    }
  }

  function WordText(w: Word): string { w.text }

  /**
   A header line with as many words as there are columns becomes the words'
   texts in x order; any other line is placed like a body row and kept when
   a cell is filled.
   */
  function HeaderCells(hrow: seq<Word>, d: seq<real>): (r: Option<seq<string>>)
    requires |d| >= 2
    ensures r.Some? ==> |r.value| == |d| - 1
  {
    var ws := SortBy(hrow, Glyphs.X0Le);
    if |ws| == |d| - 1 then Some(Map(ws, WordText))
    else
      var cells := RowCells(ws, d);
      if FilledCount(cells) >= 1 then Some(cells) else None
  }

  /** A header line with one word per column is mapped one to one: cell `k` is the text of its `k`-th word from the left. */
  lemma {:induction false} HeaderOneToOne(hrow: seq<Word>, d: seq<real>)
    requires |d| >= 2 && |hrow| == |d| - 1
    ensures var ws := SortBy(hrow, Glyphs.X0Le);
      && multiset(ws) == multiset(hrow)
      && SortedBy(ws, Glyphs.X0Le)
      && HeaderCells(hrow, d).Some?
      && forall k :: 0 <= k < |ws| ==> HeaderCells(hrow, d).value[k] == ws[k].text
  {
    Glyphs.X0LeTotal();
    SortBySorted(hrow, Glyphs.X0Le);
  }

  function MappedHeaders(hrows: seq<seq<Word>>, d: seq<real>): (m: StructureParser.Matrix)
    requires |d| >= 2
    ensures StructureParser.Rectangular(m, |d| - 1)
    ensures |m| <= |hrows|
  {
    if |hrows| == 0 then []
    else
      var h := HeaderCells(hrows[|hrows| - 1], d);
      MappedHeaders(hrows[..|hrows| - 1], d) + (if h.Some? then [h.value] else [])
  }

  /** Header words come from the top-sorted page words, so sorting them again by top changes nothing. */
  lemma {:induction false} HeaderWordsInOrder(words: seq<Word>, height: int)
    ensures var hw := Filter(SortBy(words, StructureParser.TopLe), HeaderZone(height));
      SortBy(hw, StructureParser.TopLe) == hw
  {
    assert TotalPreorder(StructureParser.TopLe);
    SortBySorted(words, StructureParser.TopLe);
    FilterSorted(SortBy(words, StructureParser.TopLe), HeaderZone(height), StructureParser.TopLe);
    SortByIdentity(Filter(SortBy(words, StructureParser.TopLe), HeaderZone(height)), StructureParser.TopLe);
  }

  // ---------------------------------------------------------------------
  // Ghost columns.

  /** Column `j` is kept when more than 5% of the rows fill it, or when the table has fewer than 3 columns. */
  predicate ColumnFilledEnough(m: StructureParser.Matrix, j: nat)
  {
    |m| > 0 && (20 * StructureParser.ColumnFill(m, j) > |m| || |m[0]| < 3)
  }

  /** The kept columns among the first row's, in order. */
  function FilledColumns(m: StructureParser.Matrix): seq<nat>
  {
    Indices(if |m| == 0 then 0 else |m[0]|, (j: nat) => ColumnFilledEnough(m, j))
  }

  function PruneSparseColumns(m: StructureParser.Matrix): (r: StructureParser.Matrix)
    ensures |r| == |m|
  {
    var cols := FilledColumns(m);
    seq(|m|, i requires 0 <= i < |m| => StructureParser.Project(m[i], cols))
  }

  /**
   Pruning keeps the row count; a column survives exactly when more than 5%
   of the rows fill it or there are fewer than 3 columns; the survivors keep
   their order and their cells.
   */
  lemma {:induction false} PruneSparseColumnsSpec(m: StructureParser.Matrix, width: nat)
    requires |m| > 0 && StructureParser.Rectangular(m, width)
    ensures var cols := FilledColumns(m);
      var r := PruneSparseColumns(m);
      && StructureParser.Rectangular(r, |cols|)
      && |cols| <= width
      && (forall k :: 0 <= k < |cols| ==> cols[k] < width)
      && (forall j: nat :: j < width ==> (j in cols <==> 20 * StructureParser.ColumnFill(m, j) > |m| || width < 3))
      && (forall a, b :: 0 <= a < b < |cols| ==> cols[a] < cols[b])
      && (forall i, k :: 0 <= i < |m| && 0 <= k < |cols| ==> r[i][k] == m[i][cols[k]])
  {
    var cols := FilledColumns(m);
    assert |m[0]| == width;
    IndicesSpec(width, (j: nat) => ColumnFilledEnough(m, j));
    IndicesBound(width, (j: nat) => ColumnFilledEnough(m, j));
    forall i | 0 <= i < |m|
      ensures |StructureParser.Project(m[i], cols)| == |cols|
      ensures forall k :: 0 <= k < |cols| ==> StructureParser.Project(m[i], cols)[k] == m[i][cols[k]]
    {
      assert |m[i]| == width;
    }
  }

  lemma {:induction false} IndicesBound(n: nat, keep: nat -> bool)
    ensures |Indices(n, keep)| <= n
  {
    if n > 0 {
      IndicesBound(n - 1, keep);
    }
  }

  /** A table with fewer than 3 columns comes out of pruning unchanged. */
  lemma {:induction false} PruneNarrowTable(m: StructureParser.Matrix, width: nat)
    requires |m| > 0 && StructureParser.Rectangular(m, width) && width < 3
    ensures PruneSparseColumns(m) == m
  {
    assert |m[0]| == width;
    IndicesAll(width, (j: nat) => ColumnFilledEnough(m, j));
    var r := PruneSparseColumns(m);
    forall i | 0 <= i < |m| ensures r[i] == m[i] {
      assert |m[i]| == width;
    }
  }

  // ---------------------------------------------------------------------
  // The whole extractor.

  /**
   The table before pruning: the body rows, preceded by the mapped header
   lines when the page has header-zone words and the body is not empty.
   */
  function TableBeforePruning(words: seq<Word>, pageWidth: real, pageHeight: real): StructureParser.Matrix
    requires pageWidth >= 0.0
  {
    if |words| == 0 then []
    else
      var width: nat := Trunc(pageWidth);
      var height := Trunc(pageHeight);
      var d := Dividers(words, width, height);
      var body := BodyRows(Rows(words), d, height);
      var hw := Filter(SortBy(words, StructureParser.TopLe), HeaderZone(height));
      AssembleTable(MappedHeaders(HeaderRows(hw), d), body, |hw| > 0)
  }

  /** `SpatialTableExtractor.extract_table` on the page's words. */
  function ExtractTable(words: seq<Word>, pageWidth: real, pageHeight: real): StructureParser.Matrix
    requires pageWidth >= 0.0
  {
    PruneSparseColumns(TableBeforePruning(words, pageWidth, pageHeight))
  }

  /** Header rows go on top of the body, and only when there is a body. */
  function AssembleTable(headers: StructureParser.Matrix, body: StructureParser.Matrix, withHeaders: bool): StructureParser.Matrix
  {
    if withHeaders && |body| > 0 then headers + body else body
  }

  lemma {:induction false} AssembleShape(headers: StructureParser.Matrix, body: StructureParser.Matrix, withHeaders: bool, n: nat)
    requires StructureParser.Rectangular(headers, n) && StructureParser.Rectangular(body, n)
    ensures var m := AssembleTable(headers, body, withHeaders);
      && StructureParser.Rectangular(m, n)
      && |body| <= |m| && m[|m| - |body|..] == body
      && (body == [] ==> m == [])
  {
    var m := AssembleTable(headers, body, withHeaders);
    if withHeaders && |body| > 0 {
      assert m[|headers|..] == body;
      forall i | 0 <= i < |m| ensures |m[i]| == n {
        if i >= |headers| {
          assert m[i] == body[i - |headers|];
        }
      }
    }
  }

  /** The table before pruning, assembled from its parts. */
  lemma {:induction false} TableBeforePruningParts(words: seq<Word>, pageWidth: real, pageHeight: real)
    requires pageWidth >= 0.0 && |words| > 0
    ensures var height := Trunc(pageHeight);
      var d := Dividers(words, Trunc(pageWidth), height);
      var hw := Filter(SortBy(words, StructureParser.TopLe), HeaderZone(height));
      TableBeforePruning(words, pageWidth, pageHeight)
        == AssembleTable(MappedHeaders(HeaderRows(hw), d), BodyRows(Rows(words), d, height), |hw| > 0)
  {
  }

  /**
   No words, no table. Otherwise every row before pruning has one cell per
   interval between dividers, the body rows come last, and there are no header
   rows without body rows.
   */
  lemma {:induction false} TableBeforePruningShape(words: seq<Word>, pageWidth: real, pageHeight: real)
    requires pageWidth >= 0.0
    ensures |words| == 0 ==> TableBeforePruning(words, pageWidth, pageHeight) == []
    ensures |words| > 0 ==>
      var d := Dividers(words, Trunc(pageWidth), Trunc(pageHeight));
      var body := BodyRows(Rows(words), d, Trunc(pageHeight));
      var m := TableBeforePruning(words, pageWidth, pageHeight);
      && StructureParser.Rectangular(m, |d| - 1)
      && |body| <= |m| && m[|m| - |body|..] == body
      && (body == [] ==> m == [])
  {
    if |words| > 0 {
      var height := Trunc(pageHeight);
      var d := Dividers(words, Trunc(pageWidth), height);
      var body := BodyRows(Rows(words), d, height);
      var hw := Filter(SortBy(words, StructureParser.TopLe), HeaderZone(height));
      BodyRowsShape(Rows(words), d, height);
      TableBeforePruningParts(words, pageWidth, pageHeight);
      AssembleShape(MappedHeaders(HeaderRows(hw), d), body, |hw| > 0, |d| - 1);
    }
  }

  /**
   The extracted table: nothing without words; otherwise as many rows as
   before pruning, every row with the same kept columns, no more of them
   than there are intervals between dividers.
   */
  lemma {:induction false} ExtractTableShape(words: seq<Word>, pageWidth: real, pageHeight: real)
    requires pageWidth >= 0.0
    ensures |words| == 0 ==> ExtractTable(words, pageWidth, pageHeight) == []
    ensures |words| > 0 ==>
      var d := Dividers(words, Trunc(pageWidth), Trunc(pageHeight));
      var m := TableBeforePruning(words, pageWidth, pageHeight);
      var r := ExtractTable(words, pageWidth, pageHeight);
      && |r| == |m|
      && (|m| > 0 ==> StructureParser.Rectangular(r, |FilledColumns(m)|) && |FilledColumns(m)| <= |d| - 1)
  {
    TableBeforePruningShape(words, pageWidth, pageHeight);
    if |words| > 0 {
      var d := Dividers(words, Trunc(pageWidth), Trunc(pageHeight));
      var m := TableBeforePruning(words, pageWidth, pageHeight);
      if |m| > 0 {
        PruneSparseColumnsSpec(m, |d| - 1);
      }
    }
  }
}

=== FILE: visuals.dfy ===
/**
 The vector-graphics extractor: on a page with at least ten vector objects,
 the objects' boxes are merged into clusters of boxes that lie within 15
 points of each other, page borders and small clusters are dropped, and
 each remaining cluster that is still large enough once clipped to the page
 becomes an image link. Opening the PDF and rendering the pixmap are I/O;
 the model keeps the decisions around them.
 */
module Visuals {
  import opened Common
  import opened Seqs
  import opened Geometry

  /** A vector object: one with `x0`/`top`/`x1`/`bottom`, one with only a point list, or one with neither. */
  datatype Vector = Boxed(x0: real, top: real, x1: real, bottom: real) | Pointed(pts: seq<(real, real)>) | Shapeless

  /** A page as both libraries see it: its vector objects by kind, the size used for the border test,
      and the page rectangle used to clip the rendering. */
  datatype PageVectors = PageVectors(rects: seq<Vector>, lines: seq<Vector>, curves: seq<Vector>, images: seq<Vector>,
                                     width: real, height: real, rect: BBox)

  const Tolerance: real := 15.0
  const Pad: real := 10.0
  const MinVectors: nat := 10

  // ---------------------------------------------------------------------
  // Boxes of the vectors.

  /** A point list without points makes `min` raise. */
  predicate Raises(v: Vector) { v.Pointed? && |v.pts| == 0 }

  /** The boxes of `_cluster_vectors`, in order; `None` when a vector with an empty point list raises. */
  function Boxes(vectors: seq<Vector>): (r: Option<seq<BBox>>)
    ensures r.None? <==> exists k :: 0 <= k < |vectors| && Raises(vectors[k])
    ensures r.Some? ==> |r.value| == |vectors| - CountIf(vectors, (v: Vector) => v.Shapeless?)
  {
    if |vectors| == 0 then Some([])
    else
      var init := vectors[..|vectors| - 1];
      var v := vectors[|vectors| - 1];
      var r0 := Boxes(init);
      assert forall k :: 0 <= k < |init| ==> init[k] == vectors[k];
      if Raises(v) || r0.None? then None
      else
        match v
        case Boxed(x0, top, x1, bottom) => Some(r0.value + [BBox(x0, top, x1, bottom)])
        case Pointed(pts) => Some(r0.value + [PointsBox(pts)])
        case Shapeless => r0
  }

  // ---------------------------------------------------------------------
  // Merging.

  /** The overlap test with a 15-point tolerance. */
  predicate NearBoxes(c: BBox, o: BBox)
  {
    !(c.x1 + Tolerance < o.x0 || c.x0 - Tolerance > o.x1 || c.y1 + Tolerance < o.y0 || c.y0 - Tolerance > o.y1)
  }

  /** The state after one sweep over the remaining boxes. */
  datatype Sweep = Sweep(current: BBox, unmerged: seq<BBox>, merged: bool)

  /** One run of the inner `for` loop: each box near the growing current box is absorbed into it,
      the others are kept in order. */
  function Pass(current: BBox, boxes: seq<BBox>): (r: Sweep)
    ensures Encloses(r.current, current)
    ensures |r.unmerged| <= |boxes|
    ensures r.merged <==> |r.unmerged| < |boxes|
    ensures !r.merged ==> r.current == current && r.unmerged == boxes
                          && forall k :: 0 <= k < |boxes| ==> !NearBoxes(current, boxes[k])
    ensures forall b :: b in r.unmerged ==> b in boxes
    ensures forall k :: 0 <= k < |boxes| ==> Encloses(r.current, boxes[k]) || boxes[k] in r.unmerged
    decreases |boxes|
  {
    if |boxes| == 0 then Sweep(current, [], false)
    else
      var b := boxes[0];
      var rest := boxes[1..];
      assert forall k :: 1 <= k < |boxes| ==> boxes[k] == rest[k - 1];
      if NearBoxes(current, b) then
        var r := Pass(Hull(current, b), rest);
        Sweep(r.current, r.unmerged, true)
      else
        var r := Pass(current, rest);
        Sweep(r.current, [b] + r.unmerged, r.merged)
  }

  /** The `while has_merged` loop: sweep again as long as a sweep absorbed something. */
  function Grow(current: BBox, boxes: seq<BBox>): (r: Sweep)
    ensures Encloses(r.current, current)
    ensures |r.unmerged| <= |boxes|
    ensures forall b :: b in r.unmerged ==> b in boxes && !NearBoxes(r.current, b)
    ensures forall k :: 0 <= k < |boxes| ==> Encloses(r.current, boxes[k]) || boxes[k] in r.unmerged
    decreases |boxes|
  {
    var p := Pass(current, boxes);
    if p.merged then
      var g := Grow(p.current, p.unmerged);
      assert forall k :: 0 <= k < |boxes| ==> Encloses(g.current, boxes[k]) || boxes[k] in g.unmerged by {
        forall k | 0 <= k < |boxes| ensures Encloses(g.current, boxes[k]) || boxes[k] in g.unmerged {
          if boxes[k] in p.unmerged {
            var j :| 0 <= j < |p.unmerged| && p.unmerged[j] == boxes[k];
          }
        }
      }
      g
    else p
  }

  /** The outer `while boxes` loop: take the first box, grow it, keep the rest for later. */
  function MergeAll(boxes: seq<BBox>): (r: seq<BBox>)
    ensures |r| <= |boxes|
    ensures |boxes| > 0 ==> |r| > 0
    ensures forall k :: 0 <= k < |boxes| ==> exists j :: 0 <= j < |r| && Encloses(r[j], boxes[k])
    decreases |boxes|
  {
    if |boxes| == 0 then []
    else
      var g := Grow(boxes[0], boxes[1..]);
      var later := MergeAll(g.unmerged);
      var r := [g.current] + later;
      assert forall k :: 0 <= k < |boxes| ==> exists j :: 0 <= j < |r| && Encloses(r[j], boxes[k]) by {
        forall k | 0 <= k < |boxes| ensures exists j :: 0 <= j < |r| && Encloses(r[j], boxes[k]) {
          if k == 0 {
            assert Encloses(r[0], boxes[k]);
          } else if Encloses(g.current, boxes[1..][k - 1]) {
            assert Encloses(r[0], boxes[k]);
          } else {
            var i :| 0 <= i < |g.unmerged| && g.unmerged[i] == boxes[k];
            var j :| 0 <= j < |later| && Encloses(later[j], g.unmerged[i]);
            assert Encloses(r[j + 1], boxes[k]);
          }
        }
      }
      r
  }

  /** A cluster's growth leaves no remaining box near it: the first merged box is apart from every
      box that was left for a later cluster. */
  lemma {:induction false} FirstClusterApart(boxes: seq<BBox>)
    requires |boxes| > 0
    ensures var g := Grow(boxes[0], boxes[1..]);
      && MergeAll(boxes)[0] == g.current
      && forall b :: b in g.unmerged ==> !NearBoxes(g.current, b)
  {
  }

  // ---------------------------------------------------------------------
  // Filtering and rendering.

  /** The final filter: not a page border (more than 90% of the page in both directions), and larger
      than 100 points in both directions. */
  predicate KeepCluster(b: BBox, pageWidth: real, pageHeight: real)
  {
    !(b.Width() > pageWidth * 0.9 && b.Height() > pageHeight * 0.9) && b.Width() > 100.0 && b.Height() > 100.0
  }

  /** `_cluster_vectors`: `None` when it raises; otherwise no cluster for no boxes, else the merged
      boxes that pass the filter, in merge order. */
  function ClusterVectors(vectors: seq<Vector>, pageWidth: real, pageHeight: real): (r: Option<seq<BBox>>)
    ensures r.None? <==> exists k :: 0 <= k < |vectors| && Raises(vectors[k])
    ensures r.Some? ==> forall b :: b in r.value ==> KeepCluster(b, pageWidth, pageHeight)
    ensures r.Some? ==> forall b :: b in r.value ==> b.Width() > 100.0 && b.Height() > 100.0
    ensures r.Some? && |Boxes(vectors).value| == 0 ==> r.value == []
  {
    var boxes := Boxes(vectors);
    if boxes.None? then None
    else if |boxes.value| == 0 then Some([])
    else Some(Filter(MergeAll(boxes.value), (b: BBox) => KeepCluster(b, pageWidth, pageHeight)))
  }

  /** The clusters kept from the boxes `boxes` (non-empty) of a page of the given size. */
  function KeptClusters(boxes: seq<BBox>, pageWidth: real, pageHeight: real): seq<BBox>
  {
    Filter(MergeAll(boxes), (b: BBox) => KeepCluster(b, pageWidth, pageHeight))
  }

  /** Clustering the boxes of the vectors gives the kept clusters. */
  lemma {:induction false} ClusterVectorsKept(vectors: seq<Vector>, pageWidth: real, pageHeight: real)
    requires ClusterVectors(vectors, pageWidth, pageHeight).Some? && |Boxes(vectors).value| > 0
    ensures ClusterVectors(vectors, pageWidth, pageHeight).value == KeptClusters(Boxes(vectors).value, pageWidth, pageHeight)
  {
  }

  /** The clustering never returns more clusters than there were boxes, and every box lies inside a
      merged cluster, which is returned whenever it passes the filter. */
  lemma {:induction false} ClustersCoverBoxes(boxes: seq<BBox>, pageWidth: real, pageHeight: real)
    ensures var merged := MergeAll(boxes);
      var r := KeptClusters(boxes, pageWidth, pageHeight);
      && |r| <= |merged| <= |boxes|
      && forall k :: 0 <= k < |boxes| ==>
           (exists j :: 0 <= j < |merged| && Encloses(merged[j], boxes[k]) && (KeepCluster(merged[j], pageWidth, pageHeight) ==> merged[j] in r))
  {
    var merged := MergeAll(boxes);
    var r := KeptClusters(boxes, pageWidth, pageHeight);
    forall k | 0 <= k < |boxes|
      ensures exists j :: 0 <= j < |merged| && Encloses(merged[j], boxes[k]) && (KeepCluster(merged[j], pageWidth, pageHeight) ==> merged[j] in r)
    {
      var j :| 0 <= j < |merged| && Encloses(merged[j], boxes[k]);
      assert merged[j] in merged;
    }
  }

  /** The padded cluster, intersected with the page rectangle. */
  function Clip(b: BBox, page: BBox): BBox
  {
    BBox(Max(b.x0 - Pad, page.x0), Max(b.y0 - Pad, page.y0), Min(b.x1 + Pad, page.x1), Min(b.y1 + Pad, page.y1))
  }

  /** A cluster is rendered unless its clip is narrower or lower than 50 points. */
  predicate Renders(b: BBox, page: BBox)
  {
    var c := Clip(b, page);
    !(c.Width() < 50.0 || c.Height() < 50.0)
  }

  /** The link of the `n`-th cluster (counting from 1) of page `pageNum`. */
  function Link(pageNum: int, n: nat): string
  {
    "![Chart/Diagram](images/chart_p" + IntToString(pageNum) + "_" + NatToString(n) + ".png)"
  }

  /** The rendering loop over `enumerate(clusters)`: a skipped cluster keeps its number. */
  function RenderLinks(clusters: seq<BBox>, pageNum: int, page: BBox): (r: seq<(string, BBox)>)
    ensures |r| == CountIf(clusters, (b: BBox) => Renders(b, page))
    ensures forall i :: 0 <= i < |r| ==>
      exists k :: 0 <= k < |clusters| && r[i] == (Link(pageNum, k + 1), clusters[k]) && Renders(clusters[k], page)
  {
    if |clusters| == 0 then []
    else
      var init := clusters[..|clusters| - 1];
      var b := clusters[|clusters| - 1];
      var r0 := RenderLinks(init, pageNum, page);
      assert forall k :: 0 <= k < |init| ==> init[k] == clusters[k];
      r0 + if Renders(b, page) then [(Link(pageNum, |clusters|), b)] else []
  }

  /** Python's `pdf.pages[page_num - 1]`: a negative index counts from the end, and one before the
      start raises. */
  function PageIndex(pageNum: int, count: nat): (i: Option<nat>)
    ensures i.Some? ==> i.value < count
    ensures 1 <= pageNum <= count ==> i == Some(pageNum - 1)
  {
    var i := pageNum - 1;
    if i >= count then None
    else if i >= 0 then Some(i)
    else if count + i >= 0 then Some(count + i)
    else None
  }

  /** The vector objects in the order the source concatenates them. */
  function AllVectors(p: PageVectors): seq<Vector> { p.rects + p.lines + p.curves + p.images }

  /** The links of one page: nothing for fewer than ten vector objects or when clustering raises,
      otherwise one link per cluster that renders. */
  function PageVisuals(p: PageVectors, pageNum: int): (r: seq<(string, BBox)>)
    ensures |AllVectors(p)| < MinVectors ==> r == []
    ensures r != [] ==> ClusterVectors(AllVectors(p), p.width, p.height).Some?
    ensures forall i :: 0 <= i < |r| ==>
      r[i].1 in ClusterVectors(AllVectors(p), p.width, p.height).value && Renders(r[i].1, p.rect)
  {
    var vectors := AllVectors(p);
    if |vectors| < MinVectors then []
    else
      var clusters := ClusterVectors(vectors, p.width, p.height);
      if clusters.None? then []
      else
        var r := RenderLinks(clusters.value, pageNum, p.rect);
        assert forall i :: 0 <= i < |r| ==> r[i].1 in clusters.value && Renders(r[i].1, p.rect) by {
          forall i | 0 <= i < |r| ensures r[i].1 in clusters.value && Renders(r[i].1, p.rect) {
            var k :| 0 <= k < |clusters.value| && r[i] == (Link(pageNum, k + 1), clusters.value[k]) && Renders(clusters.value[k], p.rect);
          }
        }
        r
  }

  /** `extract_visuals`: nothing for a page number past the end (or before the start, counting from
      the end), otherwise the links of the selected page. */
  function ExtractVisuals(pages: seq<PageVectors>, pageNum: int): (r: seq<(string, BBox)>)
    ensures pageNum > |pages| ==> r == []
    ensures 1 <= pageNum <= |pages| ==> r == PageVisuals(pages[pageNum - 1], pageNum)
  {
    if pageNum > |pages| then []
    else
      var idx := PageIndex(pageNum, |pages|);
      if idx.None? then [] else PageVisuals(pages[idx.value], pageNum)
  }

  /** Every returned link names a cluster that is no page border, is larger than 100 points both ways
      and renders; a page with fewer than ten vector objects gives no link. */
  lemma {:induction false} ExtractVisualsLinks(pages: seq<PageVectors>, pageNum: int)
    requires 1 <= pageNum <= |pages|
    ensures var p := pages[pageNum - 1];
      var r := ExtractVisuals(pages, pageNum);
      && (|AllVectors(p)| < MinVectors ==> r == [])
      && forall i :: 0 <= i < |r| ==>
           KeepCluster(r[i].1, p.width, p.height) && r[i].1.Width() > 100.0 && r[i].1.Height() > 100.0 && Renders(r[i].1, p.rect)
  {
    var p := pages[pageNum - 1];
    var r := ExtractVisuals(pages, pageNum);
    assert r == PageVisuals(p, pageNum);
    var clusters := ClusterVectors(AllVectors(p), p.width, p.height);
    forall i | 0 <= i < |r|
      ensures KeepCluster(r[i].1, p.width, p.height) && r[i].1.Width() > 100.0 && r[i].1.Height() > 100.0 && Renders(r[i].1, p.rect)
    {
      assert r[i].1 in clusters.value;
    }
  }
}

=== FILE: watermark_analyzer.dfy ===
/**
 The watermark analyzer: a user tag is meant to count as a true watermark of
 a document when it occurs, ignoring case, on at least 60% of the document's
 pages. As written, every listed copy of a tag adds to its counter, so a tag
 listed twice counts twice per page; `Analyze` follows that and
 `AnalyzeIntended` counts pages.
 The PDF is abstracted as the list of its pages' extracted texts, `None`
 for a page whose extraction raised; the document itself is `None` when it
 could not be opened.
 */
module Watermark {
  import opened Common
  import opened Seqs

  /** A page's extracted text; `None` when extraction raised. */
  type Page = Option<string>

  /** The tag occurs in the page's text, ignoring case. */
  function Hit(tag: string): Page -> bool
  {
    (p: Page) => p.Some? && FoldContains(p.value, tag)
  }

  /** A count of `count` pages out of `total` reaches the 0.6 threshold (`count / total >= 0.6`). */
  predicate Reaches(count: nat, total: nat)
  {
    10 * count >= 6 * total
  }

  /** How many copies of `tag` the list holds. */
  function Copies(tags: seq<string>, tag: string): nat
  {
    CountIf(tags, (t: string) => t == tag)
  }

  // ---------------------------------------------------------------------
  // The count as written: the counters are keyed by tag, but the loop runs
  // over the list of compiled patterns, so every copy of a repeated tag adds
  // one per page.

  /** What one page adds to the counter of `key` as written: one per listed copy of `key` found in the page. */
  function PageAddsAsWritten(tags: seq<string>, key: string, p: Page): nat
  {
    if p.None? then 0 else CountIf(tags, (t: string) => t == key && FoldContains(p.value, t))
  }

  function CountAsWritten(tags: seq<string>, key: string, pages: seq<Page>): nat
  {
    if |pages| == 0 then 0
    else CountAsWritten(tags, key, pages[..|pages| - 1]) + PageAddsAsWritten(tags, key, pages[|pages| - 1])
  }

  /** `analyze`: nothing without user tags, for a document that cannot be opened or has no pages;
      otherwise the tags whose counter reaches 60% of the pages, failed pages counting in the
      total. A tag's counter grows by its number of copies in the list for every page holding it. */
  function Analyze(tags: seq<string>, doc: Option<seq<Page>>): (r: set<string>)
    ensures r <= set t | t in tags
    ensures |tags| == 0 || doc.None? || |doc.value| == 0 ==> r == {}
    ensures doc.Some? && |doc.value| > 0 ==>
      forall t :: t in tags ==> (t in r <==> 10 * (Copies(tags, t) * PageCount(t, doc.value)) >= 6 * |doc.value|)
  {
    if |tags| == 0 || doc.None? || |doc.value| == 0 then {}
    else
      AllCountsAsWritten(tags, doc.value);
      set t | t in tags && Reaches(CountAsWritten(tags, t, doc.value), |doc.value|)
  }

  /** Every tag's counter as written is its number of copies times its pages hit. */
  lemma {:induction false} AllCountsAsWritten(tags: seq<string>, pages: seq<Page>)
    ensures forall t :: CountAsWritten(tags, t, pages) == Copies(tags, t) * PageCount(t, pages)
  {
    forall t ensures CountAsWritten(tags, t, pages) == Copies(tags, t) * PageCount(t, pages) {
      CountAsWrittenCopies(tags, t, pages);
    }
  }

  /** As written, a page adds one to a tag's counter per listed copy of the tag. */
  lemma {:induction false} CountAsWrittenCopies(tags: seq<string>, key: string, pages: seq<Page>)
    ensures CountAsWritten(tags, key, pages) == Copies(tags, key) * CountIf(pages, Hit(key))
  {
    if |pages| > 0 {
      var init := pages[..|pages| - 1];
      var p := pages[|pages| - 1];
      CountAsWrittenCopies(tags, key, init);
      PageAddsCopies(tags, key, p);
      var c, n := Copies(tags, key), CountIf(init, Hit(key));
      assert CountAsWritten(tags, key, pages) == c * n + PageAddsAsWritten(tags, key, p);
      assert CountIf(pages, Hit(key)) == n + if Hit(key)(p) then 1 else 0;
      CopiesMulStep(c, n, PageAddsAsWritten(tags, key, p), Hit(key)(p));
    }
  }

  lemma {:induction false} CopiesMulStep(c: nat, n: nat, add: nat, hit: bool)
    requires add == if hit then c else 0
    ensures c * n + add == c * (n + if hit then 1 else 0)
  {
  }

  lemma {:induction false} PageAddsCopies(tags: seq<string>, key: string, p: Page)
    ensures PageAddsAsWritten(tags, key, p) == if Hit(key)(p) then Copies(tags, key) else 0
  {
    if p.Some? {
      var q := (t: string) => t == key && FoldContains(p.value, t);
      if FoldContains(p.value, key) {
        CountIfAgree(tags, q, tags, (t: string) => t == key);
      } else {
        CountIfZero(tags, q);
      }
    }
  }

  /** A tag listed twice is validated as written although it occurs on only 3 pages out of 10. */
  lemma {:induction false} RepeatedTagCountsTwice()
    ensures var tags := ["CONF", "CONF"];
      var pages := [Some("CONF"), Some("CONF"), Some("CONF"), Some(""), Some(""), Some(""), Some(""), Some(""), Some(""), Some("")];
      && CountIf(pages, Hit("CONF")) == 3
      && "CONF" in Analyze(tags, Some(pages))
      && "CONF" !in AnalyzeIntended(tags, Some(pages))
  {
    var tags := ["CONF", "CONF"];
    var pages := [Some("CONF"), Some("CONF"), Some("CONF"), Some(""), Some(""), Some(""), Some(""), Some(""), Some(""), Some("")];
    assert FoldOccursAt("CONF", "CONF", 0);
    assert Hit("CONF")(Some("CONF"));
    assert !Hit("CONF")(Some(""));
    assert pages == [Some("CONF"), Some("CONF"), Some("CONF")] + [Some(""), Some(""), Some(""), Some(""), Some(""), Some(""), Some("")];
    CountIfAppend([Some("CONF"), Some("CONF"), Some("CONF")], [Some(""), Some(""), Some(""), Some(""), Some(""), Some(""), Some("")], Hit("CONF"));
    CountIfZero([Some(""), Some(""), Some(""), Some(""), Some(""), Some(""), Some("")], Hit("CONF"));
    assert Copies(tags, "CONF") == 2;
    CountAsWrittenCopies(tags, "CONF", pages);
  }

  // ---------------------------------------------------------------------
  // The intended count: one per page on which the tag occurs.

  /** The number of pages whose text holds the tag; failed pages hold nothing. */
  function PageCount(tag: string, pages: seq<Page>): (n: nat)
    ensures n <= |pages|
  {
    CountIf(pages, Hit(tag))
  }

  /** The intended analysis: nothing without user tags, for a document that cannot be opened or
      has no pages; otherwise the tags found on at least 60% of the pages, failed pages counting in
      the total. */
  function AnalyzeIntended(tags: seq<string>, doc: Option<seq<Page>>): (r: set<string>)
    ensures r <= set t | t in tags
    ensures |tags| == 0 || doc.None? || |doc.value| == 0 ==> r == {}
    ensures doc.Some? && |doc.value| > 0 ==>
      forall t :: t in tags ==> (t in r <==> 10 * PageCount(t, doc.value) >= 6 * |doc.value|)
  {
    if |tags| == 0 || doc.None? || |doc.value| == 0 then {}
    else set t | t in tags && Reaches(PageCount(t, doc.value), |doc.value|)
  }

  /** Each page adds at most one to a tag's count, and a page whose extraction failed adds nothing. */
  lemma {:induction false} PageAddsAtMostOne(tag: string, pages: seq<Page>, p: Page)
    ensures PageCount(tag, pages + [p]) <= PageCount(tag, pages) + 1
    ensures p.None? ==> PageCount(tag, pages + [p]) == PageCount(tag, pages)
  {
    assert (pages + [p])[..|pages|] == pages;
  }

  /** Seven pages out of ten validate a tag, three do not. */
  lemma {:induction false} ThresholdExamples(tag: string, pages: seq<Page>)
    requires |pages| == 10
    ensures PageCount(tag, pages) == 7 ==> tag in Analyze([tag], Some(pages))
    ensures PageCount(tag, pages) == 3 ==> tag !in Analyze([tag], Some(pages))
  {
    SingleCopy([tag], tag);
  }

  /** With no tag listed twice (which adding tags one by one maintains), the analysis as written
      is the intended one. */
  lemma {:induction false} DistinctTagsAgree(tags: seq<string>, doc: Option<seq<Page>>)
    requires Distinct(tags)
    ensures Analyze(tags, doc) == AnalyzeIntended(tags, doc)
  {
    if |tags| > 0 && doc.Some? && |doc.value| > 0 {
      forall t | t in tags ensures CountAsWritten(tags, t, doc.value) == PageCount(t, doc.value) {
        CountAsWrittenCopies(tags, t, doc.value);
        SingleCopy(tags, t);
      }
    }
  }

  lemma {:induction false} SingleCopy(tags: seq<string>, t: string)
    requires Distinct(tags) && t in tags
    ensures Copies(tags, t) == 1
  {
    var i :| 0 <= i < |tags| && tags[i] == t;
    var before, after := tags[..i], tags[i + 1..];
    assert tags == before + [t] + after;
    CountIfAppend(before + [t], after, (u: string) => u == t);
    CountIfAppend(before, [t], (u: string) => u == t);
    forall k | 0 <= k < |before| ensures before[k] != t {
      assert before[k] == tags[k];
    }
    NoCopies(before, t);
    forall k | 0 <= k < |after| ensures after[k] != t {
      assert after[k] == tags[i + 1 + k];
    }
    NoCopies(after, t);
  }

  lemma {:induction false} NoCopies(tags: seq<string>, t: string)
    requires forall k :: 0 <= k < |tags| ==> tags[k] != t
    ensures Copies(tags, t) == 0
  {
    CountIfZero(tags, (u: string) => u == t);
  }

  /** `is_valid_watermark`: the pattern, lower-cased, is one of the validated tags lower-cased. */
  predicate IsValidWatermark(validated: set<string>, pattern: string)
  {
    Lower(pattern) in set p | p in validated :: Lower(p)
  }

  /** A pattern is valid exactly when some validated tag has the same lower-case form; so every
      validated tag is valid, and patterns with the same lower-case form get the same answer. */
  lemma {:induction false} ValidWatermarkCaseless(validated: set<string>, pattern: string, other: string)
    ensures IsValidWatermark(validated, pattern) <==> exists p :: p in validated && Lower(p) == Lower(pattern)
    ensures pattern in validated ==> IsValidWatermark(validated, pattern)
    ensures Lower(other) == Lower(pattern) ==> (IsValidWatermark(validated, other) <==> IsValidWatermark(validated, pattern))
  {
  }
}

=== FILE: zones.dfy ===
/**
 The zone cleaner's crop box: the page minus a header band at the top and a
 footer band at the bottom, each given as a fraction of the page height.
 */
module Zones {

  /** A crop box in the page's top-down coordinates, in the order `(x0, top, x1, bottom)`. */
  datatype CropBox = CropBox(x0: real, top: real, x1: real, bottom: real)

  /** `get_crop_box`: the full width, from `headerTop` of the height down to `1 - footerBottom` of it. */
  function GetCropBox(width: real, height: real, headerTop: real, footerBottom: real): (b: CropBox)
    ensures b.x0 == 0.0 && b.x1 == width
    ensures b.top == height * headerTop
    ensures b.bottom == height - height * footerBottom
  {
    CropBox(0.0, height * headerTop, width, height * (1.0 - footerBottom))
  }

  /** With both fractions in [0, 1] and a non-negative height the box lies inside the page
      vertically, and its top is above its bottom whenever the two bands do not overlap. */
  lemma {:induction false} CropBoxInside(width: real, height: real, headerTop: real, footerBottom: real)
    requires 0.0 <= headerTop <= 1.0 && 0.0 <= footerBottom <= 1.0 && height >= 0.0
    ensures var b := GetCropBox(width, height, headerTop, footerBottom);
      && 0.0 <= b.top <= height
      && 0.0 <= b.bottom <= height
      && (headerTop + footerBottom <= 1.0 ==> b.top <= b.bottom)
      && (headerTop + footerBottom > 1.0 && height > 0.0 ==> b.top > b.bottom)
  {
    var b := GetCropBox(width, height, headerTop, footerBottom);
    assert b.top == height * headerTop;
    assert b.bottom == height * (1.0 - footerBottom);
    ScaleWithin(height, headerTop);
    ScaleWithin(height, 1.0 - footerBottom);
    if headerTop + footerBottom <= 1.0 {
      ScaleMono(height, headerTop, 1.0 - footerBottom);
      assert b.top <= b.bottom;
    } else if height > 0.0 {
      ScaleStrict(height, 1.0 - footerBottom, headerTop);
      assert b.top > b.bottom;
    }
  }

  lemma {:induction false} ScaleWithin(h: real, f: real)
    requires h >= 0.0 && 0.0 <= f <= 1.0
    ensures 0.0 <= h * f <= h
  {
    assert h * f <= h * 1.0 by {
      assert h * (1.0 - f) >= 0.0;
    }
  }

  lemma {:induction false} ScaleMono(h: real, f: real, g: real)
    requires h >= 0.0 && f <= g
    ensures h * f <= h * g
  {
    assert h * (g - f) >= 0.0;
  }

  lemma {:induction false} ScaleStrict(h: real, f: real, g: real)
    requires h > 0.0 && f < g
    ensures h * f < h * g
  {
    assert h * (g - f) > 0.0;
  }
}
